=== FILE: README.md ===
# Caribou Coffee area-management checklist: a Dafny model

This project models the business rules of the Caribou Coffee area-management
application, a Django site. Area managers visit stores and fill in a compliance
checklist. The site scores each visit, raises follow-up action items and
maintenance tickets, and reports compliance on dashboards, store pages, admin
columns and exports. Every queryset is modelled as an in-memory sequence of
rows, in primary-key order unless the view orders it. "Today" is a
parameter. The tables that the views change in place are the `seq` fields of
one `Db.Database` object, and the methods that change them name those fields in
`modifies`.

The model follows the code, quirks included:

- The older admin file marks tickets with the codes 'N', 'IP' and 'C'. No
  ticket ever holds those codes.
- Several views count an action status 'completed', which is not a model
  choice.
- The trend classifier always answers 'stable' for seven or fewer scores.
- The store-access predicates disagree about which roles see every store.

How the model represents the source:

- **Rounding.** Python's `round(x)` and `round(x, 1)` are computed exactly on
  the rational the code divides, rounding half to even. Figures with one
  decimal are kept as whole numbers of tenths.
- **Dates.** Dates follow Python's `datetime.date`: the proleptic Gregorian
  calendar, with day arithmetic through the ordinal.
- **Parsers.** `strptime` and the browser's `decodeURIComponent` are
  parameters.
- **Errors.** Exceptions the code raises, and the 404 pages, are `Result`
  values.

One module per source file:

| module | source |
|---|---|
| Models | checklist/models.py |
| Users | users/models.py |
| BaseViews | checklist/views/base.py |
| ChecklistViews, ChecklistDrafts, ChecklistHistory | checklist/views/checklist_views.py |
| DashboardViews | checklist/views/dashboard_views.py |
| ActionPlanViews | checklist/views/action_plan_views.py |
| StoreViews | checklist/views/store_views.py |
| MaintenanceViews, Pagination | checklist/views/maintenance_views.py |
| Validators | checklist/utils/validators.py |
| Helpers | checklist/utils/helpers.py |
| AdminSite, QuestionImport | checklist/admin.py |
| LegacyAdmin | checklist/admin1.py |
| Export | checklist/views/data_export_views.py |
| AreaManagement | checklist/views/area_management_views.py |
| AdminStoreAssignment | checklist/management/commands/assign_admin_stores.py |
| TemplateTags | checklist/templatetags/checklist_tags.py |
| Cookies | static/checklist/js/area_management.js |

Four support modules are shared by the others:

- Common: rounding, counting, filtering, Python string operations.
- Dates: the calendar.
- Sorting: stable sorts, as `list.sort` and `order_by` give them.
- Queries: foreign-key lookups and `calculate_score` per visit.

Db holds the tables and the cascading delete of a visit.

## Model

| member | source | states |
|---|---|---|
| Models.NewActionItem | checklist/models.py:133-152 | an action item created with only its required fields is 'open' and 'medium' (both among the choices), with empty remarks and the given fields |
| Models.CalculateScore | checklist/models.py:103-109 | the score lies in 0..100, is 0 for a visit without items, and is within half a point of 100 x yes / total (round to nearest) |
| Models.ScoreExtremes | checklist/models.py:103-109 | all answers yes scores 100, none scores 0 |
| Models.ScoreMonotone | checklist/models.py:103-109 | with the item count fixed, more yes answers never lower the score |
| Models.LetterGrade | checklist/models.py:111-114 | A iff score >= 95, B iff 85..94, C iff 75..84, D iff 65..74, F iff below 65 |
| Models.GradeMonotone | checklist/models.py:111-114 | a higher score never earns a worse grade; a visit without items is graded F |
| Models.ActionMetaOrder | checklist/models.py:158-159 | ActionPlanItem's Meta ordering, priority text descending then timeframe ascending, is total and transitive |
| Models.MetaPriorityOrder | checklist/models.py:158-159 | by that ordering a 'medium' item comes strictly before a 'low' one, and a 'low' one strictly before a 'high' one |
| Models.TicketIsOverdue | checklist/models.py:201-205 | overdue iff a due date is set, the status is not 'C' and the due date is before today |
| Models.CompletedTicketStillOverdue | checklist/models.py:201-205 | because no ticket status is 'C', a ticket with a past due date is overdue even when completed |
| Users.DisplayName | checklist/views/data_export_views.py:27 | the full name when it is non-empty, the username otherwise |
| Users.HasStoreAccess | users/models.py:20-23 | admins and area managers reach every store; any other role reaches a store iff it is in the profile's stores or its area is in the profile's areas |
| Users.AccessIgnoresActive | users/models.py:20-23 | access does not depend on the store's active flag |
| Users.NoAreaOnlyExplicit | users/models.py:20-23 | a store without an area is reachable, outside the blanket roles, only through the store list |
| Users.NoBlanketForAreaManagement | users/models.py:6-13 | the area_management and store_selector roles get no blanket access |
| Dates.Weekday | checklist/views/maintenance_views.py:139 | date.weekday() lies in 0..6 (Monday 0) |
| Dates.AddDays | checklist/views/maintenance_views.py:139 | date + timedelta(days=n) is a valid date whose day number is n more |
| Dates.AddDaysNotBefore | checklist/views/dashboard_views.py:113-114 | moving forward by n >= 0 days never ends earlier, and by n > 0 ends later |
| Dates.BeforeIffOrdinalLess | checklist/models.py:201-205 | comparing dates field by field agrees with comparing their day numbers |
| Dates.OrdinalInjective | checklist/models.py:201-205 | two valid dates with the same day number are equal |
| Dates.WeekStartExists | checklist/views/maintenance_views.py:139 | the Monday of a date's week is still a valid date |
| Dates.StartOfWeekIsMonday | checklist/views/maintenance_views.py:139 | the date weekday() days back is a Monday and not after the date |
| Dates.FirstOfMonth | checklist/views/dashboard_views.py:239 | today.replace(day=1) keeps year and month with day 1 |
| Dates.LastMonthOfFirst | checklist/views/maintenance_views.py:144 | the day before the first of the month lies in the previous calendar month, December of last year for January |
| Dates.DateLabel | checklist/views/dashboard_views.py:188 | strftime('%b %d') is six characters with a space in the middle |
| Dates.DateLabelSpec | checklist/utils/helpers.py:96 | two labels agree iff the dates share month and day: the year is not shown |
| Common.RoundHalfEven | checklist/models.py:109 | round(n / d) is within half of n / d and, on a tie, even |
| Common.RoundTenths | checklist/views/store_views.py:29 | round(n / d, 1), as tenths, is within half a tenth of n / d |
| Common.RoundHalfEvenMonotone | checklist/models.py:109 | rounding never reverses the order of two quotients |
| Common.RoundHalfEvenBetween | checklist/views/store_views.py:29 | a quotient between two integers rounds to a value between them |
| Common.PercentTenthsBetween | checklist/views/dashboard_views.py:100 | a part of a whole, as a percentage to one decimal, lies in 0.0..100.0 |
| Common.PercentTenthsExtremes | checklist/views/dashboard_views.py:100 | the whole is 100.0 per cent and nothing is 0.0 |
| Common.PyStripEmptyIffBlank | checklist/views/checklist_views.py:58 | strip() yields the empty string iff the text is all whitespace |
| Common.PyStripNoWhitespace | checklist/views/checklist_views.py:58 | strip() leaves a text without surrounding whitespace unchanged |
| Common.JoinSplit | checklist/views/checklist_views.py:298 | split loses nothing: joining the parts with the separator gives the text back |
| Common.SplitAfterSeparatorFree | checklist/views/checklist_views.py:298 | a separator-free piece followed by the separator is split off as the first part |
| Common.ParsePyInt | checklist/views/checklist_views.py:302 | int(s) succeeds only on a stripped text ending in a digit |
| Common.IntStringRoundTrip | checklist/views/checklist_views.py:302 | int(str(n)) == n for every integer |
| Common.ParseNegative | checklist/views/checklist_views.py:302 | int('-' + digits) is minus the digits' value |
| Common.WithoutUndoesAppend | checklist/views/checklist_views.py:207-212 | deleting v undoes appending rows owned by v to rows v did not own |
| Common.WithoutMembers | checklist/models.py:118-124 | deleting the rows owned by v keeps exactly the rows v does not own |
| Queries.VisitById | checklist/views/data_export_views.py:14 | a lookup by primary key finds a row with that id, and finds none only when no row has it |
| Queries.StoreById | checklist/views/area_management_views.py:24 | Store.objects.get finds the store with that id, or there is none |
| Queries.VisitScore | checklist/models.py:103-109 | a visit's score lies in 0..100 |
| Queries.ScoresSumBounds | checklist/views/store_views.py:25-29 | the scores of n visits sum to between 0 and 100 n |
| Db.DeleteVisitCascade | checklist/models.py:118-124 | deleting a visit removes exactly the rows of that visit from the visits, checklist item, action item, ticket and attachment tables, keeps every other row of them, and leaves the other tables as they were |
| Db.DeleteUndoesAdditions | checklist/views/checklist_views.py:195-212 | deleting a just-created visit restores every table to what it was before it was created |
| Db.Database.CreateVisit | checklist/views/checklist_views.py:195-205 | the new visit takes the next primary key, which nothing refers to yet, and is appended |
| Db.Database.DeleteVisit | checklist/views/checklist_views.py:211 | the visit and every row that cascades from it are removed; the database stays valid if it was valid before (every row refers to a visit key below the next one) |
| Sorting.SortBy | checklist/views/dashboard_views.py:95 | order_by gives a permutation of the rows, of the same length |
| Sorting.SortBySorted | checklist/views/dashboard_views.py:95 | the result of order_by is in the requested order |
| Sorting.SortByMembers | checklist/views/dashboard_views.py:95 | ordering keeps exactly the rows there were |
| Sorting.TopK | checklist/views/dashboard_views.py:149 | order_by(...)[:k] yields k rows, or all when there are fewer, in order, all from the queryset, and no row left out comes strictly before one taken |
| Sorting.InsertSorted | checklist/views/dashboard_views.py:95 | inserting into an ordered list keeps it ordered |
| BaseViews.GetUserStoresMembers | checklist/views/base.py:15-26 | no profile sees no store; admin, area_management and store_selector see every active store; anyone else sees the active stores of their profile; an inactive store is never listed |
| BaseViews.StoreRulesDisagree | checklist/views/base.py:23-26 | the role rule here and Profile.has_store_access disagree in both directions: area_management sees every store here but is refused there, an area manager is granted every store there but sees only their own here |
| BaseViews.HandleAjaxResponse | checklist/views/base.py:45-60 | a view that returns passes its reply through; any exception becomes the JSON error reply with status 'error' |
| BaseViews.AjaxErrorHidesMessage | checklist/views/base.py:54-59 | the error reply does not depend on the exception, and its message is the fixed text |
| Validators.ActiveStoreById | checklist/utils/validators.py:20 | finds an active store with that id, and finds none only when no active store has it |
| Validators.ValidateStoreAccess | checklist/utils/validators.py:11-31 | no profile is refused with 'User profile not set up'; a store is returned only when it is active with that id and the role has blanket access or the store is the profile's own |
| Validators.ValidateStoreAccessCases | checklist/utils/validators.py:20-31 | a missing or inactive store is refused with its message; given the store, access is granted iff the role is admin, area_management or store_selector or the store is in the profile |
| Validators.FirstMissing | checklist/utils/validators.py:38-41 | the field named is missing or falsy and every field before it is present and truthy; None iff every field is present and truthy |
| Validators.ValidateChecklistData | checklist/utils/validators.py:34-48 | accepted iff store, month and day are present and truthy and the month is a text containing a digit |
| Validators.ChecklistDataRefusals | checklist/utils/validators.py:39-46 | a missing store is reported first; a month without any digit is refused with 'Month must include a year' |
| Validators.ValidateFileUpload | checklist/utils/validators.py:51-64 | accepted iff the size is at most 10 MiB and the type is an allowed one; the size is checked first |
| Helpers.CategoryScore | checklist/utils/helpers.py:20-28 | a category's score lies in 0.0..100.0, is 0 without items and otherwise is round(yes / total * 100, 1) |
| Helpers.CategoryScoresKeys | checklist/utils/helpers.py:20-28 | every category, inactive ones included, has an entry and nothing else does |
| Helpers.CategoryScoresValue | checklist/utils/helpers.py:20-28 | the last category of a name decides the score under that name |
| Helpers.CalculateCategoryScores | checklist/utils/helpers.py:11-30 | the loop fills the dictionary with exactly the category scores of the visit's items |
| Helpers.AnswersSplit | checklist/utils/helpers.py:43-45 | yes and no answers add up to the total |
| Helpers.VisitStatisticsSpec | checklist/utils/helpers.py:33-50 | passed plus failed equals total, follow-ups are at most the total, open plus completed actions are at most all actions |
| Helpers.GeneratePerformanceReport | checklist/utils/helpers.py:53-82 | as written, the report always raises: OverflowError before year 1, otherwise FieldError from Avg('calculate_score') |
| Helpers.PerformanceReportOf | checklist/utils/helpers.py:53-82 | intended report: fails iff the start date would precede year 1; otherwise it counts the action items of the user's visits, at most that many completed, with their completion rate |
| Helpers.PerformanceReportSpec | checklist/utils/helpers.py:61-75 | intended report: it counts exactly the user's submitted visits on or after the start date, with a mean score in 0..100, and an action item is counted iff it belongs to one of the user's visits |
| Helpers.PerformanceReportNeverReturned | checklist/utils/helpers.py:75 | wherever the intended report exists, the code as written raises the FieldError instead |
| Helpers.CompletionRate | checklist/utils/helpers.py:78-81 | the completion rate lies in 0.0..100.0 |
| Helpers.CompletionRateSpec | checklist/utils/helpers.py:77-81 | it is 0 without actions, and 0 for any actions with the model's statuses since none is 'completed' |
| Helpers.FormatChartData | checklist/utils/helpers.py:85-101 | three series as long as the visit list, in its order: the '%b %d' label, the score, the store's name |
| TemplateTags.TimedeltaDays | checklist/templatetags/checklist_tags.py:6-8 | the shifted date exists iff it stays within years 1..9999, and then lies exactly that many days away |
| TemplateTags.TimedeltaDaysRoundTrip | checklist/templatetags/checklist_tags.py:6-8 | shifting forward and back by the same count gives the date back; a zero shift changes nothing |
| TemplateTags.TimedeltaDaysMonotone | checklist/templatetags/checklist_tags.py:6-8 | a larger shift never gives an earlier date |
| TemplateTags.ActionBadge | checklist/templatetags/checklist_tags.py:10-17 | 'secondary' iff the action type is not create, update or delete |
| TemplateTags.CategoryIcon | checklist/templatetags/checklist_tags.py:19-30 | 'tasks' iff the name is not one of the seven known categories |
| TemplateTags.CategoryIconsDistinct | checklist/templatetags/checklist_tags.py:21-29 | two different known categories never share an icon |
| TemplateTags.GetItem | checklist/templatetags/checklist_tags.py:32-35 | the value under the key, None iff the key is absent |
| TemplateTags.GetItemAfterStore | checklist/templatetags/checklist_tags.py:32-35 | a key just stored is found with its value, other keys are unaffected |
| TemplateTags.PriorityBadge | checklist/templatetags/checklist_tags.py:37-44 | danger for high, warning for medium, success for anything else |
| TemplateTags.UnknownPriorityLooksLow | checklist/templatetags/checklist_tags.py:43-44 | an unknown or empty priority is shown exactly like 'low' |
| TemplateTags.StatusBadge | checklist/templatetags/checklist_tags.py:46-55 | 'bg-secondary' iff the status is none of pending, in_progress, completed, N, IP |
| Cookies.SubstringTestIsPrefix | static/checklist/js/area_management.js:25 | the substring comparison is a prefix test for name + '=' |
| Cookies.FirstMatch | static/checklist/js/area_management.js:23-29 | nothing is found iff no trimmed piece starts with name + '=' |
| Cookies.GetCookie | static/checklist/js/area_management.js:19-32 | the loop returns the decoded value of the first matching piece, null for an empty cookie string or no match |
| Cookies.CookieValueNone | static/checklist/js/area_management.js:19-32 | null iff the cookie string is empty or no piece belongs to the name |
| Cookies.CookieValueFound | static/checklist/js/area_management.js:23-28 | a found value is the decoded rest of the first piece that belongs to the name, and no earlier piece belongs to it |
| Cookies.FirstMatchIndex | static/checklist/js/area_management.js:23-28 | the search stops at the first matching piece |
| Cookies.RawValueHasNoSemicolon | static/checklist/js/area_management.js:22-26 | the value read never holds a ';' |
| Cookies.PrefixNameDoesNotMatch | static/checklist/js/area_management.js:25 | a name that is a proper prefix of another cookie's name does not pick up that cookie |
| Cookies.SingleCookieRoundTrip | static/checklist/js/area_management.js:19-32 | reading a cookie string holding only name=value gives back the decoded value |
| Pagination.NumPages | checklist/views/checklist_views.py:420 | at least one page, and just enough pages of the given size to hold the list |
| Pagination.ChosenPage | checklist/views/checklist_views.py:421-422 | the page shown is always an existing page |
| Pagination.ChosenPageCases | checklist/views/maintenance_views.py:159-167 | a missing or non-integer page gives page 1; a number in range is that page; below 1 or past the end gives the last page |
| Pagination.ChosenPageOfNumber | checklist/views/checklist_views.py:421-422 | asking for page str(k) of a list that has page k gives page k |
| Pagination.PageOfContents | checklist/views/checklist_views.py:420-422 | a page holds at most the page size, every page but the last is full, and each entry is the list's entry at the same offset |
| Pagination.EntryOnItsPage | checklist/views/checklist_views.py:420-422 | the entry at index i is on page i / size + 1, which exists |
| ChecklistHistory.SortOrder | checklist/views/checklist_views.py:408-418 | the sort parameter defaults to '-date' and is used iff whitelisted |
| ChecklistHistory.HistoryVisitsSpec | checklist/views/checklist_views.py:411-418 | exactly the user's submitted visits, in the key's order when whitelisted and in table order otherwise |
| ChecklistHistory.HistoryRowOf | checklist/views/checklist_views.py:426-431 | each row is a 'Visit' action by the user's display name with details starting 'Store: <name>, Score: ' |
| ChecklistHistory.HistoryRows | checklist/views/checklist_views.py:425-431 | one row per visit of the page, in page order |
| ChecklistHistory.ChecklistHistoryPage | checklist/views/checklist_views.py:405-437 | the rows are those of the page get_page picks out of the history, with its fallback, at most 15 |
| ChecklistViews.InAWeek | checklist/views/checklist_views.py:95 | the action item's timeframe is a valid date exactly seven days after today |
| ChecklistViews.ActiveQuestionsSpec | checklist/views/checklist_views.py:49 | the submission walks exactly the active questions, ordered by category key and then number |
| ChecklistViews.ItemsFor | checklist/views/checklist_views.py:51-66 | one checklist item per active question |
| ChecklistViews.ActionsFor | checklist/views/checklist_views.py:89-101 | at most one action item per question |
| ChecklistViews.AttachmentsFor | checklist/views/checklist_views.py:68-83 | at most one attachment per question |
| ChecklistViews.WithScoreIndex | checklist/views/checklist_views.py:107-108 | saving the score changes only that visit, and only its score |
| ChecklistViews.ActionsCount | checklist/views/checklist_views.py:89-102 | exactly one action item per question answered no with a non-blank comment |
| ChecklistViews.FollowUpCountsActions | checklist/views/checklist_views.py:89-101 | the items flagged for follow-up are exactly as many as the action items created |
| ChecklistViews.YesCount | checklist/views/checklist_views.py:56-66 | the items answered yes are exactly the questions posted as 'true' |
| ChecklistViews.OverallScoreIsCalculateScore | checklist/views/checklist_views.py:107 | the stored overall_score equals calculate_score over the items just created |
| ChecklistViews.FirstRejected | checklist/views/checklist_views.py:68-77 | the position of the first refused attachment, the question count when there is none |
| ChecklistViews.FirstRejectedIsFirst | checklist/views/checklist_views.py:68-77 | every question before it has an acceptable file or none, the one at it is refused |
| ChecklistViews.ProcessChecklistItems | checklist/views/checklist_views.py:44-110 | succeeds iff no attached file is refused; then the new items, attachments and action items are exactly those specified and the visit carries its score; on a refusal the rows made so far, the refused question's item included, stay and all belong to the visit |
| ChecklistViews.SaveScore | checklist/views/checklist_views.py:107-108 | the visit with that id stores the score |
| ChecklistViews.ProcessQuestions | checklist/views/checklist_views.py:51-105 | the loop stops at the first refused file; when it completes, the rows are the specified ones and the counters are the question, yes-answer and action counts |
| ChecklistViews.ProcessQuestion | checklist/views/checklist_views.py:52-101 | one pass: the item is created, a refused file stops the pass after it, otherwise the attachment and the action item (with the follow-up flag) are added |
| ChecklistViews.ItemsOwned | checklist/views/checklist_views.py:61-66 | item k answers question k and has the k-th new primary key |
| ChecklistViews.ActionsOwned | checklist/views/checklist_views.py:91-99 | action items have consecutive keys, belong to the visit, are open, medium, due in a week, assigned to the user and carry the comment |
| ChecklistViews.AttachmentsOwned | checklist/views/checklist_views.py:79-83 | attachments have consecutive keys and belong to the visit |
| ChecklistViews.ProcessedOwned | checklist/views/checklist_views.py:44-105 | every row a completed pass creates belongs to the visit |
| ChecklistViews.RefusedOwned | checklist/views/checklist_views.py:68-77 | every row a pass stopped by a refusal leaves behind belongs to the visit |
| ChecklistViews.CheckSubmission | checklist/views/checklist_views.py:169-185 | the only refusals are missing fields, an unknown store and a bad date or time; missing fields is reported iff a required field is absent |
| ChecklistViews.CheckedSubmission | checklist/views/checklist_views.py:169-188 | a form that passes names an existing store, carries the parsed date and times, has no time out iff it was missing or blank, and is a draft iff the action is 'draft' |
| ChecklistViews.HandleChecklistSubmission | checklist/views/checklist_views.py:160-227 | a refused form changes nothing; a refused attachment deletes the new visit so every table is as before; otherwise the scored visit is appended with exactly the rows the processing promises; the database stays valid (every row refers to a visit key below the next one) |
| ChecklistViews.SubmitVisit | checklist/views/checklist_views.py:195-212 | the visit gets the next key; the checklist is processed; on a refusal the visit and its rows are gone again; the database stays valid (every row refers to a visit key below the next one) |
| ChecklistViews.ProcessOrRollback | checklist/views/checklist_views.py:207-212 | for a visit just created: either every question processed and the visit scored, or, exactly when an attachment is refused, the visit deleted and every table as before it |
| ChecklistViews.Rollback | checklist/views/checklist_views.py:211 | deleting the new visit restores the visit, item, action, ticket and attachment tables |
| ChecklistViews.WithScoreNew | checklist/views/checklist_views.py:107-108 | scoring the visit just appended touches no earlier visit |
| ChecklistDrafts.DecodeDraftKey | checklist/views/checklist_views.py:296-302 | a key with fewer than three '_' parts is skipped; a decoded category never holds '_' |
| ChecklistDrafts.DraftKeyRoundTrip | checklist/views/checklist_views.py:345 | a key load_draft builds decodes back to its category and number when the category has no '_' |
| ChecklistDrafts.DraftKeyPrefixIgnored | checklist/views/checklist_views.py:297-302 | whatever precedes the first '_' is ignored |
| ChecklistDrafts.UnderscoreCategoryLost | checklist/views/checklist_views.py:301-302 | a category whose name holds '_' does not survive the round trip: its answer is skipped |
| ChecklistDrafts.DraftStore | checklist/views/checklist_views.py:274-278 | a truthy store_id names the store; otherwise the first store, and none only when there are no stores |
| ChecklistDrafts.QuestionsNamedMatch | checklist/views/checklist_views.py:304-307 | the candidates are exactly the questions of that category name and number |
| ChecklistDrafts.DraftItems | checklist/views/checklist_views.py:294-319 | at most one saved item per answer |
| ChecklistDrafts.DraftItemsOwned | checklist/views/checklist_views.py:309-315 | every saved item belongs to the draft, has the next key and is not flagged |
| ChecklistDrafts.ShortKeysSaveNothing | checklist/views/checklist_views.py:297-299 | answers whose keys have fewer than three parts save nothing |
| ChecklistDrafts.DraftItemsStep | checklist/views/checklist_views.py:294-319 | one more answer adds its item iff its key names exactly one question |
| ChecklistDrafts.SaveDraft | checklist/views/checklist_views.py:260-334 | fails with nothing changed iff the store cannot be found; otherwise creates the draft with the next key, one item per placeable answer, and reports the count; the database stays valid (every row refers to a visit key below the next one) |
| ChecklistDrafts.CreateDraft | checklist/views/checklist_views.py:281-319 | the draft visit takes the next visit key, its items are exactly the placeable answers' items with the next item keys, the count is theirs, and the database stays valid |
| ChecklistDrafts.SaveDraftAnswers | checklist/views/checklist_views.py:294-319 | the loop appends exactly the placeable answers' items and counts them |
| ChecklistDrafts.SaveDraftAnswer | checklist/views/checklist_views.py:295-319 | one pass adds the answer's item iff its key names exactly one question |
| ChecklistDrafts.FindDraft | checklist/views/checklist_views.py:340 | a draft found has that id, belongs to the manager and is a draft |
| ChecklistDrafts.DraftAnswersKeys | checklist/views/checklist_views.py:341-349 | every item of the draft has its key in the answers, and every key comes from an item of the draft |
| ChecklistDrafts.DraftAnswersDecode | checklist/views/checklist_views.py:345 | every key load_draft hands out decodes in save_draft to a question's category and number, when no category name holds '_' |
| ChecklistDrafts.LoadDraft | checklist/views/checklist_views.py:337-368 | fails when the draft is not the user's or not a draft or an item has no question; otherwise returns the visit's fields and the answers |
| ChecklistDrafts.NoKeyFails | checklist/views/checklist_views.py:344-345 | once an item has no question, building the answers fails |
| ChecklistDrafts.DeleteDraft | checklist/views/checklist_views.py:375-389 | deletes iff the id names one of the user's drafts, together with its items, action items, tickets and attachments; otherwise nothing changes; the database stays valid if it was valid before (every row refers to a visit key below the next one) |
| ChecklistDrafts.DeletedDraftGone | checklist/views/checklist_views.py:378-380 | afterwards the draft can no longer be found, and every visit with another id is still there |
| DashboardViews.Distinct | checklist/views/dashboard_views.py:92 | the group keys of values(): each value of the list once, nothing else |
| DashboardViews.CategoryRowFor | checklist/views/dashboard_views.py:97-106 | compliant never exceeds total; compliance is round(100*compliant/total, 1) between 0 and 100.0, or 0 for an empty group; a missing or empty name becomes 'Uncategorized' |
| DashboardViews.CategoryPerformance | checklist/views/dashboard_views.py:87-107 | one row per group key of the user's submitted items, each computed from that group |
| DashboardViews.CategoryKeysSpec | checklist/views/dashboard_views.py:89-95 | the group keys are the category names among the items, each exactly once, in ascending order |
| DashboardViews.CategoryRowsNonEmpty | checklist/views/dashboard_views.py:97-105 | every group holds an item, so each row's compliance is the rounded percentage, never the empty-group 0 |
| DashboardViews.ActionStatsOf | checklist/views/dashboard_views.py:141-159 | ten open items are listed, or all of the user's open items when there are fewer; the overdue count is the length of the overdue list |
| DashboardViews.ActionOverdueSpec | checklist/views/dashboard_views.py:143-150 | an action item is listed as overdue iff it is the user's, open and due before today |
| DashboardViews.OpenActionsSpec | checklist/views/dashboard_views.py:143-146 | an action item is open for the user iff it is open and its visit is one of the user's |
| DashboardViews.ActionStatsOrder | checklist/views/dashboard_views.py:143-155 | the listed open items are among the user's open items, earliest timeframe first, and no open item left out is due before one listed; the overdue list, which has no order_by, is in ActionPlanItem's Meta order; the priority counts add up to at most the open items |
| DashboardViews.MaintenanceStatsOf | checklist/views/dashboard_views.py:262-287 | five tickets are listed, or all of the user's tickets when there are fewer |
| DashboardViews.MaintenanceStatsBound | checklist/views/dashboard_views.py:273-287 | overdue tickets are among the pending and in-progress ones; the status counts cover at most the user's tickets; the listed tickets are the user's, newest created first, and none left out is newer than one listed; a ticket is the user's iff its visit is the user's |
| DashboardViews.PerformanceTrend | checklist/views/dashboard_views.py:309-321 | fewer than two scores give 'stable' |
| DashboardViews.ShortTrendStable | checklist/views/dashboard_views.py:313-314 | with seven or fewer scores the older mean is the recent mean, so the trend is always 'stable' |
| DashboardViews.LongTrend | checklist/views/dashboard_views.py:313-319 | with more than seven scores: 'improving' iff the last seven average more than five above the earlier ones, 'declining' iff not that and they average more than five below |
| DashboardViews.BasicStatsOf | checklist/views/dashboard_views.py:110-131 | counts the user's submitted visits and returns today and the day thirty days back; stepping back fails iff today is among the first thirty days of the calendar |
| DashboardViews.RecentVisitsSpec | checklist/views/dashboard_views.py:121-124 | the recent visits are ten of the user's submitted visits, or all of them when there are fewer, newest first, and none left out is newer than one shown |
| DashboardViews.ComplianceRate | checklist/views/dashboard_views.py:165-175 | pooled round(100*yes/total, 1) over all the user's items, between 0 and 100.0, 0 with no items |
| DashboardViews.ComplianceRateExtremes | checklist/views/dashboard_views.py:170-175 | all answers yes give 100.0 and none gives 0 |
| DashboardViews.ChartVisitsSpec | checklist/views/dashboard_views.py:181-185 | the charted visits are exactly the user's submitted visits since the given day, in date order |
| DashboardViews.GetComplianceData | checklist/views/dashboard_views.py:162-196 | the rate is the pooled compliance; the chart has one '%b %d' label and one score per charted visit, in order |
| DashboardViews.StoreRow | checklist/views/dashboard_views.py:210-231 | a row exists only for a store with at least one of the user's submitted visits |
| DashboardViews.StorePerformanceSpec | checklist/views/dashboard_views.py:199-234 | a store is ranked iff it is visible to the user and has a submitted visit by them; the row counts those visits and gives the latest date; the rows come best average first |
| DashboardViews.StoreRowOf | checklist/views/dashboard_views.py:210-231 | the loop that sums one store's scores gives that store's row |
| DashboardViews.GetStorePerformance | checklist/views/dashboard_views.py:199-234 | the loop over the visible stores followed by the sort gives exactly the specified ranking |
| DashboardViews.GetMonthlyStats | checklist/views/dashboard_views.py:237-259 | the month's visit count and the rounded average of their scores, 0 with no visits |
| DashboardViews.MonthVisitsSpec | checklist/views/dashboard_views.py:239-245 | the month's visits are the user's submitted ones dated on or after the first of this month; their average lies between 0 and 100.0 |
| DashboardViews.ErrorContext | checklist/views/dashboard_views.py:379-395 | the fallback page has the error flag and empty or zero figures |
| DashboardViews.Dashboard | checklist/views/dashboard_views.py:325-377 | the error page iff the thirty-day step fails; otherwise every block is the one its helper computes, the five best stores, and the trend of the charted scores |
| DashboardViews.CategoryLabels | checklist/views/dashboard_views.py:342 | the names of the category rows, in order |
| DashboardViews.CategoryScores | checklist/views/dashboard_views.py:343 | the compliance of the category rows, in order |
| DashboardViews.StoreLabels | checklist/views/dashboard_views.py:347 | the store names of the rows, in order |
| DashboardViews.StoreScores | checklist/views/dashboard_views.py:348 | the average scores of the rows, in order |
| ActionPlanViews.FilteredActions | checklist/views/action_plan_views.py:23-54 | the query raises iff a store filter is set and is not an integer; otherwise a sub-list of the action items |
| ActionPlanViews.FilteredActionsSpec | checklist/views/action_plan_views.py:23-54 | an item is listed iff it is the user's and meets each filter that is set: status, priority, store, a timeframe on the parsed date (a malformed date filters nothing) and a case-insensitive search in the text or the store name |
| ActionPlanViews.ActionPlanStatsBounds | checklist/views/action_plan_views.py:57-65 | overdue items are among the open ones; completed plus open is at most the total; with the model's own statuses nothing counts as completed |
| ActionPlanViews.ActionPlan | checklist/views/action_plan_views.py:68-120 | the error page iff the filtered query raises; otherwise the chosen page of at most twenty filtered items with statistics over all of them |
| ActionPlanViews.UpdateSelected | checklist/views/action_plan_views.py:195-202 | each selected row takes the status and priority given, a field not given is kept, and every other row is unchanged |
| ActionPlanViews.BulkDecision | checklist/views/action_plan_views.py:174-211 | success iff the id list is non-empty, matches the user's items one for one, and names a field to update; the count is then the number of ids |
| ActionPlanViews.BulkUpdateActions | checklist/views/action_plan_views.py:174-217 | an error changes no action item; success updates exactly the selected rows; the database stays valid if it was valid before (every row refers to a visit key below the next one) |
| ActionPlanViews.ElemsCard | checklist/views/action_plan_views.py:188-192 | a list has at most as many distinct ids as entries, and fewer when one repeats |
| ActionPlanViews.SelectedWithin | checklist/views/action_plan_views.py:188-192 | rows with distinct keys matched by a set of ids number at most the set's size |
| ActionPlanViews.BulkRejectsRepeatsAndForeignIds | checklist/views/action_plan_views.py:188-192 | an id list with a repeated id, or with an id that is not one of the user's items, is rejected as a whole |
| ActionPlanViews.BulkUpdateEffect | checklist/views/action_plan_views.py:195-202 | after an update the selected rows carry the requested values, keep their id, visit and text, and the other rows are as they were |
| ActionPlanViews.PriorityOf | checklist/views/action_plan_views.py:243-248 | exactly set_high, set_medium and set_low write a priority, and it is one of the model's choices |
| ActionPlanViews.BulkUpdateForm | checklist/views/action_plan_views.py:222-255 | no ids or no action changes nothing; mark_completed raises before changing a row; a set_* action gives the user's selected rows that priority and counts them; any other action updates nothing; the database stays valid if it was valid before (every row refers to a visit key below the next one) |
| StoreViews.VisibleStoresSpec | checklist/views/store_views.py:18-20 | a store is listed iff it is active and, for a profile whose role is not admin or area management, assigned to the profile; no profile, or those two roles, see every active store |
| StoreViews.LatestDate | checklist/views/store_views.py:31 | the date of one of the visits, and no visit is later |
| StoreViews.AverageTenthsBounds | checklist/views/store_views.py:25-30 | an average of visit scores lies between 0 and 100.0 |
| StoreViews.SumScores | checklist/views/store_views.py:26-28 | the summing loop gives the sum of the visits' scores, at most 100 per visit |
| StoreViews.NewestTake | checklist/views/store_views.py:47 | order_by('-date')[:n] takes n visits, or all when there are fewer, newest first, from the visits, and no visit left out is newer than one taken |
| StoreViews.StoreListRowOf | checklist/views/store_views.py:23-33 | a store's entry counts the user's submitted visits there; no visits iff no last date, and then the average is 0; the average lies between 0 and 100.0 |
| StoreViews.StoreListRows | checklist/views/store_views.py:22-33 | one entry per visible store, in store order |
| StoreViews.StoreListSpec | checklist/views/store_views.py:18-33 | a store has an entry iff it is visible, visited or not |
| StoreViews.StoreList | checklist/views/store_views.py:16-34 | the loop over the visible stores gives exactly the specified entries |
| StoreViews.StoreListEntry | checklist/views/store_views.py:23-33 | one pass of the loop gives the store's specified entry |
| StoreViews.StoreDetailOf | checklist/views/store_views.py:38-57 | not found iff no store has the id, active or not; refused iff it exists and a profile whose role is not admin or area management lacks it; otherwise at most twenty visits and an average between 0 and 100.0 |
| StoreViews.StoreDetailSpec | checklist/views/store_views.py:42-51 | the visits shown are twenty of the user's submitted visits to the store, or all of them when there are fewer, newest first, and none left out is newer than one shown; a user without a profile is never refused |
| StoreViews.StoreDetailIgnoresAreas | checklist/views/store_views.py:42-45 | a store manager who reaches a store only through an area has access by the profile's rule, yet the detail page refuses them |
| StoreViews.GetStoreAnalytics | checklist/views/store_views.py:66-69 | as written, the annotation through 'areamanagervisit' raises FieldError on every call, since the visits relation is named 'visits' |
| StoreViews.StoreManagement | checklist/views/store_views.py:89-116 | a non-superuser is refused; an exception from the analytics gives the error redirect; a POST goes on to store creation; otherwise the page shows the analytics |
| StoreViews.StoreManagementAlwaysFails | checklist/views/store_views.py:96-116 | a superuser always gets the error redirect, on GET and POST alike |
| StoreViews.StoreAnalyticsSpec | checklist/views/store_views.py:64-86 | intended analytics: active plus inactive is the total; 'without visits' counts exactly the stores no submitted visit names; the listing is a permutation of all stores, active ones first |
| StoreViews.FlipStore | checklist/views/store_views.py:196-197 | the store with the id has its activation flipped and every other store is unchanged |
| StoreViews.FlipStoreTwice | checklist/views/store_views.py:196-197 | toggling twice restores the stores, and a toggle changes nothing but the one store's activation |
| StoreViews.ToggleStoreStatus | checklist/views/store_views.py:188-210 | only a superuser changes anything; an unknown id changes nothing; otherwise the store's activation is flipped and its new state reported |
| MaintenanceViews.WeekStart | checklist/views/maintenance_views.py:139 | a valid date exactly weekday() days before today |
| MaintenanceViews.DateWindowOf | checklist/views/maintenance_views.py:134-145 | any value but the four ranges, the empty one included, filters nothing; only 'last_month' can fail, stepping back from the first day of the calendar |
| MaintenanceViews.ThisWeekFromMonday | checklist/views/maintenance_views.py:138-140 | 'this_week' starts on a Monday no later than today and lets today through |
| MaintenanceViews.LastMonthWindow | checklist/views/maintenance_views.py:143-145 | 'last_month' is the previous calendar month, December of the year before in January |
| MaintenanceViews.StatsBounds | checklist/views/maintenance_views.py:148-156 | the status counts never exceed the total and add up to it when every ticket holds a model status; overdue tickets are among the pending and in-progress ones |
| MaintenanceViews.MaintenanceList | checklist/views/maintenance_views.py:109-194 | a non-integer store filter raises; otherwise at most ten tickets on a page that exists, and the statistics cover every ticket whatever the filters |
| MaintenanceViews.MaintenanceListContents | checklist/views/maintenance_views.py:125-167 | a ticket is listed iff it meets each filter that is set; the page shown is the chosen page of that list |
| MaintenanceViews.PaginatedMaintenance | checklist/views/maintenance_views.py:20-35 | at most a page of tickets; without a page number the first page |
| AdminSite.CompliancePercent | checklist/admin.py:128 | round(100*compliant/total): the whole percentage within half a point of the share, 0 for an empty group, between 0 and 100 |
| AdminSite.CompliancePercentIsScore | checklist/admin.py:128 | a group's compliance is the score of a visit holding exactly those answers |
| AdminSite.CountsFor | checklist/admin.py:120-125 | a group's row carries its name, counts no more compliant items than items, and has no compliance yet |
| AdminSite.CategoryCounts | checklist/admin.py:120-125 | one row per category name of the submitted items, in name order |
| AdminSite.AdminCategoryPerformance | checklist/admin.py:118-130 | every counted row with its compliance added |
| AdminSite.AnnotateCompliance | checklist/admin.py:127-128 | the loop adds to each row, in place, its compliance and changes nothing else |
| AdminSite.GetCategoryPerformance | checklist/admin.py:118-130 | the returned rows are the specified annotated rows |
| AdminSite.AdminCategoryPerformanceSpec | checklist/admin.py:118-130 | every row stands for a category name among the submitted items, counts at least one item, and its compliance is the whole percentage between 0 and 100 |
| AdminSite.AdminCategoryPerformanceComplete | checklist/admin.py:120-125 | every category name among the submitted items has a row |
| AdminSite.AverageCompliance | checklist/admin.py:132-138 | 0 without submitted visits; otherwise the mean visit score to one decimal, between 0 and 100.0 |
| AdminSite.AverageComplianceUniform | checklist/admin.py:132-138 | when every submitted visit has the same score, the average is that score exactly |
| AdminSite.AverageComplianceIgnoresDrafts | checklist/admin.py:134 | adding a draft visit does not move the average |
| AdminSite.AdminStoresSpec | checklist/admin.py:163-191 | the changelist holds exactly the stores the user may view one by one, in name order, and anyone may open the changelist |
| AdminSite.StoreNameOrder | checklist/admin.py:163 | ordering by name is total and transitive |
| AdminSite.SetStoresActive | checklist/admin.py:217-225 | the selected stores take the flag and nothing else changes |
| AdminSite.SetStoresActiveLastWins | checklist/admin.py:218-226 | repeating a selection changes nothing, and of two flags the later wins |
| AdminSite.ActivateStores | checklist/admin.py:218-222 | the selected stores become active and the count of selected stores is reported |
| AdminSite.DeactivateStores | checklist/admin.py:224-228 | the selected stores become inactive and the count of selected stores is reported |
| AdminSite.EarliestDate | checklist/admin.py:234 | the date of one of the visits, and no visit is earlier |
| AdminSite.FirstVisitDate | checklist/admin.py:234 | the first visit date is a valid date; drafts take part in finding it |
| AdminSite.FirstVisitDateSpec | checklist/admin.py:234 | the first date belongs to one of the store's visits, draft or not, and none of them is earlier |
| AdminSite.VisitFrequency | checklist/admin.py:230-237 | 'No visits' iff the store has no submitted visit; otherwise a rate between 0 and the visit count |
| AdminSite.VisitFrequencyRecent | checklist/admin.py:235-236 | when every visit lies less than sixty days back, months is at most 1 and the rate is the visit count itself |
| AdminSite.FrequencyText | checklist/admin.py:236-237 | the text is 'No visits' exactly for a store without submitted visits |
| AdminSite.MaintenanceCountsFor | checklist/admin.py:241-255 | overdue tickets are among the pending and in-progress ones |
| AdminSite.CompletedTicketsNotCounted | checklist/admin.py:243-246 | a completed ticket counts in none of the three figures, however late |
| AdminSite.JoinWithEmpty | checklist/admin.py:260 | the join is empty exactly for no names or one empty name |
| AdminSite.EquipmentCategoriesText | checklist/admin.py:259-260 | never empty: the joined names, or '-' exactly when the join is empty (or is itself '-') |
| AdminSite.LastVisitShown | checklist/admin.py:264-268 | 'No visits' iff the store has no submitted visit |
| AdminSite.LastVisitShownSpec | checklist/admin.py:265 | the date shown is that of the store's submitted visit with the lowest primary key |
| AdminSite.LatestVisitDate | checklist/admin.py:264-268 | the corrected column: 'No visits' iff the store has no submitted visit |
| AdminSite.LatestVisitDateSpec | checklist/admin.py:264-268 | the corrected column shows the date of one of the store's submitted visits, and none is later |
| AdminSite.LastVisitShowsOldestRow | checklist/admin.py:265 | with two submitted visits, the older row dated earlier, the column shows the earlier date and never the latest |
| AdminSite.ComplianceBand | checklist/admin.py:277 | green iff the mean is at least 80, amber iff at least 60 and below 80, red below 60 |
| AdminSite.ComplianceBandMonotone | checklist/admin.py:277 | a higher total over the same visits never lands in a lower band |
| AdminSite.StoreComplianceOf | checklist/admin1.py:262-270 | the working column: 'N/A' iff the store has no submitted visit; otherwise the band of the exact mean and the mean to one decimal, between 0 and 100.0 |
| AdminSite.GreenShowsEighty | checklist/admin1.py:268-270 | the working column shows at least 80.0 for a green store |
| AdminSite.ComplianceScoreColumn | checklist/admin.py:272-278 | as written, only 'N/A' renders; a store with a submitted visit makes the column raise ValueError |
| AdminSite.ComplianceColumnRaisesWhereFigureShown | checklist/admin.py:272-278 | the current column raises exactly where the working one shows a figure, and shows 'N/A' where it does |
| AdminSite.ScoreBadgeOf | checklist/admin.py:325-334 | excellent iff the score is at least 90, good from 75, fair from 60, poor below |
| AdminSite.ScoreBadgeMonotone | checklist/admin.py:325-334 | a higher score never earns a lower badge; all yes answers earn the top badge and an empty visit the bottom one |
| AdminSite.CompliantItemsShowsScore | checklist/admin.py:344-350 | an empty visit shows '0 / 0'; otherwise the yes count, the item count and the visit's own score |
| AdminSite.MarkSubmitted | checklist/admin.py:355 | the selected visits stop being drafts and nothing else changes |
| AdminSite.MarkSubmittedAll | checklist/admin.py:354-355 | once every visit is marked, every visit counts as submitted |
| AdminSite.MarkAsComplete | checklist/admin.py:354-356 | the visits table becomes the marked one and the count of selected visits is reported; the database stays valid if it was valid before (every row refers to a visit key below the next one) |
| AdminSite.Preview | checklist/admin.py:391-448 | a text no longer than n is kept; a longer one becomes its first n characters and '...' |
| AdminSite.PreviewSpec | checklist/admin.py:391-448 | a preview is at most n+3 long and previewing it again changes nothing; it is the text itself exactly when the text fits or already ends in '...' after n characters |
| AdminSite.GetCategory | checklist/admin.py:379-380 | '-' for an item without a question |
| AdminSite.GetQuestionNumber | checklist/admin.py:385-386 | '-' for an item without a question |
| AdminSite.QuestionPreview | checklist/admin.py:391-394 | '-' or at most 53 characters |
| AdminSite.CommentPreview | checklist/admin.py:398-401 | '-' exactly for an empty comment (or a comment '-'), never empty |
| AdminSite.ActionStatusColor | checklist/admin.py:452-455 | grey exactly for a status outside the action choices |
| AdminSite.PriorityIndicator | checklist/admin.py:459-461 | the white circle exactly for a priority outside the choices |
| AdminSite.SetActionStatus | checklist/admin.py:465-473 | the selected action items take the status and nothing else changes |
| AdminSite.MarkActionsClosed | checklist/admin.py:465-469 | the selected items become 'closed' and their count is reported; the database stays valid if it was valid before (every row refers to a visit key below the next one) |
| AdminSite.MarkActionsInProgress | checklist/admin.py:471-475 | the selected items become 'in_progress' and their count is reported; the database stays valid if it was valid before (every row refers to a visit key below the next one) |
| AdminSite.SetActionStatusSpec | checklist/admin.py:465-472 | valid statuses stay valid; closing never raises a store's open count and closing every item brings it to 0 |
| AdminSite.TicketStatusColor | checklist/admin.py:607-609 | grey exactly for a status outside the ticket choices |
| AdminSite.IsOverdueDisplay | checklist/admin.py:613-616 | never 'Yes' for a completed ticket or one without a due date |
| AdminSite.OverdueDisplayVersusModel | checklist/admin.py:613-616 | the column says 'Yes' iff MaintenanceTicket.is_overdue holds and the ticket is not completed |
| AdminSite.SetTicketStatus | checklist/admin.py:621-629 | the selected tickets take the status and nothing else changes |
| AdminSite.MarkTicketsCompleted | checklist/admin.py:621-625 | the selected tickets become 'completed' and their count is reported; the database stays valid if it was valid before (every row refers to a visit key below the next one) |
| AdminSite.MarkTicketsInProgress | checklist/admin.py:627-631 | the selected tickets become 'in_progress' and their count is reported; the database stays valid if it was valid before (every row refers to a visit key below the next one) |
| AdminSite.CompletedNotShownOverdue | checklist/admin.py:621-622 | after mark_as_completed no selected ticket shows overdue, while is_overdue still holds for a late one |
| LegacyAdmin.OpenTicketCount | checklist/admin1.py:56 | the open-ticket figure is at most the number of tickets |
| LegacyAdmin.OpenTicketCountCodes | checklist/admin1.py:56 | excluding 'C', a code no ticket carries, counts every ticket with a model status as open, completed ones included; excluding 'completed' drops exactly those |
| LegacyAdmin.LegacyAdminStores | checklist/admin1.py:151-155 | every store, in name order, for a superuser; for anyone else the lookup visits__user names a field the visit lacks and the query raises |
| LegacyAdmin.LegacyHasViewPermission | checklist/admin1.py:157-162 | raises exactly for a non-superuser asking about one store; otherwise true |
| LegacyAdmin.LegacyStoreAccessVersusCurrent | checklist/admin1.py:151-162 | where the legacy lookups answer, they agree with the current StoreAdmin |
| LegacyAdmin.LegacyMaintenanceStatus | checklist/admin1.py:214-228 | the counts for the codes 'N' and 'IP'; overdue tickets are among them |
| LegacyAdmin.LegacyMaintenanceStatusAlwaysZero | checklist/admin1.py:217-220 | on the model's statuses the column shows three zeros for every store, whatever its tickets |
| LegacyAdmin.LegacyEquipmentCategoriesText | checklist/admin1.py:231-232 | the join is empty exactly for no names or one empty name, and otherwise is what the current column shows |
| LegacyAdmin.LegacyGetCategory | checklist/admin1.py:379-380 | raises exactly for an item without a question; otherwise the current column's value |
| LegacyAdmin.LegacyGetQuestionNumber | checklist/admin1.py:384-385 | raises exactly for an item without a question; otherwise the current column's value |
| LegacyAdmin.LegacyQuestionPreview | checklist/admin1.py:389-391 | raises exactly for an item without a question; an empty text shows empty where the current column shows '-' |
| LegacyAdmin.LegacyStatusLabel | checklist/admin1.py:446-453 | 'N', 'IP' and 'C' are named; any other status is shown as it is |
| LegacyAdmin.LegacyStatusColor | checklist/admin1.py:446-453 | grey exactly for a status other than 'N', 'IP' and 'C' |
| LegacyAdmin.LegacyStatusOnModelStatuses | checklist/admin1.py:446-453 | every action or ticket status the model allows is shown raw and grey |
| LegacyAdmin.LegacyTicketStatusColor | checklist/admin1.py:622-633 | red exactly for a status other than 'completed' and 'in_progress' |
| LegacyAdmin.LegacyTicketColorVersusCurrent | checklist/admin1.py:622-633 | on the ticket statuses the colour is the current one; any other value is red where the current column is grey |
| LegacyAdmin.LegacyIsOverdue | checklist/admin1.py:714-718 | the module-level is_overdue agrees with MaintenanceTicket.is_overdue |
| LegacyAdmin.LegacyMarkTicketsCompleted | checklist/admin1.py:731-735 | the selected tickets take 'C' and their count is reported; the database stays valid if it was valid before (every row refers to a visit key below the next one) |
| LegacyAdmin.LegacyMarkTicketsInProgress | checklist/admin1.py:737-741 | the selected tickets take 'IP' and their count is reported; the database stays valid if it was valid before (every row refers to a visit key below the next one) |
| LegacyAdmin.LegacyCompletedClearsModelFlag | checklist/admin1.py:731-733 | 'C' clears is_overdue but leaves the status choices, and the current column still shows a late ticket overdue |
| LegacyAdmin.LegacyMarkActionsCompleted | checklist/admin1.py:470-473 | the selected action items take 'completed' and their count is reported; the database stays valid if it was valid before (every row refers to a visit key below the next one) |
| LegacyAdmin.LegacyCompletedActions | checklist/admin1.py:470-473 | every selected item leaves the action choices and shows grey; the store's open count does not rise and falls to 0 when every item is selected |
| LegacyAdmin.ParsersDifferOnlyOnY | checklist/admin1.py:578 | the legacy and current 'Is Active' parses disagree exactly on the spellings of 'y' |
| LegacyAdmin.LegacyImportQuestions | checklist/admin1.py:540-585 | all or nothing: a row missing a column leaves the tables unchanged; otherwise categories and questions are those the legacy parse gives |
| LegacyAdmin.ImportAllAlike | checklist/admin1.py:563-579 | under either parse the import fails at the same row, or succeeds with the same categories and questions apart from their flags |
| LegacyAdmin.ImportSameWithoutY | checklist/admin1.py:578 | a file without a 'y' flag imports to the same tables under either variant |
| AdminStoreAssignment.WithStores | checklist/management/commands/assign_admin_stores.py:13-14 | a superuser's profile gets the store set and keeps its role and areas; no other field and no other user changes |
| AdminStoreAssignment.AssignToAdmins | checklist/management/commands/assign_admin_stores.py:9-17 | the users table after the command, user by user |
| AdminStoreAssignment.AssignToAdminsSpec | checklist/management/commands/assign_admin_stores.py:9-17 | afterwards every superuser with a profile holds exactly the active stores and has access to each; every other user is unchanged |
| AdminStoreAssignment.AssignToAdminsIdempotent | checklist/management/commands/assign_admin_stores.py:14 | running the command twice leaves what running it once did |
| AdminStoreAssignment.LineOf | checklist/management/commands/assign_admin_stores.py:13-17 | a superuser's line names them, and is the success line exactly when they have a profile |
| AdminStoreAssignment.ReportLines | checklist/management/commands/assign_admin_stores.py:12-17 | a line is written exactly for each superuser and for no one else |
| AdminStoreAssignment.OneLinePerAdmin | checklist/management/commands/assign_admin_stores.py:12-17 | every superuser gets exactly one line of output, a success or a warning |
| AdminStoreAssignment.Handle | checklist/management/commands/assign_admin_stores.py:8-17 | the loop leaves the specified users table and writes one interleaved line per superuser, in table order |
| AreaManagement.AvailableStoresSpec | checklist/views/area_management_views.py:28 | a store is offered exactly when it is not already in the area, unassigned stores included |
| AreaManagement.SetStoreArea | checklist/views/area_management_views.py:21-23 | the store with the id gets the area and every other store is unchanged |
| AreaManagement.SetStoreAreaSpec | checklist/views/area_management_views.py:21-28 | assigning is idempotent, puts the store in the area so it is no longer offered, and changes nothing but that store's area |
| AreaManagement.AssignStoreToArea | checklist/views/area_management_views.py:14-25 | an unknown area or store raises and changes nothing; a missing store_id changes nothing; otherwise the store's area becomes the area |
| AreaManagement.JoinArea | checklist/views/area_management_views.py:43-44 | the area joins the profile's areas, role and stores kept; a user without a profile is unchanged |
| AreaManagement.JoinAreaIdempotent | checklist/views/area_management_views.py:44 | adding an area twice is adding it once, and the area is then the profile's |
| AreaManagement.JoinListed | checklist/views/area_management_views.py:62-64 | the listed users get the area and every other user is unchanged |
| AreaManagement.JoinListedIdempotent | checklist/views/area_management_views.py:62-64 | posting the same list again changes nothing more |
| AreaManagement.AssignUserToArea | checklist/views/area_management_views.py:34-46 | an unknown area or user raises and changes nothing; a missing user_id changes nothing; otherwise the user's profile gains the area |
| AreaManagement.AssignUsersToArea | checklist/views/area_management_views.py:55-66 | an unknown area raises; otherwise exactly the listed users with a profile gain the area and everyone else is unchanged |
| AreaManagement.AvailableUsersSpec | checklist/views/area_management_views.py:49 | a user is offered exactly when the profile's role is area or store manager and the area is not among its areas |
| AreaManagement.AssignedNotAvailable | checklist/views/area_management_views.py:44-49 | once assigned, a user is no longer offered for that area |
| Export.RowCellsSpec | checklist/views/data_export_views.py:35-46 | writing a row puts the cells in that row from column 1 on and leaves every other cell as it was |
| Export.TableSheetIsTable | checklist/views/data_export_views.py:35-46 | a written table reads back as its rows and holds nothing else |
| Export.WriteRow | checklist/views/data_export_views.py:35-46 | the cell-by-cell loop gives the specified row |
| Export.TableGrows | checklist/views/data_export_views.py:41-46 | writing the next row below a table gives a table one row longer |
| Export.WriteTable | checklist/views/data_export_views.py:35-46 | the row loop gives the specified table |
| Export.TableCell | checklist/views/data_export_views.py:41-46 | row r, column c of a table holds the c-th cell of the r-th row, and the row below the last is empty |
| Export.ScoreTextRoundTrip | checklist/views/data_export_views.py:29 | the score text ends in '%' and reads back as the score |
| Export.OwnVisit | checklist/views/data_export_views.py:14 | found iff a visit has the id and belongs to the user, drafts included |
| Export.DetailRow | checklist/views/data_export_views.py:42-46 | a row iff the item's question exists; five cells, the answer 'Yes' or 'No' and the comment |
| Export.DetailRows | checklist/views/data_export_views.py:41-46 | the items' rows in order, or none when one item has no question |
| Export.ExportVisitExcel | checklist/views/data_export_views.py:12-53 | 404 iff the visit is not the user's; a failure iff an item has no question; otherwise the summary sheet and the header plus one row per item |
| Export.TableSheetCell | checklist/views/data_export_views.py:35-46 | a written table holds rows[r-1][c-1] at (r, c) and nothing in the row below its last |
| Export.DetailsReadBack | checklist/views/data_export_views.py:41-46 | row k+2 holds the k-th item: 'Yes' exactly when answered yes, and its comment |
| Export.DetailsExtent | checklist/views/data_export_views.py:34-46 | the header is row 1 and nothing lies below the last item's row |
| Export.SummaryScore | checklist/views/data_export_views.py:21-29 | B3 is the manager's name, B4 the visit's score as text, and nothing below row 4 |
| Export.HistoryRows | checklist/views/data_export_views.py:70-74 | one history row per visit, in order |
| Export.ExportHistoryExcel | checklist/views/data_export_views.py:55-78 | the sheet is the header and one row per visit of the history list |
| Export.HistoryReadBack | checklist/views/data_export_views.py:70-74 | row k+2 holds the k-th visit's date and its score as text, and the row after the last is empty |
| Export.HistoryVisitsSpec | checklist/views/data_export_views.py:57 | the history lists exactly the user's submitted visits, one row each, newest first |
| Export.DataRows | checklist/views/data_export_views.py:96-110 | one CSV row per visit, in order |
| Export.ExportData | checklist/views/data_export_views.py:82-112 | a file iff the user is a superuser; then the header and one row per submitted visit |
| Export.DataRowSpec | checklist/views/data_export_views.py:97-110 | seven cells; passed items are among the total; the score is 0 for no items, otherwise within half a point of 100*passed/total |
| Export.ExportDataRows | checklist/views/data_export_views.py:94-96 | one row per submitted visit and no draft |
| QuestionImport.ParseIsActiveIgnoresCase | checklist/admin.py:566 | the 'Is Active' flag ignores letter case |
| QuestionImport.RunImport | checklist/admin.py:556-568 | the loop walks the rows in order, stops at the first that fails, and counts every row of an import that completes |
| QuestionImport.ImportQuestions | checklist/admin.py:533-572 | one transaction: a failing import reports its error and leaves every table as it was; a completed one commits and reports the count |
| QuestionImport.ImportErrorSticks | checklist/admin.py:551-560 | once a prefix of the rows fails, the import fails with that error |
| QuestionImport.ImportMissingColumnAborts | checklist/admin.py:557-559 | a row anywhere without the four columns rolls the whole import back |
| QuestionImport.ImportRowSpec | checklist/admin.py:561-567 | one row appends one question with the next id and at most one category (get_or_create on the stripped name), and the question is what the row says |
| QuestionImport.ImportAllSpec | checklist/admin.py:556-568 | a committed import keeps every existing row and appends one question per row, in order, with consecutive ids, each what its row says |

## Left out

- Rendering, `messages`, redirects, logging, JSON and HTTP responses, and the admin registration blocks are framework plumbing. Each view is modelled by the data it computes or the tables it changes.
- Floating point is not modelled. Divisions and `round` are computed exactly on rationals and rounded half to even. A figure such as 0.15, which is not exact in binary, can round differently in Python.
- Ordering by timestamps is not modelled. The action plan's explicit `order_by('-created_at')` (checklist/views/action_plan_views.py:27) and the ticket list's `order_by('-created_date')` (checklist/views/maintenance_views.py:115) are taken as given: the sequences these views receive are already newest first.
- Two `Meta` orderings are modelled where a modelled list has no `order_by` of its own. ChecklistQuestion's `['category', 'number']` is modelled by ChecklistViews.ActiveQuestions. ActionPlanItem's `['-priority', 'timeframe']` (checklist/models.py:158-159) is modelled by Models.ActionMetaLe, for the dashboard's overdue list (checklist/views/dashboard_views.py:150). MaintenanceTicket's `['-created_date']` is not modelled: every modelled list of tickets orders them explicitly.
- AdminSite.AdminStores: stores with the same name keep table order. The admin's changelist page adds a primary-key tie-break of its own, which is not modelled.
- Timestamps are not modelled: `created_at`, `updated_at`, `closed_date` and the clock time of `timezone.now()`. "Today" is a parameter, and a ticket's `created_date` is reduced to its date.
- `strptime` (dates and times of the forms and filters) and the browser's `decodeURIComponent` are parameters. Their results are taken as given.
- Python's `int()` is modelled on optional sign, ASCII digits and surrounding whitespace. Underscores between digits and non-ASCII digits are not modelled.
- `str.lower()` is modelled on ASCII letters only.
- Validators.ValidateChecklistData: `isdigit` is modelled on ASCII digits only. Python's `str.isdigit` also accepts other Unicode digits, such as '٣' or '²'.
- Cookie and text lengths are counted in Dafny characters. A browser's `String.length` counts UTF-16 code units, so the two differ on characters outside the Basic Multilingual Plane.
- A nullable field is ordered with NULL first (ascending). Where NULL sorts depends on the database: PostgreSQL puts it last in ascending order, SQLite and MySQL first.
- Users: the role datatype covers only the values in `ROLE_CHOICES`. A stored role outside them, which the database does not prevent, is not modelled.
- Database collation is not modelled. Text ordering is by code point.
- The upper bound of Python's dates (year 9999) is modelled only in the `timedelta_days` filter. Elsewhere a date moved past it is still a date in the model, where Python raises `OverflowError`. The lower bound is modelled. Stepping back from the first days of year 1 fails, as it raises in the source.
- The dashboard's outer `except` fallback (checklist/views/dashboard_views.py:379-395) is modelled only for the one failure the model can raise: stepping thirty days back from the first days of the calendar. The fallback in get_basic_stats (132-139) recomputes the same date and fails again, so it is not modelled separately.
- The fallback in get_maintenance_stats for a missing ticket model (checklist/views/dashboard_views.py:288-301) is dead code, because the model exists.
- A foreign key that names no row is shown as an empty name where the source would raise `DoesNotExist`. This is the case for Queries.StoreName and Export.ManagerName, and so for the store and manager cells of Export.SummaryRows, Export.HistoryRow and Export.DataRow (checklist/views/data_export_views.py:23, 71 and 103). The database's foreign key constraints keep such rows out. A nullable foreign key left NULL, such as a checklist item without a question, is modelled with the source's failure where the source fails on it, as in Export.DetailRows and the legacy admin columns.
- Non-numeric ids in POST bodies and URLs are not modelled. Ids are integers, and the one lookup that parses a text id (the store filters) is modelled with its failure.
- `export_visit_summary` only shows a "to be implemented" message, so it is not modelled.
- `export_as_csv`, `export_questions` and the admin site's `dashboard_view`, `api_stats` and `api_chart_data` are not modelled. They are serialisation and counting with no rule beyond the columns they name.
- Workbook fonts, alignment, column widths, file names and the `Content-Disposition` header are not modelled.
- The maintenance report export `export_visit_maintenance_report` uses relations and attributes the models do not have, so it is not modelled. Neither is the stub `import_questions` in checklist/views/data_export_views.py.
- StoreViews.StoreAnalyticsOf: states the analytics get_store_analytics evidently means to compute. The code as written raises before any figure is produced (see Findings, modelled by StoreViews.GetStoreAnalytics). Its `avg_score` annotation is left out, because `calculate_score` is a method and no column holds it.
- Helpers.PerformanceReportOf and Helpers.CompletionRate: state the report generate_performance_report evidently means to return. The code as written raises at `Avg('calculate_score')` (see Findings, modelled by Helpers.GeneratePerformanceReport). The intended average is stated only as a bounded sum of scores over the report's visits, because the source never says how a mean of a method's values would be taken.
- ActionPlanViews.BulkUpdateForm: `mark_completed` writes `completed_at`, a field ActionPlanItem does not have. It is modelled as raising before any row changes; the exception's text is not modelled.
- ChecklistDrafts.SaveDraft: an answer is an optional boolean and an optional text, and the visit's month and day are a text and an integer, so some JSON bodies cannot be written in the model. These are a JSON `null` answer or comment, an answer that is not a boolean (such as "yes"), an answer entry that is not an object, a `null` month and a day that is not an integer. In the source, a `null` or non-boolean answer makes `ChecklistItem.objects.create` (checklist/views/checklist_views.py:309-314) fail inside `transaction.atomic()` (line 265). Django then marks the block for rollback, and the `except Exception` at lines 317-319 only logs the error. Every later query in the block raises `TransactionManagementError`, which the same `except` swallows. The success reply with its `draft_id` (lines 322-326) is still sent, while the whole draft, visit included, is rolled back. A `null` month or a non-integer day makes the visit's own create fail, which the outer `except` (lines 331-333) turns into the error reply. None of these paths is modelled.
- `update_action_item`, `new_checklist`, `render_checklist_form`, `checklist_success`, `checklist_drafts`, `checklist_detail` and `print_visit_report` are form handling and page assembly. They are not modelled; the rules they rely on are modelled where they are defined.
- `get_questions_by_category` is not modelled. The submission loop walks ChecklistViews.ActiveQuestions, the active questions in their `Meta` order.
- The maintenance views' forms (`new_maintenance`, `edit_maintenance`, the create view) and the thirty-day ticket trend chart are not modelled. The chart's raw SQL `extra()` select has no rule to state.
- The store management forms `handle_store_creation` and `edit_store` are not modelled. `store_management` is modelled by StoreViews.StoreManagement only up to the analytics call that raises.
- The question management views in checklist/views/dashboard_views.py:19-81 are not modelled.
- `StaffRequiredMixin` and `SuperuserRequiredMixin` are not modelled. The superuser checks of the modelled views are part of their contracts.
- The CSV file of the question import is taken already split into rows of named columns. The file encoding and the form's upload handling are not modelled.
- LegacyAdmin.LegacyImportQuestions: reports only success or failure, because the legacy import prints no count and no row number. The file is opened with `request.encoding`, which can be None; that is not modelled.
- In checklist/admin1.py, the legacy ActionPlanItemAdmin.mark_as_in_progress and MaintenanceTicketAdmin.mark_as_completed / mark_as_in_progress / is_overdue_display are the same as in checklist/admin.py, so AdminSite.MarkActionsInProgress, MarkTicketsCompleted, MarkTicketsInProgress and IsOverdueDisplay stand for them.
- The legacy second StoreAdmin class (checklist/admin1.py:775-788), with its `area_link`, is declared after every registration and is never registered, so it is not modelled. Neither is AreaAdmin with its store and user counts.
- The legacy ActionPlanItemAdmin.priority_display shows the raw priority, where checklist/admin.py shows its label; labels are not modelled.
- The legacy admin also repeats last_visit_date (checklist/admin1.py:251-258) with the same lowest-primary-key behaviour that Findings describes.
- checklist/admin1.py registers Area (lines 679 and 705) and Store (lines 683 and 745) twice on the default admin site, so importing that module as a whole would raise `AlreadyRegistered`. Its members are modelled one by one, as if each registration succeeded.
- Attachments are checked by their declared size and content type only. File contents and storage are not modelled.

## Findings

| source | as written | input that shows it | evidently intended | confidence | as-written member | corrected member |
|---|---|---|---|---|---|---|
| checklist/admin.py:264-268 | the 'Last Visit' column takes `obj.visits.filter(is_draft=False).first()`. AreaManagerVisit declares no ordering, so `first()` orders by primary key and shows the oldest submitted visit | two submitted visits to one store: id 1 dated 2024-01-01 and id 2 dated 2024-02-01. The column shows Jan 01, 2024 | the date of the store's latest submitted visit | high; not executed | AdminSite.LastVisitShown, AdminSite.LastVisitShowsOldestRow | AdminSite.LatestVisitDate, AdminSite.LatestVisitDateSpec |
| checklist/views/store_views.py:66-69 | get_store_analytics annotates `Count('areamanagervisit')` and `Avg('areamanagervisit__calculate_score')`. The visit's foreign key to Store has `related_name='visits'`, so the reverse lookup is `visits`, and Django raises `FieldError` as soon as the queryset is annotated | any call, e.g. a superuser opening store management with an empty store table. store_management catches the error and redirects to the dashboard | counts of stores and visits, and the stores with their visit counts, active stores first then by name | high; not executed | StoreViews.GetStoreAnalytics, StoreViews.StoreManagementAlwaysFails | StoreViews.StoreAnalyticsOf, StoreViews.StoreAnalyticsSpec |
| checklist/admin.py:272-278 | compliance_score passes the score to `format_html('…{:.1f}%…', color, score)`. format_html first makes every argument a SafeString, so the `{:.1f}` format spec is applied to a string and raises `ValueError` | a store with one submitted visit | the score with one decimal, coloured green at 80 or more, orange at 60 or more, red below, as the legacy column in checklist/admin1.py:262-270 formats it before calling format_html | high; not executed | AdminSite.ComplianceScoreColumn, AdminSite.ComplianceColumnRaisesWhereFigureShown | AdminSite.StoreComplianceOf, AdminSite.GreenShowsEighty |
| checklist/utils/helpers.py:75 | generate_performance_report aggregates `Avg('calculate_score')`. calculate_score is a method of AreaManagerVisit, not a field, so Django raises `FieldError` and the report is never returned | any call whose start date exists, e.g. today 2024-06-01 and 30 days | the report: period, visit count, average score, actions created and completed, completion rate | high; not executed | Helpers.GeneratePerformanceReport, Helpers.PerformanceReportNeverReturned | Helpers.PerformanceReportOf, Helpers.PerformanceReportSpec |

=== FILE: actionplan.dfy ===
/**
 * The action plan (checklist/views/action_plan_views.py): the user's
 * action items narrowed by the filters that are set, their statistics,
 * the page shown twenty at a time, and the two bulk updates, which change
 * the stored action items in place. The action sequences given to the
 * listing are already in its order, newest created first.
 */
module ActionPlanViews {
  import opened Common
  import opened Dates
  import opened Models
  import opened Users
  import opened Pagination
  import opened Queries
  import Db

  const ActionsPerPage: int := 20

  /** Whether the action item belongs to one of the user's visits (visit__manager=user). */
  predicate OwnedBy(a: ActionItem, visits: seq<Visit>, u: User)
  {
    var v := VisitById(visits, a.visit);
    v.Some? && v.value.manager == u.id
  }

  /** The query parameters, each '' when absent. */
  datatype ActionFilters = ActionFilters(status: string, priority: string, store: string, dateFilter: string, search: string)

  /** The name of the store of the item's visit; '' when there is none. */
  function ActionStoreName(a: ActionItem, visits: seq<Visit>, stores: seq<Store>): string
  {
    var v := VisitById(visits, a.visit);
    if v.None? then "" else StoreName(stores, v.value.store)
  }

  /**
   * Whether an item passes every filter that is set. The store filter has
   * been read as a number; the date filter counts only when it parses as a
   * date.
   */
  predicate ActionMatches(a: ActionItem, visits: seq<Visit>, stores: seq<Store>, f: ActionFilters,
                          store: Option<int>, date: Option<Date>)
  {
    && (f.status == "" || a.status == f.status)
    && (f.priority == "" || a.priority == f.priority)
    && (store.None? || (var v := VisitById(visits, a.visit); v.Some? && v.value.store == store.value))
    && (date.None? || a.timeframe == date.value)
    && (f.search == "" || IContains(a.what, f.search) || IContains(ActionStoreName(a, visits, stores), f.search))
  }

  /**
   * ActionPlanManager.get_filtered_actions. A store filter that is not an
   * integer makes the query raise; a date filter that does not parse
   * (parseDate gives None) is ignored.
   */
  function FilteredActions(actions: seq<ActionItem>, visits: seq<Visit>, stores: seq<Store>, u: User, f: ActionFilters,
                           parseDate: string -> Option<Date>): (r: Result<seq<ActionItem>, string>)
    ensures r.Err? <==> f.store != "" && ParsePyInt(f.store).None?
    ensures r.Ok? ==> |r.value| <= |actions|
  {
    var store := if f.store == "" then Some(None) else
      var id := ParsePyInt(f.store);
      if id.None? then None else Some(Some(id.value));
    if store.None? then Err("Field 'id' expected a number but got '" + f.store + "'.")
    else
      var date := if f.dateFilter == "" then None else parseDate(f.dateFilter);
      Ok(Filter(actions, (a: ActionItem) => OwnedBy(a, visits, u) && ActionMatches(a, visits, stores, f, store.value, date)))
  }

  /**
   * An item is listed iff it is one of the user's items that meets each
   * filter that is set; with no filter set, every one of the user's items
   * is listed, and a date filter that does not parse filters nothing.
   */
  lemma FilteredActionsSpec(actions: seq<ActionItem>, visits: seq<Visit>, stores: seq<Store>, u: User, f: ActionFilters,
                            parseDate: string -> Option<Date>, a: ActionItem)
    requires FilteredActions(actions, visits, stores, u, f, parseDate).Ok?
    ensures var store := if f.store == "" then None else ParsePyInt(f.store);
      var date := if f.dateFilter == "" then None else parseDate(f.dateFilter);
      a in FilteredActions(actions, visits, stores, u, f, parseDate).value <==>
        && a in actions && OwnedBy(a, visits, u)
        && (f.status == "" || a.status == f.status)
        && (f.priority == "" || a.priority == f.priority)
        && (store.None? || (var v := VisitById(visits, a.visit); v.Some? && v.value.store == store.value))
        && (date.None? || a.timeframe == date.value)
        && (f.search == "" || IContains(a.what, f.search) || IContains(ActionStoreName(a, visits, stores), f.search))
    ensures f == ActionFilters("", "", "", "", "") ==>
      FilteredActions(actions, visits, stores, u, f, parseDate).value == Filter(actions, (a: ActionItem) => OwnedBy(a, visits, u))
  {
    var store := if f.store == "" then None else ParsePyInt(f.store);
    var date := if f.dateFilter == "" then None else parseDate(f.dateFilter);
    var p := (a: ActionItem) => OwnedBy(a, visits, u) && ActionMatches(a, visits, stores, f, store, date);
    FilterMembership(actions, p, a);
    if f == ActionFilters("", "", "", "", "") {
      CountSame(actions, p, (a: ActionItem) => OwnedBy(a, visits, u));
      FilterSame(actions, p, (a: ActionItem) => OwnedBy(a, visits, u));
    }
  }

  lemma {:induction false} FilterSame<T>(s: seq<T>, p: T -> bool, q: T -> bool)
    requires forall k :: 0 <= k < |s| ==> p(s[k]) == q(s[k])
    ensures Filter(s, p) == Filter(s, q)
  {
    if s != [] {
      FilterSame(s[1..], p, q);
    }
  }

  datatype ActionPlanStats = ActionPlanStats(total: nat, completed: nat, open: nat, overdue: nat)

  /**
   * ActionPlanManager.calculate_action_stats: how many items, how many with
   * status 'completed' (a status the model does not offer), how many open,
   * and how many open ones are due before today.
   */
  function ActionPlanStatsOf(items: seq<ActionItem>, today: Date): (r: ActionPlanStats)
  {
    ActionPlanStats(|items|,
                    Count(items, (a: ActionItem) => a.status == "completed"),
                    Count(items, (a: ActionItem) => a.status == "open"),
                    Count(items, (a: ActionItem) => a.status == "open" && Before(a.timeframe, today)))
  }

  /**
   * Overdue items are among the open ones, completed and open items are
   * among all of them, and items holding only the model's own statuses are
   * never counted as completed.
   */
  lemma {:induction false} ActionPlanStatsBounds(items: seq<ActionItem>, today: Date)
    ensures var st := ActionPlanStatsOf(items, today);
      st.overdue <= st.open && st.completed + st.open <= st.total
    ensures (forall k :: 0 <= k < |items| ==> items[k].status in ActionStatusChoices) ==>
      ActionPlanStatsOf(items, today).completed == 0
  {
    if items != [] {
      ActionPlanStatsBounds(items[1..], today);
      assert forall k :: 1 <= k < |items| ==> items[k] == items[1..][k - 1];
      ActionStatusQuirks();
    }
  }

  /** The page shown, its number, the statistics of the filtered items. */
  datatype ActionPlanListing = ActionPlanListing(page: seq<ActionItem>, number: int, stats: ActionPlanStats)

  /**
   * action_plan: the chosen page of the filtered items, twenty per page,
   * with statistics over all the filtered items; the error page when the
   * filters make the query raise.
   */
  function ActionPlan(actions: seq<ActionItem>, visits: seq<Visit>, stores: seq<Store>, u: User, f: ActionFilters,
                      parseDate: string -> Option<Date>, page: Option<string>, today: Date)
    : (r: Result<ActionPlanListing, string>)
    ensures r.Err? <==> FilteredActions(actions, visits, stores, u, f, parseDate).Err?
    ensures r.Ok? ==>
      var shown := FilteredActions(actions, visits, stores, u, f, parseDate).value;
      && r.value.number == ChosenPage(page, |shown|, ActionsPerPage)
      && r.value.page == PageOf(shown, r.value.number, ActionsPerPage)
      && |r.value.page| <= ActionsPerPage
      && r.value.stats == ActionPlanStatsOf(shown, today)
  {
    var shown := FilteredActions(actions, visits, stores, u, f, parseDate);
    if shown.Err? then Err(shown.error)
    else
      var n := ChosenPage(page, |shown.value|, ActionsPerPage);
      PageOfContents(shown.value, n, ActionsPerPage);
      Ok(ActionPlanListing(PageOf(shown.value, n, ActionsPerPage), n, ActionPlanStatsOf(shown.value, today)))
  }

  // ---------------------------------------------------------------------
  // Bulk updates
  // ---------------------------------------------------------------------

  /** The rows id__in=ids, visit__manager=user picks out. */
  predicate Selected(a: ActionItem, visits: seq<Visit>, u: User, ids: seq<int>)
  {
    a.id in ids && OwnedBy(a, visits, u)
  }

  /** QuerySet.update(status=..., priority=...): each selected row gets the values given ('' leaves a field as it is). */
  function UpdateSelected(actions: seq<ActionItem>, visits: seq<Visit>, u: User, ids: seq<int>, status: string, priority: string)
    : (r: seq<ActionItem>)
    ensures |r| == |actions|
    ensures forall k :: 0 <= k < |actions| ==>
      if Selected(actions[k], visits, u, ids) then
        r[k] == actions[k].(status := if status != "" then status else actions[k].status,
                            priority := if priority != "" then priority else actions[k].priority)
      else r[k] == actions[k]
  {
    seq(|actions|, k requires 0 <= k < |actions| =>
      if Selected(actions[k], visits, u, ids) then
        actions[k].(status := if status != "" then status else actions[k].status,
                    priority := if priority != "" then priority else actions[k].priority)
      else actions[k])
  }

  /** The selected rows' count, as update() reports it. */
  function SelectedCount(actions: seq<ActionItem>, visits: seq<Visit>, u: User, ids: seq<int>): nat
  {
    Count(actions, (a: ActionItem) => Selected(a, visits, u, ids))
  }

  datatype BulkReply = BulkSuccess(message: string, updatedCount: nat) | BulkError(message: string)

  /** A truthy JSON value: present and not the empty string. */
  function Given(v: Option<string>): string
  {
    if v.Some? then v.value else ""
  }

  /**
   * bulk_update_actions' decision: an empty id list, an id list that does
   * not match the user's rows one for one, or no field to update is an
   * error; otherwise every selected row is updated.
   */
  function BulkDecision(actions: seq<ActionItem>, visits: seq<Visit>, u: User, ids: seq<int>,
                        status: Option<string>, priority: Option<string>): (r: BulkReply)
    ensures r.BulkSuccess? <==>
      ids != [] && SelectedCount(actions, visits, u, ids) == |ids| && (Given(status) != "" || Given(priority) != "")
    ensures r.BulkSuccess? ==> r.updatedCount == |ids|
  {
    if ids == [] then BulkError("No action items selected")
    else if SelectedCount(actions, visits, u, ids) != |ids| then BulkError("Some action items not found or unauthorized")
    else if Given(status) == "" && Given(priority) == "" then BulkError("No valid updates specified")
    else
      var n := SelectedCount(actions, visits, u, ids);
      BulkSuccess("Successfully updated " + IntToString(n) + " action items", n)
  }

  /**
   * bulk_update_actions: all or nothing. On an error no action item
   * changes; on success exactly the selected rows take the new status and
   * priority, and the reply counts them.
   */
  method BulkUpdateActions(db: Db.Database, u: User, ids: seq<int>, status: Option<string>, priority: Option<string>)
    returns (reply: BulkReply)
    modifies db`actions
    ensures reply == BulkDecision(old(db.actions), db.visits, u, ids, status, priority)
    ensures reply.BulkError? ==> db.actions == old(db.actions)
    ensures reply.BulkSuccess? ==>
      db.actions == UpdateSelected(old(db.actions), db.visits, u, ids, Given(status), Given(priority))
    ensures old(db.Valid()) ==> db.Valid()
  {
    reply := BulkDecision(db.actions, db.visits, u, ids, status, priority);
    if reply.BulkSuccess? {
      db.actions := UpdateSelected(db.actions, db.visits, u, ids, Given(status), Given(priority));
      if old(db.Valid()) {
        SameOwnersKeepBelow(old(db.actions), db.actions, Db.ActionVisit, db.nextVisitId);
      }
    }
  }

  /** The primary keys of a table are distinct. */
  predicate DistinctIds(actions: seq<ActionItem>)
  {
    forall i, j :: 0 <= i < j < |actions| ==> actions[i].id != actions[j].id
  }

  function Elems(s: seq<int>): set<int>
  {
    set x | x in s
  }

  /** A list has at most as many distinct values as entries, and fewer when one repeats. */
  lemma {:induction false} ElemsCard(s: seq<int>)
    ensures |Elems(s)| <= |s|
    ensures (exists i, j :: 0 <= i < j < |s| && s[i] == s[j]) ==> |Elems(s)| < |s|
  {
    if s != [] {
      var rest := s[1..];
      ElemsCard(rest);
      assert Elems(s) == {s[0]} + Elems(rest);
      if s[0] in rest {
        assert Elems(s) == Elems(rest);
      } else {
        if exists i, j :: 0 <= i < j < |s| && s[i] == s[j] {
          var i, j :| 0 <= i < j < |s| && s[i] == s[j];
          assert rest[i - 1] == rest[j - 1];
        }
      }
    }
  }

  /** Rows with distinct keys whose key lies in a set number at most the set's size. */
  lemma {:induction false} SelectedWithin(actions: seq<ActionItem>, keys: set<int>, owned: ActionItem -> bool)
    requires DistinctIds(actions)
    ensures Count(actions, (a: ActionItem) => a.id in keys && owned(a)) <= |keys|
  {
    if actions != [] {
      var x := actions[0].id;
      var rest := actions[1..];
      SelectedWithin(rest, keys - {x}, owned);
      forall k | 0 <= k < |rest|
        ensures (rest[k].id in keys && owned(rest[k])) == (rest[k].id in keys - {x} && owned(rest[k]))
      {
        assert rest[k] == actions[k + 1];
      }
      CountSame(rest, (a: ActionItem) => a.id in keys && owned(a), (a: ActionItem) => a.id in keys - {x} && owned(a));
    }
  }

  /**
   * With distinct primary keys, an id list holding a repeat, or an id that
   * is not one of the user's action items, is rejected as a whole and
   * nothing changes.
   */
  lemma BulkRejectsRepeatsAndForeignIds(actions: seq<ActionItem>, visits: seq<Visit>, u: User, ids: seq<int>,
                                        status: Option<string>, priority: Option<string>)
    requires DistinctIds(actions)
    requires (exists i, j :: 0 <= i < j < |ids| && ids[i] == ids[j])
          || (exists i :: 0 <= i < |ids| && forall k :: 0 <= k < |actions| ==> !(actions[k].id == ids[i] && OwnedBy(actions[k], visits, u)))
    ensures BulkDecision(actions, visits, u, ids, status, priority).BulkError?
  {
    ElemsCard(ids);
    if exists i :: 0 <= i < |ids| && forall k :: 0 <= k < |actions| ==> !(actions[k].id == ids[i] && OwnedBy(actions[k], visits, u)) {
      var i :| 0 <= i < |ids| && forall k :: 0 <= k < |actions| ==> !(actions[k].id == ids[i] && OwnedBy(actions[k], visits, u));
      SelectedMissesForeign(actions, visits, u, ids, i);
    } else {
      SelectedAtMostDistinct(actions, visits, u, ids);
    }
  }

  /** No more rows are selected than the list has distinct ids. */
  lemma SelectedAtMostDistinct(actions: seq<ActionItem>, visits: seq<Visit>, u: User, ids: seq<int>)
    requires DistinctIds(actions)
    ensures SelectedCount(actions, visits, u, ids) <= |Elems(ids)|
  {
    var owned := (a: ActionItem) => OwnedBy(a, visits, u);
    SelectedWithin(actions, Elems(ids), owned);
    CountSame(actions, (a: ActionItem) => Selected(a, visits, u, ids), (a: ActionItem) => a.id in Elems(ids) && owned(a));
  }

  /** An id that names no row of the user's leaves one distinct id unmatched. */
  lemma SelectedMissesForeign(actions: seq<ActionItem>, visits: seq<Visit>, u: User, ids: seq<int>, i: int)
    requires DistinctIds(actions) && 0 <= i < |ids|
    requires forall k :: 0 <= k < |actions| ==> !(actions[k].id == ids[i] && OwnedBy(actions[k], visits, u))
    ensures SelectedCount(actions, visits, u, ids) < |Elems(ids)|
  {
    var owned := (a: ActionItem) => OwnedBy(a, visits, u);
    var keys := Elems(ids) - {ids[i]};
    SelectedWithin(actions, keys, owned);
    CountSame(actions, (a: ActionItem) => Selected(a, visits, u, ids), (a: ActionItem) => a.id in keys && owned(a));
    assert |keys| == |Elems(ids)| - 1;
  }

  /** After a successful bulk update, the selected rows carry the requested values and every other row is as it was. */
  lemma BulkUpdateEffect(actions: seq<ActionItem>, visits: seq<Visit>, u: User, ids: seq<int>, status: string, priority: string, k: int)
    requires 0 <= k < |actions|
    ensures var r := UpdateSelected(actions, visits, u, ids, status, priority);
      && r[k].id == actions[k].id && r[k].visit == actions[k].visit && r[k].what == actions[k].what
      && (Selected(actions[k], visits, u, ids) && status != "" ==> r[k].status == status)
      && (Selected(actions[k], visits, u, ids) && priority != "" ==> r[k].priority == priority)
      && (!Selected(actions[k], visits, u, ids) ==> r[k] == actions[k])
  {
  }

  /** What bulk_update_action_items_form did. */
  datatype FormOutcome =
    | NothingSelected        // no item ids posted
    | NoBulkAction           // no bulk action posted
    | Raised                 // mark_completed writes a field the model does not have
    | Updated(count: nat)    // the rows changed; 0 for an unknown action

  /** The priority a set_* action writes, when it is one. */
  function PriorityOf(bulkAction: string): (r: Option<string>)
    ensures r.Some? <==> bulkAction in {"set_high", "set_medium", "set_low"}
    ensures r.Some? ==> r.value in PriorityChoices
  {
    if bulkAction == "set_high" then Some("high")
    else if bulkAction == "set_medium" then Some("medium")
    else if bulkAction == "set_low" then Some("low")
    else None
  }

  /**
   * bulk_update_action_items_form: without ids or an action nothing
   * changes; a set_* action gives the user's selected rows that priority,
   * ignoring ids of other users' items; mark_completed raises before any
   * row changes; any other action updates no row.
   */
  method BulkUpdateForm(db: Db.Database, u: User, ids: seq<int>, bulkAction: Option<string>) returns (r: FormOutcome)
    modifies db`actions
    ensures ids == [] ==> r == NothingSelected
    ensures ids != [] && Given(bulkAction) == "" ==> r == NoBulkAction
    ensures ids != [] && Given(bulkAction) == "mark_completed" ==> r == Raised
    ensures ids != [] && Given(bulkAction) != "" && Given(bulkAction) != "mark_completed" ==>
      r == Updated(if PriorityOf(Given(bulkAction)).Some? then SelectedCount(old(db.actions), db.visits, u, ids) else 0)
    ensures r.Updated? && PriorityOf(Given(bulkAction)).Some? ==>
      db.actions == UpdateSelected(old(db.actions), db.visits, u, ids, "", PriorityOf(Given(bulkAction)).value)
    ensures !(r.Updated? && PriorityOf(Given(bulkAction)).Some?) ==> db.actions == old(db.actions)
    ensures old(db.Valid()) ==> db.Valid()
  {
    if ids == [] {
      return NothingSelected;
    }
    var action := Given(bulkAction);
    if action == "" {
      return NoBulkAction;
    }
    if action == "mark_completed" {
      return Raised;
    }
    var priority := PriorityOf(action);
    if priority.Some? {
      var n := SelectedCount(db.actions, db.visits, u, ids);
      db.actions := UpdateSelected(db.actions, db.visits, u, ids, "", priority.value);
      if old(db.Valid()) {
        SameOwnersKeepBelow(old(db.actions), db.actions, Db.ActionVisit, db.nextVisitId);
      }
      r := Updated(n);
    } else {
      r := Updated(0);
    }
  }
}

=== FILE: admin.dfy ===
/**
 * The custom admin site (checklist/admin.py): the site-wide category table
 * and average compliance, the store list's computed columns and bulk
 * actions, the visit, checklist-item, action-item and ticket columns and
 * actions, and the atomic CSV import of checklist questions.
 */
module AdminSite {
  import opened Common
  import opened Dates
  import opened Models
  import opened Users
  import opened Sorting
  import opened Queries
  import Db
  import DashboardViews
  import StoreViews
  import ChecklistViews

  // ---------------------------------------------------------------------
  // CaribouAdminSite.get_category_performance
  // ---------------------------------------------------------------------

  /** visit__is_draft=False: the item belongs to a visit that was submitted. */
  predicate OfSubmittedVisit(it: ChecklistItem, visits: seq<Visit>)
  {
    var v := VisitById(visits, it.visit);
    v.Some? && !v.value.isDraft
  }

  /** The items of every submitted visit, whoever made it. */
  function SubmittedItems(items: seq<ChecklistItem>, visits: seq<Visit>): seq<ChecklistItem>
  {
    Filter(items, (it: ChecklistItem) => OfSubmittedVisit(it, visits))
  }

  /**
   * round(compliant / total * 100), or 0 for no items: the whole
   * percentage nearest to the share, ties to even.
   */
  function CompliancePercent(compliant: nat, total: nat): (r: int)
    ensures total == 0 ==> r == 0
    ensures total > 0 ==> 2 * (100 * compliant - r * total) <= total && 2 * (r * total - 100 * compliant) <= total
    ensures compliant <= total ==> 0 <= r <= 100
  {
    if total == 0 then 0
    else if compliant <= total then
      RoundHalfEvenBetween(100 * compliant, total, 0, 100);
      RoundHalfEven(100 * compliant, total)
    else RoundHalfEven(100 * compliant, total)
  }

  /** A group's compliance is the score a visit holding exactly those answers would get. */
  lemma CompliancePercentIsScore(group: seq<ChecklistItem>)
    ensures CompliancePercent(Count(group, Yes), |group|) == CalculateScore(group)
  {
  }

  /**
   * One row of values('question__category__name').annotate(total, compliant):
   * compliance is None until the annotation loop adds it.
   */
  datatype AdminCategoryRow = AdminCategoryRow(name: Option<string>, total: nat, compliant: nat, compliance: Option<int>)

  /** The counts of one group, before annotation. */
  function CountsFor(mine: seq<ChecklistItem>, key: Option<string>, qs: seq<Question>, cats: seq<Category>)
    : (r: AdminCategoryRow)
    ensures r.name == key && r.compliant <= r.total && r.compliance.None?
  {
    CountImplies(mine, DashboardViews.YesInGroup(key, qs, cats), DashboardViews.InGroup(key, qs, cats));
    AdminCategoryRow(key, Count(mine, DashboardViews.InGroup(key, qs, cats)),
                     Count(mine, DashboardViews.YesInGroup(key, qs, cats)), None)
  }

  /** The queryset the loop walks: one row per category name of submitted items, by name. */
  function CategoryCounts(items: seq<ChecklistItem>, visits: seq<Visit>, qs: seq<Question>, cats: seq<Category>)
    : (r: seq<AdminCategoryRow>)
    ensures var keys := DashboardViews.CategoryKeys(SubmittedItems(items, visits), qs, cats);
      |r| == |keys| && forall k :: 0 <= k < |keys| ==> r[k] == CountsFor(SubmittedItems(items, visits), keys[k], qs, cats)
  {
    var mine := SubmittedItems(items, visits);
    var keys := DashboardViews.CategoryKeys(mine, qs, cats);
    seq(|keys|, k requires 0 <= k < |keys| => CountsFor(mine, keys[k], qs, cats))
  }

  /** item['compliance'] = ...: the row with its compliance added. */
  function WithCompliance(row: AdminCategoryRow): AdminCategoryRow
  {
    row.(compliance := Some(CompliancePercent(row.compliant, row.total)))
  }

  /** What get_category_performance returns: every counted row, annotated. */
  function AdminCategoryPerformance(items: seq<ChecklistItem>, visits: seq<Visit>, qs: seq<Question>, cats: seq<Category>)
    : (r: seq<AdminCategoryRow>)
    ensures |r| == |CategoryCounts(items, visits, qs, cats)|
    ensures forall k :: 0 <= k < |r| ==> r[k] == WithCompliance(CategoryCounts(items, visits, qs, cats)[k])
  {
    var counts := CategoryCounts(items, visits, qs, cats);
    seq(|counts|, k requires 0 <= k < |counts| => WithCompliance(counts[k]))
  }

  /** The annotation loop: each row dictionary gets its 'compliance' key in place. */
  method AnnotateCompliance(rows: array<AdminCategoryRow>)
    modifies rows
    ensures forall k :: 0 <= k < rows.Length ==> rows[k] == WithCompliance(old(rows[k]))
  {
    var i := 0;
    while i < rows.Length
      invariant 0 <= i <= rows.Length
      invariant forall k :: 0 <= k < i ==> rows[k] == WithCompliance(old(rows[k]))
      invariant forall k :: i <= k < rows.Length ==> rows[k] == old(rows[k])
    {
      var row := rows[i];
      if row.total > 0 {
        rows[i] := row.(compliance := Some(RoundHalfEven(100 * row.compliant, row.total)));
      } else {
        rows[i] := row.(compliance := Some(0));
      }
      i := i + 1;
    }
  }

  /** CaribouAdminSite.get_category_performance. */
  method GetCategoryPerformance(items: seq<ChecklistItem>, visits: seq<Visit>, qs: seq<Question>, cats: seq<Category>)
    returns (rows: array<AdminCategoryRow>)
    ensures fresh(rows)
    ensures rows[..] == AdminCategoryPerformance(items, visits, qs, cats)
  {
    var counts := CategoryCounts(items, visits, qs, cats);
    rows := new AdminCategoryRow[|counts|](k requires 0 <= k < |counts| => counts[k]);
    AnnotateCompliance(rows);
  }

  /**
   * Each row stands for a category name that some submitted item has, every
   * such name has a row, and the compliance is a whole percentage of a
   * non-empty group.
   */
  lemma AdminCategoryPerformanceSpec(items: seq<ChecklistItem>, visits: seq<Visit>, qs: seq<Question>,
                                     cats: seq<Category>, k: int)
    requires 0 <= k < |AdminCategoryPerformance(items, visits, qs, cats)|
    ensures var row := AdminCategoryPerformance(items, visits, qs, cats)[k];
      && row.total >= 1 && row.compliant <= row.total
      && row.compliance == Some(CompliancePercent(row.compliant, row.total))
      && 0 <= row.compliance.value <= 100
      && exists j :: 0 <= j < |SubmittedItems(items, visits)|
           && DashboardViews.ItemCategory(SubmittedItems(items, visits)[j], qs, cats) == row.name
  {
    var mine := SubmittedItems(items, visits);
    var keys := DashboardViews.CategoryKeys(mine, qs, cats);
    DashboardViews.CategoryKeysSpec(mine, qs, cats, keys[k]);
    var j :| 0 <= j < |mine| && DashboardViews.ItemCategory(mine[j], qs, cats) == keys[k];
    DashboardViews.CountPositive(mine, DashboardViews.InGroup(keys[k], qs, cats), j);
  }

  /** Every category name among the submitted items gets a row. */
  lemma AdminCategoryPerformanceComplete(items: seq<ChecklistItem>, visits: seq<Visit>, qs: seq<Question>,
                                         cats: seq<Category>, j: int)
    requires 0 <= j < |SubmittedItems(items, visits)|
    ensures exists k :: (0 <= k < |AdminCategoryPerformance(items, visits, qs, cats)|
      && AdminCategoryPerformance(items, visits, qs, cats)[k].name
         == DashboardViews.ItemCategory(SubmittedItems(items, visits)[j], qs, cats))
  {
    var mine := SubmittedItems(items, visits);
    var key := DashboardViews.ItemCategory(mine[j], qs, cats);
    DashboardViews.CategoryKeysSpec(mine, qs, cats, key);
    var keys := DashboardViews.CategoryKeys(mine, qs, cats);
    var k :| 0 <= k < |keys| && keys[k] == key;
    assert AdminCategoryPerformance(items, visits, qs, cats)[k].name == key;
  }

  // ---------------------------------------------------------------------
  // CaribouAdminSite.get_average_compliance
  // ---------------------------------------------------------------------

  /** AreaManagerVisit.objects.filter(is_draft=False). */
  function SubmittedVisits(visits: seq<Visit>): seq<Visit>
  {
    Filter(visits, IsSubmitted)
  }

  predicate IsSubmitted(v: Visit)
  {
    !v.isDraft
  }

  /**
   * get_average_compliance: 0 without submitted visits, otherwise the mean
   * visit score rounded to one decimal (in tenths).
   */
  function AverageCompliance(items: seq<ChecklistItem>, visits: seq<Visit>): (r: int)
    ensures 0 <= r <= 1000
    ensures SubmittedVisits(visits) == [] ==> r == 0
  {
    StoreViews.AverageTenthsBounds(items, SubmittedVisits(visits));
    StoreViews.AverageTenths(Scores(items, SubmittedVisits(visits)))
  }

  lemma {:induction false} SumUniform(xs: seq<int>, s: int)
    requires forall k :: 0 <= k < |xs| ==> xs[k] == s
    ensures Sum(xs) == s * |xs|
  {
    if xs != [] {
      SumUniform(xs[1..], s);
      assert s * |xs| == s + s * (|xs| - 1);
    }
  }

  /** When every submitted visit has the same score, the average is that score exactly. */
  lemma AverageComplianceUniform(items: seq<ChecklistItem>, visits: seq<Visit>, s: int)
    requires SubmittedVisits(visits) != []
    requires forall k :: 0 <= k < |SubmittedVisits(visits)| ==> VisitScore(items, SubmittedVisits(visits)[k]) == s
    ensures AverageCompliance(items, visits) == 10 * s
  {
    var sub := SubmittedVisits(visits);
    var n := |sub|;
    var total := Sum(Scores(items, sub));
    SumUniform(Scores(items, sub), s);
    TenTimesProduct(s, n, total);
    RoundHalfEvenBetween(10 * total, n, 10 * s, 10 * s);
    assert AverageCompliance(items, visits) == RoundHalfEven(10 * total, n);
  }

  lemma TenTimesProduct(s: int, n: int, t: int)
    requires t == s * n
    ensures 10 * t == (10 * s) * n
  {
  }

  /** A draft visit, added or removed, does not move the average. */
  lemma AverageComplianceIgnoresDrafts(items: seq<ChecklistItem>, visits: seq<Visit>, draft: Visit)
    requires draft.isDraft
    ensures AverageCompliance(items, visits + [draft]) == AverageCompliance(items, visits)
  {
    FilterAppend(visits, [draft], IsSubmitted);
    assert Filter([draft], IsSubmitted) == [];
    assert SubmittedVisits(visits + [draft]) == SubmittedVisits(visits);
  }

  // ---------------------------------------------------------------------
  // StoreAdmin: the queryset, the view permission and the bulk actions
  // ---------------------------------------------------------------------

  /** visits__manager=user: the user made some visit, draft or not, to the store. */
  predicate HasVisitBy(visits: seq<Visit>, u: User, store: int)
  {
    exists k :: 0 <= k < |visits| && visits[k].store == store && visits[k].manager == u.id
  }

  /** StoreAdmin.ordering = ['name']: by name; stores of the same name keep table order. */
  predicate StoreNameLe(a: Store, b: Store)
  {
    StringLe(a.name, b.name)
  }

  /** StoreAdmin.get_queryset: every store for a superuser, otherwise the stores the user has visited, by name. */
  function AdminStores(stores: seq<Store>, visits: seq<Visit>, u: User): seq<Store>
  {
    SortBy(if u.isSuperuser then stores else Filter(stores, (s: Store) => HasVisitBy(visits, u, s.id)), StoreNameLe)
  }

  /** StoreAdmin.has_view_permission; obj None is the changelist itself. */
  predicate HasViewPermission(visits: seq<Visit>, u: User, obj: Option<Store>)
  {
    u.isSuperuser || obj.None? || HasVisitBy(visits, u, obj.value.id)
  }

  /**
   * The list holds exactly the stores the user may view one by one, in
   * name order, and anyone may open the changelist.
   */
  lemma AdminStoresSpec(stores: seq<Store>, visits: seq<Visit>, u: User, s: Store)
    ensures s in AdminStores(stores, visits, u) <==> s in stores && HasViewPermission(visits, u, Some(s))
    ensures Sorted(AdminStores(stores, visits, u), StoreNameLe)
    ensures HasViewPermission(visits, u, None)
  {
    var listed := if u.isSuperuser then stores else Filter(stores, (s: Store) => HasVisitBy(visits, u, s.id));
    FilterMembership(stores, (s: Store) => HasVisitBy(visits, u, s.id), s);
    SortByMembers(listed, StoreNameLe, s);
    StoreNameOrder();
    SortBySorted(listed, StoreNameLe);
  }

  lemma StoreNameOrder()
    ensures TotalPreorder(StoreNameLe)
  {
    forall a: Store, b: Store
      ensures StoreNameLe(a, b) || StoreNameLe(b, a)
    {
      StringLeTotal(a.name, b.name);
    }
    forall a: Store, b: Store, c: Store | StoreNameLe(a, b) && StoreNameLe(b, c)
      ensures StoreNameLe(a, c)
    {
      StringLeTrans(a.name, b.name, c.name);
    }
  }

  /** queryset.update(is_active=...): the selected stores take the flag, nothing else changes. */
  function SetStoresActive(stores: seq<Store>, selected: set<int>, active: bool): (r: seq<Store>)
    ensures |r| == |stores|
    ensures forall k :: 0 <= k < |stores| ==>
      && r[k].isActive == (if stores[k].id in selected then active else stores[k].isActive)
      && r[k].(isActive := stores[k].isActive) == stores[k]
  {
    seq(|stores|, k requires 0 <= k < |stores| =>
      if stores[k].id in selected then stores[k].(isActive := active) else stores[k])
  }

  /** The selection applies at once: repeating it changes nothing, and the later of two flags wins. */
  lemma SetStoresActiveLastWins(stores: seq<Store>, selected: set<int>, a: bool, b: bool)
    ensures SetStoresActive(SetStoresActive(stores, selected, a), selected, b) == SetStoresActive(stores, selected, b)
  {
  }

  /** The number update() reports: the rows in the queryset. */
  function SelectedCount(stores: seq<Store>, selected: set<int>): nat
  {
    Count(stores, (s: Store) => s.id in selected)
  }

  /** StoreAdmin.activate_stores. */
  method ActivateStores(db: Db.Database, selected: set<int>) returns (updated: nat)
    modifies db`stores
    ensures db.stores == SetStoresActive(old(db.stores), selected, true)
    ensures updated == SelectedCount(old(db.stores), selected)
  {
    updated := SelectedCount(db.stores, selected);
    db.stores := SetStoresActive(db.stores, selected, true);
  }

  /** StoreAdmin.deactivate_stores. */
  method DeactivateStores(db: Db.Database, selected: set<int>) returns (updated: nat)
    modifies db`stores
    ensures db.stores == SetStoresActive(old(db.stores), selected, false)
    ensures updated == SelectedCount(old(db.stores), selected)
  {
    updated := SelectedCount(db.stores, selected);
    db.stores := SetStoresActive(db.stores, selected, false);
  }

  // ---------------------------------------------------------------------
  // StoreAdmin: computed columns
  // ---------------------------------------------------------------------

  /** obj.visits.earliest('date').date. */
  function EarliestDate(vs: seq<Visit>): (d: Date)
    requires vs != []
    ensures exists k :: 0 <= k < |vs| && vs[k].date == d
    ensures forall k :: 0 <= k < |vs| ==> DateLe(d, vs[k].date)
  {
    if |vs| == 1 then vs[0].date
    else
      var rest := EarliestDate(vs[1..]);
      assert forall k :: 1 <= k < |vs| ==> vs[k] == vs[1..][k - 1];
      if DateLe(vs[0].date, rest) then vs[0].date else rest
  }

  datatype Frequency = NoVisits | PerMonth(tenths: int)

  function SubmittedAt(store: int): Visit -> bool
  {
    (v: Visit) => v.store == store && !v.isDraft
  }

  function AtStore(store: int): Visit -> bool
  {
    (v: Visit) => v.store == store
  }

  /** obj.visits.filter(is_draft=False).count(). */
  function SubmittedCount(visits: seq<Visit>, store: int): nat
  {
    Count(visits, SubmittedAt(store))
  }

  /** obj.visits.earliest('date').date: drafts take part in finding it. */
  function FirstVisitDate(visits: seq<Visit>, store: int): (d: Date)
    requires DatesValid(visits) && SubmittedCount(visits, store) > 0
    ensures Valid(d)
  {
    CountImplies(visits, SubmittedAt(store), AtStore(store));
    FilterValid(visits, AtStore(store));
    EarliestDate(Filter(visits, AtStore(store)))
  }

  /** The first date is the date of one of the store's visits, and none of them is earlier. */
  lemma FirstVisitDateSpec(visits: seq<Visit>, store: int)
    requires DatesValid(visits) && SubmittedCount(visits, store) > 0
    ensures exists k :: 0 <= k < |visits| && visits[k].store == store && visits[k].date == FirstVisitDate(visits, store)
    ensures forall k :: 0 <= k < |visits| && visits[k].store == store ==> DateLe(FirstVisitDate(visits, store), visits[k].date)
  {
    CountImplies(visits, SubmittedAt(store), AtStore(store));
    var all := Filter(visits, AtStore(store));
    FilterKeepsOnly(visits, AtStore(store));
    var d := EarliestDate(all);
    var j :| 0 <= j < |all| && all[j].date == d;
    FilterMembership(visits, AtStore(store), all[j]);
    forall k | 0 <= k < |visits| && visits[k].store == store
      ensures DateLe(d, visits[k].date)
    {
      FilterMembership(visits, AtStore(store), visits[k]);
    }
  }

  /**
   * visit_frequency: the submitted visits to the store per month since its
   * first visit; a month is 30 days, floored, and at least one. The rate is
   * kept in tenths.
   */
  function VisitFrequency(visits: seq<Visit>, store: int, today: Date): (r: Frequency)
    requires DatesValid(visits) && Valid(today)
    ensures r.NoVisits? <==> SubmittedCount(visits, store) == 0
    ensures r.PerMonth? ==> 0 <= r.tenths <= 10 * SubmittedCount(visits, store)
  {
    var submitted := SubmittedCount(visits, store);
    if submitted == 0 then NoVisits
    else
      var months := (Ordinal(today) - Ordinal(FirstVisitDate(visits, store))) / 30;
      var whole := if months > 1 then months else 1;
      MulMonotone(1, whole, 10 * submitted);
      RoundHalfEvenBetween(10 * submitted, whole, 0, 10 * submitted);
      PerMonth(RoundTenths(submitted, whole))
  }

  lemma {:induction false} FilterValid(vs: seq<Visit>, p: Visit -> bool)
    requires DatesValid(vs)
    ensures DatesValid(Filter(vs, p))
  {
    if vs != [] {
      FilterValid(vs[1..], p);
    }
  }

  /**
   * When every visit to the store lies less than 60 days back (or lies
   * ahead), the month count is at most 1 and the rate is the number of
   * submitted visits itself.
   */
  lemma VisitFrequencyRecent(visits: seq<Visit>, store: int, today: Date)
    requires DatesValid(visits) && Valid(today)
    requires forall k :: 0 <= k < |visits| && visits[k].store == store ==> Ordinal(today) - Ordinal(visits[k].date) < 60
    requires SubmittedCount(visits, store) > 0
    ensures VisitFrequency(visits, store, today) == PerMonth(10 * SubmittedCount(visits, store))
  {
    FirstVisitDateSpec(visits, store);
    var n := SubmittedCount(visits, store);
    RoundHalfEvenBetween(10 * n, 1, 10 * n, 10 * n);
  }

  /** f"{rate:.1f}/month" or "No visits". */
  function FrequencyText(f: Frequency): (r: string)
    ensures r == "No visits" <==> f.NoVisits?
  {
    match f
    case NoVisits => "No visits"
    case PerMonth(t) =>
      var text := TenthsText(t) + "/month";
      assert text[|text| - 1] == 'h' && "No visits"[8] == 's';
      text
  }

  /** A count of tenths written with one decimal, as '{:.1f}' does. */
  function TenthsText(t: int): string
  {
    (if t < 0 then "-" else "") + IntToString(Abs(t) / 10) + "." + [DigitChar(Abs(t) % 10)]
  }

  function Abs(x: int): nat
  {
    if x < 0 then -x else x
  }

  /** The three ticket counts of maintenance_status. */
  datatype MaintenanceCounts = MaintenanceCounts(pending: nat, inProgress: nat, overdue: nat)

  /** visit__store=obj: the ticket was raised on a visit to the store. */
  predicate TicketAtStore(t: Ticket, visits: seq<Visit>, store: int)
  {
    var v := VisitById(visits, t.visit);
    v.Some? && v.value.store == store
  }

  /**
   * The store's tickets with the first status code, with the second, and
   * those of either whose due date has passed. admin.py uses the model's
   * 'pending'/'in_progress'.
   */
  function MaintenanceCountsFor(tickets: seq<Ticket>, visits: seq<Visit>, store: int, today: Date,
                                pendingCode: string, progressCode: string): (r: MaintenanceCounts)
    ensures r.overdue <= r.pending + r.inProgress
  {
    var p := (t: Ticket) => TicketAtStore(t, visits, store) && t.status == pendingCode;
    var ip := (t: Ticket) => TicketAtStore(t, visits, store) && t.status == progressCode;
    var od := (t: Ticket) => TicketAtStore(t, visits, store) && (t.status == pendingCode || t.status == progressCode)
                             && t.dueDate.Some? && Before(t.dueDate.value, today);
    OverdueAmongOpen(tickets, p, ip, od);
    MaintenanceCounts(Count(tickets, p), Count(tickets, ip), Count(tickets, od))
  }

  lemma {:induction false} OverdueAmongOpen(tickets: seq<Ticket>, p: Ticket -> bool, ip: Ticket -> bool, od: Ticket -> bool)
    requires forall t :: od(t) ==> p(t) || ip(t)
    ensures Count(tickets, od) <= Count(tickets, p) + Count(tickets, ip)
  {
    if tickets != [] {
      OverdueAmongOpen(tickets[1..], p, ip, od);
    }
  }

  /** StoreAdmin.maintenance_status. */
  function MaintenanceStatus(tickets: seq<Ticket>, visits: seq<Visit>, store: int, today: Date): MaintenanceCounts
  {
    MaintenanceCountsFor(tickets, visits, store, today, "pending", "in_progress")
  }

  /** A completed ticket counts nowhere, however late it was. */
  lemma CompletedTicketsNotCounted(tickets: seq<Ticket>, visits: seq<Visit>, store: int, today: Date, t: Ticket)
    requires t.status == "completed"
    ensures MaintenanceStatus(tickets + [t], visits, store, today) == MaintenanceStatus(tickets, visits, store, today)
  {
    var p := (t: Ticket) => TicketAtStore(t, visits, store) && t.status == "pending";
    var ip := (t: Ticket) => TicketAtStore(t, visits, store) && t.status == "in_progress";
    var od := (t: Ticket) => TicketAtStore(t, visits, store) && (t.status == "pending" || t.status == "in_progress")
                             && t.dueDate.Some? && Before(t.dueDate.value, today);
    CountAppend(tickets, [t], p);
    CountAppend(tickets, [t], ip);
    CountAppend(tickets, [t], od);
  }

  /** ", ".join(names): the names with a separator between neighbours. */
  function JoinWith(parts: seq<string>, sep: string): string
  {
    if parts == [] then "" else if |parts| == 1 then parts[0] else parts[0] + sep + JoinWith(parts[1..], sep)
  }

  /** The join is empty exactly for no names or one empty name. */
  lemma JoinWithEmpty(parts: seq<string>, sep: string)
    requires sep != ""
    ensures JoinWith(parts, sep) == "" <==> parts == [] || parts == [""]
  {
    if |parts| > 1 {
      assert |JoinWith(parts, sep)| >= |sep|;
    }
  }

  /** display_equipment_categories: the joined names, or '-' when that is empty. */
  function EquipmentCategoriesText(names: seq<string>): (r: string)
    ensures r == "-" || r == JoinWith(names, ", ")
    ensures r != ""
    ensures r == "-" <==> names == [] || names == [""] || JoinWith(names, ", ") == "-"
  {
    JoinWithEmpty(names, ", ");
    var joined := JoinWith(names, ", ");
    if joined == "" then "-" else joined
  }

  /** The visit with the lowest primary key: what first() takes from a queryset that has no ordering. */
  function LowestIdVisit(vs: seq<Visit>): (v: Visit)
    requires vs != []
    ensures v in vs
    ensures forall k :: 0 <= k < |vs| ==> v.id <= vs[k].id
  {
    if |vs| == 1 then vs[0]
    else
      var rest := LowestIdVisit(vs[1..]);
      assert forall k :: 1 <= k < |vs| ==> vs[k] == vs[1..][k - 1];
      if vs[0].id <= rest.id then vs[0] else rest
  }

  /**
   * StoreAdmin.last_visit_date as written: obj.visits.filter(is_draft=False).first().
   * AreaManagerVisit declares no ordering, so first() orders by primary key
   * and the column shows the date of the oldest submitted visit row; None
   * is 'No visits'.
   */
  function LastVisitShown(visits: seq<Visit>, store: int): (r: Option<Date>)
    ensures r.None? <==> SubmittedCount(visits, store) == 0
  {
    var vs := Filter(visits, SubmittedAt(store));
    if vs == [] then None else Some(LowestIdVisit(vs).date)
  }

  /** The date shown is that of the store's submitted visit with the lowest primary key. */
  lemma LastVisitShownSpec(visits: seq<Visit>, store: int)
    requires LastVisitShown(visits, store).Some?
    ensures exists v :: (v in visits && v.store == store && !v.isDraft && v.date == LastVisitShown(visits, store).value
                         && forall w :: w in visits && w.store == store && !w.isDraft ==> v.id <= w.id)
  {
    var vs := Filter(visits, SubmittedAt(store));
    var v := LowestIdVisit(vs);
    FilterMembership(visits, SubmittedAt(store), v);
    forall w | w in visits && w.store == store && !w.isDraft
      ensures v.id <= w.id
    {
      FilterMembership(visits, SubmittedAt(store), w);
    }
  }

  /** The 'Last Visit' column as evidently intended: the latest date among the store's submitted visits. */
  function LatestVisitDate(visits: seq<Visit>, store: int): (r: Option<Date>)
    ensures r.None? <==> SubmittedCount(visits, store) == 0
  {
    var vs := Filter(visits, SubmittedAt(store));
    if vs == [] then None else Some(StoreViews.LatestDate(vs))
  }

  /** The corrected column shows the date of one of the store's submitted visits, and none of them is later. */
  lemma LatestVisitDateSpec(visits: seq<Visit>, store: int)
    requires LatestVisitDate(visits, store).Some?
    ensures exists v :: v in visits && v.store == store && !v.isDraft && v.date == LatestVisitDate(visits, store).value
    ensures forall w :: w in visits && w.store == store && !w.isDraft ==> DateLe(w.date, LatestVisitDate(visits, store).value)
  {
    var vs := Filter(visits, SubmittedAt(store));
    var d := StoreViews.LatestDate(vs);
    var j :| 0 <= j < |vs| && vs[j].date == d;
    FilterMembership(visits, SubmittedAt(store), vs[j]);
    forall w | w in visits && w.store == store && !w.isDraft
      ensures DateLe(w.date, d)
    {
      FilterMembership(visits, SubmittedAt(store), w);
      var i :| 0 <= i < |vs| && vs[i] == w;
    }
  }

  /**
   * Two submitted visits to a store, the older row dated earlier (as
   * auto_now_add dates make it): the column shows the earlier date, and
   * the latest one is never shown.
   */
  lemma LastVisitShowsOldestRow(a: Visit, b: Visit)
    requires a.store == b.store && !a.isDraft && !b.isDraft
    requires a.id < b.id && Before(a.date, b.date)
    ensures LastVisitShown([a, b], a.store) == Some(a.date)
    ensures LatestVisitDate([a, b], a.store) == Some(b.date)
    ensures LastVisitShown([a, b], a.store) != LatestVisitDate([a, b], a.store)
  {
    assert Filter([a, b], SubmittedAt(a.store)) == [a, b] by {
      assert [a, b][1..] == [b];
    }
    assert [a, b][1..] == [b];
  }

  /** Colour band of compliance_score. */
  datatype Band = Green | Amber | Red

  function BandRank(b: Band): int
  {
    match b
    case Green => 2
    case Amber => 1
    case Red => 0
  }

  /** The store column: the band of the exact mean and the mean to one decimal (in tenths). */
  datatype StoreCompliance = StoreCompliance(band: Band, tenths: int)

  /** The mean of scores summing to total over count visits falls in a band: >= 80, >= 60, or below. */
  function ComplianceBand(total: int, count: int): (b: Band)
    requires count > 0
    ensures b == Green <==> total >= 80 * count
    ensures b == Amber <==> 60 * count <= total < 80 * count
    ensures b == Red <==> total < 60 * count
  {
    if total >= 80 * count then Green else if total >= 60 * count then Amber else Red
  }

  /** A higher total over the same number of visits never lands in a lower band. */
  lemma ComplianceBandMonotone(t1: int, t2: int, count: int)
    requires count > 0 && t1 <= t2
    ensures BandRank(ComplianceBand(t1, count)) <= BandRank(ComplianceBand(t2, count))
  {
  }

  /**
   * The store's compliance column as the legacy admin renders it, and as
   * the current one evidently means to: 'N/A' (None) without submitted
   * visits, otherwise the band of the exact mean and the mean to one
   * decimal, pre-formatted with an f-string before format_html sees it.
   */
  function StoreComplianceOf(items: seq<ChecklistItem>, visits: seq<Visit>, store: int): (r: Option<StoreCompliance>)
    ensures r.None? <==> Filter(visits, SubmittedAt(store)) == []
    ensures r.Some? ==> 0 <= r.value.tenths <= 1000
  {
    var vs := Filter(visits, SubmittedAt(store));
    if vs == [] then None
    else
      StoreViews.AverageTenthsBounds(items, vs);
      ScoresSumBounds(items, vs);
      Some(StoreCompliance(ComplianceBand(Sum(Scores(items, vs)), |vs|), StoreViews.AverageTenths(Scores(items, vs))))
  }

  /** Green needs a mean of at least 80, so its one-decimal figure shows at least 80.0. */
  lemma GreenShowsEighty(items: seq<ChecklistItem>, visits: seq<Visit>, store: int)
    requires StoreComplianceOf(items, visits, store).Some?
    requires StoreComplianceOf(items, visits, store).value.band == Green
    ensures StoreComplianceOf(items, visits, store).value.tenths >= 800
  {
    var vs := Filter(visits, SubmittedAt(store));
    var total := Sum(Scores(items, vs));
    assert 10 * total >= 800 * |vs|;
    RoundHalfEvenMonotone(800 * |vs|, 10 * total, |vs|);
    RoundHalfEvenBetween(800 * |vs|, |vs|, 800, 800);
  }

  const SafeStringFormatError: string := "Unknown format code 'f' for object of type 'SafeString'"

  /**
   * StoreAdmin.compliance_score as written. format_html passes every
   * argument through conditional_escape, which turns the float mean into a
   * SafeString, and the '{:.1f}' in the template then raises ValueError on
   * a string. Only 'N/A' ever renders; a store with a submitted visit
   * makes the column raise.
   */
  function ComplianceScoreColumn(items: seq<ChecklistItem>, visits: seq<Visit>, store: int)
    : (r: Result<Option<StoreCompliance>, string>)
    ensures r.Ok? <==> Filter(visits, SubmittedAt(store)) == []
    ensures r.Ok? ==> r.value.None?
    ensures r.Err? ==> r.error == SafeStringFormatError
  {
    if Filter(visits, SubmittedAt(store)) == [] then Ok(None)
    else Err(SafeStringFormatError)
  }

  /**
   * Wherever the working column shows a figure, the current one raises;
   * where it shows 'N/A', so does the current one.
   */
  lemma ComplianceColumnRaisesWhereFigureShown(items: seq<ChecklistItem>, visits: seq<Visit>, store: int)
    ensures StoreComplianceOf(items, visits, store).Some? <==> ComplianceScoreColumn(items, visits, store).Err?
    ensures StoreComplianceOf(items, visits, store).None? ==> ComplianceScoreColumn(items, visits, store) == Ok(None)
  {
  }

  /** StoreAdmin.action_items_count: the store's action items still open. */
  function OpenActionCount(actions: seq<ActionItem>, visits: seq<Visit>, store: int): nat
  {
    Count(actions, (a: ActionItem) => a.status == "open" && (var v := VisitById(visits, a.visit); v.Some? && v.value.store == store))
  }

  // ---------------------------------------------------------------------
  // AreaManagerVisitAdmin
  // ---------------------------------------------------------------------

  /** The badge of calculate_score_display. */
  datatype ScoreBadge = Excellent | Good | Fair | Poor

  function ScoreBadgeRank(b: ScoreBadge): int
  {
    match b
    case Excellent => 3
    case Good => 2
    case Fair => 1
    case Poor => 0
  }

  /** Bands at 90, 75 and 60. */
  function ScoreBadgeOf(score: int): (b: ScoreBadge)
    ensures b == Excellent <==> score >= 90
    ensures b == Good <==> 75 <= score < 90
    ensures b == Fair <==> 60 <= score < 75
    ensures b == Poor <==> score < 60
  {
    if score >= 90 then Excellent else if score >= 75 then Good else if score >= 60 then Fair else Poor
  }

  /** A higher score never earns a lower badge; a visit of all yes answers earns the top one, an empty visit the bottom one. */
  lemma ScoreBadgeMonotone(s1: int, s2: int, items: seq<ChecklistItem>)
    requires s1 <= s2
    ensures ScoreBadgeRank(ScoreBadgeOf(s1)) <= ScoreBadgeRank(ScoreBadgeOf(s2))
    ensures items != [] && Count(items, Yes) == |items| ==> ScoreBadgeOf(CalculateScore(items)) == Excellent
    ensures ScoreBadgeOf(CalculateScore([])) == Poor
  {
    if items != [] {
      ScoreExtremes(items);
    }
  }

  /**
   * compliant_items: "c / t (p%)" with p the percentage to no decimals,
   * "0 / 0" for a visit without items.
   */
  function CompliantItemsText(items: seq<ChecklistItem>): string
  {
    var c, t := Count(items, Yes), |items|;
    if t > 0 then IntToString(c) + " / " + IntToString(t) + " (" + IntToString(CompliancePercent(c, t)) + "%)"
    else "0 / 0"
  }

  /** The percentage shown is the visit's own score, and an empty visit shows "0 / 0". */
  lemma CompliantItemsShowsScore(items: seq<ChecklistItem>)
    ensures items == [] ==> CompliantItemsText(items) == "0 / 0"
    ensures items != [] ==> (CompliantItemsText(items) ==
      IntToString(Count(items, Yes)) + " / " + IntToString(|items|) + " (" + IntToString(CalculateScore(items)) + "%)")
  {
    CompliancePercentIsScore(items);
  }

  /** queryset.update(is_draft=False). */
  function MarkSubmitted(visits: seq<Visit>, selected: set<int>): (r: seq<Visit>)
    ensures |r| == |visits|
    ensures forall k :: 0 <= k < |visits| ==>
      && r[k].isDraft == (visits[k].isDraft && visits[k].id !in selected)
      && r[k].(isDraft := visits[k].isDraft) == visits[k]
  {
    seq(|visits|, k requires 0 <= k < |visits| =>
      if visits[k].id in selected then visits[k].(isDraft := false) else visits[k])
  }

  /** Once every visit is marked complete, every visit counts in the site average. */
  lemma MarkSubmittedAll(visits: seq<Visit>, selected: set<int>)
    requires forall k :: 0 <= k < |visits| ==> visits[k].id in selected
    ensures SubmittedVisits(MarkSubmitted(visits, selected)) == MarkSubmitted(visits, selected)
  {
    FilterAll(MarkSubmitted(visits, selected), IsSubmitted);
  }

  /** AreaManagerVisitAdmin.mark_as_complete. */
  method MarkAsComplete(db: Db.Database, selected: set<int>) returns (updated: nat)
    modifies db`visits
    ensures db.visits == MarkSubmitted(old(db.visits), selected)
    ensures updated == Count(old(db.visits), (v: Visit) => v.id in selected)
    ensures old(db.Valid()) ==> db.Valid()
  {
    updated := Count(db.visits, (v: Visit) => v.id in selected);
    db.visits := MarkSubmitted(db.visits, selected);
    if old(db.Valid()) {
      SameOwnersKeepBelow(old(db.visits), db.visits, Db.VisitId, db.nextVisitId);
    }
  }

  // ---------------------------------------------------------------------
  // ChecklistItemAdmin and the previews
  // ---------------------------------------------------------------------

  /** text[:n] + '...' when longer than n, the text itself otherwise. */
  function Preview(s: string, n: nat): (r: string)
    ensures |s| <= n ==> r == s
    ensures |s| > n ==> |r| == n + 3 && r[..n] == s[..n] && r[n..] == "..."
  {
    if |s| > n then s[..n] + "..." else s
  }

  /**
   * A preview is never longer than n + 3 and previewing it again changes
   * nothing; it is the text itself exactly when the text fits, or when the
   * text already ends in '...' right after n characters.
   */
  lemma PreviewSpec(s: string, n: nat)
    ensures |Preview(s, n)| <= n + 3
    ensures Preview(Preview(s, n), n) == Preview(s, n)
    ensures Preview(s, n) == s <==> |s| <= n || (|s| == n + 3 && s[n..] == "...")
  {
    if |s| > n {
      var r := Preview(s, n);
      assert r == r[..n] + r[n..];
    }
  }

  /** get_category: '-' for an item without a question. */
  function GetCategory(it: ChecklistItem, qs: seq<Question>, cats: seq<Category>): (r: string)
    ensures it.question.None? ==> r == "-"
  {
    if it.question.None? then "-"
    else
      var q := QuestionById(qs, it.question.value);
      if q.None? then "-" else CategoryName(cats, q.value.category)
  }

  /** get_question_number: the number, or '-' for an item without a question. */
  function GetQuestionNumber(it: ChecklistItem, qs: seq<Question>): (r: string)
    ensures it.question.None? ==> r == "-"
  {
    if it.question.None? then "-"
    else
      var q := QuestionById(qs, it.question.value);
      if q.None? then "-" else IntToString(q.value.number)
  }

  /** get_question_text_preview: 50 characters, '-' without a question or with empty text. */
  function QuestionPreview(it: ChecklistItem, qs: seq<Question>): (r: string)
    ensures r == "-" || |r| <= 53
  {
    if it.question.None? then "-"
    else
      var q := QuestionById(qs, it.question.value);
      if q.None? || q.value.text == "" then "-" else (PreviewSpec(q.value.text, 50); Preview(q.value.text, 50))
  }

  /** comment_preview: 30 characters, '-' for an empty comment. */
  function CommentPreview(comment: string): (r: string)
    ensures comment == "" <==> r == "-" && comment != "-"
    ensures r != ""
  {
    if comment == "" then "-" else Preview(comment, 30)
  }

  // ---------------------------------------------------------------------
  // ActionPlanItemAdmin
  // ---------------------------------------------------------------------

  /** issue_description_preview: 60 characters, no placeholder. */
  function IssuePreview(what: string): string
  {
    Preview(what, 60)
  }

  const DefaultColor: string := "#6c757d"

  /** The colour of an action status, grey for any value outside the choices. */
  function ActionStatusColor(status: string): (r: string)
    ensures r == DefaultColor <==> status !in ActionStatusChoices
  {
    if status == "open" then "#dc3545"
    else if status == "in_progress" then "#ffc107"
    else if status == "closed" then "#28a745"
    else DefaultColor
  }

  /** The priority marker: red, yellow, green circles, white for anything else. */
  function PriorityIndicator(priority: string): (r: string)
    ensures r == "\U{26AA}" <==> priority !in PriorityChoices
  {
    if priority == "high" then "\U{1F534}"
    else if priority == "medium" then "\U{1F7E1}"
    else if priority == "low" then "\U{1F7E2}"
    else "\U{26AA}"
  }

  /** queryset.update(status=status) on action items. */
  function SetActionStatus(actions: seq<ActionItem>, selected: set<int>, status: string): (r: seq<ActionItem>)
    ensures |r| == |actions|
    ensures forall k :: 0 <= k < |actions| ==>
      && r[k].status == (if actions[k].id in selected then status else actions[k].status)
      && r[k].(status := actions[k].status) == actions[k]
  {
    seq(|actions|, k requires 0 <= k < |actions| =>
      if actions[k].id in selected then actions[k].(status := status) else actions[k])
  }

  /** ActionPlanItemAdmin.mark_as_closed. */
  method MarkActionsClosed(db: Db.Database, selected: set<int>) returns (updated: nat)
    modifies db`actions
    ensures db.actions == SetActionStatus(old(db.actions), selected, "closed")
    ensures updated == Count(old(db.actions), (a: ActionItem) => a.id in selected)
    ensures old(db.Valid()) ==> db.Valid()
  {
    updated := Count(db.actions, (a: ActionItem) => a.id in selected);
    db.actions := SetActionStatus(db.actions, selected, "closed");
    if old(db.Valid()) {
      SameOwnersKeepBelow(old(db.actions), db.actions, Db.ActionVisit, db.nextVisitId);
    }
  }

  /** ActionPlanItemAdmin.mark_as_in_progress. */
  method MarkActionsInProgress(db: Db.Database, selected: set<int>) returns (updated: nat)
    modifies db`actions
    ensures db.actions == SetActionStatus(old(db.actions), selected, "in_progress")
    ensures updated == Count(old(db.actions), (a: ActionItem) => a.id in selected)
    ensures old(db.Valid()) ==> db.Valid()
  {
    updated := Count(db.actions, (a: ActionItem) => a.id in selected);
    db.actions := SetActionStatus(db.actions, selected, "in_progress");
    if old(db.Valid()) {
      SameOwnersKeepBelow(old(db.actions), db.actions, Db.ActionVisit, db.nextVisitId);
    }
  }

  /**
   * Both actions write a status among the choices, so valid statuses stay
   * valid; and closing items never raises a store's open count, closing
   * all of them brings it to 0.
   */
  lemma {:induction false} SetActionStatusSpec(actions: seq<ActionItem>, visits: seq<Visit>, selected: set<int>, store: int)
    ensures forall k :: 0 <= k < |actions| && actions[k].status in ActionStatusChoices ==>
      SetActionStatus(actions, selected, "closed")[k].status in ActionStatusChoices
    ensures OpenActionCount(SetActionStatus(actions, selected, "closed"), visits, store) <= OpenActionCount(actions, visits, store)
    ensures (forall k :: 0 <= k < |actions| ==> actions[k].id in selected) ==>
      OpenActionCount(SetActionStatus(actions, selected, "closed"), visits, store) == 0
  {
    if actions != [] {
      SetActionStatusSpec(actions[1..], visits, selected, store);
      assert SetActionStatus(actions, selected, "closed")[1..] == SetActionStatus(actions[1..], selected, "closed");
    }
  }

  // ---------------------------------------------------------------------
  // MaintenanceTicketAdmin
  // ---------------------------------------------------------------------

  /** The colour of a ticket status, grey for any value outside the choices. */
  function TicketStatusColor(status: string): (r: string)
    ensures r == DefaultColor <==> status !in TicketStatusChoices
  {
    if status == "pending" then "#dc3545"
    else if status == "in_progress" then "#ffc107"
    else if status == "completed" then "#28a745"
    else DefaultColor
  }

  /** is_overdue_display: 'Yes' (true) for a past due date on a ticket not completed. */
  function IsOverdueDisplay(t: Ticket, today: Date): (r: bool)
    ensures t.status == "completed" || t.dueDate.None? ==> !r
  {
    t.dueDate.Some? && t.status != "completed" && Before(t.dueDate.value, today)
  }

  /**
   * On the model's statuses the column and MaintenanceTicket.is_overdue
   * agree except on completed tickets, which the column clears and the
   * model still reports.
   */
  lemma OverdueDisplayVersusModel(t: Ticket, today: Date)
    requires t.status in TicketStatusChoices
    ensures IsOverdueDisplay(t, today) <==> TicketIsOverdue(t, today) && t.status != "completed"
  {
  }

  /** queryset.update(status=status) on tickets (closed_date is not part of the model). */
  function SetTicketStatus(tickets: seq<Ticket>, selected: set<int>, status: string): (r: seq<Ticket>)
    ensures |r| == |tickets|
    ensures forall k :: 0 <= k < |tickets| ==>
      && r[k].status == (if tickets[k].id in selected then status else tickets[k].status)
      && r[k].(status := tickets[k].status) == tickets[k]
  {
    seq(|tickets|, k requires 0 <= k < |tickets| =>
      if tickets[k].id in selected then tickets[k].(status := status) else tickets[k])
  }

  /** MaintenanceTicketAdmin.mark_as_completed. */
  method MarkTicketsCompleted(db: Db.Database, selected: set<int>) returns (updated: nat)
    modifies db`tickets
    ensures db.tickets == SetTicketStatus(old(db.tickets), selected, "completed")
    ensures updated == Count(old(db.tickets), (t: Ticket) => t.id in selected)
    ensures old(db.Valid()) ==> db.Valid()
  {
    updated := Count(db.tickets, (t: Ticket) => t.id in selected);
    db.tickets := SetTicketStatus(db.tickets, selected, "completed");
    if old(db.Valid()) {
      SameOwnersKeepBelow(old(db.tickets), db.tickets, Db.TicketVisit, db.nextVisitId);
    }
  }

  /** MaintenanceTicketAdmin.mark_as_in_progress. */
  method MarkTicketsInProgress(db: Db.Database, selected: set<int>) returns (updated: nat)
    modifies db`tickets
    ensures db.tickets == SetTicketStatus(old(db.tickets), selected, "in_progress")
    ensures updated == Count(old(db.tickets), (t: Ticket) => t.id in selected)
    ensures old(db.Valid()) ==> db.Valid()
  {
    updated := Count(db.tickets, (t: Ticket) => t.id in selected);
    db.tickets := SetTicketStatus(db.tickets, selected, "in_progress");
    if old(db.Valid()) {
      SameOwnersKeepBelow(old(db.tickets), db.tickets, Db.TicketVisit, db.nextVisitId);
    }
  }

  /** After mark_as_completed no selected ticket shows as overdue, while the model's is_overdue may still say so. */
  lemma CompletedNotShownOverdue(tickets: seq<Ticket>, selected: set<int>, today: Date, k: int)
    requires 0 <= k < |tickets| && tickets[k].id in selected
    ensures !IsOverdueDisplay(SetTicketStatus(tickets, selected, "completed")[k], today)
    ensures tickets[k].dueDate.Some? && Before(tickets[k].dueDate.value, today) ==>
      TicketIsOverdue(SetTicketStatus(tickets, selected, "completed")[k], today)
  {
  }
}

=== FILE: admin_legacy.dfy ===
/**
 * The older admin variant (checklist/admin1.py), which the URL
 * configuration never imports. Where it matches checklist/admin.py the
 * AdminSite members stand for it; this module holds what differs: the
 * ticket codes 'N'/'IP'/'C', the narrower 'Is Active' parse, the store
 * lookups through a field the visit does not have, the action items marked
 * 'completed', and the previews without a '-' fallback.
 */
module LegacyAdmin {
  import opened Common
  import opened Dates
  import opened Models
  import opened Users
  import opened Queries
  import Sorting
  import Db
  import AdminSite
  import QuestionImport
  import ChecklistViews

  // ---------------------------------------------------------------------
  // CaribouAdminSite.dashboard_view
  // ---------------------------------------------------------------------

  /** MaintenanceTicket.objects.exclude(status=closedCode).count(). */
  function OpenTicketCount(tickets: seq<Ticket>, closedCode: string): (n: nat)
    ensures n <= |tickets|
  {
    Count(tickets, (t: Ticket) => t.status != closedCode)
  }

  /**
   * The legacy dashboard excludes 'C', a code no ticket carries, so it
   * counts every ticket with a model status as open, completed ones
   * included; the current dashboard, excluding 'completed', drops exactly
   * those.
   */
  lemma {:induction false} OpenTicketCountCodes(tickets: seq<Ticket>)
    requires forall k :: 0 <= k < |tickets| ==> tickets[k].status in TicketStatusChoices
    ensures OpenTicketCount(tickets, "C") == |tickets|
    ensures OpenTicketCount(tickets, "completed") + Count(tickets, (t: Ticket) => t.status == "completed") == |tickets|
  {
    if tickets != [] {
      OpenTicketCountCodes(tickets[1..]);
    }
  }

  // ---------------------------------------------------------------------
  // StoreAdmin: the queryset and the view permission
  // ---------------------------------------------------------------------

  /** The FieldError a lookup through a field the model lacks raises. */
  datatype QueryError = UnknownField(name: string)

  /**
   * StoreAdmin.get_queryset: every store, by name (the ordering ['name']),
   * for a superuser; for anyone else
   * the lookup visits__user names a field the visit does not have (the
   * visit's user is its manager), so the query raises.
   */
  function LegacyAdminStores(stores: seq<Store>, u: User): (r: Result<seq<Store>, QueryError>)
    ensures r.Ok? <==> u.isSuperuser
    ensures r.Err? ==> r.error == UnknownField("user")
  {
    if u.isSuperuser then Ok(Sorting.SortBy(stores, AdminSite.StoreNameLe)) else Err(UnknownField("user"))
  }

  /** StoreAdmin.has_view_permission: true for a superuser or the changelist, a raise for one store otherwise. */
  function LegacyHasViewPermission(u: User, obj: Option<Store>): (r: Result<bool, QueryError>)
    ensures r.Err? <==> !u.isSuperuser && obj.Some?
    ensures r.Ok? ==> r.value
  {
    if u.isSuperuser || obj.None? then Ok(true) else Err(UnknownField("user"))
  }

  /**
   * Where the legacy lookups answer at all, they answer as the current
   * StoreAdmin does; everyone but a superuser fails on the list and on
   * every single store.
   */
  lemma LegacyStoreAccessVersusCurrent(stores: seq<Store>, visits: seq<Visit>, u: User, obj: Option<Store>)
    ensures LegacyAdminStores(stores, u).Ok? ==> LegacyAdminStores(stores, u).value == AdminSite.AdminStores(stores, visits, u)
    ensures LegacyHasViewPermission(u, obj).Ok? ==>
      LegacyHasViewPermission(u, obj).value == AdminSite.HasViewPermission(visits, u, obj)
  {
  }

  // ---------------------------------------------------------------------
  // StoreAdmin: computed columns
  // ---------------------------------------------------------------------

  /** maintenance_status with the codes 'N' and 'IP'. */
  function LegacyMaintenanceStatus(tickets: seq<Ticket>, visits: seq<Visit>, store: int, today: Date): (r: AdminSite.MaintenanceCounts)
    ensures r.overdue <= r.pending + r.inProgress
  {
    AdminSite.MaintenanceCountsFor(tickets, visits, store, today, "N", "IP")
  }

  /** Count is 0 when no element meets the predicate. */
  lemma CountNone<T>(s: seq<T>, p: T -> bool)
    requires forall i :: 0 <= i < |s| ==> !p(s[i])
    ensures Count(s, p) == 0
  {
    FilterNone(s, p);
  }

  /**
   * Since no ticket carries 'N' or 'IP', the legacy column shows three
   * zeros for every store whatever its tickets.
   */
  lemma LegacyMaintenanceStatusAlwaysZero(tickets: seq<Ticket>, visits: seq<Visit>, store: int, today: Date)
    requires forall k :: 0 <= k < |tickets| ==> tickets[k].status in TicketStatusChoices
    ensures LegacyMaintenanceStatus(tickets, visits, store, today) == AdminSite.MaintenanceCounts(0, 0, 0)
  {
    var p := (t: Ticket) => AdminSite.TicketAtStore(t, visits, store) && t.status == "N";
    var ip := (t: Ticket) => AdminSite.TicketAtStore(t, visits, store) && t.status == "IP";
    var od := (t: Ticket) => AdminSite.TicketAtStore(t, visits, store) && (t.status == "N" || t.status == "IP")
                             && t.dueDate.Some? && Before(t.dueDate.value, today);
    CountNone(tickets, p);
    CountNone(tickets, ip);
    CountNone(tickets, od);
  }

  /** display_equipment_categories: the joined names, with no '-' for an empty join. */
  function LegacyEquipmentCategoriesText(names: seq<string>): (r: string)
    ensures r == "" <==> names == [] || names == [""]
    ensures r != "" ==> r == AdminSite.EquipmentCategoriesText(names)
  {
    AdminSite.JoinWithEmpty(names, ", ");
    AdminSite.JoinWith(names, ", ")
  }

  // ---------------------------------------------------------------------
  // ChecklistItemAdmin: the columns without a fallback
  // ---------------------------------------------------------------------

  /**
   * The question an item's columns read through; None where obj.question
   * is None and reading its attributes raises.
   */
  function ItemQuestion(it: ChecklistItem, qs: seq<Question>): Option<Question>
  {
    if it.question.None? then None else QuestionById(qs, it.question.value)
  }

  /** get_category: the category name, or a raise (None) for an item without a question. */
  function LegacyGetCategory(it: ChecklistItem, qs: seq<Question>, cats: seq<Category>): (r: Option<string>)
    ensures r.None? <==> ItemQuestion(it, qs).None?
    ensures r.Some? ==> r.value == AdminSite.GetCategory(it, qs, cats)
  {
    var q := ItemQuestion(it, qs);
    if q.None? then None else Some(CategoryName(cats, q.value.category))
  }

  /** get_question_number: the number, or a raise (None) for an item without a question. */
  function LegacyGetQuestionNumber(it: ChecklistItem, qs: seq<Question>): (r: Option<string>)
    ensures r.None? <==> ItemQuestion(it, qs).None?
    ensures r.Some? ==> r.value == AdminSite.GetQuestionNumber(it, qs)
  {
    var q := ItemQuestion(it, qs);
    if q.None? then None else Some(IntToString(q.value.number))
  }

  /**
   * get_question_text_preview: the 50-character preview, a raise (None)
   * without a question, and the empty text shown empty where the current
   * column shows '-'.
   */
  function LegacyQuestionPreview(it: ChecklistItem, qs: seq<Question>): (r: Option<string>)
    ensures r.None? <==> ItemQuestion(it, qs).None?
    ensures r.Some? && ItemQuestion(it, qs).value.text != "" ==> r.value == AdminSite.QuestionPreview(it, qs)
    ensures r.Some? && ItemQuestion(it, qs).value.text == "" ==> r.value == "" && AdminSite.QuestionPreview(it, qs) == "-"
  {
    var q := ItemQuestion(it, qs);
    if q.None? then None else Some(AdminSite.Preview(q.value.text, 50))
  }

  // ---------------------------------------------------------------------
  // status_display with the codes 'N', 'IP', 'C'
  // ---------------------------------------------------------------------

  /** status_map.get(status, status). */
  function LegacyStatusLabel(status: string): (r: string)
    ensures status !in ["N", "IP", "C"] ==> r == status
    ensures status in ["N", "IP", "C"] ==> r in ["New", "In Progress", "Closed"]
  {
    if status == "N" then "New"
    else if status == "IP" then "In Progress"
    else if status == "C" then "Closed"
    else status
  }

  /** colors.get(status, '#6c757d'). */
  function LegacyStatusColor(status: string): (r: string)
    ensures r == AdminSite.DefaultColor <==> status !in ["N", "IP", "C"]
  {
    if status == "N" then "#dc3545"
    else if status == "IP" then "#ffc107"
    else if status == "C" then "#28a745"
    else AdminSite.DefaultColor
  }

  /**
   * On every status an action item or a ticket can hold, the legacy column
   * shows the raw code in grey: none of the model's statuses is among its
   * codes.
   */
  lemma LegacyStatusOnModelStatuses(status: string)
    requires status in ActionStatusChoices || status in TicketStatusChoices
    ensures LegacyStatusLabel(status) == status
    ensures LegacyStatusColor(status) == AdminSite.DefaultColor
  {
  }

  // ---------------------------------------------------------------------
  // MaintenanceTicketAdmin.status_display
  // ---------------------------------------------------------------------

  /** The ticket colour: green for 'completed', yellow for 'in_progress', red for anything else. */
  function LegacyTicketStatusColor(status: string): (r: string)
    ensures r == "#dc3545" <==> status != "completed" && status != "in_progress"
  {
    if status == "completed" then "#28a745"
    else if status == "in_progress" then "#ffc107"
    else "#dc3545"
  }

  /**
   * On the ticket statuses the legacy colour is the current one; any other
   * value shows red where the current column shows grey.
   */
  lemma LegacyTicketColorVersusCurrent(status: string)
    ensures status in TicketStatusChoices ==> LegacyTicketStatusColor(status) == AdminSite.TicketStatusColor(status)
    ensures status !in TicketStatusChoices ==>
      LegacyTicketStatusColor(status) == "#dc3545" && AdminSite.TicketStatusColor(status) == AdminSite.DefaultColor
  {
  }

  // ---------------------------------------------------------------------
  // The module-level ticket helpers. They take self like admin methods but
  // no admin class binds them, so no page shows them.
  // ---------------------------------------------------------------------

  /** is_overdue: a due date in the past on a ticket whose status is not 'C'. */
  function LegacyIsOverdue(t: Ticket, today: Date): (r: bool)
    ensures r == TicketIsOverdue(t, today)
  {
    t.status != "C" && t.dueDate.Some? && Before(t.dueDate.value, today)
  }

  /** mark_as_completed: the selected tickets take 'C' (closed_date is not part of the model). */
  method LegacyMarkTicketsCompleted(db: Db.Database, selected: set<int>) returns (updated: nat)
    modifies db`tickets
    ensures db.tickets == AdminSite.SetTicketStatus(old(db.tickets), selected, "C")
    ensures updated == Count(old(db.tickets), (t: Ticket) => t.id in selected)
    ensures old(db.Valid()) ==> db.Valid()
  {
    updated := Count(db.tickets, (t: Ticket) => t.id in selected);
    db.tickets := AdminSite.SetTicketStatus(db.tickets, selected, "C");
    if old(db.Valid()) {
      SameOwnersKeepBelow(old(db.tickets), db.tickets, Db.TicketVisit, db.nextVisitId);
    }
  }

  /** mark_as_in_progress: the selected tickets take 'IP'. */
  method LegacyMarkTicketsInProgress(db: Db.Database, selected: set<int>) returns (updated: nat)
    modifies db`tickets
    ensures db.tickets == AdminSite.SetTicketStatus(old(db.tickets), selected, "IP")
    ensures updated == Count(old(db.tickets), (t: Ticket) => t.id in selected)
    ensures old(db.Valid()) ==> db.Valid()
  {
    updated := Count(db.tickets, (t: Ticket) => t.id in selected);
    db.tickets := AdminSite.SetTicketStatus(db.tickets, selected, "IP");
    if old(db.Valid()) {
      SameOwnersKeepBelow(old(db.tickets), db.tickets, Db.TicketVisit, db.nextVisitId);
    }
  }

  /**
   * Marking a ticket 'C' is the one way to clear the model's overdue flag,
   * but it leaves the status choices, and the current admin column, which
   * looks for 'completed', still shows a late ticket as overdue.
   */
  lemma LegacyCompletedClearsModelFlag(tickets: seq<Ticket>, selected: set<int>, today: Date, k: int)
    requires 0 <= k < |tickets| && tickets[k].id in selected
    ensures !TicketIsOverdue(AdminSite.SetTicketStatus(tickets, selected, "C")[k], today)
    ensures AdminSite.SetTicketStatus(tickets, selected, "C")[k].status !in TicketStatusChoices
    ensures tickets[k].dueDate.Some? && Before(tickets[k].dueDate.value, today) ==>
      AdminSite.IsOverdueDisplay(AdminSite.SetTicketStatus(tickets, selected, "C")[k], today)
  {
  }

  // ---------------------------------------------------------------------
  // ActionPlanItemAdmin.mark_as_completed
  // ---------------------------------------------------------------------

  /** mark_as_completed: the selected action items take 'completed'. */
  method LegacyMarkActionsCompleted(db: Db.Database, selected: set<int>) returns (updated: nat)
    modifies db`actions
    ensures db.actions == AdminSite.SetActionStatus(old(db.actions), selected, "completed")
    ensures updated == Count(old(db.actions), (a: ActionItem) => a.id in selected)
    ensures old(db.Valid()) ==> db.Valid()
  {
    updated := Count(db.actions, (a: ActionItem) => a.id in selected);
    db.actions := AdminSite.SetActionStatus(db.actions, selected, "completed");
    if old(db.Valid()) {
      SameOwnersKeepBelow(old(db.actions), db.actions, Db.ActionVisit, db.nextVisitId);
    }
  }

  /**
   * 'completed' is not an action status: every selected item leaves the
   * choices and shows grey, though it does leave the store's open count,
   * which falls to 0 when every item is selected.
   */
  lemma {:induction false} LegacyCompletedActions(actions: seq<ActionItem>, visits: seq<Visit>, selected: set<int>, store: int)
    ensures forall k :: 0 <= k < |actions| && actions[k].id in selected ==>
      && AdminSite.SetActionStatus(actions, selected, "completed")[k].status !in ActionStatusChoices
      && AdminSite.ActionStatusColor(AdminSite.SetActionStatus(actions, selected, "completed")[k].status) == AdminSite.DefaultColor
    ensures AdminSite.OpenActionCount(AdminSite.SetActionStatus(actions, selected, "completed"), visits, store)
      <= AdminSite.OpenActionCount(actions, visits, store)
    ensures (forall k :: 0 <= k < |actions| ==> actions[k].id in selected) ==>
      AdminSite.OpenActionCount(AdminSite.SetActionStatus(actions, selected, "completed"), visits, store) == 0
  {
    if actions != [] {
      LegacyCompletedActions(actions[1..], visits, selected, store);
      assert AdminSite.SetActionStatus(actions, selected, "completed")[1..] == AdminSite.SetActionStatus(actions[1..], selected, "completed");
    }
  }

  // ---------------------------------------------------------------------
  // ChecklistQuestionAdmin.import_questions
  // ---------------------------------------------------------------------

  /** row['Is Active'].lower() in ('true', 'yes', '1'). */
  function LegacyParseIsActive(value: string): bool
  {
    AsciiLower(value) in ["true", "yes", "1"]
  }

  /** The two parsers disagree exactly on the spellings of 'y', which only the current one accepts. */
  lemma ParsersDifferOnlyOnY(s: string)
    ensures QuestionImport.ParseIsActive(s) <==> LegacyParseIsActive(s) || AsciiLower(s) == "y"
    ensures QuestionImport.ParseIsActive(s) != LegacyParseIsActive(s) <==> AsciiLower(s) == "y"
  {
  }

  /** import_questions with the legacy flag parser: the same transaction, reporting only success or failure. */
  method LegacyImportQuestions(db: Db.Database, rows: seq<QuestionImport.CsvRow>) returns (imported: bool)
    modifies db`categories, db`questions, db`nextCategoryId, db`nextQuestionId
    ensures var outcome := QuestionImport.ImportAll(QuestionImport.ImportState(old(db.categories), old(db.questions),
                                                    old(db.nextCategoryId), old(db.nextQuestionId)), rows, LegacyParseIsActive);
      && imported == outcome.Ok?
      && (outcome.Err? ==>
            db.categories == old(db.categories) && db.questions == old(db.questions)
            && db.nextCategoryId == old(db.nextCategoryId) && db.nextQuestionId == old(db.nextQuestionId))
      && (outcome.Ok? ==>
            QuestionImport.ImportState(db.categories, db.questions, db.nextCategoryId, db.nextQuestionId) == outcome.value)
  {
    var r := QuestionImport.ImportQuestions(db, rows, LegacyParseIsActive);
    imported := r.Ok?;
  }

  /** Two import states that differ at most in the flags of their questions. */
  predicate SameButFlags(a: QuestionImport.ImportState, b: QuestionImport.ImportState)
  {
    && a.categories == b.categories
    && a.nextCategoryId == b.nextCategoryId && a.nextQuestionId == b.nextQuestionId
    && |a.questions| == |b.questions|
    && forall k :: 0 <= k < |a.questions| ==> a.questions[k].(isActive := b.questions[k].isActive) == b.questions[k]
  }

  /** Two import outcomes with the same error, or states that differ at most in the flags. */
  predicate Alike(x: Result<QuestionImport.ImportState, QuestionImport.ImportError>,
                  y: Result<QuestionImport.ImportState, QuestionImport.ImportError>)
  {
    && (x.Ok? <==> y.Ok?)
    && (x.Err? && y.Err? ==> x.error == y.error)
    && (x.Ok? && y.Ok? ==> SameButFlags(x.value, y.value))
  }

  lemma ImportRowAlike(a: QuestionImport.ImportState, b: QuestionImport.ImportState, row: QuestionImport.CsvRow, n: nat,
                       f: string -> bool, g: string -> bool)
    requires SameButFlags(a, b)
    ensures Alike(QuestionImport.ImportRow(a, row, n, f), QuestionImport.ImportRow(b, row, n, g))
  {
    var x := QuestionImport.ImportRow(a, row, n, f);
    var y := QuestionImport.ImportRow(b, row, n, g);
    if x.Ok? && y.Ok? {
      assert |x.value.questions| == |a.questions| + 1;
      forall k | 0 <= k < |x.value.questions|
        ensures x.value.questions[k].(isActive := y.value.questions[k].isActive) == y.value.questions[k]
      {
        if k < |a.questions| {
          assert x.value.questions[k] == a.questions[k] && y.value.questions[k] == b.questions[k];
        }
      }
    }
  }

  /**
   * Whatever the flag parser, an import fails at the same row with the
   * same error, or succeeds with the same categories, the same counters
   * and the same questions apart from their flags: the two variants of
   * import_questions differ only in is_active.
   */
  lemma {:induction false} ImportAllAlike(st: QuestionImport.ImportState, rows: seq<QuestionImport.CsvRow>,
                                          f: string -> bool, g: string -> bool)
    ensures Alike(QuestionImport.ImportAll(st, rows, f), QuestionImport.ImportAll(st, rows, g))
    decreases |rows|
  {
    if rows != [] {
      var front := rows[..|rows| - 1];
      ImportAllAlike(st, front, f, g);
      var x := QuestionImport.ImportAll(st, front, f);
      var y := QuestionImport.ImportAll(st, front, g);
      if x.Ok? {
        ImportRowAlike(x.value, y.value, rows[|rows| - 1], |rows|, f, g);
      }
    }
  }

  /** No row's 'Is Active' field is a spelling of 'y'. */
  predicate NoYFlags(rows: seq<QuestionImport.CsvRow>)
  {
    forall k :: 0 <= k < |rows| && QuestionImport.ActiveColumn in rows[k] && rows[k][QuestionImport.ActiveColumn].Some? ==>
      AsciiLower(rows[k][QuestionImport.ActiveColumn].value) != "y"
  }

  /** A file without a 'y' flag imports to the very same tables under either variant. */
  lemma {:induction false} ImportSameWithoutY(st: QuestionImport.ImportState, rows: seq<QuestionImport.CsvRow>)
    requires NoYFlags(rows)
    ensures QuestionImport.ImportAll(st, rows, LegacyParseIsActive) == QuestionImport.ImportAll(st, rows, QuestionImport.ParseIsActive)
    decreases |rows|
  {
    if rows != [] {
      var front := rows[..|rows| - 1];
      assert forall k :: 0 <= k < |front| ==> front[k] == rows[k];
      ImportSameWithoutY(st, front);
      var row := rows[|rows| - 1];
      if QuestionImport.ActiveColumn in row && row[QuestionImport.ActiveColumn].Some? {
        ParsersDifferOnlyOnY(row[QuestionImport.ActiveColumn].value);
      }
    }
  }
}

=== FILE: admin_stores.dfy ===
/**
 * The assign_admin_stores management command
 * (checklist/management/commands/assign_admin_stores.py): every superuser
 * with a profile gets the active stores as the profile's store set; a
 * superuser without a profile is reported and left alone.
 */
module AdminStoreAssignment {
  import opened Common
  import opened Models
  import opened Users
  import Db

  /** Store.objects.filter(is_active=True), as the ids that stores.set() stores. */
  function ActiveStoreIds(stores: seq<Store>): set<int>
  {
    set k | 0 <= k < |stores| && stores[k].isActive :: stores[k].id
  }

  /** admin.profile.stores.set(stores) for a superuser with a profile; anyone else unchanged. */
  function WithStores(u: User, ids: set<int>): (r: User)
    ensures r.id == u.id && r.username == u.username && r.isSuperuser == u.isSuperuser
    ensures r.profile.Some? <==> u.profile.Some?
    ensures u.profile.Some? ==> r.profile.value.role == u.profile.value.role && r.profile.value.areas == u.profile.value.areas
  {
    if u.isSuperuser && u.profile.Some? then u.(profile := Some(u.profile.value.(stores := ids))) else u
  }

  /** The users table after the command, user by user. */
  function AssignToAdmins(users: seq<User>, ids: set<int>): (r: seq<User>)
    ensures |r| == |users|
    ensures forall k :: 0 <= k < |users| ==> r[k] == WithStores(users[k], ids)
  {
    seq(|users|, k requires 0 <= k < |users| => WithStores(users[k], ids))
  }

  /**
   * Afterwards every superuser with a profile holds exactly the active
   * stores, so it has access to each of them, and every other user is as
   * before.
   */
  lemma AssignToAdminsSpec(users: seq<User>, stores: seq<Store>, k: int, s: int)
    requires 0 <= k < |users| && 0 <= s < |stores|
    ensures var u := AssignToAdmins(users, ActiveStoreIds(stores))[k];
      && (users[k].isSuperuser && users[k].profile.Some? ==>
            && u.profile.value.stores == ActiveStoreIds(stores)
            && (stores[s].isActive ==> HasStoreAccess(u.profile.value, stores[s])))
      && (!users[k].isSuperuser || users[k].profile.None? ==> u == users[k])
  {
    if stores[s].isActive {
      assert stores[s].id in ActiveStoreIds(stores);
    }
  }

  /** Running the command twice leaves what running it once did. */
  lemma AssignToAdminsIdempotent(users: seq<User>, ids: set<int>)
    ensures AssignToAdmins(AssignToAdmins(users, ids), ids) == AssignToAdmins(users, ids)
  {
  }

  /** One line of the command's output: SUCCESS 'Assigned stores to <name>' or WARNING 'Admin <name> has no profile'. */
  datatype ReportLine = Assigned(username: string) | NoProfile(username: string)

  /** The line written for a superuser: a success when the profile exists, a warning otherwise. */
  function LineOf(u: User): (l: ReportLine)
    ensures l.username == u.username
    ensures l.Assigned? <==> u.profile.Some?
  {
    if u.profile.Some? then Assigned(u.username) else NoProfile(u.username)
  }

  /** The command's output, one line per superuser in table order. */
  function Report(users: seq<User>): seq<ReportLine>
  {
    if users == [] then []
    else
      var u := users[|users| - 1];
      Report(users[..|users| - 1]) + (if u.isSuperuser then [LineOf(u)] else [])
  }

  /** A line is written exactly for each superuser, and only for them. */
  lemma {:induction false} ReportLines(users: seq<User>, l: ReportLine)
    ensures l in Report(users) <==> exists k :: 0 <= k < |users| && users[k].isSuperuser && l == LineOf(users[k])
  {
    if users != [] {
      var front := users[..|users| - 1];
      ReportLines(front, l);
      if exists k :: 0 <= k < |front| && front[k].isSuperuser && l == LineOf(front[k]) {
        var k :| 0 <= k < |front| && front[k].isSuperuser && l == LineOf(front[k]);
        assert users[k] == front[k];
      }
      if exists k :: 0 <= k < |users| && users[k].isSuperuser && l == LineOf(users[k]) {
        var k :| 0 <= k < |users| && users[k].isSuperuser && l == LineOf(users[k]);
        if k < |front| {
          assert front[k] == users[k];
        }
      }
    }
  }

  predicate IsSuperuser(u: User)
  {
    u.isSuperuser
  }

  /** Every superuser gets exactly one line of output, a success or a warning. */
  lemma {:induction false} OneLinePerAdmin(users: seq<User>)
    ensures |Report(users)| == Count(users, IsSuperuser)
  {
    if users != [] {
      var front := users[..|users| - 1];
      OneLinePerAdmin(front);
      CountAppend(front, [users[|users| - 1]], IsSuperuser);
      assert front + [users[|users| - 1]] == users;
    }
  }

  /**
   * Command.handle: one pass over the superusers in table order, setting
   * each profile's stores to the active stores and writing its line.
   */
  method Handle(db: Db.Database) returns (lines: seq<ReportLine>)
    modifies db`users
    ensures db.users == AssignToAdmins(old(db.users), ActiveStoreIds(db.stores))
    ensures lines == Report(old(db.users))
  {
    var ids := ActiveStoreIds(db.stores);
    ghost var before := db.users;
    lines := [];
    var i := 0;
    while i < |db.users|
      invariant 0 <= i <= |db.users| && |db.users| == |before|
      invariant forall k :: 0 <= k < i ==> db.users[k] == WithStores(before[k], ids)
      invariant forall k :: i <= k < |db.users| ==> db.users[k] == before[k]
      invariant lines == Report(before[..i])
    {
      assert before[..i + 1][..i] == before[..i];
      var admin := db.users[i];
      if admin.isSuperuser {
        if admin.profile.Some? {
          db.users := db.users[i := WithStores(admin, ids)];
          lines := lines + [Assigned(admin.username)];
        } else {
          lines := lines + [NoProfile(admin.username)];
        }
      }
      i := i + 1;
    }
    assert before[..i] == before;
  }
}

=== FILE: areas.dfy ===
/**
 * The area-management views (checklist/views/area_management_views.py):
 * putting a store into an area, adding an area to one user's profile or to
 * several users' profiles, and the lists of stores and users each page
 * offers. Area.objects.get and Store/User.objects.get raise DoesNotExist
 * for an unknown id; those outcomes are modelled as results.
 */
module AreaManagement {
  import opened Common
  import opened Models
  import opened Users
  import opened Queries
  import Db

  /** Area.objects.get(id=...) finds a row. */
  predicate AreaExists(areas: seq<Area>, id: int)
  {
    exists k :: 0 <= k < |areas| && areas[k].id == id
  }

  // ---------------------------------------------------------------------
  // assign_store_to_area
  // ---------------------------------------------------------------------

  function NotInArea(areaId: int): Store -> bool
  {
    (s: Store) => s.area != Some(areaId)
  }

  /**
   * filter(area__isnull=True) | exclude(area=area): the stores without an
   * area together with those in another area.
   */
  function AvailableStores(stores: seq<Store>, areaId: int): seq<Store>
  {
    Filter(stores, NotInArea(areaId))
  }

  /** A store is offered exactly when it is not already in the area, and the order of the table is kept. */
  lemma AvailableStoresSpec(stores: seq<Store>, areaId: int, s: Store)
    ensures s in AvailableStores(stores, areaId) <==> s in stores && (s.area.None? || s.area.value != areaId)
  {
    FilterMembership(stores, NotInArea(areaId), s);
  }

  /** The stores after store.area = area; store.save() for the store with that id. */
  function SetStoreArea(stores: seq<Store>, storeId: int, areaId: int): (r: seq<Store>)
    ensures |r| == |stores|
    ensures forall k :: 0 <= k < |stores| ==>
      r[k] == if stores[k].id == storeId then stores[k].(area := Some(areaId)) else stores[k]
  {
    seq(|stores|, k requires 0 <= k < |stores| =>
      if stores[k].id == storeId then stores[k].(area := Some(areaId)) else stores[k])
  }

  /**
   * Assigning is idempotent, puts the store in the area so that the page
   * no longer offers it, and changes no other store and nothing but the
   * store's area.
   */
  lemma SetStoreAreaSpec(stores: seq<Store>, storeId: int, areaId: int)
    ensures SetStoreArea(SetStoreArea(stores, storeId, areaId), storeId, areaId) == SetStoreArea(stores, storeId, areaId)
    ensures forall k :: 0 <= k < |stores| && stores[k].id == storeId ==>
      && SetStoreArea(stores, storeId, areaId)[k].area == Some(areaId)
      && SetStoreArea(stores, storeId, areaId)[k] !in AvailableStores(SetStoreArea(stores, storeId, areaId), areaId)
    ensures forall k :: 0 <= k < |stores| ==>
      SetStoreArea(stores, storeId, areaId)[k].(area := stores[k].area) == stores[k]
  {
    var r := SetStoreArea(stores, storeId, areaId);
    forall k | 0 <= k < |stores| && stores[k].id == storeId
      ensures r[k] !in AvailableStores(r, areaId)
    {
      AvailableStoresSpec(r, areaId, r[k]);
    }
  }

  datatype StoreAssignment = StoreAreaNotFound | NoStoreGiven | StoreNotFound | StoreAssigned(store: Store)

  /**
   * assign_store_to_area on POST: an unknown area or store raises and
   * changes nothing; a missing or empty store_id only redirects; otherwise
   * the store's area becomes the area.
   */
  method AssignStoreToArea(db: Db.Database, areaId: int, storeId: Option<int>) returns (r: StoreAssignment)
    modifies db`stores
    ensures !AreaExists(db.areas, areaId) ==> r == StoreAreaNotFound && db.stores == old(db.stores)
    ensures AreaExists(db.areas, areaId) && storeId.None? ==> r == NoStoreGiven && db.stores == old(db.stores)
    ensures AreaExists(db.areas, areaId) && storeId.Some? && StoreById(old(db.stores), storeId.value).None? ==>
      r == StoreNotFound && db.stores == old(db.stores)
    ensures AreaExists(db.areas, areaId) && storeId.Some? && StoreById(old(db.stores), storeId.value).Some? ==>
      && db.stores == SetStoreArea(old(db.stores), storeId.value, areaId)
      && r == StoreAssigned(StoreById(old(db.stores), storeId.value).value.(area := Some(areaId)))
  {
    if !AreaExists(db.areas, areaId) {
      return StoreAreaNotFound;
    }
    if storeId.None? {
      return NoStoreGiven;
    }
    var store := StoreById(db.stores, storeId.value);
    if store.None? {
      return StoreNotFound;
    }
    db.stores := SetStoreArea(db.stores, storeId.value, areaId);
    r := StoreAssigned(store.value.(area := Some(areaId)));
  }

  // ---------------------------------------------------------------------
  // assign_user_to_area and assign_users_to_area
  // ---------------------------------------------------------------------

  /** user.profile.areas.add(area) when the user has a profile; a user without one is left alone. */
  function JoinArea(u: User, areaId: int): (r: User)
    ensures r.id == u.id && r.username == u.username && r.isSuperuser == u.isSuperuser
    ensures r.profile.Some? <==> u.profile.Some?
    ensures u.profile.Some? ==> r.profile.value.areas == u.profile.value.areas + {areaId}
    ensures u.profile.Some? ==> r.profile.value.role == u.profile.value.role && r.profile.value.stores == u.profile.value.stores
  {
    if u.profile.Some? then u.(profile := Some(u.profile.value.(areas := u.profile.value.areas + {areaId}))) else u
  }

  /** Adding an area twice is adding it once, and the area is then among the profile's areas. */
  lemma JoinAreaIdempotent(u: User, areaId: int)
    ensures JoinArea(JoinArea(u, areaId), areaId) == JoinArea(u, areaId)
    ensures u.profile.Some? ==> areaId in JoinArea(u, areaId).profile.value.areas
  {
    var r := JoinArea(u, areaId);
    if u.profile.Some? {
      assert r.profile.value.areas + {areaId} == r.profile.value.areas;
    }
  }

  /** The users table with the area added to the profile of every user whose id is listed. */
  function JoinListed(users: seq<User>, ids: seq<int>, areaId: int): (r: seq<User>)
    ensures |r| == |users|
    ensures forall k :: 0 <= k < |users| ==> r[k] == if users[k].id in ids then JoinArea(users[k], areaId) else users[k]
  {
    seq(|users|, k requires 0 <= k < |users| => if users[k].id in ids then JoinArea(users[k], areaId) else users[k])
  }

  /** Giving the same list again changes nothing more. */
  lemma JoinListedIdempotent(users: seq<User>, ids: seq<int>, areaId: int)
    ensures JoinListed(JoinListed(users, ids, areaId), ids, areaId) == JoinListed(users, ids, areaId)
  {
    var once := JoinListed(users, ids, areaId);
    var twice := JoinListed(once, ids, areaId);
    forall k | 0 <= k < |users|
      ensures twice[k] == once[k]
    {
      JoinAreaIdempotent(users[k], areaId);
    }
  }

  datatype UserAssignment = UserAreaNotFound | NoUserGiven | UserNotFound | UserAssigned

  /** User.objects.get(id=...) finds a row. */
  predicate UserExists(users: seq<User>, id: int)
  {
    exists k :: 0 <= k < |users| && users[k].id == id
  }

  /**
   * assign_user_to_area on POST: an unknown area or user raises and changes
   * nothing; a missing user_id only redirects; otherwise the area joins the
   * profile's areas, and a user without a profile is silently left alone.
   */
  method AssignUserToArea(db: Db.Database, areaId: int, userId: Option<int>) returns (r: UserAssignment)
    modifies db`users
    ensures !AreaExists(db.areas, areaId) ==> r == UserAreaNotFound && db.users == old(db.users)
    ensures AreaExists(db.areas, areaId) && userId.None? ==> r == NoUserGiven && db.users == old(db.users)
    ensures AreaExists(db.areas, areaId) && userId.Some? && !UserExists(old(db.users), userId.value) ==>
      r == UserNotFound && db.users == old(db.users)
    ensures AreaExists(db.areas, areaId) && userId.Some? && UserExists(old(db.users), userId.value) ==>
      r == UserAssigned && db.users == JoinListed(old(db.users), [userId.value], areaId)
  {
    if !AreaExists(db.areas, areaId) {
      return UserAreaNotFound;
    }
    if userId.None? {
      return NoUserGiven;
    }
    if !UserExists(db.users, userId.value) {
      return UserNotFound;
    }
    db.users := JoinListed(db.users, [userId.value], areaId);
    r := UserAssigned;
  }

  /**
   * assign_users_to_area on POST: the users whose id is listed, each in
   * turn, get the area added to their profile; unknown ids and users
   * without a profile are passed over, and everyone else is unchanged.
   */
  method AssignUsersToArea(db: Db.Database, areaId: int, ids: seq<int>) returns (found: bool)
    modifies db`users
    ensures found == AreaExists(db.areas, areaId)
    ensures found ==> db.users == JoinListed(old(db.users), ids, areaId)
    ensures !found ==> db.users == old(db.users)
  {
    if !AreaExists(db.areas, areaId) {
      return false;
    }
    ghost var before := db.users;
    var i := 0;
    while i < |db.users|
      invariant 0 <= i <= |db.users| && |db.users| == |before|
      invariant forall k :: 0 <= k < i ==> db.users[k] == JoinListed(before, ids, areaId)[k]
      invariant forall k :: i <= k < |db.users| ==> db.users[k] == before[k]
    {
      if db.users[i].id in ids && db.users[i].profile.Some? {
        db.users := db.users[i := JoinArea(db.users[i], areaId)];
      }
      i := i + 1;
    }
    found := true;
  }

  /** filter(profile__role__in=['area_manager', 'store_manager']): the users on the bulk page. */
  predicate IsBranchManager(u: User)
  {
    u.profile.Some? && u.profile.value.role in {AreaManager, StoreManager}
  }

  function LacksArea(areaId: int): User -> bool
  {
    (u: User) => IsBranchManager(u) && areaId !in u.profile.value.areas
  }

  /** The users offered on the single-user page: area and store managers whose profile lacks the area. */
  function AvailableUsers(users: seq<User>, areaId: int): seq<User>
  {
    Filter(users, LacksArea(areaId))
  }

  /**
   * A user is offered exactly when a manager role is on the profile and the
   * area is not; a user without a profile or with another role never is.
   */
  lemma AvailableUsersSpec(users: seq<User>, areaId: int, u: User)
    ensures u in AvailableUsers(users, areaId) <==>
      u in users && u.profile.Some? && (u.profile.value.role == AreaManager || u.profile.value.role == StoreManager)
      && areaId !in u.profile.value.areas
  {
    FilterMembership(users, LacksArea(areaId), u);
  }

  /** Once assigned, a user drops out of the offered list for that area. */
  lemma AssignedNotAvailable(users: seq<User>, areaId: int, k: int)
    requires 0 <= k < |users|
    ensures JoinArea(users[k], areaId) !in AvailableUsers(JoinListed(users, [users[k].id], areaId), areaId)
  {
    AvailableUsersSpec(JoinListed(users, [users[k].id], areaId), areaId, JoinArea(users[k], areaId));
  }
}

=== FILE: base.dfy ===
/**
 * The view helpers shared by every view (checklist/views/base.py): the
 * stores a user may pick from, and the AJAX wrapper that turns any
 * exception into an error reply.
 */
module BaseViews {
  import opened Common
  import opened Models
  import opened Users

  /** Roles that BaseViewMixin.get_user_stores gives every active store. */
  predicate SeesAllActive(r: Role)
  {
    r == Admin || r == AreaManagement || r == StoreSelector
  }

  /**
   * BaseViewMixin.get_user_stores: no stores without a profile; every active
   * store for admin, area_management and store_selector; otherwise the
   * profile's own stores that are active.
   */
  function GetUserStores(u: User, stores: seq<Store>): (r: seq<Store>)
  {
    if u.profile.None? then []
    else
      var p := u.profile.value;
      if SeesAllActive(p.role) then Filter(stores, (s: Store) => s.isActive)
      else Filter(stores, (s: Store) => s.isActive && s.id in p.stores)
  }

  /** The store list by role, and never an inactive store. */
  lemma GetUserStoresMembers(u: User, stores: seq<Store>, s: Store)
    ensures u.profile.None? ==> GetUserStores(u, stores) == []
    ensures u.profile.Some? && SeesAllActive(u.profile.value.role) ==>
      (s in GetUserStores(u, stores) <==> s in stores && s.isActive)
    ensures u.profile.Some? && !SeesAllActive(u.profile.value.role) ==>
      (s in GetUserStores(u, stores) <==> s in stores && s.isActive && s.id in u.profile.value.stores)
    ensures s in GetUserStores(u, stores) ==> s.isActive
  {
    if u.profile.Some? {
      var p := u.profile.value;
      FilterMembership(stores, (s: Store) => s.isActive, s);
      FilterMembership(stores, (s: Store) => s.isActive && s.id in p.stores, s);
    }
  }

  /**
   * The two role rules disagree: area_management sees every active store
   * here but is refused by Profile.has_store_access, and an area manager is
   * granted every store there but sees only their own stores here.
   */
  lemma StoreRulesDisagree(s: Store, areas: set<int>)
    requires s.isActive && (s.area.None? || s.area.value !in areas)
    ensures var u := User(0, "", "", false, Some(Profile(AreaManagement, {}, areas)));
      s in GetUserStores(u, [s]) && !HasStoreAccess(u.profile.value, s)
    ensures var u := User(0, "", "", false, Some(Profile(AreaManager, {}, areas)));
      s !in GetUserStores(u, [s]) && HasStoreAccess(u.profile.value, s)
  {
    GetUserStoresMembers(User(0, "", "", false, Some(Profile(AreaManagement, {}, areas))), [s], s);
    GetUserStoresMembers(User(0, "", "", false, Some(Profile(AreaManager, {}, areas))), [s], s);
  }

  // ---------------------------------------------------------------------
  // handle_ajax_response
  // ---------------------------------------------------------------------

  /** How a wrapped view ended: with a reply, or by raising. */
  datatype ViewOutcome<T> = Returned(reply: T) | Raised(message: string)

  /** What the wrapper hands back: the view's own reply, or the fixed error JSON. */
  datatype AjaxReply<T> = ViewReply(reply: T) | ErrorJson(status: string, message: string)

  /** The wrapper of handle_ajax_response. */
  function HandleAjaxResponse<T>(outcome: ViewOutcome<T>): (r: AjaxReply<T>)
    ensures outcome.Returned? ==> r == ViewReply(outcome.reply)
    ensures outcome.Raised? ==> r.ErrorJson? && r.status == "error"
  {
    match outcome
    case Returned(reply) => ViewReply(reply)
    case Raised(_) => ErrorJson("error", "An error occurred processing your request")
  }

  /** No exception gets through, and what the client sees does not depend on the exception's text. */
  lemma AjaxErrorHidesMessage<T>(m1: string, m2: string)
    ensures HandleAjaxResponse<T>(Raised(m1)) == HandleAjaxResponse<T>(Raised(m2))
    ensures HandleAjaxResponse<T>(Raised(m1)).message == "An error occurred processing your request"
  {
  }
}

=== FILE: checklist.dfy ===
/**
 * Checklist submission (checklist/views/checklist_views.py): turning the
 * posted answers into checklist items, attachments and follow-up action
 * items, scoring the visit, undoing the whole visit when an attachment is
 * refused; draft saving and loading with their `x_<category>_<number>` keys;
 * and the history page's sort whitelist.
 */
module ChecklistViews {
  import opened Common
  import opened Dates
  import opened Models
  import opened Users
  import opened Db
  import opened Queries
  import Sorting

  /**
   * The per-question part of the POST body, by question id: the q_<id>
   * checkbox value, the comment_<id> text and the file_<id> upload.
   */
  datatype ChecklistPost = ChecklistPost(answers: map<int, string>, comments: map<int, string>, files: map<int, Upload>)

  const MaxChecklistFileSize: int := 5242880

  const ChecklistFileTypes: seq<string> := [
    "image/jpeg", "image/png", "image/gif", "application/pdf", "application/msword",
    "application/vnd.openxmlformats-officedocument.wordprocessingml.document"]

  function IsActiveQuestion(q: Question): bool { q.isActive }

  /**
   * ChecklistQuestion's Meta ordering ['category', 'number']: ChecklistCategory
   * declares no ordering, so 'category' orders by the category's key; questions
   * equal on both stay in table order.
   */
  predicate QuestionOrderLe(a: Question, b: Question)
  {
    a.category < b.category || (a.category == b.category && a.number <= b.number)
  }

  /** ChecklistQuestion.objects.filter(is_active=True), in the model's Meta order. */
  function ActiveQuestions(qs: seq<Question>): seq<Question>
  {
    Sorting.SortBy(Filter(qs, IsActiveQuestion), QuestionOrderLe)
  }

  /** The submission walks exactly the active questions, by category key and then number. */
  lemma ActiveQuestionsSpec(qs: seq<Question>, q: Question)
    ensures q in ActiveQuestions(qs) <==> q in qs && q.isActive
    ensures forall i, j :: 0 <= i < j < |ActiveQuestions(qs)| ==>
      || ActiveQuestions(qs)[i].category < ActiveQuestions(qs)[j].category
      || (ActiveQuestions(qs)[i].category == ActiveQuestions(qs)[j].category
          && ActiveQuestions(qs)[i].number <= ActiveQuestions(qs)[j].number)
  {
    FilterMembership(qs, IsActiveQuestion, q);
    Sorting.SortByMembers(Filter(qs, IsActiveQuestion), QuestionOrderLe, q);
    Sorting.SortBySorted(Filter(qs, IsActiveQuestion), QuestionOrderLe);
  }

  /** The checkbox counts as yes only when its posted value is exactly 'true'. */
  function AnswerOf(post: ChecklistPost, q: Question): bool
  {
    q.id in post.answers && post.answers[q.id] == "true"
  }

  function CommentOf(post: ChecklistPost, q: Question): string
  {
    PyStrip(if q.id in post.comments then post.comments[q.id] else "")
  }

  /** A "no" answer with a non-blank comment calls for an action item. */
  function NeedsAction(post: ChecklistPost, q: Question): bool
  {
    !AnswerOf(post, q) && CommentOf(post, q) != []
  }

  /** The attachment check: larger than 5 MB, or a content type outside the six allowed. */
  function FileRejected(post: ChecklistPost, q: Question): bool
  {
    q.id in post.files
    && (post.files[q.id].size > MaxChecklistFileSize || post.files[q.id].contentType !in ChecklistFileTypes)
  }

  /** The ValidationError message for a refused file: the size check comes first. */
  function RefusalMessage(f: Upload): string
  {
    if f.size > MaxChecklistFileSize then "File size exceeds 5MB limit: " + f.name
    else "Invalid file type: " + f.name + ". Only images, PDF, and Word documents allowed."
  }

  /** "{category} - Q{number}: {text}". */
  function ActionWhat(cats: seq<Category>, q: Question): string
  {
    CategoryName(cats, q.category) + " - Q" + IntToString(q.number) + ": " + q.text
  }

  /** today + timedelta(days=7). */
  function InAWeek(today: Date): (d: Date)
    requires Valid(today)
    ensures Valid(d) && Ordinal(d) == Ordinal(today) + 7
  {
    OrdinalPositive(today);
    AddDays(today, 7)
  }

  /** What one submission holds fixed while the questions are processed. */
  datatype Ctx = Ctx(post: ChecklistPost, visit: int, who: string, timeframe: Date, categories: seq<Category>)

  function ItemFor(c: Ctx, q: Question, id: int): ChecklistItem
  {
    ChecklistItem(id, c.visit, Some(q.id), AnswerOf(c.post, q), CommentOf(c.post, q), NeedsAction(c.post, q))
  }

  function ActionFor(c: Ctx, q: Question, id: int): ActionItem
  {
    ActionItem(id, c.visit, ActionWhat(c.categories, q), c.who, c.timeframe, "open", "medium", CommentOf(c.post, q))
  }

  /** The checklist items of a submission: one per question, numbered from base. */
  function ItemsFor(c: Ctx, qs: seq<Question>, base: int): (r: seq<ChecklistItem>)
    ensures |r| == |qs|
  {
    if qs == [] then []
    else ItemsFor(c, qs[..|qs| - 1], base) + [ItemFor(c, qs[|qs| - 1], base + |qs| - 1)]
  }

  /** The action items of a submission: one per question that needs one, in question order. */
  function ActionsFor(c: Ctx, qs: seq<Question>, base: int): (r: seq<ActionItem>)
    ensures |r| <= |qs|
  {
    if qs == [] then []
    else
      var prev := ActionsFor(c, qs[..|qs| - 1], base);
      var q := qs[|qs| - 1];
      prev + (if NeedsAction(c.post, q) then [ActionFor(c, q, base + |prev|)] else [])
  }

  /** The attachments of a submission, for the questions that carry a file. */
  function AttachmentsFor(c: Ctx, qs: seq<Question>, itemBase: int, base: int): (r: seq<Attachment>)
    ensures |r| <= |qs|
  {
    if qs == [] then []
    else
      var prev := AttachmentsFor(c, qs[..|qs| - 1], itemBase, base);
      var q := qs[|qs| - 1];
      prev + (if q.id in c.post.files
              then [Attachment(base + |prev|, c.visit, Some(itemBase + |qs| - 1), c.post.files[q.id])]
              else [])
  }

  /** How many of the questions need an action item, counted from the front. */
  function NumNeedingAction(post: ChecklistPost, qs: seq<Question>): nat
  {
    if qs == [] then 0 else (if NeedsAction(post, qs[0]) then 1 else 0) + NumNeedingAction(post, qs[1..])
  }

  function NumYes(post: ChecklistPost, qs: seq<Question>): nat
  {
    if qs == [] then 0 else (if AnswerOf(post, qs[0]) then 1 else 0) + NumYes(post, qs[1..])
  }

  /** overall_score: the rounded percentage of yes answers, 0 without questions. */
  function OverallScore(post: ChecklistPost, qs: seq<Question>): int
  {
    if |qs| > 0 then RoundHalfEven(100 * NumYes(post, qs), |qs|) else 0
  }

  /** The visits table after the visit with primary key id stores its score. */
  function WithScore(vs: seq<Visit>, id: int, score: int): (r: seq<Visit>)
    ensures |r| == |vs|
  {
    if vs == [] then []
    else [if vs[0].id == id then vs[0].(overallScore := Some(score)) else vs[0]] + WithScore(vs[1..], id, score)
  }

  /** Only the visit with that primary key changes, and only its score. */
  lemma {:induction false} WithScoreIndex(vs: seq<Visit>, id: int, score: int)
    ensures forall k :: 0 <= k < |vs| ==>
      WithScore(vs, id, score)[k] == if vs[k].id == id then vs[k].(overallScore := Some(score)) else vs[k]
  {
    if vs != [] {
      var head := if vs[0].id == id then vs[0].(overallScore := Some(score)) else vs[0];
      var tail := WithScore(vs[1..], id, score);
      assert WithScore(vs, id, score) == [head] + tail;
      WithScoreIndex(vs[1..], id, score);
      forall k | 1 <= k < |vs|
        ensures WithScore(vs, id, score)[k] == tail[k - 1]
      {
      }
    }
  }

  lemma {:induction false} NumNeedingActionSnoc(post: ChecklistPost, qs: seq<Question>, q: Question)
    ensures NumNeedingAction(post, qs + [q]) == NumNeedingAction(post, qs) + (if NeedsAction(post, q) then 1 else 0)
  {
    if qs == [] {
      assert qs + [q] == [q];
    } else {
      assert (qs + [q])[1..] == qs[1..] + [q];
      NumNeedingActionSnoc(post, qs[1..], q);
    }
  }

  lemma {:induction false} NumYesSnoc(post: ChecklistPost, qs: seq<Question>, q: Question)
    ensures NumYes(post, qs + [q]) == NumYes(post, qs) + (if AnswerOf(post, q) then 1 else 0)
  {
    if qs == [] {
      assert qs + [q] == [q];
    } else {
      assert (qs + [q])[1..] == qs[1..] + [q];
      NumYesSnoc(post, qs[1..], q);
    }
  }

  lemma NumYesPrefix(post: ChecklistPost, qs: seq<Question>, i: int)
    requires 0 <= i < |qs|
    ensures NumYes(post, qs[..i + 1]) == NumYes(post, qs[..i]) + (if AnswerOf(post, qs[i]) then 1 else 0)
  {
    assert qs[..i + 1] == qs[..i] + [qs[i]];
    NumYesSnoc(post, qs[..i], qs[i]);
  }

  /** One action item is created for each question that needs one, and no other. */
  lemma {:induction false} ActionsCount(c: Ctx, qs: seq<Question>, base: int)
    ensures |ActionsFor(c, qs, base)| == NumNeedingAction(c.post, qs)
  {
    if qs != [] {
      var init := qs[..|qs| - 1];
      ActionsCount(c, init, base);
      assert qs == init + [qs[|qs| - 1]];
      NumNeedingActionSnoc(c.post, init, qs[|qs| - 1]);
    }
  }

  function FollowUp(it: ChecklistItem): bool { it.requiresFollowUp }

  /** Exactly the items that produced an action are flagged for follow-up. */
  lemma {:induction false} FollowUpCountsActions(c: Ctx, qs: seq<Question>, base: int, actionBase: int)
    ensures Count(ItemsFor(c, qs, base), FollowUp) == |ActionsFor(c, qs, actionBase)|
  {
    if qs != [] {
      var init := qs[..|qs| - 1];
      FollowUpCountsActions(c, init, base, actionBase);
      assert ItemsFor(c, qs, base) == ItemsFor(c, init, base) + [ItemFor(c, qs[|qs| - 1], base + |qs| - 1)];
      CountAppend(ItemsFor(c, init, base), [ItemFor(c, qs[|qs| - 1], base + |qs| - 1)], FollowUp);
    }
  }

  /** The stored overall_score is the visit's calculate_score over the items just created. */
  lemma {:induction false} OverallScoreIsCalculateScore(c: Ctx, qs: seq<Question>, base: int)
    ensures OverallScore(c.post, qs) == CalculateScore(ItemsFor(c, qs, base))
  {
    YesCount(c, qs, base);
  }

  lemma {:induction false} YesCount(c: Ctx, qs: seq<Question>, base: int)
    ensures Count(ItemsFor(c, qs, base), Yes) == NumYes(c.post, qs)
  {
    if qs != [] {
      var init := qs[..|qs| - 1];
      var q := qs[|qs| - 1];
      YesCount(c, init, base);
      assert ItemsFor(c, qs, base) == ItemsFor(c, init, base) + [ItemFor(c, q, base + |qs| - 1)];
      CountAppend(ItemsFor(c, init, base), [ItemFor(c, q, base + |qs| - 1)], Yes);
      assert qs == init + [q];
      NumYesSnoc(c.post, init, q);
    }
  }

  /** The position of the first question whose attachment is refused, |qs| when there is none. */
  function FirstRejected(post: ChecklistPost, qs: seq<Question>): (j: nat)
    ensures j <= |qs|
    ensures j < |qs| ==> FileRejected(post, qs[j])
  {
    if qs == [] then 0
    else if FileRejected(post, qs[0]) then 0
    else 1 + FirstRejected(post, qs[1..])
  }

  /** Every question before the first rejection is accepted, and the one at it is refused. */
  lemma {:induction false} FirstRejectedIsFirst(post: ChecklistPost, qs: seq<Question>, k: int)
    requires 0 <= k < |qs| && k <= FirstRejected(post, qs)
    ensures k < FirstRejected(post, qs) ==> !FileRejected(post, qs[k])
    ensures k == FirstRejected(post, qs) ==> FileRejected(post, qs[k])
  {
    if k > 0 {
      FirstRejectedIsFirst(post, qs[1..], k - 1);
    }
  }

  /** The context of one submission by user on day today. */
  function SubmissionCtx(post: ChecklistPost, visit: int, user: User, today: Date, cats: seq<Category>): Ctx
    requires Valid(today)
  {
    Ctx(post, visit, DisplayName(user), InAWeek(today), cats)
  }

  /**
   * ChecklistManager.process_checklist_items. Succeeds iff no attached file
   * is refused; then the new items, attachments and action items are exactly
   * those of ItemsFor, AttachmentsFor and ActionsFor and the visit carries its
   * score. On a refusal (the ValidationError), the rows created before it
   * stay, with the refused question's item, and all of them belong to the visit.
   */
  method ProcessChecklistItems(db: Database, post: ChecklistPost, visit: int, user: User, today: Date)
    returns (r: Result<nat, string>)
    requires Valid(today)
    modifies db`items, db`nextItemId, db`attachments, db`nextAttachmentId, db`actions, db`nextActionId, db`visits
    ensures var qs := ActiveQuestions(old(db.questions));
      r.Ok? <==> FirstRejected(post, qs) == |qs|
    ensures r.Ok? ==>
      var qs := ActiveQuestions(old(db.questions));
      var c := SubmissionCtx(post, visit, user, today, old(db.categories));
      && Processed(RowsOf(db), c, qs, |qs|, old(RowsOf(db)))
      && db.visits == WithScore(old(db.visits), visit, OverallScore(post, qs))
      && r.value == NumNeedingAction(post, qs)
    ensures RowsAddedFor(old(RowsOf(db)), RowsOf(db), visit)
    ensures r.Err? ==>
      var qs := ActiveQuestions(old(db.questions));
      var c := SubmissionCtx(post, visit, user, today, old(db.categories));
      && FirstRejected(post, qs) < |qs|
      && r.error == RefusalMessage(post.files[qs[FirstRejected(post, qs)].id])
      && Refused(RowsOf(db), c, qs, FirstRejected(post, qs), old(RowsOf(db)))
      && db.visits == old(db.visits)
      && RowsAddedFor(old(RowsOf(db)), RowsOf(db), visit)
  {
    var qs := ActiveQuestions(db.questions);
    var c := SubmissionCtx(post, visit, user, today, db.categories);
    assert c.post == post && c.visit == visit;
    ghost var start := RowsOf(db);
    var ok, stopped, createdActions, totalQuestions, positiveAnswers := ProcessQuestions(db, c, qs);
    ghost var end := RowsOf(db);
    if !ok {
      RefusedOwned(end, c, qs, stopped, start);
      FirstRejectedIsFirst(post, qs, stopped);
      r := Err(RefusalMessage(post.files[qs[stopped].id]));
      return;
    }
    ProcessedOwned(end, c, qs, |qs|, start);
    var score := if totalQuestions > 0 then RoundHalfEven(100 * positiveAnswers, totalQuestions) else 0;
    SaveScore(db, visit, score);
    assert RowsOf(db) == end;
    r := Ok(createdActions);
  }

  /** visit.overall_score = score; visit.save(). */
  method SaveScore(db: Database, visit: int, score: int)
    modifies db`visits
    ensures db.visits == WithScore(old(db.visits), visit, score)
  {
    db.visits := WithScore(db.visits, visit, score);
  }

  /**
   * The loop of process_checklist_items: every question in turn, counting
   * the questions, the yes answers and the action items created, until the
   * first refused attachment.
   */
  method ProcessQuestions(db: Database, c: Ctx, qs: seq<Question>)
    returns (ok: bool, stopped: nat, createdActions: nat, totalQuestions: nat, positiveAnswers: nat)
    modifies db`items, db`nextItemId, db`attachments, db`nextAttachmentId, db`actions, db`nextActionId
    ensures ok <==> FirstRejected(c.post, qs) == |qs|
    ensures !ok ==> stopped == FirstRejected(c.post, qs)
    ensures ok ==>
      && Processed(RowsOf(db), c, qs, |qs|, old(RowsOf(db)))
      && createdActions == NumNeedingAction(c.post, qs)
      && totalQuestions == |qs| && positiveAnswers == NumYes(c.post, qs)
    ensures !ok ==>
      var j := FirstRejected(c.post, qs);
      && j < |qs|
      && Refused(RowsOf(db), c, qs, j, old(RowsOf(db)))
  {
    ghost var start := RowsOf(db);
    createdActions, totalQuestions, positiveAnswers := 0, 0, 0;
    var i := 0;
    while i < |qs|
      invariant 0 <= i <= |qs|
      invariant Processed(RowsOf(db), c, qs, i, start)
      invariant createdActions == |ActionsFor(c, qs[..i], start.nextActionId)|
      invariant totalQuestions == i && positiveAnswers == NumYes(c.post, qs[..i])
      invariant i <= FirstRejected(c.post, qs)
    {
      FirstRejectedIsFirst(c.post, qs, i);
      ghost var before := RowsOf(db);
      var accepted, followUp := ProcessQuestion(db, c, qs[i]);
      if !accepted {
        RefusedStep(before, RowsOf(db), c, qs, i, start);
        return false, i, createdActions, totalQuestions, positiveAnswers;
      }
      ProcessedStep(before, RowsOf(db), c, qs, i, start, followUp);
      if followUp {
        createdActions := createdActions + 1;
      }
      totalQuestions := totalQuestions + 1;
      if AnswerOf(c.post, qs[i]) {
        positiveAnswers := positiveAnswers + 1;
      }
      NumYesPrefix(c.post, qs, i);
      i := i + 1;
    }
    assert qs[..i] == qs;
    ActionsCount(c, qs, start.nextActionId);
    ok, stopped := true, |qs|;
  }

  /** The visit-owned tables and their counters. */
  datatype Rows = Rows(
    items: seq<ChecklistItem>, actions: seq<ActionItem>, attachments: seq<Attachment>,
    nextItemId: int, nextActionId: int, nextAttachmentId: int)

  ghost function RowsOf(db: Database): Rows
    reads db
  {
    Rows(db.items, db.actions, db.attachments, db.nextItemId, db.nextActionId, db.nextAttachmentId)
  }

  /** Starting from s, the first i questions have been processed and none was refused. */
  ghost predicate Processed(r: Rows, c: Ctx, qs: seq<Question>, i: int, s: Rows)
    requires 0 <= i <= |qs|
  {
    && r.items == s.items + ItemsFor(c, qs[..i], s.nextItemId)
    && r.actions == s.actions + ActionsFor(c, qs[..i], s.nextActionId)
    && r.attachments == s.attachments + AttachmentsFor(c, qs[..i], s.nextItemId, s.nextAttachmentId)
    && r.nextItemId == s.nextItemId + i
    && r.nextActionId == s.nextActionId + |ActionsFor(c, qs[..i], s.nextActionId)|
    && r.nextAttachmentId == s.nextAttachmentId + |AttachmentsFor(c, qs[..i], s.nextItemId, s.nextAttachmentId)|
  }

  /** Starting from s, the first i questions were processed and question i was refused. */
  ghost predicate Refused(r: Rows, c: Ctx, qs: seq<Question>, i: int, s: Rows)
    requires 0 <= i < |qs|
  {
    && r.items == s.items + ItemsFor(c, qs[..i], s.nextItemId)
         + [ItemFor(c, qs[i], s.nextItemId + i).(requiresFollowUp := false)]
    && r.actions == s.actions + ActionsFor(c, qs[..i], s.nextActionId)
    && r.attachments == s.attachments + AttachmentsFor(c, qs[..i], s.nextItemId, s.nextAttachmentId)
  }

  /** What an accepted question adds: its item, its attachment if any, its action item if it needs one. */
  ghost predicate QuestionDone(b: Rows, a: Rows, c: Ctx, q: Question, followUp: bool)
  {
    && followUp == NeedsAction(c.post, q)
    && a.items == b.items + [ItemFor(c, q, b.nextItemId)]
    && a.nextItemId == b.nextItemId + 1
    && a.actions == b.actions + (if followUp then [ActionFor(c, q, b.nextActionId)] else [])
    && a.nextActionId == b.nextActionId + (if followUp then 1 else 0)
    && a.attachments == b.attachments + (if q.id in c.post.files
         then [Attachment(b.nextAttachmentId, c.visit, Some(b.nextItemId), c.post.files[q.id])]
         else [])
    && a.nextAttachmentId == b.nextAttachmentId + (if q.id in c.post.files then 1 else 0)
  }

  /**
   * One pass of the loop, for question q: create the item, check and store
   * its file, and add an action item (flagging the item) for a "no" with a
   * comment. A refused file stops the pass after the item was created.
   */
  method ProcessQuestion(db: Database, c: Ctx, q: Question) returns (ok: bool, followUp: bool)
    modifies db`items, db`nextItemId, db`attachments, db`nextAttachmentId, db`actions, db`nextActionId
    ensures ok == !FileRejected(c.post, q)
    ensures ok ==> QuestionDone(old(RowsOf(db)), RowsOf(db), c, q, followUp)
    ensures !ok ==>
      && db.items == old(db.items) + [ItemFor(c, q, old(db.nextItemId)).(requiresFollowUp := false)]
      && db.actions == old(db.actions) && db.attachments == old(db.attachments)
  {
    var answer := AnswerOf(c.post, q);
    var comment := CommentOf(c.post, q);
    var item := ChecklistItem(db.nextItemId, c.visit, Some(q.id), answer, comment, false);
    db.items := db.items + [item];
    db.nextItemId := db.nextItemId + 1;
    followUp := false;
    if q.id in c.post.files {
      var file := c.post.files[q.id];
      if file.size > MaxChecklistFileSize {
        return false, false;
      }
      if file.contentType !in ChecklistFileTypes {
        return false, false;
      }
      db.attachments := db.attachments + [Attachment(db.nextAttachmentId, c.visit, Some(item.id), file)];
      db.nextAttachmentId := db.nextAttachmentId + 1;
    }
    if !answer && comment != [] {
      db.actions := db.actions + [ActionFor(c, q, db.nextActionId)];
      db.nextActionId := db.nextActionId + 1;
      db.items := db.items[..|db.items| - 1] + [item.(requiresFollowUp := true)];
      followUp := true;
    }
    ok := true;
  }

  /** A refused question leaves its item, unflagged, after the processed prefix. */
  lemma RefusedStep(b: Rows, a: Rows, c: Ctx, qs: seq<Question>, i: int, s: Rows)
    requires 0 <= i < |qs| && Processed(b, c, qs, i, s)
    requires a.items == b.items + [ItemFor(c, qs[i], b.nextItemId).(requiresFollowUp := false)]
    requires a.actions == b.actions && a.attachments == b.attachments
    ensures Refused(a, c, qs, i, s)
  {
  }

  /** An accepted question extends the processed prefix by one. */
  lemma ProcessedStep(b: Rows, a: Rows, c: Ctx, qs: seq<Question>, i: int, s: Rows, followUp: bool)
    requires 0 <= i < |qs| && Processed(b, c, qs, i, s) && QuestionDone(b, a, c, qs[i], followUp)
    ensures Processed(a, c, qs, i + 1, s)
    ensures |ActionsFor(c, qs[..i + 1], s.nextActionId)| == |ActionsFor(c, qs[..i], s.nextActionId)| + (if followUp then 1 else 0)
  {
    ItemsStep(b.items, a.items, c, qs, i, s.items, s.nextItemId);
    ActionsStep(b.actions, a.actions, c, qs, i, s.actions, s.nextActionId);
    AttachmentsStep(b.attachments, a.attachments, c, qs, i, s.attachments, s.nextItemId, s.nextAttachmentId);
  }

  lemma ItemsStep(b: seq<ChecklistItem>, a: seq<ChecklistItem>, c: Ctx, qs: seq<Question>, i: int,
                  s: seq<ChecklistItem>, base: int)
    requires 0 <= i < |qs| && b == s + ItemsFor(c, qs[..i], base)
    requires a == b + [ItemFor(c, qs[i], base + i)]
    ensures a == s + ItemsFor(c, qs[..i + 1], base)
  {
    assert qs[..i + 1][..i] == qs[..i];
    assert ItemsFor(c, qs[..i + 1], base) == ItemsFor(c, qs[..i], base) + [ItemFor(c, qs[i], base + i)];
  }

  lemma ActionsStep(b: seq<ActionItem>, a: seq<ActionItem>, c: Ctx, qs: seq<Question>, i: int,
                    s: seq<ActionItem>, base: int)
    requires 0 <= i < |qs| && b == s + ActionsFor(c, qs[..i], base)
    requires a == b + (if NeedsAction(c.post, qs[i]) then [ActionFor(c, qs[i], base + |ActionsFor(c, qs[..i], base)|)] else [])
    ensures a == s + ActionsFor(c, qs[..i + 1], base)
    ensures |ActionsFor(c, qs[..i + 1], base)| == |ActionsFor(c, qs[..i], base)| + (if NeedsAction(c.post, qs[i]) then 1 else 0)
  {
    assert qs[..i + 1][..i] == qs[..i];
    assert ActionsFor(c, qs[..i + 1], base) == ActionsFor(c, qs[..i], base)
      + (if NeedsAction(c.post, qs[i]) then [ActionFor(c, qs[i], base + |ActionsFor(c, qs[..i], base)|)] else []);
  }

  lemma AttachmentsStep(b: seq<Attachment>, a: seq<Attachment>, c: Ctx, qs: seq<Question>, i: int,
                        s: seq<Attachment>, itemBase: int, base: int)
    requires 0 <= i < |qs| && b == s + AttachmentsFor(c, qs[..i], itemBase, base)
    requires a == b + (if qs[i].id in c.post.files
      then [Attachment(base + |AttachmentsFor(c, qs[..i], itemBase, base)|, c.visit, Some(itemBase + i), c.post.files[qs[i].id])]
      else [])
    ensures a == s + AttachmentsFor(c, qs[..i + 1], itemBase, base)
    ensures |AttachmentsFor(c, qs[..i + 1], itemBase, base)| == |AttachmentsFor(c, qs[..i], itemBase, base)| + (if qs[i].id in c.post.files then 1 else 0)
  {
    assert qs[..i + 1][..i] == qs[..i];
    assert AttachmentsFor(c, qs[..i + 1], itemBase, base) == AttachmentsFor(c, qs[..i], itemBase, base)
      + (if qs[i].id in c.post.files
         then [Attachment(base + |AttachmentsFor(c, qs[..i], itemBase, base)|, c.visit, Some(itemBase + i), c.post.files[qs[i].id])]
         else []);
  }

  /** Item k is the item of question k, with primary key base + k. */
  lemma {:induction false} ItemsOwned(c: Ctx, qs: seq<Question>, base: int)
    ensures forall k :: 0 <= k < |qs| ==> ItemsFor(c, qs, base)[k] == ItemFor(c, qs[k], base + k)
  {
    if qs != [] {
      var front := qs[..|qs| - 1];
      ItemsOwned(c, front, base);
      assert forall k :: 0 <= k < |front| ==> front[k] == qs[k];
    }
  }

  /**
   * An action item as the checklist creates them: primary key id, of the
   * visit, open, of medium priority, due in a week, assigned to the submitting
   * user and carrying a non-blank comment.
   */
  ghost predicate ActionShaped(a: ActionItem, c: Ctx, id: int)
  {
    && a.id == id && a.visit == c.visit
    && a.status == "open" && a.priority == "medium" && a.timeframe == c.timeframe
    && a.who == c.who && a.remarks != []
  }

  /**
   * The action items get consecutive primary keys from base, belong to the
   * visit, and are open, of medium priority, due in a week, assigned to the
   * submitting user and carry the (non-blank) comment.
   */
  lemma {:induction false} ActionsOwned(c: Ctx, qs: seq<Question>, base: int)
    ensures forall k :: 0 <= k < |ActionsFor(c, qs, base)| ==> ActionShaped(ActionsFor(c, qs, base)[k], c, base + k)
  {
    if qs != [] {
      var front, q := qs[..|qs| - 1], qs[|qs| - 1];
      var prev := ActionsFor(c, front, base);
      ActionsOwned(c, front, base);
      var r := ActionsFor(c, qs, base);
      assert r == prev + (if NeedsAction(c.post, q) then [ActionFor(c, q, base + |prev|)] else []);
      forall k | 0 <= k < |r|
        ensures ActionShaped(r[k], c, base + k)
      {
        if k < |prev| {
          assert r[k] == prev[k];
        }
      }
    }
  }

  /** The attachments get consecutive primary keys from base and belong to the visit. */
  lemma {:induction false} AttachmentsOwned(c: Ctx, qs: seq<Question>, itemBase: int, base: int)
    ensures forall k :: 0 <= k < |AttachmentsFor(c, qs, itemBase, base)| ==>
      AttachmentsFor(c, qs, itemBase, base)[k].id == base + k
      && AttachmentsFor(c, qs, itemBase, base)[k].visit == c.visit
  {
    if qs != [] {
      var front, q := qs[..|qs| - 1], qs[|qs| - 1];
      var prev := AttachmentsFor(c, front, itemBase, base);
      AttachmentsOwned(c, front, itemBase, base);
      assert AttachmentsFor(c, qs, itemBase, base) == prev + (if q.id in c.post.files
        then [Attachment(base + |prev|, c.visit, Some(itemBase + |qs| - 1), c.post.files[q.id])] else []);
      var r := AttachmentsFor(c, qs, itemBase, base);
      forall k | 0 <= k < |r|
        ensures r[k].id == base + k && r[k].visit == c.visit
      {
        if k < |prev| {
          assert r[k] == prev[k];
        }
      }
    }
  }

  /** The rows of r beyond those of s were all added for visit v. */
  ghost predicate RowsAddedFor(s: Rows, r: Rows, v: int)
  {
    && AppendedFor(s.items, r.items, ItemVisit, v)
    && AppendedFor(s.actions, r.actions, ActionVisit, v)
    && AppendedFor(s.attachments, r.attachments, AttachmentVisit, v)
  }

  /** Rows added for a visit below n keep every reference of the three tables below n. */
  lemma RowsAddedKeepBelow(s: Rows, r: Rows, v: int, n: int)
    requires AllBelow(s.items, ItemVisit, n) && AllBelow(s.actions, ActionVisit, n)
    requires AllBelow(s.attachments, AttachmentVisit, n)
    requires RowsAddedFor(s, r, v) && v < n
    ensures AllBelow(r.items, ItemVisit, n) && AllBelow(r.actions, ActionVisit, n)
    ensures AllBelow(r.attachments, AttachmentVisit, n)
  {
    AppendedKeepsBelow(s.items, r.items, ItemVisit, v, n);
    AppendedKeepsBelow(s.actions, r.actions, ActionVisit, v, n);
    AppendedKeepsBelow(s.attachments, r.attachments, AttachmentVisit, v, n);
  }

  /** Every row a pass over the first i questions creates belongs to the visit. */
  lemma ProcessedOwned(r: Rows, c: Ctx, qs: seq<Question>, i: int, s: Rows)
    requires 0 <= i <= |qs| && Processed(r, c, qs, i, s)
    ensures RowsAddedFor(s, r, c.visit)
  {
    ItemsOwned(c, qs[..i], s.nextItemId);
    ActionsOwned(c, qs[..i], s.nextActionId);
    AttachmentsOwned(c, qs[..i], s.nextItemId, s.nextAttachmentId);
    assert r.items[..|s.items|] == s.items;
    assert r.actions[..|s.actions|] == s.actions;
    assert r.attachments[..|s.attachments|] == s.attachments;
  }

  /** So does every row a pass stopped by a refusal leaves behind. */
  lemma RefusedOwned(r: Rows, c: Ctx, qs: seq<Question>, i: int, s: Rows)
    requires 0 <= i < |qs| && Refused(r, c, qs, i, s)
    ensures RowsAddedFor(s, r, c.visit)
  {
    var made := ItemsFor(c, qs[..i], s.nextItemId);
    ItemsOwned(c, qs[..i], s.nextItemId);
    ActionsOwned(c, qs[..i], s.nextActionId);
    AttachmentsOwned(c, qs[..i], s.nextItemId, s.nextAttachmentId);
    OwnedAppend(s.items, made, ItemFor(c, qs[i], s.nextItemId + i).(requiresFollowUp := false), c.visit);
    assert r.actions[..|s.actions|] == s.actions;
    assert r.attachments[..|s.attachments|] == s.attachments;
  }

  /** Appending rows of the visit keeps the table an extension by that visit's rows. */
  lemma OwnedAppend(items0: seq<ChecklistItem>, made: seq<ChecklistItem>, item: ChecklistItem, visit: int)
    requires forall k :: 0 <= k < |made| ==> made[k].visit == visit
    requires item.visit == visit
    ensures AppendedFor(items0, items0 + made + [item], ItemVisit, visit)
  {
    assert (items0 + made + [item])[..|items0|] == items0;
  }

  // ---------------------------------------------------------------------
  // handle_checklist_submission
  // ---------------------------------------------------------------------

  /**
   * The fields of the submission form: the four text fields as
   * request.POST.get yields them (None when absent), the action button, the
   * three note fields (defaulting to '') and the per-question part.
   */
  datatype SubmissionForm = SubmissionForm(
    store: Option<string>, visitDate: Option<string>, timeIn: Option<string>, timeOut: Option<string>,
    action: Option<string>, generalNotes: string, runOutItems: string, maintenanceNeeded: string,
    post: ChecklistPost)

  /** How a submission ends. */
  datatype Submission =
    | MissingFields
    | StoreNotFound
    | BadDateTime
    | AttachmentRefused(message: string)
    | Submitted(visit: int, createdActions: nat, isDraft: bool)

  /** The form's values once checked: the store's primary key, the parsed times and the draft flag. */
  datatype VisitFields = VisitFields(store: int, visitDate: Date, timeIn: Time, timeOut: Option<Time>, isDraft: bool)

  /** A form value is truthy: present and not the empty string. */
  predicate Present(v: Option<string>)
  {
    v.Some? && v.value != []
  }

  /** all([store_id, visit_date_str, time_in_str]). */
  predicate RequiredPresent(f: SubmissionForm)
  {
    Present(f.store) && Present(f.visitDate) && Present(f.timeIn)
  }

  /** is_draft = (action == 'draft'). */
  predicate IsDraftAction(action: Option<string>)
  {
    action == Some("draft")
  }

  /**
   * time_out: parsed only when the field is present and not blank after
   * strip(); otherwise None. Some(None) is the parse error.
   */
  function TimeOutOf(v: Option<string>, parseTime: string -> Option<Time>): Option<Option<Time>>
  {
    if Present(v) && PyStrip(v.value) != [] then
      (if parseTime(v.value).Some? then Some(Some(parseTime(v.value).value)) else None)
    else Some(None)
  }

  /**
   * The checks of handle_checklist_submission before anything is written, in
   * the order the view makes them: the three required fields, the store
   * lookup (int() of the field, then the primary key), and the date and time
   * formats. strptime is the pair of parsers.
   */
  function CheckSubmission(f: SubmissionForm, stores: seq<Store>,
                           parseDate: string -> Option<Date>, parseTime: string -> Option<Time>)
    : (r: Result<VisitFields, Submission>)
    ensures r.Err? ==> r.error in {MissingFields, StoreNotFound, BadDateTime}
    ensures r.Err? && r.error == MissingFields <==> !RequiredPresent(f)
  {
    if !RequiredPresent(f) then Err(MissingFields)
    else
      var id := ParsePyInt(f.store.value);
      if id.None? || StoreById(stores, id.value).None? then Err(StoreNotFound)
      else
        var date, tin, tout := parseDate(f.visitDate.value), parseTime(f.timeIn.value), TimeOutOf(f.timeOut, parseTime);
        if date.None? || tin.None? || tout.None? then Err(BadDateTime)
        else Ok(VisitFields(id.value, date.value, tin.value, tout.value, IsDraftAction(f.action)))
  }

  /**
   * A check that passes names an existing store, took the times the parsers
   * gave, turns a missing or blank time_out into None, and is a draft exactly
   * when the action is 'draft'.
   */
  lemma CheckedSubmission(f: SubmissionForm, stores: seq<Store>,
                          parseDate: string -> Option<Date>, parseTime: string -> Option<Time>)
    requires CheckSubmission(f, stores, parseDate, parseTime).Ok?
    ensures var v := CheckSubmission(f, stores, parseDate, parseTime).value;
      && RequiredPresent(f)
      && StoreById(stores, v.store).Some?
      && Some(v.visitDate) == parseDate(f.visitDate.value) && Some(v.timeIn) == parseTime(f.timeIn.value)
      && (v.timeOut.None? <==> !Present(f.timeOut) || forall k :: 0 <= k < |f.timeOut.value| ==> IsPyWhitespace(f.timeOut.value[k]))
      && (v.isDraft <==> f.action == Some("draft"))
  {
    if Present(f.timeOut) {
      PyStripEmptyIffBlank(f.timeOut.value);
    }
  }

  /**
   * The visit the view creates. The parsed visit date is not stored: the
   * date field is auto_now_add, so the visit is dated on the day it is
   * saved; month and day keep their defaults.
   */
  function SubmittedVisit(v: VisitFields, f: SubmissionForm, user: User, today: Date): Visit
  {
    Visit(0, v.store, user.id, today, "", 1, None, v.isDraft, Some(v.timeIn), v.timeOut,
          f.generalNotes, f.runOutItems, f.maintenanceNeeded)
  }

  /**
   * handle_checklist_submission. A form that fails a check changes nothing.
   * Otherwise a visit is created with the next primary key and the checklist
   * processed for it; a refused attachment deletes the visit again, which
   * cascades to everything created for it and leaves every table as it was.
   * A submission that goes through adds the scored visit at the end of the
   * visits table and exactly the rows process_checklist_items promises.
   */
  method HandleChecklistSubmission(db: Database, f: SubmissionForm, user: User, today: Date,
                                   parseDate: string -> Option<Date>, parseTime: string -> Option<Time>)
    returns (out: Submission)
    requires db.Valid() && Valid(today)
    modifies db`visits, db`nextVisitId, db`items, db`nextItemId, db`actions, db`nextActionId
    modifies db`attachments, db`nextAttachmentId, db`tickets
    ensures var check := CheckSubmission(f, db.stores, parseDate, parseTime);
      check.Err? ==> out == check.error && unchanged(db)
    ensures out.AttachmentRefused? ==>
      && db.visits == old(db.visits) && db.items == old(db.items) && db.actions == old(db.actions)
      && db.tickets == old(db.tickets) && db.attachments == old(db.attachments)
    ensures var check := CheckSubmission(f, db.stores, parseDate, parseTime);
      var qs := ActiveQuestions(db.questions);
      check.Ok? ==> (out.AttachmentRefused? <==> FirstRejected(f.post, qs) < |qs|)
    ensures out.Submitted? ==>
      var fields := CheckSubmission(f, db.stores, parseDate, parseTime).value;
      var qs := ActiveQuestions(db.questions);
      var id := old(db.nextVisitId);
      && CheckSubmission(f, db.stores, parseDate, parseTime).Ok?
      && out == Submitted(id, NumNeedingAction(f.post, qs), fields.isDraft)
      && db.visits == old(db.visits)
           + [SubmittedVisit(fields, f, user, today).(id := id, overallScore := Some(OverallScore(f.post, qs)))]
      && Processed(RowsOf(db), SubmissionCtx(f.post, id, user, today, db.categories), qs, |qs|, old(RowsOf(db)))
      && db.tickets == old(db.tickets)
    ensures db.Valid()
  {
    var check := CheckSubmission(f, db.stores, parseDate, parseTime);
    if check.Err? {
      return check.error;
    }
    var fields := check.value;
    var r, id := SubmitVisit(db, SubmittedVisit(fields, f, user, today), f.post, user, today);
    if r.Err? {
      return AttachmentRefused(r.error);
    }
    out := Submitted(id, r.value, fields.isDraft);
  }

  /**
   * The part of handle_checklist_submission inside the transaction once the
   * form has passed its checks: create the visit, process the checklist
   * against it, and delete it again when an attachment is refused.
   */
  method SubmitVisit(db: Database, visit: Visit, post: ChecklistPost, user: User, today: Date)
    returns (r: Result<nat, string>, id: int)
    requires db.Valid() && Valid(today)
    modifies db`visits, db`nextVisitId, db`items, db`nextItemId, db`actions, db`nextActionId
    modifies db`attachments, db`nextAttachmentId, db`tickets
    ensures id == old(db.nextVisitId)
    ensures var qs := ActiveQuestions(db.questions);
      r.Ok? <==> FirstRejected(post, qs) == |qs|
    ensures r.Err? ==>
      && db.visits == old(db.visits) && db.items == old(db.items) && db.actions == old(db.actions)
      && db.tickets == old(db.tickets) && db.attachments == old(db.attachments)
    ensures r.Ok? ==>
      var qs := ActiveQuestions(db.questions);
      && r.value == NumNeedingAction(post, qs)
      && db.visits == old(db.visits) + [visit.(id := id, overallScore := Some(OverallScore(post, qs)))]
      && Processed(RowsOf(db), SubmissionCtx(post, id, user, today, db.categories), qs, |qs|, old(RowsOf(db)))
      && db.tickets == old(db.tickets)
    ensures db.Valid()
  {
    ghost var visits0, rows0, tickets0 := db.visits, RowsOf(db), db.tickets;
    RowsBelowRaise(visits0, rows0, tickets0, db.nextVisitId, db.nextVisitId + 1);
    id := db.CreateVisit(visit);
    r := ProcessOrRollback(db, post, id, user, today, visits0, rows0, tickets0, visit.(id := id));
    if r.Ok? {
      RowsAddedKeepBelow(rows0, RowsOf(db), id, db.nextVisitId);
      AllBelowAppend(visits0, db.visits[|visits0|], VisitId, db.nextVisitId);
      assert db.visits == visits0 + [db.visits[|visits0|]];
    }
  }

  /** Tables whose references are below n are below any larger bound. */
  lemma RowsBelowRaise(visits: seq<Visit>, s: Rows, tickets: seq<Ticket>, n: int, m: int)
    requires AllBelow(visits, VisitId, n) && AllBelow(s.items, ItemVisit, n) && AllBelow(s.actions, ActionVisit, n)
    requires AllBelow(tickets, TicketVisit, n) && AllBelow(s.attachments, AttachmentVisit, n) && n <= m
    ensures AllBelow(visits, VisitId, m) && AllBelow(s.items, ItemVisit, m) && AllBelow(s.actions, ActionVisit, m)
    ensures AllBelow(tickets, TicketVisit, m) && AllBelow(s.attachments, AttachmentVisit, m)
  {
    RefsBelowRaise(Tables([], [], [], [], [], visits, s.items, s.actions, tickets, s.attachments), n, m);
  }

  /**
   * The checklist processed for the visit v just created, or, when an
   * attachment is refused, v deleted again with everything added for it.
   */
  method ProcessOrRollback(db: Database, post: ChecklistPost, id: int, user: User, today: Date,
                           ghost visits0: seq<Visit>, ghost rows0: Rows, ghost tickets0: seq<Ticket>, ghost v: Visit)
    returns (r: Result<nat, string>)
    requires Valid(today)
    requires v.id == id && db.visits == visits0 + [v] && db.tickets == tickets0 && RowsOf(db) == rows0
    requires Unreferenced(Tables([], [], [], [], [], visits0, rows0.items, rows0.actions, tickets0, rows0.attachments), id)
    modifies db`visits, db`items, db`nextItemId, db`actions, db`nextActionId
    modifies db`attachments, db`nextAttachmentId, db`tickets
    ensures var qs := ActiveQuestions(db.questions);
      r.Ok? <==> FirstRejected(post, qs) == |qs|
    ensures r.Err? ==>
      && db.visits == visits0 && db.items == rows0.items && db.actions == rows0.actions
      && db.tickets == tickets0 && db.attachments == rows0.attachments
    ensures r.Ok? ==>
      var qs := ActiveQuestions(db.questions);
      && r.value == NumNeedingAction(post, qs)
      && db.visits == visits0 + [v.(overallScore := Some(OverallScore(post, qs)))]
      && Processed(RowsOf(db), SubmissionCtx(post, id, user, today, db.categories), qs, |qs|, rows0)
      && db.tickets == tickets0
    ensures r.Ok? ==> RowsAddedFor(rows0, RowsOf(db), id)
  {
    r := ProcessChecklistItems(db, post, id, user, today);
    if r.Err? {
      Rollback(db, id, visits0, rows0, tickets0, v);
      return;
    }
    WithScoreNew(visits0, v, OverallScore(post, ActiveQuestions(db.questions)));
  }

  /**
   * new_visit.delete() after a refusal: the visit goes, and with it every
   * row added for it since rows0, so the tables are as they were before it.
   */
  method Rollback(db: Database, id: int, ghost visits0: seq<Visit>, ghost rows0: Rows, ghost tickets0: seq<Ticket>,
                  ghost v: Visit)
    requires v.id == id && db.visits == visits0 + [v] && db.tickets == tickets0
    requires Unreferenced(Tables([], [], [], [], [], visits0, rows0.items, rows0.actions, tickets0, rows0.attachments), id)
    requires RowsAddedFor(rows0, RowsOf(db), id)
    modifies db`visits, db`items, db`actions, db`tickets, db`attachments
    ensures db.visits == visits0 && db.items == rows0.items && db.actions == rows0.actions
    ensures db.tickets == tickets0 && db.attachments == rows0.attachments
  {
    assert (visits0 + [v])[..|visits0|] == visits0;
    WithoutUndoesAppend(visits0, db.visits, VisitId, id);
    WithoutUndoesAppend(rows0.items, db.items, ItemVisit, id);
    WithoutUndoesAppend(rows0.actions, db.actions, ActionVisit, id);
    WithoutUnowned(tickets0, TicketVisit, id);
    WithoutUndoesAppend(rows0.attachments, db.attachments, AttachmentVisit, id);
    db.DeleteVisit(id);
  }

  /** Scoring a visit just appended touches no earlier visit. */
  lemma {:induction false} WithScoreNew(vs: seq<Visit>, v: Visit, score: int)
    requires forall k :: 0 <= k < |vs| ==> vs[k].id != v.id
    ensures WithScore(vs + [v], v.id, score) == vs + [v.(overallScore := Some(score))]
  {
    if vs == [] {
      assert [] + [v] == [v];
    } else {
      assert (vs + [v])[1..] == vs[1..] + [v];
      WithScoreNew(vs[1..], v, score);
    }
  }

}

=== FILE: common.dfy ===
/**
 * Shared vocabulary of the model: optional values and results, Python's
 * rounding on exact rationals, and the few string operations of Python and
 * JavaScript that the checklist application relies on.
 */
module Common {

  datatype Option<+T> = None | Some(value: T)

  datatype Result<+T, +E> = Ok(value: T) | Err(error: E)

  // ---------------------------------------------------------------------
  // Rounding
  // ---------------------------------------------------------------------

  /** Python's built-in round(n / d): the nearest integer, ties to even. */
  function RoundHalfEven(n: int, d: int): (r: int)
    requires d > 0
    ensures 2 * (n - r * d) <= d && 2 * (r * d - n) <= d
    ensures 2 * (n - r * d) == d || 2 * (r * d - n) == d ==> r % 2 == 0
  {
    var q, m := n / d, n % d;
    assert n == q * d + m;
    if 2 * m < d then q
    else if 2 * m > d then q + 1
    else if q % 2 == 0 then q
    else q + 1
  }

  /**
   * Python's round(n / d, 1), taken on the exact rational: the result is a
   * whole number of tenths (a value of 87 stands for 8.7).
   */
  function RoundTenths(n: int, d: int): (t: int)
    requires d > 0
    ensures 2 * (10 * n - t * d) <= d && 2 * (t * d - 10 * n) <= d
  {
    RoundHalfEven(10 * n, d)
  }

  lemma {:induction false} RoundHalfEvenMonotone(n1: int, n2: int, d: int)
    requires d > 0 && n1 <= n2
    ensures RoundHalfEven(n1, d) <= RoundHalfEven(n2, d)
  {
    var q1, q2 := n1 / d, n2 / d;
    DivMonotone(n1, n2, d);
    if q1 == q2 {
      assert n1 % d <= n2 % d;
    }
  }

  lemma DivMonotone(n1: int, n2: int, d: int)
    requires d > 0 && n1 <= n2
    ensures n1 / d <= n2 / d
  {
    var q1, q2 := n1 / d, n2 / d;
    assert n1 == q1 * d + n1 % d && n2 == q2 * d + n2 % d;
    if q1 > q2 {
      MulMonotone(q2 + 1, q1, d);
      assert false;
    }
  }

  /** Rounding a quotient that lies between lo and hi stays between them. */
  lemma {:induction false} RoundHalfEvenBetween(n: int, d: int, lo: int, hi: int)
    requires d > 0 && lo * d <= n <= hi * d
    ensures lo <= RoundHalfEven(n, d) <= hi
  {
    var q, m := n / d, n % d;
    assert n == q * d + m && 0 <= m < d;
    if q < lo {
      MulMonotone(q + 1, lo, d);
      assert false;
    }
    if q > hi {
      MulMonotone(hi + 1, q, d);
      assert false;
    }
    if q == hi {
      assert hi * d <= n;
      assert m == 0;
    }
  }

  /** A share of a whole, as a percentage in tenths, lies between 0 and 100.0. */
  lemma PercentTenthsBetween(part: int, whole: int)
    requires 0 <= part <= whole && whole > 0
    ensures 0 <= RoundTenths(100 * part, whole) <= 1000
  {
    MulMonotone(part, whole, 1000);
    RoundHalfEvenBetween(1000 * part, whole, 0, 1000);
  }

  /** The whole of a whole is 100.0 per cent and none of it is 0. */
  lemma PercentTenthsExtremes(whole: int)
    requires whole > 0
    ensures RoundTenths(100 * whole, whole) == 1000 && RoundTenths(0, whole) == 0
  {
    assert 10 * (100 * whole) == 1000 * whole;
    RoundHalfEvenBetween(1000 * whole, whole, 1000, 1000);
    RoundHalfEvenBetween(0, whole, 0, 0);
  }

  lemma MulMonotone(a: int, b: int, d: int)
    requires a <= b && d >= 0
    ensures a * d <= b * d
  {
  }

  // ---------------------------------------------------------------------
  // Counting and filtering sequences
  // ---------------------------------------------------------------------

  function Count<T>(s: seq<T>, p: T -> bool): (n: nat)
    ensures n <= |s|
  {
    if s == [] then 0 else (if p(s[0]) then 1 else 0) + Count(s[1..], p)
  }

  function Filter<T>(s: seq<T>, p: T -> bool): (r: seq<T>)
    ensures |r| == Count(s, p)
  {
    if s == [] then [] else (if p(s[0]) then [s[0]] else []) + Filter(s[1..], p)
  }

  /** Every element that survives filtering meets the predicate. */
  lemma {:induction false} FilterKeepsOnly<T>(s: seq<T>, p: T -> bool)
    ensures forall i :: 0 <= i < |Filter(s, p)| ==> p(Filter(s, p)[i])
  {
    if s != [] {
      FilterKeepsOnly(s[1..], p);
      var r := Filter(s, p);
      var rest := Filter(s[1..], p);
      assert r == (if p(s[0]) then [s[0]] else []) + rest;
      forall i | 0 <= i < |r|
        ensures p(r[i])
      {
        if !p(s[0]) || i > 0 {
          assert r[i] == rest[if p(s[0]) then i - 1 else i];
        }
      }
    }
  }

  /** The first n elements, or all of them when there are fewer. */
  function Take<T>(s: seq<T>, n: nat): (r: seq<T>)
    ensures |r| == (if |s| <= n then |s| else n) && r == s[..|r|]
  {
    if |s| <= n then s else s[..n]
  }

  function Sum(s: seq<int>): int
  {
    if s == [] then 0 else s[0] + Sum(s[1..])
  }

  /** Predicates that agree on every element count the same. */
  lemma {:induction false} CountSame<T>(s: seq<T>, p: T -> bool, q: T -> bool)
    requires forall k :: 0 <= k < |s| ==> p(s[k]) == q(s[k])
    ensures Count(s, p) == Count(s, q)
  {
    if s != [] {
      CountSame(s[1..], p, q);
    }
  }

  /** Counting by a stronger predicate gives no more. */
  lemma {:induction false} CountImplies<T>(s: seq<T>, p: T -> bool, q: T -> bool)
    requires forall x :: p(x) ==> q(x)
    ensures Count(s, p) <= Count(s, q)
  {
    if s != [] { CountImplies(s[1..], p, q); }
  }

  lemma {:induction false} CountAppend<T>(a: seq<T>, b: seq<T>, p: T -> bool)
    ensures Count(a + b, p) == Count(a, p) + Count(b, p)
  {
    if a != [] {
      assert (a + b)[0] == a[0] && (a + b)[1..] == a[1..] + b;
      CountAppend(a[1..], b, p);
    } else {
      assert a + b == b;
    }
  }

  lemma {:induction false} FilterAppend<T>(a: seq<T>, b: seq<T>, p: T -> bool)
    ensures Filter(a + b, p) == Filter(a, p) + Filter(b, p)
  {
    if a != [] {
      assert (a + b)[0] == a[0] && (a + b)[1..] == a[1..] + b;
      FilterAppend(a[1..], b, p);
    } else {
      assert a + b == b;
    }
  }

  lemma {:induction false} SumAppend(a: seq<int>, b: seq<int>)
    ensures Sum(a + b) == Sum(a) + Sum(b)
  {
    if a != [] {
      assert (a + b)[0] == a[0] && (a + b)[1..] == a[1..] + b;
      SumAppend(a[1..], b);
    } else {
      assert a + b == b;
    }
  }

  /** Filtering with a predicate that every element fails keeps nothing. */
  lemma {:induction false} FilterNone<T>(s: seq<T>, p: T -> bool)
    requires forall i :: 0 <= i < |s| ==> !p(s[i])
    ensures Filter(s, p) == []
  {
    if s != [] { FilterNone(s[1..], p); }
  }

  /** Filtering with a predicate that every element meets keeps everything. */
  lemma {:induction false} FilterAll<T>(s: seq<T>, p: T -> bool)
    requires forall i :: 0 <= i < |s| ==> p(s[i])
    ensures Filter(s, p) == s
  {
    if s != [] { FilterAll(s[1..], p); }
  }

  /** An element survives filtering iff it was there and meets the predicate. */
  lemma {:induction false} FilterMembership<T>(s: seq<T>, p: T -> bool, x: T)
    ensures x in Filter(s, p) <==> x in s && p(x)
  {
    if s != [] {
      FilterMembership(s[1..], p, x);
      assert s == [s[0]] + s[1..];
    }
  }

  // ---------------------------------------------------------------------
  // Rows owned by a parent record (cascading deletes)
  // ---------------------------------------------------------------------

  /** The rows of s whose owner is not v: what a cascading delete of v keeps. */
  function Without<T>(s: seq<T>, owner: T -> int, v: int): (r: seq<T>)
    ensures |r| <= |s|
    ensures forall k :: 0 <= k < |r| ==> owner(r[k]) != v
  {
    if s == [] then []
    else (if owner(s[0]) == v then [] else [s[0]]) + Without(s[1..], owner, v)
  }

  /** Without keeps exactly the rows v does not own. */
  lemma {:induction false} WithoutMembers<T>(s: seq<T>, owner: T -> int, v: int, x: T)
    ensures x in Without(s, owner, v) <==> x in s && owner(x) != v
  {
    if s != [] {
      WithoutMembers(s[1..], owner, v, x);
      assert s == [s[0]] + s[1..];
    }
  }

  /** after is before with rows owned by v added at the end (and those rows possibly edited). */
  ghost predicate AppendedFor<T>(before: seq<T>, after: seq<T>, owner: T -> int, v: int)
  {
    |before| <= |after| && after[..|before|] == before
    && forall k {:trigger owner(after[k])} :: |before| <= k < |after| ==> owner(after[k]) == v
  }

  lemma {:induction false} WithoutAppend<T>(a: seq<T>, b: seq<T>, owner: T -> int, v: int)
    ensures Without(a + b, owner, v) == Without(a, owner, v) + Without(b, owner, v)
  {
    if a != [] {
      assert (a + b)[0] == a[0] && (a + b)[1..] == a[1..] + b;
      WithoutAppend(a[1..], b, owner, v);
    } else {
      assert a + b == b;
    }
  }

  lemma {:induction false} WithoutUnowned<T>(s: seq<T>, owner: T -> int, v: int)
    requires forall k :: 0 <= k < |s| ==> owner(s[k]) != v
    ensures Without(s, owner, v) == s
  {
    if s != [] { WithoutUnowned(s[1..], owner, v); }
  }

  lemma {:induction false} WithoutOwned<T>(s: seq<T>, owner: T -> int, v: int)
    requires forall k :: 0 <= k < |s| ==> owner(s[k]) == v
    ensures Without(s, owner, v) == []
  {
    if s != [] { WithoutOwned(s[1..], owner, v); }
  }

  /** Deleting v undoes appending rows owned by v to rows that v did not own. */
  lemma WithoutUndoesAppend<T>(before: seq<T>, after: seq<T>, owner: T -> int, v: int)
    requires AppendedFor(before, after, owner, v)
    requires forall k :: 0 <= k < |before| ==> owner(before[k]) != v
    ensures Without(after, owner, v) == before
  {
    var extra := after[|before|..];
    assert after == before + extra;
    WithoutAppend(before, extra, owner, v);
    WithoutUnowned(before, owner, v);
    WithoutOwned(extra, owner, v);
  }

  /** Every row's owner is below n. */
  predicate AllBelow<T>(s: seq<T>, owner: T -> int, n: int)
  {
    s == [] || (owner(s[0]) < n && AllBelow(s[1..], owner, n))
  }

  lemma {:induction false} AllBelowIndex<T>(s: seq<T>, owner: T -> int, n: int)
    ensures AllBelow(s, owner, n) <==> forall k :: 0 <= k < |s| ==> owner(s[k]) < n
  {
    if s != [] {
      AllBelowIndex(s[1..], owner, n);
      assert forall k :: 1 <= k < |s| ==> s[k] == s[1..][k - 1];
    }
  }

  /** Rows appended for an owner below n keep every owner below n. */
  lemma AppendedKeepsBelow<T>(s0: seq<T>, s1: seq<T>, owner: T -> int, v: int, n: int)
    requires AllBelow(s0, owner, n) && AppendedFor(s0, s1, owner, v) && v < n
    ensures AllBelow(s1, owner, n)
  {
    AllBelowIndex(s0, owner, n);
    AllBelowIndex(s1, owner, n);
  }

  /** Rows that keep the owners of rows all below n keep them below n. */
  lemma SameOwnersKeepBelow<T>(s0: seq<T>, s1: seq<T>, owner: T -> int, n: int)
    requires AllBelow(s0, owner, n) && |s1| == |s0|
    requires forall k :: 0 <= k < |s0| ==> owner(s1[k]) == owner(s0[k])
    ensures AllBelow(s1, owner, n)
  {
    AllBelowIndex(s0, owner, n);
    AllBelowIndex(s1, owner, n);
  }

  /** One more row keeps the owners below n iff its own owner is. */
  lemma AllBelowAppend<T>(s: seq<T>, x: T, owner: T -> int, n: int)
    ensures AllBelow(s + [x], owner, n) <==> AllBelow(s, owner, n) && owner(x) < n
  {
    AllBelowIndex(s, owner, n);
    AllBelowIndex(s + [x], owner, n);
    assert forall k :: 0 <= k < |s| ==> (s + [x])[k] == s[k];
    assert (s + [x])[|s|] == x;
  }

  /** Deleting rows keeps every remaining owner below n. */
  lemma {:induction false} WithoutKeepsBelow<T>(s: seq<T>, owner: T -> int, v: int, n: int)
    requires AllBelow(s, owner, n)
    ensures AllBelow(Without(s, owner, v), owner, n)
  {
    if s != [] {
      WithoutKeepsBelow(s[1..], owner, v, n);
      AllBelowIndex(s, owner, n);
      AllBelowIndex(s[1..], owner, n);
      AllBelowIndex(Without(s[1..], owner, v), owner, n);
      AllBelowIndex(Without(s, owner, v), owner, n);
    }
  }

  lemma AppendedForTrans<T>(a: seq<T>, b: seq<T>, c: seq<T>, owner: T -> int, v: int)
    requires AppendedFor(a, b, owner, v) && AppendedFor(b, c, owner, v)
    ensures AppendedFor(a, c, owner, v)
  {
    assert c[..|a|] == c[..|b|][..|a|];
  }

  // ---------------------------------------------------------------------
  // Characters and strings
  // ---------------------------------------------------------------------

  /** The characters for which Python's str.isspace() holds. */
  predicate IsPyWhitespace(c: char)
  {
    var k := c as int;
    (9 <= k <= 13) || (28 <= k <= 32) || k == 0x85 || k == 0xA0 || k == 0x1680
    || (0x2000 <= k <= 0x200A) || k == 0x2028 || k == 0x2029 || k == 0x202F
    || k == 0x205F || k == 0x3000
  }

  /** The characters that JavaScript's String.prototype.trim removes. */
  predicate IsJsWhitespace(c: char)
  {
    var k := c as int;
    (9 <= k <= 13) || k == 32 || k == 0xA0 || k == 0x1680
    || (0x2000 <= k <= 0x200A) || k == 0x2028 || k == 0x2029 || k == 0x202F
    || k == 0x205F || k == 0x3000 || k == 0xFEFF
  }

  function TrimLeft(s: string, ws: char -> bool): (r: string)
    ensures r == [] || !ws(r[0])
  {
    if s != [] && ws(s[0]) then TrimLeft(s[1..], ws) else s
  }

  function TrimRight(s: string, ws: char -> bool): (r: string)
    ensures r == [] || !ws(r[|r| - 1])
  {
    if s != [] && ws(s[|s| - 1]) then TrimRight(s[..|s| - 1], ws) else s
  }

  /** Python's str.strip() with no argument. */
  function PyStrip(s: string): string
  {
    TrimRight(TrimLeft(s, IsPyWhitespace), IsPyWhitespace)
  }

  /** JavaScript's String.prototype.trim(). */
  function JsTrim(s: string): string
  {
    TrimRight(TrimLeft(s, IsJsWhitespace), IsJsWhitespace)
  }

  /** A string is blank (falsy after strip) iff it is made of whitespace only. */
  lemma {:induction false} PyStripEmptyIffBlank(s: string)
    ensures PyStrip(s) == [] <==> forall i :: 0 <= i < |s| ==> IsPyWhitespace(s[i])
  {
    var l := TrimLeft(s, IsPyWhitespace);
    TrimLeftAllWhitespace(s, IsPyWhitespace);
    if l != [] {
      assert !IsPyWhitespace(l[0]);
      assert TrimRight(l, IsPyWhitespace) != [] by {
        TrimRightKeepsNonBlank(l, IsPyWhitespace);
      }
    }
  }

  lemma {:induction false} TrimLeftAllWhitespace(s: string, ws: char -> bool)
    ensures TrimLeft(s, ws) == [] <==> forall i :: 0 <= i < |s| ==> ws(s[i])
  {
    if s != [] && ws(s[0]) {
      TrimLeftAllWhitespace(s[1..], ws);
      assert forall i :: 1 <= i < |s| ==> s[i] == s[1..][i - 1];
    }
  }

  lemma {:induction false} TrimRightKeepsNonBlank(s: string, ws: char -> bool)
    requires s != [] && !ws(s[0])
    ensures TrimRight(s, ws) != []
  {
    if ws(s[|s| - 1]) {
      assert |s| > 1;
      TrimRightKeepsNonBlank(s[..|s| - 1], ws);
    }
  }

  /** A string with no surrounding whitespace is left as it is by strip(). */
  lemma PyStripNoWhitespace(s: string)
    requires s == [] || (!IsPyWhitespace(s[0]) && !IsPyWhitespace(s[|s| - 1]))
    ensures PyStrip(s) == s
  {
  }

  function AsciiLowerChar(c: char): char
  {
    if 'A' <= c <= 'Z' then (c as int + 32) as char else c
  }

  /** Lower-casing, for the ASCII letters. */
  function AsciiLower(s: string): (r: string)
    ensures |r| == |s|
    ensures forall i :: 0 <= i < |s| ==> r[i] == AsciiLowerChar(s[i])
  {
    if s == [] then [] else [AsciiLowerChar(s[0])] + AsciiLower(s[1..])
  }

  predicate IsAsciiDigit(c: char)
  {
    '0' <= c <= '9'
  }

  predicate IsPrefix(p: string, s: string)
  {
    |p| <= |s| && s[..|p|] == p
  }

  /** Substring containment (Python's `in` on strings, SQL LIKE '%p%'). */
  predicate Contains(s: string, p: string)
  {
    IsPrefix(p, s) || (s != [] && Contains(s[1..], p))
  }

  /** Case-insensitive containment, as Django's `icontains` lookup. */
  predicate IContains(s: string, p: string)
  {
    Contains(AsciiLower(s), AsciiLower(p))
  }

  // ---------------------------------------------------------------------
  // Splitting on a separator (Python str.split(sep), JavaScript split(sep))
  // ---------------------------------------------------------------------

  function Split(s: string, sep: char): (parts: seq<string>)
    ensures |parts| >= 1
    ensures forall k :: 0 <= k < |parts| ==> sep !in parts[k]
  {
    if s == [] then [[]]
    else
      var rest := Split(s[1..], sep);
      if s[0] == sep then [[]] + rest
      else [[s[0]] + rest[0]] + rest[1..]
  }

  function Join(parts: seq<string>, sep: char): string
  {
    if |parts| == 0 then []
    else if |parts| == 1 then parts[0]
    else parts[0] + [sep] + Join(parts[1..], sep)
  }

  /** Splitting loses nothing: joining the parts back gives the input. */
  lemma {:induction false} JoinSplit(s: string, sep: char)
    ensures Join(Split(s, sep), sep) == s
  {
    if s != [] {
      var rest := Split(s[1..], sep);
      JoinSplit(s[1..], sep);
      if s[0] == sep {
        assert Split(s, sep) == [[]] + rest;
        assert Split(s, sep)[1..] == rest;
      } else {
        var parts := Split(s, sep);
        assert parts == [[s[0]] + rest[0]] + rest[1..];
        if |rest| == 1 {
          assert parts == [[s[0]] + rest[0]];
        } else {
          assert parts[1..] == rest[1..];
          assert Join(rest, sep) == rest[0] + [sep] + Join(rest[1..], sep);
        }
      }
    }
  }

  /** A piece free of the separator is split off as the first part. */
  lemma {:induction false} SplitAfterSeparatorFree(a: string, b: string, sep: char)
    requires sep !in a
    ensures Split(a + [sep] + b, sep) == [a] + Split(b, sep)
  {
    if a == [] {
      assert [] + [sep] + b == [sep] + b;
      assert ([sep] + b)[1..] == b;
    } else {
      assert (a + [sep] + b)[1..] == a[1..] + [sep] + b;
      SplitAfterSeparatorFree(a[1..], b, sep);
      assert [a[0]] + a[1..] == a;
    }
  }

  lemma {:induction false} SplitSeparatorFree(a: string, sep: char)
    requires sep !in a
    ensures Split(a, sep) == [a]
  {
    if a != [] {
      SplitSeparatorFree(a[1..], sep);
      assert [a[0]] + a[1..] == a;
    }
  }

  // ---------------------------------------------------------------------
  // Decimal integers: Python's str(int) and int(str)
  // ---------------------------------------------------------------------

  function DigitChar(d: int): char
    requires 0 <= d <= 9
  {
    ('0' as int + d) as char
  }

  function DigitValue(c: char): int
    requires IsAsciiDigit(c)
  {
    c as int - '0' as int
  }

  function NatToString(n: nat): (s: string)
    ensures |s| >= 1
    ensures forall i :: 0 <= i < |s| ==> IsAsciiDigit(s[i])
  {
    if n < 10 then [DigitChar(n)] else NatToString(n / 10) + [DigitChar(n % 10)]
  }

  /** Python's str() of an integer. */
  function IntToString(n: int): string
  {
    if n < 0 then "-" + NatToString(-n) else NatToString(n)
  }

  predicate AllDigits(s: string)
  {
    forall i :: 0 <= i < |s| ==> IsAsciiDigit(s[i])
  }

  function DigitsValue(s: string): (v: nat)
    requires AllDigits(s)
  {
    if s == [] then 0 else 10 * DigitsValue(s[..|s| - 1]) + DigitValue(s[|s| - 1])
  }

  /**
   * Python's int() on a string: surrounding whitespace, an optional sign and
   * at least one decimal digit; None where int() raises ValueError.
   */
  function ParsePyInt(s: string): (r: Option<int>)
    ensures r.Some? ==> PyStrip(s) != [] && IsAsciiDigit(PyStrip(s)[|PyStrip(s)| - 1])
  {
    ParseSigned(PyStrip(s))
  }

  /** int() on a string that has already lost its surrounding whitespace. */
  function ParseSigned(t: string): (r: Option<int>)
    ensures r.Some? ==> t != [] && IsAsciiDigit(t[|t| - 1])
  {
    if |t| >= 2 && (t[0] == '-' || t[0] == '+') then
      var digits := t[1..];
      if AllDigits(digits) then
        assert IsAsciiDigit(digits[|digits| - 1]);
        var v: int := DigitsValue(digits);
        Some(if t[0] == '-' then -v else v)
      else None
    else if |t| >= 1 && AllDigits(t) then
      Some(DigitsValue(t))
    else None
  }

  lemma {:induction false} DigitsValueOfNatToString(n: nat)
    ensures DigitsValue(NatToString(n)) == n
  {
    if n >= 10 {
      var s := NatToString(n);
      assert s[..|s| - 1] == NatToString(n / 10);
      DigitsValueOfNatToString(n / 10);
    }
  }

  /** int(str(n)) == n for every integer n. */
  lemma IntStringRoundTrip(n: int)
    ensures ParsePyInt(IntToString(n)) == Some(n)
  {
    if n < 0 {
      var m: nat := -n;
      var digits := NatToString(m);
      assert IntToString(n) == "-" + digits;
      DigitsValueOfNatToString(m);
      ParseNegative(digits);
    } else {
      var digits := NatToString(n);
      assert IntToString(n) == digits;
      DigitsValueOfNatToString(n);
      ParseUnsigned(digits);
    }
  }

  lemma ParseUnsigned(digits: string)
    requires digits != [] && AllDigits(digits)
    ensures ParsePyInt(digits) == Some(DigitsValue(digits))
  {
    DigitNotWhitespace(digits[0]);
    DigitNotWhitespace(digits[|digits| - 1]);
    PyStripNoWhitespace(digits);
    assert digits[0] != '-' && digits[0] != '+';
  }

  lemma ParseNegative(digits: string)
    requires digits != [] && AllDigits(digits)
    ensures ParsePyInt("-" + digits) == Some(-(DigitsValue(digits) as int))
  {
    var s := "-" + digits;
    DigitNotWhitespace(digits[|digits| - 1]);
    assert s[|s| - 1] == digits[|digits| - 1];
    PyStripNoWhitespace(s);
    assert s[1..] == digits;
  }

  lemma DigitNotWhitespace(c: char)
    requires IsAsciiDigit(c)
    ensures !IsPyWhitespace(c)
  {
  }
}

=== FILE: cookies.dfy ===
/**
 * getCookie (static/checklist/js/area_management.js), the CSRF-token
 * lookup of the area-management page: the cookie string is split on ';',
 * each piece trimmed, and the value of the first piece that starts with
 * the name followed by '=' is returned, URI-decoded; null when there is
 * none. decodeURIComponent is a parameter of the model.
 */
module Cookies {
  import opened Common

  /** String.prototype.substring(start, end) for 0 <= start: both ends clamped to the length. */
  function JsSubstring(s: string, start: nat, end: nat): (r: string)
    requires start <= end
  {
    var e := if end <= |s| then end else |s|;
    var b := if start <= e then start else e;
    s[b..e]
  }

  /** The source's test, substring(0, name.length + 1) === name + '=', is a prefix test. */
  lemma SubstringTestIsPrefix(c: string, name: string)
    ensures JsSubstring(c, 0, |name| + 1) == name + "=" <==> IsPrefix(name + "=", c)
  {
  }

  /** A trimmed piece of the cookie string belongs to the name. */
  predicate Matches(segment: string, name: string)
  {
    IsPrefix(name + "=", JsTrim(segment))
  }

  /** The raw value after 'name=' in the first piece that belongs to the name. */
  function FirstMatch(segments: seq<string>, name: string): (r: Option<string>)
    ensures r.None? <==> forall k :: 0 <= k < |segments| ==> !Matches(segments[k], name)
  {
    if segments == [] then None
    else if Matches(segments[0], name) then Some(JsTrim(segments[0])[|name| + 1..])
    else
      var rest := FirstMatch(segments[1..], name);
      assert forall k :: 1 <= k < |segments| ==> segments[k] == segments[1..][k - 1];
      rest
  }

  /** document.cookie.split(';'). */
  function Pieces(cookie: string): seq<string>
  {
    Split(cookie, ';')
  }

  /** What getCookie returns: null for an empty cookie string or no match, the decoded value otherwise. */
  function CookieValue(cookie: string, name: string, decode: string -> string): Option<string>
  {
    if cookie == "" then None
    else
      var raw := FirstMatch(Pieces(cookie), name);
      if raw.None? then None else Some(decode(raw.value))
  }

  /** getCookie: the loop over the pieces, stopping at the first one that belongs to the name. */
  method GetCookie(cookie: string, name: string, decode: string -> string) returns (cookieValue: Option<string>)
    ensures cookieValue == CookieValue(cookie, name, decode)
  {
    cookieValue := None;
    if cookie != "" {
      var cookies := Pieces(cookie);
      var i := 0;
      while i < |cookies|
        invariant 0 <= i <= |cookies|
        invariant FirstMatch(cookies, name) == FirstMatch(cookies[i..], name)
      {
        var c := JsTrim(cookies[i]);
        FirstMatchStep(cookies, name, i);
        SubstringTestIsPrefix(c, name);
        if JsSubstring(c, 0, |name| + 1) == name + "=" {
          assert JsSubstring(c, |name| + 1, |c|) == c[|name| + 1..];
          cookieValue := Some(decode(JsSubstring(c, |name| + 1, |c|)));
          assert cookieValue == CookieValue(cookie, name, decode);
          return;
        }
        i := i + 1;
      }
    }
  }

  /** One step of the search: the piece at i decides, or the search goes on past it. */
  lemma FirstMatchStep(segments: seq<string>, name: string, i: int)
    requires 0 <= i < |segments|
    ensures FirstMatch(segments[i..], name) ==
      if Matches(segments[i], name) then Some(JsTrim(segments[i])[|name| + 1..]) else FirstMatch(segments[i + 1..], name)
  {
    assert segments[i..][0] == segments[i];
    assert segments[i..][1..] == segments[i + 1..];
  }

  /** getCookie gives null exactly when the string is empty or no piece belongs to the name. */
  lemma CookieValueNone(cookie: string, name: string, decode: string -> string)
    ensures CookieValue(cookie, name, decode).None? <==>
      cookie == "" || forall k :: 0 <= k < |Pieces(cookie)| ==> !Matches(Pieces(cookie)[k], name)
  {
  }

  /**
   * The value found is the decoded part after 'name=' of the first piece
   * that belongs to the name; no earlier piece belongs to it.
   */
  lemma CookieValueFound(cookie: string, name: string, decode: string -> string)
    requires CookieValue(cookie, name, decode).Some?
    ensures var segs := Pieces(cookie);
      exists i :: (0 <= i < |segs| && Matches(segs[i], name) && (forall j :: 0 <= j < i ==> !Matches(segs[j], name))
        && CookieValue(cookie, name, decode).value == decode(JsTrim(segs[i])[|name| + 1..]))
  {
    var i := FirstMatchIndex(Pieces(cookie), name);
  }

  /** The index of the piece the search stops at. */
  lemma {:induction false} FirstMatchIndex(segments: seq<string>, name: string) returns (i: int)
    requires FirstMatch(segments, name).Some?
    ensures 0 <= i < |segments| && Matches(segments[i], name)
    ensures forall j :: 0 <= j < i ==> !Matches(segments[j], name)
    ensures FirstMatch(segments, name).value == JsTrim(segments[i])[|name| + 1..]
  {
    if Matches(segments[0], name) {
      i := 0;
    } else {
      var rest := segments[1..];
      var i' := FirstMatchIndex(rest, name);
      i := i' + 1;
      assert segments[i] == rest[i'];
      forall j | 0 <= j < i
        ensures !Matches(segments[j], name)
      {
        if j > 0 {
          assert segments[j] == rest[j - 1];
        }
      }
    }
  }

  /** Trimming only removes characters, so a trimmed piece holds no character its piece lacked. */
  lemma {:induction false} TrimKeepsOnly(s: string, ws: char -> bool, c: char)
    ensures c in TrimLeft(s, ws) ==> c in s
    ensures c in TrimRight(s, ws) ==> c in s
  {
    if s != [] && ws(s[0]) {
      TrimKeepsOnly(s[1..], ws, c);
    }
    if s != [] && ws(s[|s| - 1]) {
      TrimKeepsOnly(s[..|s| - 1], ws, c);
    }
  }

  /** The raw value never holds a ';', since the pieces were split on it. */
  lemma RawValueHasNoSemicolon(cookie: string, name: string)
    requires FirstMatch(Pieces(cookie), name).Some?
    ensures ';' !in FirstMatch(Pieces(cookie), name).value
  {
    var segs := Pieces(cookie);
    var i := FirstMatchIndex(segs, name);
    var t := JsTrim(segs[i]);
    TrimKeepsOnly(segs[i], IsJsWhitespace, ';');
    TrimKeepsOnly(TrimLeft(segs[i], IsJsWhitespace), IsJsWhitespace, ';');
    assert ';' !in t;
  }

  /**
   * A name that is only a proper prefix of another cookie's name does not
   * pick up that cookie: the character after the name is not '='.
   */
  lemma PrefixNameDoesNotMatch(name: string, other: string, value: string)
    requires |name| < |other| && other[..|name|] == name && '=' !in other
    ensures !IsPrefix(name + "=", other + "=" + value)
  {
    assert (other + "=" + value)[|name|] == other[|name|];
  }

  /**
   * A cookie string holding one cookie, 'name=value', gives back the
   * decoded value: setting then reading a cookie is a round trip.
   */
  lemma SingleCookieRoundTrip(name: string, value: string, decode: string -> string)
    requires ';' !in name && ';' !in value
    requires name != [] && !IsJsWhitespace(name[0])
    requires value == [] || !IsJsWhitespace(value[|value| - 1])
    ensures CookieValue(name + "=" + value, name, decode) == Some(decode(value))
  {
    var s := name + "=" + value;
    assert ';' !in s;
    SplitSeparatorFree(s, ';');
    assert s[0] == name[0];
    assert !IsJsWhitespace(s[|s| - 1]) by {
      if value == [] { assert s[|s| - 1] == '='; } else { assert s[|s| - 1] == value[|value| - 1]; }
    }
    assert TrimLeft(s, IsJsWhitespace) == s;
    assert TrimRight(s, IsJsWhitespace) == s;
    assert JsTrim(s) == s;
    assert s[..|name| + 1] == name + "=";
    assert s[|name| + 1..] == value;
  }
}

=== FILE: dashboard.dfy ===
/**
 * The dashboard's analytics (checklist/views/dashboard_views.py,
 * DashboardManager): category compliance, action-item and maintenance
 * counts, the pooled compliance rate and score chart, per-store averages
 * sorted best first, this month's average, and the trend classifier. All
 * of it reads the tables of one user's visits; nothing is changed.
 */
module DashboardViews {
  import opened Common
  import opened Dates
  import opened Models
  import opened Users
  import opened Sorting
  import opened Queries
  import ChecklistViews
  import opened StoreViews

  // ---------------------------------------------------------------------
  // get_category_performance
  // ---------------------------------------------------------------------

  /** question__category__name of an item: None when the item has no question. */
  function ItemCategory(it: ChecklistItem, qs: seq<Question>, cats: seq<Category>): Option<string>
  {
    if it.question.None? then None
    else
      var q := QuestionById(qs, it.question.value);
      if q.None? then None else Some(CategoryName(cats, q.value.category))
  }

  /** The user's checklist items: those of visits the user submitted. */
  function UserItems(items: seq<ChecklistItem>, visits: seq<Visit>, u: User): seq<ChecklistItem>
  {
    Filter(items, (it: ChecklistItem) => ItemSubmittedBy(it, visits, u))
  }

  /** The distinct values of a list, in order of first appearance. */
  function Distinct<K(==, !new)>(s: seq<K>): (r: seq<K>)
    ensures forall x :: x in r <==> x in s
    ensures forall i, j :: 0 <= i < j < |r| ==> r[i] != r[j]
  {
    if s == [] then []
    else
      var front := Distinct(s[..|s| - 1]);
      assert forall x :: x in s <==> x in s[..|s| - 1] || x == s[|s| - 1];
      if s[|s| - 1] in front then front else front + [s[|s| - 1]]
  }

  /** Group keys in ascending order, a missing name (NULL) first. */
  predicate NameKeyLe(a: Option<string>, b: Option<string>)
  {
    a.None? || (b.Some? && StringLe(a.value, b.value))
  }

  lemma NameKeyLeTotalPreorder()
    ensures TotalPreorder(NameKeyLe)
  {
    forall a: Option<string>, b: Option<string>
      ensures NameKeyLe(a, b) || NameKeyLe(b, a)
    {
      if a.Some? && b.Some? { StringLeTotal(a.value, b.value); }
    }
    forall a: Option<string>, b: Option<string>, c: Option<string> | NameKeyLe(a, b) && NameKeyLe(b, c)
      ensures NameKeyLe(a, c)
    {
      if a.Some? { StringLeTrans(a.value, b.value, c.value); }
    }
  }

  /** One row of the category table; compliance is in tenths of a percent. */
  datatype CategoryRow = CategoryRow(name: string, total: nat, compliant: nat, compliance: int)

  function InGroup(key: Option<string>, qs: seq<Question>, cats: seq<Category>): ChecklistItem -> bool
  {
    (it: ChecklistItem) => ItemCategory(it, qs, cats) == key
  }

  function YesInGroup(key: Option<string>, qs: seq<Question>, cats: seq<Category>): ChecklistItem -> bool
  {
    (it: ChecklistItem) => ItemCategory(it, qs, cats) == key && it.answer
  }

  /**
   * The per-row arithmetic: round(compliant / total * 100, 1), 0 for an
   * empty group, and the name, 'Uncategorized' when it is NULL or empty.
   */
  function CategoryRowFor(mine: seq<ChecklistItem>, key: Option<string>, qs: seq<Question>, cats: seq<Category>)
    : (r: CategoryRow)
    ensures r.compliant <= r.total
    ensures r.total == 0 ==> r.compliance == 0
    ensures r.total > 0 ==> 0 <= r.compliance <= 1000 && r.compliance == RoundTenths(100 * r.compliant, r.total)
    ensures r.name == (if key.Some? && key.value != "" then key.value else "Uncategorized")
  {
    var total := Count(mine, InGroup(key, qs, cats));
    var compliant := Count(mine, YesInGroup(key, qs, cats));
    CountImplies(mine, YesInGroup(key, qs, cats), InGroup(key, qs, cats));
    var pct := if total == 0 then 0 else (PercentTenthsBetween(compliant, total); RoundTenths(100 * compliant, total));
    CategoryRow(if key.Some? && key.value != "" then key.value else "Uncategorized", total, compliant, pct)
  }

  /** The category name of each of the user's items. */
  function ItemNames(mine: seq<ChecklistItem>, qs: seq<Question>, cats: seq<Category>): (r: seq<Option<string>>)
    ensures |r| == |mine| && forall k :: 0 <= k < |mine| ==> r[k] == ItemCategory(mine[k], qs, cats)
  {
    seq(|mine|, k requires 0 <= k < |mine| => ItemCategory(mine[k], qs, cats))
  }

  /** values('question__category__name') grouped and ordered by name. */
  function CategoryKeys(mine: seq<ChecklistItem>, qs: seq<Question>, cats: seq<Category>): seq<Option<string>>
  {
    SortBy(Distinct(ItemNames(mine, qs, cats)), NameKeyLe)
  }

  /** DashboardManager.get_category_performance: one row per category name of the user's items, by name. */
  function CategoryPerformance(items: seq<ChecklistItem>, visits: seq<Visit>, qs: seq<Question>, cats: seq<Category>, u: User)
    : (r: seq<CategoryRow>)
    ensures var keys := CategoryKeys(UserItems(items, visits, u), qs, cats);
      |r| == |keys| && forall k :: 0 <= k < |keys| ==> r[k] == CategoryRowFor(UserItems(items, visits, u), keys[k], qs, cats)
  {
    var mine := UserItems(items, visits, u);
    var keys := CategoryKeys(mine, qs, cats);
    seq(|keys|, k requires 0 <= k < |keys| => CategoryRowFor(mine, keys[k], qs, cats))
  }

  /** The group keys are the category names among the items, each once, in ascending order. */
  lemma CategoryKeysSpec(mine: seq<ChecklistItem>, qs: seq<Question>, cats: seq<Category>, key: Option<string>)
    ensures Sorted(CategoryKeys(mine, qs, cats), NameKeyLe)
    ensures key in CategoryKeys(mine, qs, cats) <==> exists k :: 0 <= k < |mine| && ItemCategory(mine[k], qs, cats) == key
    ensures forall i, j :: 0 <= i < j < |CategoryKeys(mine, qs, cats)| ==>
      CategoryKeys(mine, qs, cats)[i] != CategoryKeys(mine, qs, cats)[j]
  {
    var names := ItemNames(mine, qs, cats);
    NameKeyLeTotalPreorder();
    SortBySorted(Distinct(names), NameKeyLe);
    SortByMembers(Distinct(names), NameKeyLe, key);
    var keys := CategoryKeys(mine, qs, cats);
    forall i, j | 0 <= i < j < |keys|
      ensures keys[i] != keys[j]
    {
      SortedDistinctStaysDistinct(Distinct(names), i, j);
    }
  }

  /** Sorting a list without repeats gives a list without repeats. */
  lemma SortedDistinctStaysDistinct(d: seq<Option<string>>, i: int, j: int)
    requires forall a, b :: 0 <= a < b < |d| ==> d[a] != d[b]
    requires 0 <= i < j < |SortBy(d, NameKeyLe)|
    ensures SortBy(d, NameKeyLe)[i] != SortBy(d, NameKeyLe)[j]
  {
    var r := SortBy(d, NameKeyLe);
    if r[i] == r[j] {
      RepeatCountsTwice(r, i, j);
      NoRepeatsOnce(d, r[i]);
      assert false;
    }
  }

  lemma RepeatCountsTwice<K>(r: seq<K>, i: int, j: int)
    requires 0 <= i < j < |r| && r[i] == r[j]
    ensures multiset(r)[r[i]] >= 2
  {
    assert r == r[..j] + r[j..];
    assert r[..j][i] == r[i];
    assert r[j..][0] == r[j];
  }

  lemma {:induction false} NoRepeatsOnce<K>(d: seq<K>, x: K)
    requires forall a, b :: 0 <= a < b < |d| ==> d[a] != d[b]
    ensures multiset(d)[x] <= 1
  {
    if d != [] {
      assert d == [d[0]] + d[1..];
      NoRepeatsOnce(d[1..], x);
      if d[0] == x {
        assert x !in d[1..];
      }
    }
  }

  /**
   * Every group holds at least one of the user's items, so each row's
   * compliance is the rounded percentage and lies between 0 and 100.0.
   */
  lemma CategoryRowsNonEmpty(items: seq<ChecklistItem>, visits: seq<Visit>, qs: seq<Question>, cats: seq<Category>,
                             u: User, k: int)
    requires 0 <= k < |CategoryPerformance(items, visits, qs, cats, u)|
    ensures var row := CategoryPerformance(items, visits, qs, cats, u)[k];
      row.total >= 1 && 0 <= row.compliance <= 1000 && row.compliance == RoundTenths(100 * row.compliant, row.total)
  {
    var mine := UserItems(items, visits, u);
    var keys := CategoryKeys(mine, qs, cats);
    CategoryKeysSpec(mine, qs, cats, keys[k]);
    var j :| 0 <= j < |mine| && ItemCategory(mine[j], qs, cats) == keys[k];
    CountPositive(mine, InGroup(keys[k], qs, cats), j);
  }

  lemma {:induction false} CountPositive<T>(s: seq<T>, p: T -> bool, j: int)
    requires 0 <= j < |s| && p(s[j])
    ensures Count(s, p) >= 1
  {
    if j > 0 { CountPositive(s[1..], p, j - 1); }
  }

  // ---------------------------------------------------------------------
  // get_action_stats
  // ---------------------------------------------------------------------

  datatype ActionStats = ActionStats(openActions: seq<ActionItem>, high: nat, medium: nat, low: nat,
                                     overdueActions: seq<ActionItem>, overdueCount: nat)

  /** a is due no later than b. */
  predicate DueNoLater(a: ActionItem, b: ActionItem)
  {
    DateLe(a.timeframe, b.timeframe)
  }

  /** The user's open action items (visit__manager=user, status='open'). */
  function OpenActions(actions: seq<ActionItem>, visits: seq<Visit>, u: User): seq<ActionItem>
  {
    Filter(UserActions(actions, visits, u), (a: ActionItem) => a.status == "open")
  }

  /**
   * DashboardManager.get_action_stats: over the user's open action items,
   * the ten with the earliest timeframe, the counts by priority, and those
   * whose timeframe is before today. The overdue queryset has no order_by,
   * so it comes in ActionPlanItem's Meta order.
   */
  function ActionStatsOf(actions: seq<ActionItem>, visits: seq<Visit>, u: User, today: Date): (r: ActionStats)
    ensures var n := |OpenActions(actions, visits, u)|;
      |r.openActions| == if n <= 10 then n else 10
    ensures r.overdueCount == |r.overdueActions|
  {
    var open := OpenActions(actions, visits, u);
    ActionStats(
      Take(SortBy(open, DueNoLater), 10),
      Count(open, (a: ActionItem) => a.priority == "high"),
      Count(open, (a: ActionItem) => a.priority == "medium"),
      Count(open, (a: ActionItem) => a.priority == "low"),
      SortBy(Filter(open, (a: ActionItem) => Before(a.timeframe, today)), ActionMetaLe),
      Count(open, (a: ActionItem) => Before(a.timeframe, today)))
  }

  /** An action item is listed as overdue iff it is the user's, open, and due before today. */
  lemma ActionOverdueSpec(actions: seq<ActionItem>, visits: seq<Visit>, u: User, today: Date, a: ActionItem)
    ensures a in ActionStatsOf(actions, visits, u, today).overdueActions <==>
      a in UserActions(actions, visits, u) && a.status == "open" && Before(a.timeframe, today)
  {
    var mine := UserActions(actions, visits, u);
    var open := Filter(mine, (a: ActionItem) => a.status == "open");
    FilterMembership(mine, (a: ActionItem) => a.status == "open", a);
    FilterMembership(open, (a: ActionItem) => Before(a.timeframe, today), a);
    SortByMembers(Filter(open, (a: ActionItem) => Before(a.timeframe, today)), ActionMetaLe, a);
  }

  /** The open items are the user's action items with status 'open'. */
  lemma OpenActionsSpec(actions: seq<ActionItem>, visits: seq<Visit>, u: User, a: ActionItem)
    ensures a in OpenActions(actions, visits, u) <==>
      a in actions && a.status == "open" && VisitById(visits, a.visit).Some? && VisitById(visits, a.visit).value.manager == u.id
  {
    var mine := UserActions(actions, visits, u);
    FilterMembership(mine, (a: ActionItem) => a.status == "open", a);
    FilterMembership(actions, (a: ActionItem) => var v := VisitById(visits, a.visit); v.Some? && v.value.manager == u.id, a);
  }

  /**
   * The open items shown are the ten of the user's open items due earliest
   * (all of them when there are at most ten), earliest first: none left out
   * is due before one shown. The overdue items come in Meta order, and the
   * priority counts cover at most the open items.
   */
  lemma ActionStatsOrder(actions: seq<ActionItem>, visits: seq<Visit>, u: User, today: Date)
    ensures var r := ActionStatsOf(actions, visits, u, today);
      var open := OpenActions(actions, visits, u);
      && Sorted(r.openActions, DueNoLater)
      && (forall a :: a in r.openActions ==> a in open)
      && (forall x, y :: x in open && x !in r.openActions && y in r.openActions ==> DueNoLater(y, x))
    ensures Sorted(ActionStatsOf(actions, visits, u, today).overdueActions, ActionMetaLe)
    ensures var r := ActionStatsOf(actions, visits, u, today);
      r.high + r.medium + r.low <= |OpenActions(actions, visits, u)|
  {
    var open := OpenActions(actions, visits, u);
    TopK(open, DueNoLater, 10);
    ActionMetaOrder();
    SortBySorted(Filter(open, (a: ActionItem) => Before(a.timeframe, today)), ActionMetaLe);
    PriorityCounts(open);
  }

  lemma {:induction false} PriorityCounts(s: seq<ActionItem>)
    ensures Count(s, (a: ActionItem) => a.priority == "high") + Count(s, (a: ActionItem) => a.priority == "medium")
      + Count(s, (a: ActionItem) => a.priority == "low") <= |s|
  {
    if s != [] { PriorityCounts(s[1..]); }
  }

  // ---------------------------------------------------------------------
  // get_maintenance_stats
  // ---------------------------------------------------------------------

  datatype MaintenanceCounts = MaintenanceCounts(recent: seq<Ticket>, pending: nat, inProgress: nat, completed: nat, overdue: nat)

  /** a was created no earlier than b. */
  predicate CreatedNoEarlier(a: Ticket, b: Ticket)
  {
    DateLe(b.created, a.created)
  }

  /** The tickets of the user's visits, drafts included (visit__manager=user). */
  function UserTickets(tickets: seq<Ticket>, visits: seq<Visit>, u: User): seq<Ticket>
  {
    Filter(tickets, (t: Ticket) => var v := VisitById(visits, t.visit); v.Some? && v.value.manager == u.id)
  }

  /**
   * DashboardManager.get_maintenance_stats: the five newest of the user's
   * tickets, their status counts, and the pending or in-progress ones due
   * before today.
   */
  function MaintenanceStatsOf(tickets: seq<Ticket>, visits: seq<Visit>, u: User, today: Date): (r: MaintenanceCounts)
    ensures var n := |UserTickets(tickets, visits, u)|;
      |r.recent| == if n <= 5 then n else 5
  {
    var mine := UserTickets(tickets, visits, u);
    MaintenanceCounts(
      Take(SortBy(mine, CreatedNoEarlier), 5),
      Count(mine, (t: Ticket) => t.status == "pending"),
      Count(mine, (t: Ticket) => t.status == "in_progress"),
      Count(mine, (t: Ticket) => t.status == "completed"),
      Count(mine, (t: Ticket) => (t.status == "pending" || t.status == "in_progress")
                                 && t.dueDate.Some? && Before(t.dueDate.value, today)))
  }

  /** Overdue tickets are among the pending and in-progress ones. */
  lemma {:induction false} MaintenanceOverdueBound(s: seq<Ticket>, today: Date)
    ensures Count(s, (t: Ticket) => (t.status == "pending" || t.status == "in_progress")
                                    && t.dueDate.Some? && Before(t.dueDate.value, today))
      <= Count(s, (t: Ticket) => t.status == "pending") + Count(s, (t: Ticket) => t.status == "in_progress")
  {
    if s != [] { MaintenanceOverdueBound(s[1..], today); }
  }

  /**
   * Overdue tickets are among the pending and in-progress ones, the status
   * counts cover at most the user's tickets, and the tickets shown are the
   * five newest of the user's tickets (all of them when there are at most
   * five), newest created first: none left out is newer than one shown.
   */
  lemma MaintenanceStatsBound(tickets: seq<Ticket>, visits: seq<Visit>, u: User, today: Date, t: Ticket)
    ensures var r := MaintenanceStatsOf(tickets, visits, u, today);
      r.overdue <= r.pending + r.inProgress
      && r.pending + r.inProgress + r.completed <= |UserTickets(tickets, visits, u)|
    ensures var r := MaintenanceStatsOf(tickets, visits, u, today);
      var mine := UserTickets(tickets, visits, u);
      && Sorted(r.recent, CreatedNoEarlier)
      && (forall w :: w in r.recent ==> w in mine)
      && (forall x, y :: x in mine && x !in r.recent && y in r.recent ==> CreatedNoEarlier(y, x))
    ensures t in UserTickets(tickets, visits, u) <==>
      t in tickets && VisitById(visits, t.visit).Some? && VisitById(visits, t.visit).value.manager == u.id
  {
    var mine := UserTickets(tickets, visits, u);
    TopK(mine, CreatedNoEarlier, 5);
    FilterMembership(tickets, (t: Ticket) => var v := VisitById(visits, t.visit); v.Some? && v.value.manager == u.id, t);
    MaintenanceOverdueBound(mine, today);
    StatusCounts(mine);
  }

  lemma {:induction false} StatusCounts(s: seq<Ticket>)
    ensures Count(s, (t: Ticket) => t.status == "pending") + Count(s, (t: Ticket) => t.status == "in_progress")
      + Count(s, (t: Ticket) => t.status == "completed") <= |s|
  {
    if s != [] { StatusCounts(s[1..]); }
  }

  // ---------------------------------------------------------------------
  // get_performance_trend
  // ---------------------------------------------------------------------

  datatype Trend = Stable | Improving | Declining

  /** The last seven scores, or all of them when there are fewer. */
  function Recent(scores: seq<int>): (r: seq<int>)
    ensures |scores| >= 1 ==> |r| >= 1
  {
    if |scores| >= 7 then scores[|scores| - 7..] else scores
  }

  /**
   * DashboardManager.get_performance_trend on exact means: with two or
   * more scores, the mean of the last seven is compared with the mean of
   * the earlier ones (with the recent mean itself when there are at most
   * seven), five points either way.
   */
  function PerformanceTrend(scores: seq<int>): (t: Trend)
    ensures |scores| < 2 ==> t == Stable
  {
    if |scores| < 2 then Stable
    else
      var recent := Recent(scores);
      var older := if |scores| > 7 then scores[..|scores| - 7] else recent;
      // recent_avg > older_avg + 5, multiplied out by both (positive) lengths
      if Sum(recent) * |older| > (Sum(older) + 5 * |older|) * |recent| then Improving
      else if Sum(recent) * |older| < (Sum(older) - 5 * |older|) * |recent| then Declining
      else Stable
  }

  /** With seven or fewer scores both means are the same, so the trend is always stable. */
  lemma ShortTrendStable(scores: seq<int>)
    requires |scores| <= 7
    ensures PerformanceTrend(scores) == Stable
  {
    if |scores| >= 2 {
      var n := |scores|;
      var s := Sum(scores);
      assert s * n <= (s + 5 * n) * n by { assert (s + 5 * n) * n == s * n + 5 * n * n; }
      assert s * n >= (s - 5 * n) * n by { assert (s - 5 * n) * n == s * n - 5 * n * n; }
    }
  }

  /** Improving iff the last seven average more than five points above the earlier scores; declining likewise below. */
  lemma LongTrend(scores: seq<int>)
    requires |scores| > 7
    ensures var recent, older := scores[|scores| - 7..], scores[..|scores| - 7];
      && (PerformanceTrend(scores) == Improving <==> Sum(recent) * |older| > (Sum(older) + 5 * |older|) * 7)
      && (PerformanceTrend(scores) == Declining <==>
            !(Sum(recent) * |older| > (Sum(older) + 5 * |older|) * 7)
            && Sum(recent) * |older| < (Sum(older) - 5 * |older|) * 7)
  {
  }

  // ---------------------------------------------------------------------
  // get_basic_stats
  // ---------------------------------------------------------------------

  /** The user's submitted visits (manager=user, is_draft=False). */
  function Submitted(visits: seq<Visit>, u: User): seq<Visit>
  {
    Filter(visits, (v: Visit) => SubmittedBy(v, u))
  }

  datatype BasicStats = BasicStats(totalVisits: nat, recentVisits: seq<Visit>, today: Date, thirtyDaysAgo: Date)

  /**
   * DashboardManager.get_basic_stats: the number of submitted visits, the
   * ten newest, and the day thirty days back. Stepping back thirty days
   * from one of the first thirty days of year 1 overflows.
   */
  function BasicStatsOf(visits: seq<Visit>, u: User, today: Date): (r: Result<BasicStats, string>)
    requires Valid(today)
    ensures r.Err? <==> Ordinal(today) <= 30
    ensures r.Ok? ==> && r.value.totalVisits == |Submitted(visits, u)| && r.value.today == today
                      && Valid(r.value.thirtyDaysAgo) && Ordinal(r.value.thirtyDaysAgo) == Ordinal(today) - 30
  {
    if Ordinal(today) <= 30 then Err("date value out of range")
    else
      var mine := Submitted(visits, u);
      Ok(BasicStats(|mine|, Take(NewestFirst(mine), 10), today, AddDays(today, -30)))
  }

  /**
   * The recent visits are the ten newest of the user's submitted visits (all
   * of them when there are at most ten), newest first: none left out is
   * newer than one shown.
   */
  lemma RecentVisitsSpec(visits: seq<Visit>, u: User, today: Date, v: Visit)
    requires Valid(today) && Ordinal(today) > 30
    ensures v in Submitted(visits, u) <==> v in visits && SubmittedBy(v, u)
    ensures var recent := BasicStatsOf(visits, u, today).value.recentVisits;
      var mine := Submitted(visits, u);
      && |recent| == (if |mine| <= 10 then |mine| else 10)
      && Sorted(recent, NewerOrSame)
      && (v in recent ==> v in mine)
      && (|mine| <= 10 ==> (v in recent <==> v in mine))
      && (forall x, y :: x in mine && x !in recent && y in recent ==> NewerOrSame(y, x))
  {
    NewestTake(Submitted(visits, u), 10, v);
    FilterMembership(visits, (v: Visit) => SubmittedBy(v, u), v);
  }

  // ---------------------------------------------------------------------
  // get_compliance_data
  // ---------------------------------------------------------------------

  /**
   * round(compliant / total * 100, 1) over all of the user's checklist
   * items pooled, in tenths of a percent; 0 when there are none.
   */
  function ComplianceRate(mine: seq<ChecklistItem>): (r: int)
    ensures 0 <= r <= 1000
    ensures mine != [] ==> r == RoundTenths(100 * Count(mine, Yes), |mine|)
  {
    if mine == [] then 0
    else
      PercentTenthsBetween(Count(mine, Yes), |mine|);
      RoundTenths(100 * Count(mine, Yes), |mine|)
  }

  /** All answers yes gives 100.0, none gives 0. */
  lemma ComplianceRateExtremes(mine: seq<ChecklistItem>)
    requires mine != []
    ensures Count(mine, Yes) == |mine| ==> ComplianceRate(mine) == 1000
    ensures Count(mine, Yes) == 0 ==> ComplianceRate(mine) == 0
  {
    PercentTenthsExtremes(|mine|);
  }

  /** The visits charted: the user's submitted visits from the given day on, oldest first. */
  function ChartVisits(visits: seq<Visit>, u: User, from: Date): seq<Visit>
  {
    SortBy(Filter(visits, (v: Visit) => SubmittedBy(v, u) && !Before(v.date, from)), (a: Visit, b: Visit) => DateLe(a.date, b.date))
  }

  lemma ChartVisitsSpec(visits: seq<Visit>, u: User, from: Date, v: Visit)
    ensures v in ChartVisits(visits, u, from) <==> v in visits && SubmittedBy(v, u) && !Before(v.date, from)
    ensures Sorted(ChartVisits(visits, u, from), (a: Visit, b: Visit) => DateLe(a.date, b.date))
  {
    var p := (v: Visit) => SubmittedBy(v, u) && !Before(v.date, from);
    var le := (a: Visit, b: Visit) => DateLe(a.date, b.date);
    FilterMembership(visits, p, v);
    SortByMembers(Filter(visits, p), le, v);
    SortBySorted(Filter(visits, p), le);
  }

  datatype ComplianceData = ComplianceData(rate: int, chartDates: seq<string>, chartScores: seq<int>)

  /** Every charted visit has a calendar date. */
  lemma ChartVisitsDated(visits: seq<Visit>, u: User, from: Date)
    requires DatesValid(visits)
    ensures forall k :: 0 <= k < |ChartVisits(visits, u, from)| ==> Valid(ChartVisits(visits, u, from)[k].date)
  {
    var cv := ChartVisits(visits, u, from);
    forall k | 0 <= k < |cv|
      ensures Valid(cv[k].date)
    {
      ChartVisitsSpec(visits, u, from, cv[k]);
    }
  }

  /** The chart's labels and scores, one of each per visit, in the visits' order. */
  method ChartSeries(items: seq<ChecklistItem>, cv: seq<Visit>) returns (dates: seq<string>, scores: seq<int>)
    requires forall k :: 0 <= k < |cv| ==> Valid(cv[k].date)
    ensures |dates| == |cv| && scores == Scores(items, cv)
    ensures forall k :: 0 <= k < |cv| ==> dates[k] == DateLabel(cv[k].date)
  {
    dates, scores := [], [];
    var i := 0;
    while i < |cv|
      invariant 0 <= i <= |cv| && |dates| == i && |scores| == i
      invariant forall k :: 0 <= k < i ==> dates[k] == DateLabel(cv[k].date)
      invariant forall k :: 0 <= k < i ==> scores[k] == VisitScore(items, cv[k])
    {
      dates := dates + [DateLabel(cv[i].date)];
      scores := scores + [VisitScore(items, cv[i])];
      i := i + 1;
    }
  }

  /**
   * DashboardManager.get_compliance_data: the pooled compliance rate, and a
   * chart with one label and one score per charted visit, in date order.
   */
  method GetComplianceData(items: seq<ChecklistItem>, visits: seq<Visit>, u: User, from: Date) returns (r: ComplianceData)
    requires DatesValid(visits)
    ensures r.rate == ComplianceRate(UserItems(items, visits, u))
    ensures var cv := ChartVisits(visits, u, from);
      && |r.chartDates| == |cv| && r.chartScores == Scores(items, cv)
      && forall k :: 0 <= k < |cv| ==> Valid(cv[k].date) && r.chartDates[k] == DateLabel(cv[k].date)
  {
    var cv := ChartVisits(visits, u, from);
    ChartVisitsDated(visits, u, from);
    var dates, scores := ChartSeries(items, cv);
    r := ComplianceData(ComplianceRate(UserItems(items, visits, u)), dates, scores);
  }

  // ---------------------------------------------------------------------
  // get_store_performance
  // ---------------------------------------------------------------------

  datatype StorePerf = StorePerf(store: Store, visitCount: nat, avgScore: int, lastVisit: Date)

  /** A store's row, when the user has submitted visits to it. */
  function StoreRow(s: Store, items: seq<ChecklistItem>, visits: seq<Visit>, u: User): (r: Option<StorePerf>)
    ensures r.Some? ==> r.value.store == s && r.value.visitCount >= 1
  {
    var sv := StoreVisits(visits, u, s.id);
    if sv == [] then None else Some(StorePerf(s, |sv|, AverageTenths(Scores(items, sv)), LatestDate(sv)))
  }

  /** The rows of the stores that have visits, in store order. */
  function PerformanceRows(vis: seq<Store>, items: seq<ChecklistItem>, visits: seq<Visit>, u: User): seq<StorePerf>
  {
    if vis == [] then []
    else
      var front := PerformanceRows(vis[..|vis| - 1], items, visits, u);
      var row := StoreRow(vis[|vis| - 1], items, visits, u);
      if row.Some? then front + [row.value] else front
  }

  lemma {:induction false} PerformanceRowsMembers(vis: seq<Store>, items: seq<ChecklistItem>, visits: seq<Visit>, u: User)
    ensures forall row :: row in PerformanceRows(vis, items, visits, u) ==>
      row.store in vis && StoreRow(row.store, items, visits, u) == Some(row)
    ensures forall s :: s in vis && StoreRow(s, items, visits, u).Some? ==>
      StoreRow(s, items, visits, u).value in PerformanceRows(vis, items, visits, u)
  {
    if vis != [] {
      var front := vis[..|vis| - 1];
      PerformanceRowsMembers(front, items, visits, u);
      assert vis == front + [vis[|vis| - 1]];
    }
  }

  /** Best average first; equal averages keep store order (a stable sort with reverse=True). */
  function StorePerformance(stores: seq<Store>, items: seq<ChecklistItem>, visits: seq<Visit>, u: User): seq<StorePerf>
  {
    SortBy(PerformanceRows(VisibleStores(stores, u), items, visits, u), (a: StorePerf, b: StorePerf) => b.avgScore <= a.avgScore)
  }

  /**
   * A store is ranked iff it is visible to the user and the user has
   * submitted a visit to it; its row counts those visits, averages their
   * scores (between 0 and 100.0) and gives the latest date; the rows come
   * best average first.
   */
  lemma StorePerformanceSpec(stores: seq<Store>, items: seq<ChecklistItem>, visits: seq<Visit>, u: User, s: Store)
    ensures var rows := StorePerformance(stores, items, visits, u);
      && Sorted(rows, (a: StorePerf, b: StorePerf) => b.avgScore <= a.avgScore)
      && ((exists row :: row in rows && row.store == s) <==> s in VisibleStores(stores, u) && StoreVisits(visits, u, s.id) != [])
    ensures forall row :: row in StorePerformance(stores, items, visits, u) ==>
      && row.visitCount == |StoreVisits(visits, u, row.store.id)| >= 1
      && row.lastVisit == LatestDate(StoreVisits(visits, u, row.store.id))
      && 0 <= row.avgScore <= 1000
  {
    var vis := VisibleStores(stores, u);
    var rows := PerformanceRows(vis, items, visits, u);
    var le := (a: StorePerf, b: StorePerf) => b.avgScore <= a.avgScore;
    SortBySorted(rows, le);
    PerformanceRowsMembers(vis, items, visits, u);
    forall row | row in StorePerformance(stores, items, visits, u)
      ensures row in rows
    {
      SortByMembers(rows, le, row);
    }
    forall row | row in rows
      ensures 0 <= row.avgScore <= 1000
    {
      AverageTenthsBounds(items, StoreVisits(visits, u, row.store.id));
    }
    if s in vis && StoreVisits(visits, u, s.id) != [] {
      SortByMembers(rows, le, StoreRow(s, items, visits, u).value);
    }
  }

  /** One store's row: its visits, their summed scores averaged, and the latest date. */
  method StoreRowOf(s: Store, items: seq<ChecklistItem>, visits: seq<Visit>, u: User) returns (row: Option<StorePerf>)
    ensures row == StoreRow(s, items, visits, u)
  {
    var sv := StoreVisits(visits, u, s.id);
    if sv == [] {
      row := None;
    } else {
      var total := SumScores(items, sv);
      row := Some(StorePerf(s, |sv|, RoundTenths(total, |sv|), LatestDate(sv)));
    }
  }

  /** DashboardManager.get_store_performance: the loop over the visible stores, then the sort. */
  method GetStorePerformance(stores: seq<Store>, items: seq<ChecklistItem>, visits: seq<Visit>, u: User)
    returns (rows: seq<StorePerf>)
    ensures rows == StorePerformance(stores, items, visits, u)
  {
    var vis := VisibleStores(stores, u);
    var perf: seq<StorePerf> := [];
    var i := 0;
    while i < |vis|
      invariant 0 <= i <= |vis|
      invariant perf == PerformanceRows(vis[..i], items, visits, u)
    {
      assert vis[..i + 1][..i] == vis[..i];
      var row := StoreRowOf(vis[i], items, visits, u);
      if row.Some? {
        perf := perf + [row.value];
      }
      i := i + 1;
    }
    assert vis[..i] == vis;
    rows := SortBy(perf, (a: StorePerf, b: StorePerf) => b.avgScore <= a.avgScore);
  }

  // ---------------------------------------------------------------------
  // get_monthly_stats
  // ---------------------------------------------------------------------

  /** The user's submitted visits dated on or after the first of this month (later months included). */
  function MonthVisits(visits: seq<Visit>, u: User, today: Date): seq<Visit>
    requires Valid(today)
  {
    Filter(visits, (v: Visit) => SubmittedBy(v, u) && !Before(v.date, FirstOfMonth(today)))
  }

  datatype MonthlyStats = MonthlyStats(visitsThisMonth: nat, avgScoreThisMonth: int)

  /** DashboardManager.get_monthly_stats: how many such visits, and their average score. */
  method GetMonthlyStats(items: seq<ChecklistItem>, visits: seq<Visit>, u: User, today: Date) returns (r: MonthlyStats)
    requires Valid(today)
    ensures r.visitsThisMonth == |MonthVisits(visits, u, today)|
    ensures r.avgScoreThisMonth == AverageTenths(Scores(items, MonthVisits(visits, u, today)))
  {
    var mv := MonthVisits(visits, u, today);
    var total := SumScores(items, mv);
    var count := |mv|;
    var avg := if count > 0 then RoundTenths(total, count) else 0;
    r := MonthlyStats(count, avg);
  }

  /**
   * The month's visits are the user's submitted visits dated this month
   * or later, and their average lies between 0 and 100.0.
   */
  lemma MonthVisitsSpec(items: seq<ChecklistItem>, visits: seq<Visit>, u: User, today: Date, v: Visit)
    requires Valid(today) && Valid(v.date)
    ensures v in MonthVisits(visits, u, today) <==>
      v in visits && SubmittedBy(v, u) && (v.date.year > today.year || (v.date.year == today.year && v.date.month >= today.month))
    ensures 0 <= AverageTenths(Scores(items, MonthVisits(visits, u, today))) <= 1000
  {
    FilterMembership(visits, (v: Visit) => SubmittedBy(v, u) && !Before(v.date, FirstOfMonth(today)), v);
    AverageTenthsBounds(items, MonthVisits(visits, u, today));
  }

  // ---------------------------------------------------------------------
  // dashboard
  // ---------------------------------------------------------------------

  datatype DashboardContext = DashboardContext(
    error: bool, totalVisits: nat, recentVisits: seq<Visit>, today: Date,
    actions: ActionStats, compliance: ComplianceData, maintenance: MaintenanceCounts,
    storePerformance: seq<StorePerf>, monthly: MonthlyStats, trend: Trend,
    categories: seq<CategoryRow>, categoryLabels: seq<string>, categoryScores: seq<int>,
    storeLabels: seq<string>, storeScores: seq<int>)

  /** The page shown when building the dashboard raises: everything empty or zero. */
  function ErrorContext(today: Date): (d: DashboardContext)
    ensures d.error && d.totalVisits == 0 && d.recentVisits == [] && d.storePerformance == []
    ensures d.compliance.rate == 0 && d.monthly == MonthlyStats(0, 0)
  {
    DashboardContext(true, 0, [], today, ActionStats([], 0, 0, 0, [], 0), ComplianceData(0, [], []),
                     MaintenanceCounts([], 0, 0, 0, 0), [], MonthlyStats(0, 0), Stable, [], [], [], [], [])
  }

  /**
   * dashboard: every block above for the user, the five best stores, the
   * labels and scores of the category chart and of the ten best stores,
   * and the trend of the charted scores; the error page when the thirty
   * days before today cannot be reached.
   */
  method Dashboard(stores: seq<Store>, items: seq<ChecklistItem>, visits: seq<Visit>, actions: seq<ActionItem>,
                   tickets: seq<Ticket>, qs: seq<Question>, cats: seq<Category>, u: User, today: Date)
    returns (d: DashboardContext)
    requires Valid(today) && DatesValid(visits)
    ensures d.error <==> Ordinal(today) <= 30
    ensures d.error ==> d == ErrorContext(today)
    ensures !d.error ==>
      var basic := BasicStatsOf(visits, u, today).value;
      var perf := StorePerformance(stores, items, visits, u);
      && d.totalVisits == basic.totalVisits && d.recentVisits == basic.recentVisits
      && d.actions == ActionStatsOf(actions, visits, u, today)
      && d.compliance.rate == ComplianceRate(UserItems(items, visits, u))
      && d.compliance.chartScores == Scores(items, ChartVisits(visits, u, basic.thirtyDaysAgo))
      && d.maintenance == MaintenanceStatsOf(tickets, visits, u, today)
      && d.storePerformance == Take(perf, 5)
      && d.monthly.visitsThisMonth == |MonthVisits(visits, u, today)|
      && d.trend == PerformanceTrend(d.compliance.chartScores)
      && d.categories == CategoryPerformance(items, visits, qs, cats, u)
      && |d.categoryLabels| == |d.categoryScores| == |d.categories|
      && (forall k :: 0 <= k < |d.categories| ==>
            d.categoryLabels[k] == d.categories[k].name && d.categoryScores[k] == d.categories[k].compliance)
      && |d.storeLabels| == |d.storeScores| == |Take(perf, 10)|
      && (forall k :: 0 <= k < |d.storeLabels| ==>
            d.storeLabels[k] == perf[k].store.name && d.storeScores[k] == perf[k].avgScore)
  {
    var basic := BasicStatsOf(visits, u, today);
    if basic.Err? {
      d := ErrorContext(today);
      return;
    }
    var compliance := GetComplianceData(items, visits, u, basic.value.thirtyDaysAgo);
    var perf := GetStorePerformance(stores, items, visits, u);
    var monthly := GetMonthlyStats(items, visits, u, today);
    var categories := CategoryPerformance(items, visits, qs, cats, u);
    var top := Take(perf, 10);
    d := DashboardContext(
      false, basic.value.totalVisits, basic.value.recentVisits, today,
      ActionStatsOf(actions, visits, u, today), compliance, MaintenanceStatsOf(tickets, visits, u, today),
      Take(perf, 5), monthly, PerformanceTrend(compliance.chartScores),
      categories, CategoryLabels(categories), CategoryScores(categories), StoreLabels(top), StoreScores(top));
  }

  function CategoryLabels(rows: seq<CategoryRow>): (r: seq<string>)
    ensures |r| == |rows| && forall k :: 0 <= k < |rows| ==> r[k] == rows[k].name
  {
    seq(|rows|, k requires 0 <= k < |rows| => rows[k].name)
  }

  function CategoryScores(rows: seq<CategoryRow>): (r: seq<int>)
    ensures |r| == |rows| && forall k :: 0 <= k < |rows| ==> r[k] == rows[k].compliance
  {
    seq(|rows|, k requires 0 <= k < |rows| => rows[k].compliance)
  }

  function StoreLabels(rows: seq<StorePerf>): (r: seq<string>)
    ensures |r| == |rows| && forall k :: 0 <= k < |rows| ==> r[k] == rows[k].store.name
  {
    seq(|rows|, k requires 0 <= k < |rows| => rows[k].store.name)
  }

  function StoreScores(rows: seq<StorePerf>): (r: seq<int>)
    ensures |r| == |rows| && forall k :: 0 <= k < |rows| ==> r[k] == rows[k].avgScore
  {
    seq(|rows|, k requires 0 <= k < |rows| => rows[k].avgScore)
  }
}

=== FILE: dates.dfy ===
/**
 * Calendar dates as Python's datetime.date sees them: the proleptic
 * Gregorian calendar, day arithmetic through the ordinal (date.toordinal),
 * weekday() with Monday as 0, and comparison field by field.
 */
module Dates {
  import opened Common

  datatype Date = Date(year: int, month: int, day: int)

  predicate IsLeap(y: int)
  {
    y % 4 == 0 && (y % 100 != 0 || y % 400 == 0)
  }

  function DaysInMonth(y: int, m: int): (n: int)
    requires 1 <= m <= 12
    ensures 28 <= n <= 31
  {
    if m == 2 then (if IsLeap(y) then 29 else 28)
    else if m == 4 || m == 6 || m == 9 || m == 11 then 30
    else 31
  }

  function DaysInYear(y: int): int
  {
    if IsLeap(y) then 366 else 365
  }

  predicate Valid(d: Date)
  {
    d.year >= 1 && 1 <= d.month <= 12 && 1 <= d.day <= DaysInMonth(d.year, d.month)
  }

  /** Days in the years before y (y >= 1), as in CPython's _days_before_year. */
  function DaysBeforeYear(y: int): int
    requires y >= 1
  {
    var k := y - 1;
    k * 365 + k / 4 - k / 100 + k / 400
  }

  /** Days in the months of year y before month m (m = 13 closes the year). */
  function DaysBeforeMonth(y: int, m: int): int
    requires 1 <= m <= 13
  {
    var base :=
      if m == 1 then 0 else if m == 2 then 31 else if m == 3 then 59
      else if m == 4 then 90 else if m == 5 then 120 else if m == 6 then 151
      else if m == 7 then 181 else if m == 8 then 212 else if m == 9 then 243
      else if m == 10 then 273 else if m == 11 then 304 else if m == 12 then 334
      else 365;
    base + (if m > 2 && IsLeap(y) then 1 else 0)
  }

  /** date.toordinal(): 1 January of year 1 is day 1. */
  function Ordinal(d: Date): int
    requires Valid(d)
  {
    DaysBeforeYear(d.year) + DaysBeforeMonth(d.year, d.month) + d.day
  }

  /** date.weekday(): Monday is 0 and Sunday is 6. */
  function Weekday(d: Date): (w: int)
    requires Valid(d)
    ensures 0 <= w < 7
  {
    (Ordinal(d) + 6) % 7
  }

  /** a < b on dates: year first, then month, then day. */
  predicate Before(a: Date, b: Date)
  {
    a.year < b.year || (a.year == b.year && (a.month < b.month || (a.month == b.month && a.day < b.day)))
  }

  function FirstOfMonth(d: Date): (r: Date)
    requires Valid(d)
    ensures Valid(r) && r.year == d.year && r.month == d.month && r.day == 1
  {
    Date(d.year, d.month, 1)
  }

  lemma DaysBeforeMonthStep(y: int, m: int)
    requires 1 <= m <= 12
    ensures DaysBeforeMonth(y, m + 1) == DaysBeforeMonth(y, m) + DaysInMonth(y, m)
  {
  }

  lemma DaysBeforeYearStep(y: int)
    requires y >= 1
    ensures DaysBeforeYear(y + 1) == DaysBeforeYear(y) + DaysInYear(y)
  {
    var k := y - 1;
    DivStep(k, 4);
    DivStep(k, 100);
    DivStep(k, 400);
  }

  lemma DivStep(k: int, c: int)
    requires c == 4 || c == 100 || c == 400
    ensures (k + 1) / c == k / c + (if (k + 1) % c == 0 then 1 else 0)
  {
  }

  lemma DaysBeforeYearNonNegative(y: int)
    requires y >= 1
    ensures DaysBeforeYear(y) >= 0
  {
    var k := y - 1;
    assert k / 100 <= k / 4;
  }

  lemma {:induction false} DaysBeforeYearMonotone(y1: int, y2: int)
    requires 1 <= y1 <= y2
    ensures DaysBeforeYear(y1) + (y2 - y1) * 365 <= DaysBeforeYear(y2)
    decreases y2 - y1
  {
    if y1 < y2 {
      DaysBeforeYearMonotone(y1 + 1, y2);
      DaysBeforeYearStep(y1);
    }
  }

  lemma {:induction false} DaysBeforeMonthMonotone(y: int, m1: int, m2: int)
    requires 1 <= m1 <= m2 <= 13
    ensures DaysBeforeMonth(y, m1) <= DaysBeforeMonth(y, m2)
    decreases m2 - m1
  {
    if m1 < m2 {
      DaysBeforeMonthStep(y, m1);
      DaysBeforeMonthMonotone(y, m1 + 1, m2);
    }
  }

  /** A valid date's ordinal lies inside the days of its own year. */
  lemma OrdinalWithinYear(d: Date)
    requires Valid(d)
    ensures DaysBeforeYear(d.year) < Ordinal(d) <= DaysBeforeYear(d.year) + DaysInYear(d.year)
  {
    DaysBeforeMonthStep(d.year, d.month);
    DaysBeforeMonthMonotone(d.year, d.month + 1, 13);
  }

  lemma OrdinalPositive(d: Date)
    requires Valid(d)
    ensures Ordinal(d) >= 1
  {
    DaysBeforeYearNonNegative(d.year);
  }

  /** Comparing dates field by field agrees with comparing their ordinals. */
  lemma BeforeIffOrdinalLess(a: Date, b: Date)
    requires Valid(a) && Valid(b)
    ensures Before(a, b) <==> Ordinal(a) < Ordinal(b)
  {
    OrdinalWithinYear(a);
    OrdinalWithinYear(b);
    if a.year < b.year {
      DaysBeforeYearStep(a.year);
      DaysBeforeYearMonotone(a.year + 1, b.year);
    } else if b.year < a.year {
      DaysBeforeYearStep(b.year);
      DaysBeforeYearMonotone(b.year + 1, a.year);
    } else if a.month < b.month {
      DaysBeforeMonthStep(a.year, a.month);
      DaysBeforeMonthMonotone(a.year, a.month + 1, b.month);
    } else if b.month < a.month {
      DaysBeforeMonthStep(b.year, b.month);
      DaysBeforeMonthMonotone(b.year, b.month + 1, a.month);
    }
  }

  /** A date whose ordinal is not larger does not come after. */
  lemma NotBeforeEarlier(a: Date, b: Date)
    requires Valid(a) && Valid(b) && Ordinal(b) <= Ordinal(a)
    ensures !Before(a, b)
  {
    BeforeIffOrdinalLess(a, b);
  }

  /** Two valid dates with the same ordinal are the same date. */
  lemma OrdinalInjective(a: Date, b: Date)
    requires Valid(a) && Valid(b) && Ordinal(a) == Ordinal(b)
    ensures a == b
  {
    BeforeIffOrdinalLess(a, b);
    BeforeIffOrdinalLess(b, a);
  }

  function NextDay(d: Date): (r: Date)
    requires Valid(d)
    ensures Valid(r) && Ordinal(r) == Ordinal(d) + 1
  {
    if d.day < DaysInMonth(d.year, d.month) then Date(d.year, d.month, d.day + 1)
    else if d.month < 12 then
      DaysBeforeMonthStep(d.year, d.month);
      Date(d.year, d.month + 1, 1)
    else
      DaysBeforeYearStep(d.year);
      Date(d.year + 1, 1, 1)
  }

  function PrevDay(d: Date): (r: Date)
    requires Valid(d) && Ordinal(d) > 1
    ensures Valid(r) && Ordinal(r) == Ordinal(d) - 1
  {
    if d.day > 1 then Date(d.year, d.month, d.day - 1)
    else if d.month > 1 then
      DaysBeforeMonthStep(d.year, d.month - 1);
      Date(d.year, d.month - 1, DaysInMonth(d.year, d.month - 1))
    else
      DaysBeforeYearStep(d.year - 1);
      Date(d.year - 1, 12, 31)
  }

  /** d + timedelta(days=n). */
  function AddDays(d: Date, n: int): (r: Date)
    requires Valid(d) && Ordinal(d) + n >= 1
    ensures Valid(r) && Ordinal(r) == Ordinal(d) + n
    decreases if n < 0 then -n else n, d  // naming d keeps a literal n from unrolling the recursion
  {
    if n == 0 then d
    else if n > 0 then AddDays(NextDay(d), n - 1)
    else AddDays(PrevDay(d), n + 1)
  }

  /** Moving forward by a non-negative number of days never ends earlier. */
  lemma AddDaysNotBefore(d: Date, n: int)
    requires Valid(d) && n >= 0
    ensures Ordinal(d) + n >= 1
    ensures !Before(AddDays(d, n), d)
    ensures n > 0 ==> Before(d, AddDays(d, n))
  {
    OrdinalPositive(d);
    BeforeIffOrdinalLess(AddDays(d, n), d);
    BeforeIffOrdinalLess(d, AddDays(d, n));
  }

  /** The Monday of a date's week, today - timedelta(days=today.weekday()), exists. */
  lemma WeekStartExists(d: Date)
    requires Valid(d)
    ensures Ordinal(d) - Weekday(d) >= 1
  {
    OrdinalPositive(d);
    MondayArithmetic(Ordinal(d), Weekday(d));
  }

  /** The date weekday() days before d is a Monday, and not later than d. */
  lemma StartOfWeekIsMonday(d: Date, m: Date)
    requires Valid(d) && Valid(m) && Ordinal(m) == Ordinal(d) - Weekday(d)
    ensures Weekday(m) == 0
    ensures !Before(d, m)
  {
    OrdinalPositive(d);
    MondayArithmetic(Ordinal(d), Weekday(d));
    NotBeforeEarlier(d, m);
  }

  /** Going back weekday days from ordinal o lands on a day whose weekday is 0. */
  lemma MondayArithmetic(o: int, w: int)
    requires o >= 1 && w == (o + 6) % 7
    ensures o - w >= 1 && (o - w + 6) % 7 == 0
  {
    var q := (o + 6) / 7;
    assert o + 6 == 7 * q + w;
    assert o - w + 6 == 7 * q;
  }

  /** The first of this month minus one day falls in the previous calendar month. */
  lemma LastMonthOfFirst(d: Date)
    requires Valid(d) && d.year >= 2
    ensures Ordinal(FirstOfMonth(d)) > 1
    ensures var p := PrevDay(FirstOfMonth(d));
      if d.month == 1 then p.year == d.year - 1 && p.month == 12
      else p.year == d.year && p.month == d.month - 1
  {
    DaysBeforeYearNonNegative(d.year - 1);
    DaysBeforeYearStep(d.year - 1);
  }

  // ---------------------------------------------------------------------
  // strftime
  // ---------------------------------------------------------------------

  const MonthAbbrs: seq<string> := ["Jan", "Feb", "Mar", "Apr", "May", "Jun", "Jul", "Aug", "Sep", "Oct", "Nov", "Dec"]

  /** strftime('%b %d'): the month's abbreviation, a space, and the day in two digits. */
  function DateLabel(d: Date): (r: string)
    requires Valid(d)
    ensures |r| == 6 && r[3] == ' '
  {
    MonthAbbrs[d.month - 1] + " " + [DigitChar(d.day / 10), DigitChar(d.day % 10)]
  }

  /** Two labels agree exactly when the dates share month and day: the year is not shown. */
  lemma DateLabelSpec(a: Date, b: Date)
    requires Valid(a) && Valid(b)
    ensures DateLabel(a) == DateLabel(b) <==> a.month == b.month && a.day == b.day
  {
    if DateLabel(a) == DateLabel(b) {
      assert DateLabel(a)[..3] == MonthAbbrs[a.month - 1];
      assert DateLabel(b)[..3] == MonthAbbrs[b.month - 1];
      assert a.day / 10 == b.day / 10 && a.day % 10 == b.day % 10 by {
        assert DateLabel(a)[4] == DigitChar(a.day / 10) && DateLabel(b)[4] == DigitChar(b.day / 10);
        assert DateLabel(a)[5] == DigitChar(a.day % 10) && DateLabel(b)[5] == DigitChar(b.day % 10);
      }
    }
  }
}

=== FILE: db.dfy ===
/**
 * The database the views work on: one table per model as a sequence of
 * rows in primary-key order, and the auto-increment counters that hand out
 * new primary keys. Deleting a visit cascades to its checklist items,
 * action items, maintenance tickets and attachments, as the foreign keys
 * declare on_delete=CASCADE.
 */
module Db {
  import opened Common
  import opened Models
  import opened Users

  /** The contents of every table at one moment. */
  datatype Tables = Tables(
    categories: seq<Category>, questions: seq<Question>, areas: seq<Area>,
    stores: seq<Store>, users: seq<User>, visits: seq<Visit>,
    items: seq<ChecklistItem>, actions: seq<ActionItem>, tickets: seq<Ticket>,
    attachments: seq<Attachment>)

  function VisitId(v: Visit): int { v.id }
  function ItemVisit(it: ChecklistItem): int { it.visit }
  function ActionVisit(a: ActionItem): int { a.visit }
  function TicketVisit(t: Ticket): int { t.visit }
  function AttachmentVisit(a: Attachment): int { a.visit }

  /**
   * The tables after deleting visit v and everything that cascades from it:
   * every row of v and of its items, actions, tickets and attachments goes,
   * every other row stays, and the tables the visit does not own are as
   * they were.
   */
  function DeleteVisitCascade(t: Tables, v: int): (r: Tables)
    ensures r.categories == t.categories && r.questions == t.questions && r.areas == t.areas
    ensures r.stores == t.stores && r.users == t.users
    ensures forall x :: x in r.visits <==> x in t.visits && x.id != v
    ensures forall x :: x in r.items <==> x in t.items && x.visit != v
    ensures forall x :: x in r.actions <==> x in t.actions && x.visit != v
    ensures forall x :: x in r.tickets <==> x in t.tickets && x.visit != v
    ensures forall x :: x in r.attachments <==> x in t.attachments && x.visit != v
  {
    CascadeMembers(t, v);
    t.(visits := Without(t.visits, VisitId, v),
       items := Without(t.items, ItemVisit, v),
       actions := Without(t.actions, ActionVisit, v),
       tickets := Without(t.tickets, TicketVisit, v),
       attachments := Without(t.attachments, AttachmentVisit, v))
  }

  lemma CascadeMembers(t: Tables, v: int)
    ensures forall x :: x in Without(t.visits, VisitId, v) <==> x in t.visits && x.id != v
    ensures forall x :: x in Without(t.items, ItemVisit, v) <==> x in t.items && x.visit != v
    ensures forall x :: x in Without(t.actions, ActionVisit, v) <==> x in t.actions && x.visit != v
    ensures forall x :: x in Without(t.tickets, TicketVisit, v) <==> x in t.tickets && x.visit != v
    ensures forall x :: x in Without(t.attachments, AttachmentVisit, v) <==> x in t.attachments && x.visit != v
  {
    forall x { WithoutMembers(t.visits, VisitId, v, x); }
    forall x { WithoutMembers(t.items, ItemVisit, v, x); }
    forall x { WithoutMembers(t.actions, ActionVisit, v, x); }
    forall x { WithoutMembers(t.tickets, TicketVisit, v, x); }
    forall x { WithoutMembers(t.attachments, AttachmentVisit, v, x); }
  }

  /**
   * after differs from before only by rows of visit v added at the end of the
   * visit-owned tables.
   */
  ghost predicate OnlyAddedFor(before: Tables, after: Tables, v: int)
  {
    after.categories == before.categories && after.questions == before.questions
    && after.areas == before.areas && after.stores == before.stores && after.users == before.users
    && AppendedFor(before.visits, after.visits, VisitId, v)
    && AppendedFor(before.items, after.items, ItemVisit, v)
    && AppendedFor(before.actions, after.actions, ActionVisit, v)
    && AppendedFor(before.tickets, after.tickets, TicketVisit, v)
    && AppendedFor(before.attachments, after.attachments, AttachmentVisit, v)
  }

  /** No row of any table refers to visit v. */
  ghost predicate Unreferenced(t: Tables, v: int)
  {
    (forall k :: 0 <= k < |t.visits| ==> t.visits[k].id != v)
    && (forall k :: 0 <= k < |t.items| ==> t.items[k].visit != v)
    && (forall k :: 0 <= k < |t.actions| ==> t.actions[k].visit != v)
    && (forall k :: 0 <= k < |t.tickets| ==> t.tickets[k].visit != v)
    && (forall k :: 0 <= k < |t.attachments| ==> t.attachments[k].visit != v)
  }

  /** Deleting a visit that was new undoes everything that was added for it. */
  lemma DeleteUndoesAdditions(before: Tables, after: Tables, v: int)
    requires Unreferenced(before, v) && OnlyAddedFor(before, after, v)
    ensures DeleteVisitCascade(after, v) == before
  {
    WithoutUndoesAppend(before.visits, after.visits, VisitId, v);
    WithoutUndoesAppend(before.items, after.items, ItemVisit, v);
    WithoutUndoesAppend(before.actions, after.actions, ActionVisit, v);
    WithoutUndoesAppend(before.tickets, after.tickets, TicketVisit, v);
    WithoutUndoesAppend(before.attachments, after.attachments, AttachmentVisit, v);
  }

  /** Every visit id and every reference to a visit is below n. */
  predicate RefsBelow(t: Tables, n: int)
  {
    && AllBelow(t.visits, VisitId, n) && AllBelow(t.items, ItemVisit, n)
    && AllBelow(t.actions, ActionVisit, n) && AllBelow(t.tickets, TicketVisit, n)
    && AllBelow(t.attachments, AttachmentVisit, n)
  }

  /** No row refers to the bound itself or anything above it. */
  lemma RefsBelowUnreferenced(t: Tables, n: int, v: int)
    requires RefsBelow(t, n) && v >= n
    ensures Unreferenced(t, v)
  {
    AllBelowIndex(t.visits, VisitId, n);
    AllBelowIndex(t.items, ItemVisit, n);
    AllBelowIndex(t.actions, ActionVisit, n);
    AllBelowIndex(t.tickets, TicketVisit, n);
    AllBelowIndex(t.attachments, AttachmentVisit, n);
  }

  /** Rows added for a visit below the bound keep every reference below it. */
  lemma AddedKeepsRefsBelow(before: Tables, after: Tables, v: int, n: int)
    requires RefsBelow(before, n) && OnlyAddedFor(before, after, v) && v < n
    ensures RefsBelow(after, n)
  {
    AppendedKeepsBelow(before.visits, after.visits, VisitId, v, n);
    AppendedKeepsBelow(before.items, after.items, ItemVisit, v, n);
    AppendedKeepsBelow(before.actions, after.actions, ActionVisit, v, n);
    AppendedKeepsBelow(before.tickets, after.tickets, TicketVisit, v, n);
    AppendedKeepsBelow(before.attachments, after.attachments, AttachmentVisit, v, n);
  }

  /** Raising the bound keeps every reference below it. */
  lemma RefsBelowRaise(t: Tables, n: int, m: int)
    requires RefsBelow(t, n) && n <= m
    ensures RefsBelow(t, m)
  {
    AllBelowIndex(t.visits, VisitId, n);
    AllBelowIndex(t.items, ItemVisit, n);
    AllBelowIndex(t.actions, ActionVisit, n);
    AllBelowIndex(t.tickets, TicketVisit, n);
    AllBelowIndex(t.attachments, AttachmentVisit, n);
    AllBelowIndex(t.visits, VisitId, m);
    AllBelowIndex(t.items, ItemVisit, m);
    AllBelowIndex(t.actions, ActionVisit, m);
    AllBelowIndex(t.tickets, TicketVisit, m);
    AllBelowIndex(t.attachments, AttachmentVisit, m);
  }

  class Database {
    var categories: seq<Category>
    var questions: seq<Question>
    var areas: seq<Area>
    var stores: seq<Store>
    var users: seq<User>
    var visits: seq<Visit>
    var items: seq<ChecklistItem>
    var actions: seq<ActionItem>
    var tickets: seq<Ticket>
    var attachments: seq<Attachment>

    var nextCategoryId: int
    var nextQuestionId: int
    var nextVisitId: int
    var nextItemId: int
    var nextActionId: int
    var nextAttachmentId: int

    function Snapshot(): Tables
      reads this
    {
      Tables(categories, questions, areas, stores, users, visits, items, actions, tickets, attachments)
    }

    /** Every visit reference points below the visit counter, so a new visit id is unreferenced. */
    ghost predicate Valid()
      reads this`visits, this`items, this`actions, this`tickets, this`attachments, this`nextVisitId
    {
      && AllBelow(visits, VisitId, nextVisitId) && AllBelow(items, ItemVisit, nextVisitId)
      && AllBelow(actions, ActionVisit, nextVisitId) && AllBelow(tickets, TicketVisit, nextVisitId)
      && AllBelow(attachments, AttachmentVisit, nextVisitId)
    }

    constructor ()
      ensures Valid()
      ensures Snapshot() == Tables([], [], [], [], [], [], [], [], [], [])
    {
      categories, questions, areas, stores, users := [], [], [], [], [];
      visits, items, actions, tickets, attachments := [], [], [], [], [];
      nextCategoryId, nextQuestionId, nextVisitId := 1, 1, 1;
      nextItemId, nextActionId, nextAttachmentId := 1, 1, 1;
    }

    /** No row of the visit and visit-owned tables refers to visit v. */
    ghost predicate Fresh(v: int)
      reads this
    {
      Unreferenced(Snapshot(), v)
    }

    /** AreaManagerVisit.objects.create: the new visit gets the next primary key, which nothing refers to yet. */
    method CreateVisit(v: Visit) returns (id: int)
      requires Valid()
      modifies this`visits, this`nextVisitId
      ensures Valid()
      ensures id == old(nextVisitId) && nextVisitId == id + 1
      ensures visits == old(visits) + [v.(id := id)]
      ensures old(Fresh(id))
    {
      id := nextVisitId;
      RefsBelowUnreferenced(Snapshot(), id, id);
      ghost var before := Snapshot();
      visits := visits + [v.(id := id)];
      nextVisitId := nextVisitId + 1;
      RefsBelowRaise(before, id, nextVisitId);
      assert OnlyAddedFor(before, Snapshot(), id) by {
        assert visits[..|before.visits|] == before.visits;
      }
      AddedKeepsRefsBelow(before, Snapshot(), id, nextVisitId);
    }

    /** visit.delete(): the visit and every row that cascades from it go. */
    method DeleteVisit(v: int)
      modifies this`visits, this`items, this`actions, this`tickets, this`attachments
      ensures visits == Without(old(visits), VisitId, v) && items == Without(old(items), ItemVisit, v)
      ensures actions == Without(old(actions), ActionVisit, v) && tickets == Without(old(tickets), TicketVisit, v)
      ensures attachments == Without(old(attachments), AttachmentVisit, v)
      ensures old(Valid()) ==> Valid()
    {
      if Valid() {
        WithoutKeepsBelow(visits, VisitId, v, nextVisitId);
        WithoutKeepsBelow(items, ItemVisit, v, nextVisitId);
        WithoutKeepsBelow(actions, ActionVisit, v, nextVisitId);
        WithoutKeepsBelow(tickets, TicketVisit, v, nextVisitId);
        WithoutKeepsBelow(attachments, AttachmentVisit, v, nextVisitId);
      }
      visits := Without(visits, VisitId, v);
      items := Without(items, ItemVisit, v);
      actions := Without(actions, ActionVisit, v);
      tickets := Without(tickets, TicketVisit, v);
      attachments := Without(attachments, AttachmentVisit, v);
    }
  }
}

=== FILE: drafts.dfy ===
/**
 * Draft checklists (checklist/views/checklist_views.py): save_draft stores
 * the answers posted under keys `x_<category>_<number>` as checklist items
 * of a new draft visit, and load_draft hands them back under keys
 * `answer_<category>_<number>`.
 */
module ChecklistDrafts {
  import opened Common
  import opened Dates
  import opened Models
  import opened Users
  import opened Db
  import opened ChecklistViews
  import opened Queries

  // ---------------------------------------------------------------------
  // Draft answer keys
  // ---------------------------------------------------------------------

  /** The key load_draft gives an answer: f"answer_{category}_{number}". */
  function DraftKey(category: string, number: int): string
  {
    "answer_" + category + "_" + IntToString(number)
  }

  /**
   * The parse in save_draft: split on '_', skip keys with fewer than three
   * parts, take the category from part 1 and int() of part 2 as the
   * number. The first part is never looked at, and parts beyond the third
   * are ignored. None is a skipped key (too short, or int() raising).
   */
  function DecodeDraftKey(key: string): (r: Option<(string, int)>)
    ensures |Split(key, '_')| < 3 ==> r.None?
    ensures r.Some? ==> '_' !in r.value.0
  {
    var parts := Split(key, '_');
    if |parts| < 3 then None
    else
      var n := ParsePyInt(parts[2]);
      if n.None? then None else Some((parts[1], n.value))
  }

  lemma IntToStringNoUnderscore(n: int)
    ensures '_' !in IntToString(n)
  {
    var digits := NatToString(if n < 0 then -n else n);
    assert forall i :: 0 <= i < |digits| ==> IsAsciiDigit(digits[i]);
    if n < 0 {
      assert IntToString(n) == "-" + digits;
      assert forall i :: 0 <= i < |IntToString(n)| ==> IntToString(n)[i] != '_' by {
        forall i | 0 <= i < |IntToString(n)|
          ensures IntToString(n)[i] != '_'
        {
          if i > 0 { assert IntToString(n)[i] == digits[i - 1]; }
        }
      }
    }
  }

  /** A key load_draft builds decodes back to its category and number, provided the category has no '_'. */
  lemma DraftKeyRoundTrip(category: string, number: int)
    requires '_' !in category
    ensures DecodeDraftKey(DraftKey(category, number)) == Some((category, number))
  {
    var num := IntToString(number);
    IntToStringNoUnderscore(number);
    SplitSeparatorFree(num, '_');
    SplitAfterSeparatorFree(category, num, '_');
    var t1 := category + "_" + num;
    assert Split(t1, '_') == [category, num];
    SplitAfterSeparatorFree("answer", t1, '_');
    ConcatAssoc("answer_" + category, "_", num);
    ConcatAssoc("answer_", category, "_" + num);
    ConcatAssoc(category, "_", num);
    assert DraftKey(category, number) == "answer_" + t1;
    assert "answer" + "_" == "answer_";
    assert Split(DraftKey(category, number), '_') == ["answer", category, num];
    IntStringRoundTrip(number);
  }

  /** Whatever precedes the first '_' is ignored: any prefix decodes like 'answer'. */
  lemma DraftKeyPrefixIgnored(prefix: string, rest: string)
    requires '_' !in prefix
    ensures DecodeDraftKey(prefix + "_" + rest) == DecodeDraftKey("answer_" + rest)
  {
    SplitAfterSeparatorFree(prefix, rest, '_');
    SplitAfterSeparatorFree("answer", rest, '_');
    assert prefix + "_" + rest == prefix + ['_'] + rest;
    assert "answer_" + rest == "answer" + ['_'] + rest;
  }

  /** The parts of the key of a category whose name holds one '_'. */
  lemma DraftKeySplitsCategory(first: string, second: string, number: int)
    requires '_' !in first && '_' !in second
    ensures Split(DraftKey(first + "_" + second, number), '_') == ["answer", first, second, IntToString(number)]
  {
    var num := IntToString(number);
    IntToStringNoUnderscore(number);
    SplitSeparatorFree(num, '_');
    var t2 := second + "_" + num;
    SplitAfterSeparatorFree(second, num, '_');
    assert Split(t2, '_') == [second, num];
    var t1 := first + "_" + t2;
    SplitAfterSeparatorFree(first, t2, '_');
    assert Split(t1, '_') == [first, second, num];
    SplitAfterSeparatorFree("answer", t1, '_');
    var u := "_" + num;
    var c := first + "_" + second;
    ConcatAssoc("answer_" + c, "_", num);
    ConcatAssoc("answer_", c, u);
    ConcatAssoc(first + "_", second, u);
    ConcatAssoc(second, "_", num);
    assert DraftKey(c, number) == "answer_" + t1;
    assert "answer" + "_" == "answer_";
  }

  lemma ConcatAssoc<T>(a: seq<T>, b: seq<T>, c: seq<T>)
    ensures a + b + c == a + (b + c)
  {
  }

  /**
   * A category whose name holds '_' does not survive the round trip: for
   * "Food_Safety" the number is read from "Safety", int() raises, and the
   * draft answer is skipped.
   */
  lemma UnderscoreCategoryLost(first: string, second: string, number: int)
    requires '_' !in first && '_' !in second
    requires second != [] && !IsPyWhitespace(second[0]) && !IsPyWhitespace(second[|second| - 1])
    requires !IsAsciiDigit(second[|second| - 1])
    ensures DecodeDraftKey(DraftKey(first + "_" + second, number)) == None
  {
    DraftKeySplitsCategory(first, second, number);
    PyStripNoWhitespace(second);
  }

  // ---------------------------------------------------------------------
  // save_draft
  // ---------------------------------------------------------------------

  /** One entry of the posted answers object: its optional 'answer' and 'comment'. */
  datatype DraftAnswer = DraftAnswer(answer: Option<bool>, comment: Option<string>)

  /**
   * The JSON body of save_draft: store_id (None when absent or falsy), the
   * month and day of visit_data, the three note fields (defaulting to '')
   * and the answers object as its key/value pairs in order.
   */
  datatype DraftRequest = DraftRequest(
    storeId: Option<int>, month: Option<string>, day: Option<int>,
    runOutItems: string, maintenanceNeeded: string, generalNotes: string,
    answers: seq<(string, DraftAnswer)>)

  /** What save_draft reports: the draft's primary key and the number of answers saved. */
  datatype DraftSaved = DraftSaved(draftId: int, savedAnswers: nat)

  /** The store of the draft: the one named by a truthy store_id, otherwise Store.objects.first(). */
  function DraftStore(storeId: Option<int>, stores: seq<Store>): (r: Option<Store>)
    ensures storeId.Some? && storeId.value != 0 ==> r == StoreById(stores, storeId.value)
    ensures (storeId.None? || storeId.value == 0) ==> (r.Some? <==> stores != [])
  {
    if storeId.Some? && storeId.value != 0 then StoreById(stores, storeId.value)
    else if stores == [] then None
    else Some(stores[0])
  }

  /** The draft visit as created, before it gets its primary key. */
  function DraftVisit(req: DraftRequest, store: Store, user: User, today: Date, now: Time): Visit
  {
    Visit(0, store.id, user.id, today,
          if req.month.Some? then req.month.value else "",
          if req.day.Some? then req.day.value else 1,
          None, true, Some(now), None, req.generalNotes, req.runOutItems, req.maintenanceNeeded)
  }

  /** The questions ChecklistQuestion.objects.get(category__name=name, number=number) looks among. */
  function QuestionsNamed(qs: seq<Question>, cats: seq<Category>, name: string, number: int): (r: seq<Question>)
    ensures |r| <= |qs|
  {
    if qs == [] then []
    else
      var rest := QuestionsNamed(qs[1..], cats, name, number);
      if CategoryName(cats, qs[0].category) == name && qs[0].number == number then [qs[0]] + rest else rest
  }

  /** The questions found are exactly those of that category name and number. */
  lemma {:induction false} QuestionsNamedMatch(qs: seq<Question>, cats: seq<Category>, name: string, number: int)
    ensures forall q :: q in QuestionsNamed(qs, cats, name, number) <==>
      q in qs && CategoryName(cats, q.category) == name && q.number == number
  {
    if qs != [] {
      QuestionsNamedMatch(qs[1..], cats, name, number);
      assert qs == [qs[0]] + qs[1..];
    }
  }

  /** The question a key stands for, if the key parses and exactly one question matches. */
  function DraftQuestion(key: string, qs: seq<Question>, cats: seq<Category>): (r: Option<Question>)
  {
    var d := DecodeDraftKey(key);
    if d.None? then None
    else
      var m := QuestionsNamed(qs, cats, d.value.0, d.value.1);
      if |m| == 1 then Some(m[0]) else None
  }

  /**
   * The checklist item an answer becomes, if its key names exactly one
   * question: 'answer' defaults to False and 'comment' to ''.
   */
  function DraftItem(id: int, visit: int, e: (string, DraftAnswer), qs: seq<Question>, cats: seq<Category>)
    : Option<ChecklistItem>
  {
    var q := DraftQuestion(e.0, qs, cats);
    if q.None? then None
    else
      Some(ChecklistItem(id, visit, Some(q.value.id),
                         if e.1.answer.Some? then e.1.answer.value else false,
                         if e.1.comment.Some? then e.1.comment.value else "",
                         false))
  }

  /** The items save_draft creates for the answers, numbered from base, skipping the keys it cannot place. */
  function DraftItems(answers: seq<(string, DraftAnswer)>, qs: seq<Question>, cats: seq<Category>,
                      visit: int, base: int): (r: seq<ChecklistItem>)
    ensures |r| <= |answers|
  {
    if answers == [] then []
    else
      var prev := DraftItems(answers[..|answers| - 1], qs, cats, visit, base);
      var item := DraftItem(base + |prev|, visit, answers[|answers| - 1], qs, cats);
      prev + (if item.Some? then [item.value] else [])
  }

  /**
   * Every saved item belongs to the draft, has the next primary key, and
   * answers the one question whose category name and number its key gives.
   */
  lemma {:induction false} DraftItemsOwned(answers: seq<(string, DraftAnswer)>, qs: seq<Question>,
                                           cats: seq<Category>, visit: int, base: int)
    ensures forall k :: 0 <= k < |DraftItems(answers, qs, cats, visit, base)| ==>
      DraftItems(answers, qs, cats, visit, base)[k].visit == visit
      && DraftItems(answers, qs, cats, visit, base)[k].id == base + k
      && !DraftItems(answers, qs, cats, visit, base)[k].requiresFollowUp
  {
    if answers != [] {
      var front := answers[..|answers| - 1];
      var prev := DraftItems(front, qs, cats, visit, base);
      DraftItemsOwned(front, qs, cats, visit, base);
      var r := DraftItems(answers, qs, cats, visit, base);
      forall k | 0 <= k < |r|
        ensures r[k].visit == visit && r[k].id == base + k && !r[k].requiresFollowUp
      {
        if k < |prev| {
          assert r[k] == prev[k];
        }
      }
    }
  }

  /** Answers whose keys have fewer than three parts save nothing. */
  lemma {:induction false} ShortKeysSaveNothing(answers: seq<(string, DraftAnswer)>, qs: seq<Question>,
                                                cats: seq<Category>, visit: int, base: int)
    requires forall k :: 0 <= k < |answers| ==> |Split(answers[k].0, '_')| < 3
    ensures DraftItems(answers, qs, cats, visit, base) == []
  {
    if answers != [] {
      ShortKeysSaveNothing(answers[..|answers| - 1], qs, cats, visit, base);
    }
  }

  /** One more answer adds its item, when its key names exactly one question, and nothing else. */
  lemma DraftItemsStep(answers: seq<(string, DraftAnswer)>, i: int, qs: seq<Question>,
                       cats: seq<Category>, visit: int, base: int, next: int)
    requires 0 <= i < |answers|
    requires next == base + |DraftItems(answers[..i], qs, cats, visit, base)|
    ensures var item := DraftItem(next, visit, answers[i], qs, cats);
      DraftItems(answers[..i + 1], qs, cats, visit, base)
        == DraftItems(answers[..i], qs, cats, visit, base) + (if item.Some? then [item.value] else [])
  {
    assert answers[..i + 1][..i] == answers[..i];
  }

  /** The items of a draft whose key is below n keep every item's visit below n. */
  lemma DraftItemsKeepBelow(items: seq<ChecklistItem>, answers: seq<(string, DraftAnswer)>, qs: seq<Question>,
                            cats: seq<Category>, visit: int, base: int, n: int)
    requires AllBelow(items, ItemVisit, n) && visit < n
    ensures AllBelow(items + DraftItems(answers, qs, cats, visit, base), ItemVisit, n)
  {
    var all := items + DraftItems(answers, qs, cats, visit, base);
    DraftItemsOwned(answers, qs, cats, visit, base);
    assert all[..|items|] == items;
    AppendedKeepsBelow(items, all, ItemVisit, visit, n);
  }

  /**
   * save_draft. When the store cannot be found (or there is none at all)
   * the transaction fails and nothing changes. Otherwise the draft visit is
   * created with the next primary key, one checklist item is added for each
   * answer whose key names exactly one question, and the number of items
   * saved is reported.
   */
  method SaveDraft(db: Database, req: DraftRequest, user: User, today: Date, now: Time)
    returns (r: Result<DraftSaved, string>)
    requires db.Valid()
    modifies db`visits, db`nextVisitId, db`items, db`nextItemId
    ensures r.Err? <==> DraftStore(req.storeId, db.stores).None?
    ensures r.Err? ==> unchanged(db)
    ensures r.Ok? ==>
      var id := old(db.nextVisitId);
      var made := DraftItems(req.answers, db.questions, db.categories, id, old(db.nextItemId));
      && r.value == DraftSaved(id, |made|)
      && db.visits == old(db.visits) + [DraftVisit(req, DraftStore(req.storeId, db.stores).value, user, today, now).(id := id)]
      && db.items == old(db.items) + made
      && db.nextItemId == old(db.nextItemId) + |made|
    ensures db.Valid()
  {
    var store := DraftStore(req.storeId, db.stores);
    if store.None? {
      return Err("Failed to save draft. Please try again.");
    }
    var id, saved := CreateDraft(db, DraftVisit(req, store.value, user, today, now), req.answers);
    r := Ok(DraftSaved(id, saved));
  }

  /** The writes of save_draft: the draft visit with the next primary key, then its answers' items. */
  method CreateDraft(db: Database, v: Visit, answers: seq<(string, DraftAnswer)>) returns (id: int, saved: nat)
    requires db.Valid()
    modifies db`visits, db`nextVisitId, db`items, db`nextItemId
    ensures id == old(db.nextVisitId) && db.visits == old(db.visits) + [v.(id := id)]
    ensures var made := DraftItems(answers, db.questions, db.categories, id, old(db.nextItemId));
      && saved == |made|
      && db.items == old(db.items) + made
      && db.nextItemId == old(db.nextItemId) + saved
    ensures db.Valid()
  {
    id := db.CreateVisit(v);
    ghost var items1, base := db.items, db.nextItemId;
    saved := SaveDraftAnswers(db, answers, id);
    DraftItemsKeepBelow(items1, answers, db.questions, db.categories, id, base, db.nextVisitId);
  }

  /** The loop of save_draft over the posted answers: one item per answer that names exactly one question. */
  method SaveDraftAnswers(db: Database, answers: seq<(string, DraftAnswer)>, visit: int) returns (saved: nat)
    modifies db`items, db`nextItemId
    ensures var made := DraftItems(answers, db.questions, db.categories, visit, old(db.nextItemId));
      && saved == |made|
      && db.items == old(db.items) + made
      && db.nextItemId == old(db.nextItemId) + saved
  {
    ghost var items0, base := db.items, db.nextItemId;
    var qs, cats := db.questions, db.categories;
    saved := 0;
    var i := 0;
    while i < |answers|
      invariant 0 <= i <= |answers|
      invariant SavedSoFar(db, answers[..i], qs, cats, visit, items0, base, saved)
    {
      saved := SaveDraftStep(db, answers, i, visit, qs, cats, items0, base, saved);
      i := i + 1;
    }
    assert answers[..i] == answers;
  }

  /** After some answers, the items table and the key counter hold exactly their items. */
  ghost predicate SavedSoFar(db: Database, done: seq<(string, DraftAnswer)>, qs: seq<Question>, cats: seq<Category>,
                             visit: int, items0: seq<ChecklistItem>, base: int, saved: nat)
    reads db
  {
    var made := DraftItems(done, qs, cats, visit, base);
    db.items == items0 + made && saved == |made| && db.nextItemId == base + saved
  }

  /** One pass of that loop, in terms of the answers saved before it. */
  method SaveDraftStep(db: Database, answers: seq<(string, DraftAnswer)>, i: nat, visit: int, qs: seq<Question>,
                       cats: seq<Category>, ghost items0: seq<ChecklistItem>, ghost base: int, saved: nat)
    returns (saved': nat)
    requires i < |answers| && SavedSoFar(db, answers[..i], qs, cats, visit, items0, base, saved)
    modifies db`items, db`nextItemId
    ensures SavedSoFar(db, answers[..i + 1], qs, cats, visit, items0, base, saved')
  {
    DraftItemsStep(answers, i, qs, cats, visit, base, db.nextItemId);
    var added := SaveDraftAnswer(db, answers[i], visit, qs, cats);
    saved' := if added then saved + 1 else saved;
  }

  /** One pass of that loop: the answer's item is created when its key names exactly one question. */
  method SaveDraftAnswer(db: Database, e: (string, DraftAnswer), visit: int, qs: seq<Question>, cats: seq<Category>)
    returns (added: bool)
    modifies db`items, db`nextItemId
    ensures var item := DraftItem(old(db.nextItemId), visit, e, qs, cats);
      && added == item.Some?
      && db.items == old(db.items) + (if added then [item.value] else [])
      && db.nextItemId == old(db.nextItemId) + (if added then 1 else 0)
  {
    var item := DraftItem(db.nextItemId, visit, e, qs, cats);
    added := item.Some?;
    if added {
      db.items := db.items + [item.value];
      db.nextItemId := db.nextItemId + 1;
    }
  }

  // ---------------------------------------------------------------------
  // load_draft
  // ---------------------------------------------------------------------

  /** What load_draft returns, apart from the visit's time of day. */
  datatype DraftData = DraftData(
    month: string, day: int, storeId: int, runOutItems: string, maintenanceNeeded: string,
    generalNotes: string, answers: map<string, DraftAnswer>)

  /** The draft visit with primary key id, if it belongs to the manager and is a draft. */
  function FindDraft(visits: seq<Visit>, id: int, manager: int): (r: Option<Visit>)
    ensures r.Some? ==> r.value in visits && r.value.id == id && r.value.manager == manager && r.value.isDraft
  {
    if visits == [] then None
    else if visits[0].id == id && visits[0].manager == manager && visits[0].isDraft then Some(visits[0])
    else FindDraft(visits[1..], id, manager)
  }

  /** The key of one item: None when the item has no question (item.question.category raises). */
  function ItemKey(it: ChecklistItem, qs: seq<Question>, cats: seq<Category>): Option<string>
  {
    if it.question.None? then None
    else
      var q := QuestionById(qs, it.question.value);
      if q.None? then None else Some(DraftKey(CategoryName(cats, q.value.category), q.value.number))
  }

  /**
   * The answers dictionary of load_draft over the items of visit v, in
   * table order; a later item with the same key overwrites an earlier one.
   * None when some item of the visit has no key.
   */
  function DraftAnswers(items: seq<ChecklistItem>, qs: seq<Question>, cats: seq<Category>, v: int)
    : Option<map<string, DraftAnswer>>
  {
    if items == [] then Some(map[])
    else
      var prev := DraftAnswers(items[..|items| - 1], qs, cats, v);
      var it := items[|items| - 1];
      if prev.None? || it.visit != v then prev
      else
        var key := ItemKey(it, qs, cats);
        if key.None? then None
        else Some(prev.value[key.value := DraftAnswer(Some(it.answer), Some(it.comment))])
  }

  /** The answers of the items of v: every item of the draft has its key, and nothing else does. */
  lemma {:induction false} DraftAnswersKeys(items: seq<ChecklistItem>, qs: seq<Question>, cats: seq<Category>, v: int)
    requires DraftAnswers(items, qs, cats, v).Some?
    ensures forall k :: 0 <= k < |items| && items[k].visit == v ==>
      ItemKey(items[k], qs, cats).Some? && ItemKey(items[k], qs, cats).value in DraftAnswers(items, qs, cats, v).value
    ensures forall key :: key in DraftAnswers(items, qs, cats, v).value ==>
      exists k :: 0 <= k < |items| && items[k].visit == v && ItemKey(items[k], qs, cats) == Some(key)
  {
    if items != [] {
      var front := items[..|items| - 1];
      var it := items[|items| - 1];
      DraftAnswersKeys(front, qs, cats, v);
      var m := DraftAnswers(items, qs, cats, v).value;
      forall key | key in m
        ensures exists k :: 0 <= k < |items| && items[k].visit == v && ItemKey(items[k], qs, cats) == Some(key)
      {
        if it.visit == v && ItemKey(it, qs, cats) == Some(key) {
          assert items[|items| - 1] == it;
        } else {
          var k :| 0 <= k < |front| && front[k].visit == v && ItemKey(front[k], qs, cats) == Some(key);
          assert items[k] == front[k];
        }
      }
      forall k | 0 <= k < |items| && items[k].visit == v
        ensures ItemKey(items[k], qs, cats).Some? && ItemKey(items[k], qs, cats).value in m
      {
        if k < |front| {
          assert items[k] == front[k];
        }
      }
    }
  }

  /**
   * Loading then saving a draft: every key load_draft hands out decodes, in
   * save_draft, to the category name and number of a question of the draft,
   * as long as no category name holds '_'.
   */
  lemma DraftAnswersDecode(items: seq<ChecklistItem>, qs: seq<Question>, cats: seq<Category>, v: int)
    requires DraftAnswers(items, qs, cats, v).Some?
    requires forall k :: 0 <= k < |cats| ==> '_' !in cats[k].name
    ensures forall key :: key in DraftAnswers(items, qs, cats, v).value ==>
      exists q :: q in qs && DecodeDraftKey(key) == Some((CategoryName(cats, q.category), q.number))
  {
    DraftAnswersKeys(items, qs, cats, v);
    forall key | key in DraftAnswers(items, qs, cats, v).value
      ensures exists q :: q in qs && DecodeDraftKey(key) == Some((CategoryName(cats, q.category), q.number))
    {
      var k :| 0 <= k < |items| && items[k].visit == v && ItemKey(items[k], qs, cats) == Some(key);
      var q := QuestionById(qs, items[k].question.value).value;
      CategoryNameHasNoUnderscore(cats, q.category);
      DraftKeyRoundTrip(CategoryName(cats, q.category), q.number);
    }
  }

  lemma {:induction false} CategoryNameHasNoUnderscore(cats: seq<Category>, id: int)
    requires forall k :: 0 <= k < |cats| ==> '_' !in cats[k].name
    ensures '_' !in CategoryName(cats, id)
  {
    if cats != [] && cats[0].id != id {
      CategoryNameHasNoUnderscore(cats[1..], id);
    }
  }

  /**
   * load_draft. Fails when the draft is not the user's or not a draft, or
   * when one of its items has no question; otherwise returns the visit's
   * fields and the answers dictionary, built item by item.
   */
  method LoadDraft(db: Database, draftId: int, user: User) returns (r: Result<DraftData, string>)
    ensures FindDraft(db.visits, draftId, user.id).None? ==> r.Err?
    ensures FindDraft(db.visits, draftId, user.id).Some? ==>
      var v := FindDraft(db.visits, draftId, user.id).value;
      var answers := DraftAnswers(db.items, db.questions, db.categories, v.id);
      && (r.Ok? <==> answers.Some?)
      && (r.Ok? ==> r.value == DraftData(v.month, v.day, v.store, v.runOutItems, v.maintenanceNeeded,
                                         v.generalNotes, answers.value))
  {
    var draft := FindDraft(db.visits, draftId, user.id);
    if draft.None? {
      return Err("Failed to load draft");
    }
    var v := draft.value;
    var answers: map<string, DraftAnswer> := map[];
    var i := 0;
    while i < |db.items|
      invariant 0 <= i <= |db.items|
      invariant DraftAnswers(db.items[..i], db.questions, db.categories, v.id) == Some(answers)
    {
      var it := db.items[i];
      assert db.items[..i + 1] == db.items[..i] + [it];
      if it.visit == v.id {
        var key := ItemKey(it, db.questions, db.categories);
        if key.None? {
          NoKeyFails(db.items, i + 1, db.questions, db.categories, v.id);
          return Err("Failed to load draft");
        }
        answers := answers[key.value := DraftAnswer(Some(it.answer), Some(it.comment))];
      }
      i := i + 1;
    }
    assert db.items[..i] == db.items;
    r := Ok(DraftData(v.month, v.day, v.store, v.runOutItems, v.maintenanceNeeded, v.generalNotes, answers));
  }

  /** Once an item of the visit has no key, no longer list of items gets a dictionary either. */
  lemma {:induction false} NoKeyFails(items: seq<ChecklistItem>, n: int, qs: seq<Question>, cats: seq<Category>, v: int)
    requires 0 <= n <= |items| && DraftAnswers(items[..n], qs, cats, v).None?
    ensures DraftAnswers(items, qs, cats, v).None?
    decreases |items| - n
  {
    if n < |items| {
      assert items[..n + 1][..n] == items[..n];
      NoKeyFails(items, n + 1, qs, cats, v);
    } else {
      assert items[..n] == items;
    }
  }

  // ---------------------------------------------------------------------
  // delete_draft
  // ---------------------------------------------------------------------

  /**
   * delete_draft: the user's draft with that id is deleted together with
   * the rows that belong to it; for someone else's visit, a submitted visit
   * or an unknown id the lookup is a 404 and nothing changes.
   */
  method DeleteDraft(db: Database, draftId: int, user: User) returns (deleted: bool)
    modifies db`visits, db`items, db`actions, db`tickets, db`attachments
    ensures deleted <==> FindDraft(old(db.visits), draftId, user.id).Some?
    ensures !deleted ==>
      && db.visits == old(db.visits) && db.items == old(db.items) && db.actions == old(db.actions)
      && db.tickets == old(db.tickets) && db.attachments == old(db.attachments)
    ensures deleted ==>
      && db.visits == Without(old(db.visits), VisitId, draftId) && db.items == Without(old(db.items), ItemVisit, draftId)
      && db.actions == Without(old(db.actions), ActionVisit, draftId)
      && db.tickets == Without(old(db.tickets), TicketVisit, draftId)
      && db.attachments == Without(old(db.attachments), AttachmentVisit, draftId)
    ensures old(db.Valid()) ==> db.Valid()
  {
    if FindDraft(db.visits, draftId, user.id).None? {
      return false;
    }
    db.DeleteVisit(draftId);
    deleted := true;
  }

  /**
   * After the deletion the draft can no longer be found, and every visit
   * with another primary key, submitted visits and other users' drafts
   * included, is still there.
   */
  lemma {:induction false} DeletedDraftGone(visits: seq<Visit>, draftId: int, manager: int)
    ensures FindDraft(Without(visits, VisitId, draftId), draftId, manager).None?
    ensures forall v :: v in visits && v.id != draftId ==> v in Without(visits, VisitId, draftId)
  {
    if visits != [] {
      DeletedDraftGone(visits[1..], draftId, manager);
      assert visits == [visits[0]] + visits[1..];
    }
  }
}

=== FILE: export.dfy ===
/**
 * The data-export views (checklist/views/data_export_views.py): a visit's
 * two-sheet workbook, the user's history workbook and the CSV of every
 * submitted visit. A worksheet is modelled as the map from (row, column),
 * both counted from 1, to the value written there; a CSV file as its rows
 * of values. Fonts, alignment and the HTTP response are not modelled.
 */
module Export {
  import opened Common
  import opened Dates
  import opened Models
  import opened Users
  import opened Queries
  import opened Sorting
  import StoreViews

  /** A value written to a cell: text, an integer or a date. */
  datatype Cell = Text(text: string) | Number(n: int) | Day(date: Date)

  /** A worksheet: the value at each (row, column) that was written. */
  type Sheet = map<(int, int), Cell>

  /**
   * The sheet holds the rows from row 1 and column 1: row r, column c of
   * the sheet is rows[r - 1][c - 1], and no other cell is written.
   */
  ghost predicate IsTable(sheet: Sheet, rows: seq<seq<Cell>>)
  {
    && (forall rc :: rc in sheet ==> 1 <= rc.0 <= |rows| && 1 <= rc.1 <= |rows[rc.0 - 1]|)
    && (forall r, c :: 1 <= r <= |rows| && 1 <= c <= |rows[r - 1]| ==> (r, c) in sheet && sheet[(r, c)] == rows[r - 1][c - 1])
  }

  /** out is sheet with cells written into row rowNum from column 1 on, and unchanged elsewhere. */
  ghost predicate RowWritten(sheet: Sheet, out: Sheet, rowNum: int, cells: seq<Cell>)
  {
    && (forall rc :: rc in out <==> rc in sheet || (rc.0 == rowNum && 1 <= rc.1 <= |cells|))
    && (forall c :: 0 <= c < |cells| ==> (rowNum, c + 1) in out && out[(rowNum, c + 1)] == cells[c])
    && (forall rc :: rc in sheet && (rc.0 != rowNum || rc.1 < 1 || rc.1 > |cells|) ==> out[rc] == sheet[rc])
  }

  /** The sheet after sheet.cell(row=rowNum, column=c).value = cells[c - 1] for c = 1, 2, ... in turn. */
  function RowCells(sheet: Sheet, rowNum: int, cells: seq<Cell>): Sheet
  {
    if cells == [] then sheet
    else RowCells(sheet, rowNum, cells[..|cells| - 1])[(rowNum, |cells|) := cells[|cells| - 1]]
  }

  /** Writing a row puts the cells in that row from column 1 on and leaves every other cell as it was. */
  lemma {:induction false} RowCellsSpec(sheet: Sheet, rowNum: int, cells: seq<Cell>)
    ensures RowWritten(sheet, RowCells(sheet, rowNum, cells), rowNum, cells)
  {
    if cells != [] {
      var front := cells[..|cells| - 1];
      RowCellsSpec(sheet, rowNum, front);
      forall c | 0 <= c < |cells| - 1
        ensures cells[c] == front[c]
      {
      }
    }
  }

  /** The rows written one below the other from row 1 into an empty sheet. */
  function TableSheet(rows: seq<seq<Cell>>): Sheet
  {
    if rows == [] then map[]
    else RowCells(TableSheet(rows[..|rows| - 1]), |rows|, rows[|rows| - 1])
  }

  /** The written table reads back as the rows, and holds nothing else. */
  lemma {:induction false} TableSheetIsTable(rows: seq<seq<Cell>>)
    ensures IsTable(TableSheet(rows), rows)
  {
    if rows != [] {
      var front := rows[..|rows| - 1];
      TableSheetIsTable(front);
      RowCellsSpec(TableSheet(front), |rows|, rows[|rows| - 1]);
      TableGrows(TableSheet(front), TableSheet(rows), front, rows[|rows| - 1]);
      assert front + [rows[|rows| - 1]] == rows;
    }
  }

  /** sheet.cell(row=rowNum, column=col).value = value for col = 1, 2, ... in turn. */
  method WriteRow(sheet: Sheet, rowNum: int, cells: seq<Cell>) returns (out: Sheet)
    ensures out == RowCells(sheet, rowNum, cells)
  {
    out := sheet;
    var col := 1;
    while col <= |cells|
      invariant 1 <= col <= |cells| + 1
      invariant out == RowCells(sheet, rowNum, cells[..col - 1])
    {
      assert cells[..col][..col - 1] == cells[..col - 1];
      out := out[(rowNum, col) := cells[col - 1]];
      col := col + 1;
    }
    assert cells[..col - 1] == cells;
  }

  /** Writing the next row below a table gives the table one row longer. */
  lemma TableGrows(sheet: Sheet, out: Sheet, rows: seq<seq<Cell>>, row: seq<Cell>)
    requires IsTable(sheet, rows) && RowWritten(sheet, out, |rows| + 1, row)
    ensures IsTable(out, rows + [row])
  {
    var all := rows + [row];
    forall r, c | 1 <= r <= |all| && 1 <= c <= |all[r - 1]|
      ensures (r, c) in out && out[(r, c)] == all[r - 1][c - 1]
    {
      if r <= |rows| {
        assert all[r - 1] == rows[r - 1];
        assert (r, c) in sheet;
      } else {
        assert all[r - 1] == row;
        assert (r, (c - 1) + 1) in out;
      }
    }
    forall rc | rc in out
      ensures 1 <= rc.0 <= |all| && 1 <= rc.1 <= |all[rc.0 - 1]|
    {
      if rc in sheet {
        assert all[rc.0 - 1] == rows[rc.0 - 1];
      }
    }
  }

  /** Writing a list of rows one below the other from row 1. */
  method WriteTable(rows: seq<seq<Cell>>) returns (sheet: Sheet)
    ensures sheet == TableSheet(rows)
  {
    sheet := map[];
    var i := 0;
    while i < |rows|
      invariant 0 <= i <= |rows|
      invariant sheet == TableSheet(rows[..i])
    {
      assert rows[..i + 1][..i] == rows[..i];
      sheet := WriteRow(sheet, i + 1, rows[i]);
      i := i + 1;
    }
    assert rows[..i] == rows;
  }

  /** What the cell at (r, c) of a table holds, read back by position. */
  lemma TableCell(sheet: Sheet, rows: seq<seq<Cell>>, r: int, c: int)
    requires IsTable(sheet, rows) && 1 <= r <= |rows| && 1 <= c <= |rows[r - 1]|
    ensures (r, c) in sheet && sheet[(r, c)] == rows[r - 1][c - 1]
    ensures (|rows| + 1, c) !in sheet
  {
  }

  /** f"{score}%": the score written as text with a percent sign. */
  function ScoreText(score: int): string
  {
    IntToString(score) + "%"
  }

  /** The score cell reads back as the score: dropping the '%' and parsing gives it again. */
  lemma ScoreTextRoundTrip(score: int)
    ensures var t := ScoreText(score); |t| >= 2 && t[|t| - 1] == '%' && ParsePyInt(t[..|t| - 1]) == Some(score)
  {
    var t := ScoreText(score);
    assert t[..|t| - 1] == IntToString(score);
    IntStringRoundTrip(score);
  }

  // ---------------------------------------------------------------------
  // export_visit_excel
  // ---------------------------------------------------------------------

  const SummaryTitle: string := "Visit Summary"
  const DetailsTitle: string := "Checklist Details"
  const DetailHeaders: seq<Cell> := [Text("Category"), Text("Question No."), Text("Question Text"), Text("Answer"), Text("Comment")]

  /** get_object_or_404(AreaManagerVisit, id=..., manager=request.user): drafts are found too. */
  function OwnVisit(visits: seq<Visit>, u: User, id: int): (r: Option<Visit>)
    ensures r.Some? ==> r.value in visits && r.value.id == id && r.value.manager == u.id
    ensures r.None? <==> forall k :: 0 <= k < |visits| ==> visits[k].id != id || visits[k].manager != u.id
  {
    if visits == [] then None
    else if visits[0].id == id && visits[0].manager == u.id then Some(visits[0])
    else
      var rest := OwnVisit(visits[1..], u, id);
      assert forall k :: 1 <= k < |visits| ==> visits[k] == visits[1..][k - 1];
      rest
  }

  /** The summary sheet: four label and value pairs, the score as text with a percent sign. */
  function SummaryRows(stores: seq<Store>, items: seq<ChecklistItem>, v: Visit, u: User): seq<seq<Cell>>
  {
    [[Text("Store"), Text(StoreName(stores, v.store))],
     [Text("Date"), Day(v.date)],
     [Text("Manager"), Text(DisplayName(u))],
     [Text("Overall Score"), Text(ScoreText(VisitScore(items, v)))]]
  }

  /**
   * One item's details row: category name, question number and text,
   * 'Yes' or 'No', and the comment; None for an item without a question,
   * whose item.question.category fails.
   */
  function DetailRow(it: ChecklistItem, qs: seq<Question>, cats: seq<Category>): (r: Option<seq<Cell>>)
    ensures r.Some? <==> it.question.Some? && QuestionById(qs, it.question.value).Some?
    ensures r.Some? ==> |r.value| == 5 && r.value[3] == Text(if it.answer then "Yes" else "No") && r.value[4] == Text(it.comment)
  {
    if it.question.None? then None
    else
      var q := QuestionById(qs, it.question.value);
      if q.None? then None
      else Some([Text(CategoryName(cats, q.value.category)), Number(q.value.number), Text(q.value.text),
                 Text(if it.answer then "Yes" else "No"), Text(it.comment)])
  }

  /** The rows of the items in order, or None when one of them has no row. */
  function DetailRows(items: seq<ChecklistItem>, qs: seq<Question>, cats: seq<Category>): (r: Option<seq<seq<Cell>>>)
    ensures r.Some? <==> forall k :: 0 <= k < |items| ==> DetailRow(items[k], qs, cats).Some?
    ensures r.Some? ==> |r.value| == |items| && forall k :: 0 <= k < |items| ==> r.value[k] == DetailRow(items[k], qs, cats).value
  {
    if items == [] then Some([])
    else
      var front := DetailRows(items[..|items| - 1], qs, cats);
      var last := DetailRow(items[|items| - 1], qs, cats);
      assert forall k :: 0 <= k < |items| - 1 ==> items[..|items| - 1][k] == items[k];
      if front.None? || last.None? then None else Some(front.value + [last.value])
  }

  datatype VisitWorkbook = VisitWorkbook(summary: Sheet, details: Sheet)

  datatype ExportError = VisitNotFound | ItemWithoutQuestion

  /**
   * export_visit_excel: 404 unless the visit is the user's; otherwise the
   * summary sheet and, under a header row, one details row per item of the
   * visit from row 2; an item without a question makes the export fail.
   */
  method ExportVisitExcel(visits: seq<Visit>, stores: seq<Store>, items: seq<ChecklistItem>, qs: seq<Question>,
                          cats: seq<Category>, u: User, visitId: int) returns (r: Result<VisitWorkbook, ExportError>)
    ensures r == Err(VisitNotFound) <==> OwnVisit(visits, u, visitId).None?
    ensures r == Err(ItemWithoutQuestion) <==>
      OwnVisit(visits, u, visitId).Some? && DetailRows(ItemsOf(items, visitId), qs, cats).None?
    ensures r.Ok? ==>
      && r.value.summary == TableSheet(SummaryRows(stores, items, OwnVisit(visits, u, visitId).value, u))
      && r.value.details == TableSheet([DetailHeaders] + DetailRows(ItemsOf(items, visitId), qs, cats).value)
  {
    var visit := OwnVisit(visits, u, visitId);
    if visit.None? {
      return Err(VisitNotFound);
    }
    var summary := WriteTable(SummaryRows(stores, items, visit.value, u));
    var rows := DetailRows(ItemsOf(items, visitId), qs, cats);
    if rows.None? {
      return Err(ItemWithoutQuestion);
    }
    var details := WriteTable([DetailHeaders] + rows.value);
    r := Ok(VisitWorkbook(summary, details));
  }

  /** A written table holds rows[r - 1][c - 1] at (r, c), and nothing in the row below its last. */
  lemma TableSheetCell(rows: seq<seq<Cell>>, r: int, c: int)
    requires 1 <= r <= |rows| && 1 <= c <= |rows[r - 1]|
    ensures (r, c) in TableSheet(rows) && TableSheet(rows)[(r, c)] == rows[r - 1][c - 1]
    ensures (|rows| + 1, c) !in TableSheet(rows)
  {
    TableSheetIsTable(rows);
    TableCell(TableSheet(rows), rows, r, c);
  }

  /**
   * Reading the details sheet back: row k + 2 is the k-th item, its
   * answer cell 'Yes' exactly when the item was answered yes, and its
   * comment cell the comment.
   */
  lemma DetailsReadBack(items: seq<ChecklistItem>, qs: seq<Question>, cats: seq<Category>, k: int)
    requires DetailRows(items, qs, cats).Some? && 0 <= k < |items|
    ensures var sheet := TableSheet([DetailHeaders] + DetailRows(items, qs, cats).value);
      && (k + 2, 4) in sheet && sheet[(k + 2, 4)] == Text(if items[k].answer then "Yes" else "No")
      && (k + 2, 5) in sheet && sheet[(k + 2, 5)] == Text(items[k].comment)
  {
    var rows := [DetailHeaders] + DetailRows(items, qs, cats).value;
    var row := DetailRow(items[k], qs, cats).value;
    assert rows[k + 1] == row;
    assert |row| == 5;
    TableSheetCell(rows, k + 2, 4);
    TableSheetCell(rows, k + 2, 5);
  }

  /** The details sheet has its header in row 1 and nothing below the row of the last item. */
  lemma DetailsExtent(items: seq<ChecklistItem>, qs: seq<Question>, cats: seq<Category>)
    requires DetailRows(items, qs, cats).Some?
    ensures var sheet := TableSheet([DetailHeaders] + DetailRows(items, qs, cats).value);
      && (1, 4) in sheet && sheet[(1, 4)] == Text("Answer")
      && (|items| + 2, 1) !in sheet
  {
    var rows := [DetailHeaders] + DetailRows(items, qs, cats).value;
    TableSheetCell(rows, 1, 1);
    TableSheetCell(rows, 1, 4);
    var below := |rows| + 1;
    assert below == |items| + 2;
    assert (below, 1) !in TableSheet(rows);
  }

  /** The summary's score cell is the visit's score as text, which reads back as that score. */
  lemma SummaryScore(stores: seq<Store>, items: seq<ChecklistItem>, v: Visit, u: User)
    ensures var sheet := TableSheet(SummaryRows(stores, items, v, u));
      && (4, 2) in sheet && sheet[(4, 2)] == Text(ScoreText(VisitScore(items, v)))
      && (3, 2) in sheet && sheet[(3, 2)] == Text(DisplayName(u))
      && (5, 1) !in sheet
  {
    var rows := SummaryRows(stores, items, v, u);
    var sheet := TableSheet(rows);
    TableSheetIsTable(rows);
    TableCell(sheet, rows, 4, 2);
    TableCell(sheet, rows, 3, 2);
    TableCell(sheet, rows, 4, 1);
  }

  // ---------------------------------------------------------------------
  // export_history_excel
  // ---------------------------------------------------------------------

  const HistoryTitle: string := "Checklist History"
  const HistoryHeaders: seq<Cell> := [Text("Store"), Text("Date"), Text("Manager"), Text("Overall Score")]

  function SubmittedByUser(u: User): Visit -> bool
  {
    (v: Visit) => SubmittedBy(v, u)
  }

  /** filter(manager=request.user, is_draft=False).order_by('-date'). */
  function HistoryVisits(visits: seq<Visit>, u: User): seq<Visit>
  {
    StoreViews.NewestFirst(Filter(visits, SubmittedByUser(u)))
  }

  /** One history row: store name, date, the user's name, and the score with a percent sign. */
  function HistoryRow(stores: seq<Store>, items: seq<ChecklistItem>, u: User, v: Visit): seq<Cell>
  {
    [Text(StoreName(stores, v.store)), Day(v.date), Text(DisplayName(u)), Text(ScoreText(VisitScore(items, v)))]
  }

  function HistoryRows(stores: seq<Store>, items: seq<ChecklistItem>, u: User, vs: seq<Visit>): (r: seq<seq<Cell>>)
    ensures |r| == |vs| && forall k :: 0 <= k < |vs| ==> r[k] == HistoryRow(stores, items, u, vs[k])
  {
    seq(|vs|, k requires 0 <= k < |vs| => HistoryRow(stores, items, u, vs[k]))
  }

  /** export_history_excel: a header row, then one row per visit from row 2. */
  method ExportHistoryExcel(visits: seq<Visit>, stores: seq<Store>, items: seq<ChecklistItem>, u: User) returns (sheet: Sheet)
    ensures sheet == TableSheet([HistoryHeaders] + HistoryRows(stores, items, u, HistoryVisits(visits, u)))
  {
    sheet := WriteTable([HistoryHeaders] + HistoryRows(stores, items, u, HistoryVisits(visits, u)));
  }

  /** Row k + 2 of the history sheet is the k-th visit: its date, and its score as text. */
  lemma HistoryReadBack(stores: seq<Store>, items: seq<ChecklistItem>, u: User, vs: seq<Visit>, k: int)
    requires 0 <= k < |vs|
    ensures var sheet := TableSheet([HistoryHeaders] + HistoryRows(stores, items, u, vs));
      && (k + 2, 2) in sheet && sheet[(k + 2, 2)] == Day(vs[k].date)
      && (k + 2, 4) in sheet && sheet[(k + 2, 4)] == Text(ScoreText(VisitScore(items, vs[k])))
      && (|vs| + 2, 1) !in sheet
  {
    var rows := [HistoryHeaders] + HistoryRows(stores, items, u, vs);
    assert rows[k + 1] == HistoryRow(stores, items, u, vs[k]);
    TableSheetCell(rows, k + 2, 2);
    TableSheetCell(rows, k + 2, 4);
    TableSheetCell(rows, 1, 1);
    assert |rows| + 1 == |vs| + 2;
  }

  /**
   * The history lists exactly the user's submitted visits, one row each,
   * newest first.
   */
  lemma HistoryVisitsSpec(visits: seq<Visit>, u: User, v: Visit)
    ensures v in HistoryVisits(visits, u) <==> v in visits && v.manager == u.id && !v.isDraft
    ensures |HistoryVisits(visits, u)| == Count(visits, SubmittedByUser(u))
    ensures forall i, j :: 0 <= i < j < |HistoryVisits(visits, u)| ==>
      !Before(HistoryVisits(visits, u)[i].date, HistoryVisits(visits, u)[j].date)
  {
    var mine := Filter(visits, SubmittedByUser(u));
    FilterMembership(visits, SubmittedByUser(u), v);
    StoreViews.NewestTake(mine, |mine|, v);
    var sorted := HistoryVisits(visits, u);
    assert Take(sorted, |mine|) == sorted;
  }

  // ---------------------------------------------------------------------
  // export_data
  // ---------------------------------------------------------------------

  const CsvHeader: seq<Cell> := [Text("Store"), Text("Manager"), Text("Date"), Text("Month"), Text("Score"),
                                 Text("Total Items"), Text("Passed Items")]

  /** visit.manager.get_full_name() or username, for the visit's manager. */
  function ManagerName(users: seq<User>, id: int): string
  {
    if users == [] then "" else if users[0].id == id then DisplayName(users[0]) else ManagerName(users[1..], id)
  }

  predicate NotDraft(v: Visit)
  {
    !v.isDraft
  }

  /** One CSV row: store, manager, date, month, score, and the visit's item and yes-item counts. */
  function DataRow(stores: seq<Store>, users: seq<User>, items: seq<ChecklistItem>, v: Visit): seq<Cell>
  {
    [Text(StoreName(stores, v.store)), Text(ManagerName(users, v.manager)), Day(v.date), Text(v.month),
     Number(VisitScore(items, v)), Number(|ItemsOf(items, v.id)|), Number(Count(ItemsOf(items, v.id), Yes))]
  }

  function DataRows(stores: seq<Store>, users: seq<User>, items: seq<ChecklistItem>, vs: seq<Visit>): (r: seq<seq<Cell>>)
    ensures |r| == |vs| && forall k :: 0 <= k < |vs| ==> r[k] == DataRow(stores, users, items, vs[k])
  {
    seq(|vs|, k requires 0 <= k < |vs| => DataRow(stores, users, items, vs[k]))
  }

  /**
   * export_data: for a superuser, the header and one row per submitted
   * visit of any manager, in table order; anyone else is sent to the login
   * page and gets no file.
   */
  method ExportData(u: User, visits: seq<Visit>, stores: seq<Store>, users: seq<User>, items: seq<ChecklistItem>)
    returns (csv: Option<seq<seq<Cell>>>)
    ensures csv.Some? <==> u.isSuperuser
    ensures csv.Some? ==> csv.value == [CsvHeader] + DataRows(stores, users, items, Filter(visits, NotDraft))
  {
    if !u.isSuperuser {
      return None;
    }
    var vs := Filter(visits, NotDraft);
    var rows := [CsvHeader];
    var i := 0;
    while i < |vs|
      invariant 0 <= i <= |vs|
      invariant rows == [CsvHeader] + DataRows(stores, users, items, vs[..i])
    {
      rows := rows + [DataRow(stores, users, items, vs[i])];
      i := i + 1;
    }
    assert vs[..i] == vs;
    csv := Some(rows);
  }

  /**
   * In every CSV row the passed items are among the total items, and the
   * score is their rounded percentage: 0 for a visit without items, and
   * otherwise within half a point of 100 * passed / total.
   */
  lemma DataRowSpec(stores: seq<Store>, users: seq<User>, items: seq<ChecklistItem>, v: Visit)
    ensures var row := DataRow(stores, users, items, v);
      && |row| == 7 && row[4].Number? && row[5].Number? && row[6].Number?
      && 0 <= row[6].n <= row[5].n
      && 0 <= row[4].n <= 100
      && (row[5].n == 0 ==> row[4].n == 0)
      && (row[5].n > 0 ==>
            && 2 * (100 * row[6].n - row[4].n * row[5].n) <= row[5].n
            && 2 * (row[4].n * row[5].n - 100 * row[6].n) <= row[5].n)
  {
  }

  /** The CSV has one row per submitted visit besides the header, and no draft appears in it. */
  lemma ExportDataRows(stores: seq<Store>, users: seq<User>, items: seq<ChecklistItem>, visits: seq<Visit>, v: Visit)
    ensures |DataRows(stores, users, items, Filter(visits, NotDraft))| == Count(visits, NotDraft)
    ensures v in Filter(visits, NotDraft) <==> v in visits && !v.isDraft
  {
    FilterMembership(visits, NotDraft, v);
  }
}

=== FILE: helpers.dfy ===
/**
 * The helper utilities (checklist/utils/helpers.py): a visit's compliance
 * per category, its item and action counts, the completion rate of a
 * performance report, and the chart series for a list of visits.
 */
module Helpers {
  import opened Common
  import opened Dates
  import opened Models
  import opened Queries
  import opened Users

  // ---------------------------------------------------------------------
  // calculate_category_scores
  // ---------------------------------------------------------------------

  /** items.filter(question__category=category): the item answers a question of that category. */
  predicate InCategory(it: ChecklistItem, qs: seq<Question>, category: int)
  {
    it.question.Some? && (var q := QuestionById(qs, it.question.value); q.Some? && q.value.category == category)
  }

  /**
   * One category's score over a visit's items: round(yes / total * 100, 1)
   * in tenths of a percent, 0 when the visit has no item of that category.
   */
  function CategoryScore(items: seq<ChecklistItem>, qs: seq<Question>, category: int): (r: int)
    ensures 0 <= r <= 1000
    ensures Count(items, (it: ChecklistItem) => InCategory(it, qs, category)) == 0 ==> r == 0
    ensures var total := Count(items, (it: ChecklistItem) => InCategory(it, qs, category));
      total > 0 ==> r == RoundTenths(100 * Count(items, (it: ChecklistItem) => InCategory(it, qs, category) && it.answer), total)
  {
    var total := Count(items, (it: ChecklistItem) => InCategory(it, qs, category));
    var yes := Count(items, (it: ChecklistItem) => InCategory(it, qs, category) && it.answer);
    CountImplies(items, (it: ChecklistItem) => InCategory(it, qs, category) && it.answer,
                 (it: ChecklistItem) => InCategory(it, qs, category));
    if total > 0 then (PercentTenthsBetween(yes, total); RoundTenths(100 * yes, total)) else 0
  }

  /** The dictionary after the first categories: each name set to its score, a later category overwriting an earlier one of the same name. */
  function CategoryScores(items: seq<ChecklistItem>, qs: seq<Question>, cats: seq<Category>): map<string, int>
  {
    if cats == [] then map[]
    else
      var last := cats[|cats| - 1];
      CategoryScores(items, qs, cats[..|cats| - 1])[last.name := CategoryScore(items, qs, last.id)]
  }

  /** Every category has an entry, inactive ones included, and nothing else does. */
  lemma {:induction false} CategoryScoresKeys(items: seq<ChecklistItem>, qs: seq<Question>, cats: seq<Category>, name: string)
    ensures name in CategoryScores(items, qs, cats) <==> exists k :: 0 <= k < |cats| && cats[k].name == name
  {
    if cats != [] {
      var front := cats[..|cats| - 1];
      CategoryScoresKeys(items, qs, front, name);
      if name != cats[|cats| - 1].name {
        if name in CategoryScores(items, qs, cats) {
          var k :| 0 <= k < |front| && front[k].name == name;
          assert cats[k].name == name;
        } else {
          forall k | 0 <= k < |front|
            ensures front[k].name != name
          {
          }
        }
      }
    }
  }

  /** A name held by no later category maps to that category's score. */
  lemma {:induction false} CategoryScoresValue(items: seq<ChecklistItem>, qs: seq<Question>, cats: seq<Category>, k: int)
    requires 0 <= k < |cats|
    requires forall j :: k < j < |cats| ==> cats[j].name != cats[k].name
    ensures cats[k].name in CategoryScores(items, qs, cats)
    ensures CategoryScores(items, qs, cats)[cats[k].name] == CategoryScore(items, qs, cats[k].id)
  {
    if k < |cats| - 1 {
      var front := cats[..|cats| - 1];
      assert front[k] == cats[k];
      assert forall j :: k < j < |front| ==> front[j] == cats[j];
      CategoryScoresValue(items, qs, front, k);
    }
  }

  /** calculate_category_scores: the loop over every category, filling the dictionary. */
  method CalculateCategoryScores(allItems: seq<ChecklistItem>, qs: seq<Question>, cats: seq<Category>, visit: int)
    returns (scores: map<string, int>)
    ensures scores == CategoryScores(ItemsOf(allItems, visit), qs, cats)
  {
    var items := ItemsOf(allItems, visit);
    scores := map[];
    var i := 0;
    while i < |cats|
      invariant 0 <= i <= |cats|
      invariant scores == CategoryScores(items, qs, cats[..i])
    {
      assert cats[..i + 1][..i] == cats[..i];
      var total := Count(items, (it: ChecklistItem) => InCategory(it, qs, cats[i].id));
      var yes := Count(items, (it: ChecklistItem) => InCategory(it, qs, cats[i].id) && it.answer);
      if total > 0 {
        scores := scores[cats[i].name := RoundTenths(100 * yes, total)];
      } else {
        scores := scores[cats[i].name := 0];
      }
      i := i + 1;
    }
    assert cats[..i] == cats;
  }

  // ---------------------------------------------------------------------
  // get_visit_statistics
  // ---------------------------------------------------------------------

  datatype VisitStatistics = VisitStatistics(totalItems: nat, passedItems: nat, failedItems: nat, followUpItems: nat,
                                             actionItemsCount: nat, openActions: nat, completedActions: nat)

  /** get_visit_statistics: a visit's item counts by answer and follow-up flag, and its action counts by status. */
  function VisitStatisticsOf(allItems: seq<ChecklistItem>, allActions: seq<ActionItem>, visit: int): (r: VisitStatistics)
  {
    var items := ItemsOf(allItems, visit);
    var actions := Filter(allActions, (a: ActionItem) => a.visit == visit);
    VisitStatistics(|items|,
                    Count(items, (it: ChecklistItem) => it.answer),
                    Count(items, (it: ChecklistItem) => !it.answer),
                    Count(items, (it: ChecklistItem) => it.requiresFollowUp),
                    |actions|,
                    Count(actions, (a: ActionItem) => a.status == "open"),
                    Count(actions, (a: ActionItem) => a.status == "completed"))
  }

  lemma {:induction false} AnswersSplit(items: seq<ChecklistItem>)
    ensures Count(items, (it: ChecklistItem) => it.answer) + Count(items, (it: ChecklistItem) => !it.answer) == |items|
  {
    if items != [] {
      AnswersSplit(items[1..]);
    }
  }

  lemma {:induction false} ActionStatusSplit(actions: seq<ActionItem>)
    ensures Count(actions, (a: ActionItem) => a.status == "open") + Count(actions, (a: ActionItem) => a.status == "completed")
      <= |actions|
  {
    if actions != [] {
      ActionStatusSplit(actions[1..]);
    }
  }

  /**
   * Passed and failed items add up to all of them, follow-ups are among
   * them, and open and completed actions are among the visit's actions.
   */
  lemma VisitStatisticsSpec(allItems: seq<ChecklistItem>, allActions: seq<ActionItem>, visit: int)
    ensures var st := VisitStatisticsOf(allItems, allActions, visit);
      && st.passedItems + st.failedItems == st.totalItems
      && st.followUpItems <= st.totalItems
      && st.openActions + st.completedActions <= st.actionItemsCount
  {
    AnswersSplit(ItemsOf(allItems, visit));
    ActionStatusSplit(Filter(allActions, (a: ActionItem) => a.visit == visit));
  }

  // ---------------------------------------------------------------------
  // generate_performance_report
  // ---------------------------------------------------------------------

  /** An exact mean, total over count; Avg(...) or 0 over no rows is 0 over 1. */
  datatype Mean = Mean(total: int, count: nat)

  /** The entries of the report's dictionary. */
  datatype PerformanceReport = PerformanceReport(
    period: string, totalVisits: nat, averageScore: Mean,
    actionsCreated: nat, actionsCompleted: nat, completionRate: int)

  const CalculateScoreFieldError: string := "Cannot resolve keyword 'calculate_score' into field."

  /** filter(manager=user, is_draft=False, date__gte=start_date). */
  function ReportVisits(visits: seq<Visit>, u: User, start: Date): seq<Visit>
  {
    Filter(visits, (v: Visit) => SubmittedBy(v, u) && !Before(v.date, start))
  }

  /**
   * generate_performance_report as written. start_date is today minus the
   * days, which raises OverflowError before year 1. The dictionary's entries
   * are evaluated in order, and 'average_score' aggregates
   * Avg('calculate_score'), which names a method of the visit rather than a
   * column, so the query raises FieldError before 'completion_rate' is
   * reached: no report is ever returned. (The choices listed in the
   * message are not modelled.)
   */
  function GeneratePerformanceReport(items: seq<ChecklistItem>, visits: seq<Visit>, actions: seq<ActionItem>,
                                     u: User, today: Date, days: int): (r: Result<PerformanceReport, string>)
    requires Valid(today)
    ensures r.Err?
    ensures Ordinal(today) - days >= 1 ==> r == Err(CalculateScoreFieldError)
  {
    if Ordinal(today) - days < 1 then Err("date value out of range")
    else Err(CalculateScoreFieldError)
  }

  /**
   * The report the function evidently means to build: the user's submitted
   * visits since the start with the exact mean of their scores (0 without
   * visits), and the action items of the user's visits with their completed
   * count and completion rate. Creation times are not modelled: the action
   * items given are those created since the start.
   */
  function PerformanceReportOf(items: seq<ChecklistItem>, visits: seq<Visit>, actions: seq<ActionItem>,
                               u: User, today: Date, days: int): (r: Result<PerformanceReport, string>)
    requires Valid(today)
    ensures r.Err? <==> Ordinal(today) - days < 1
    ensures r.Ok? ==>
      && r.value.actionsCreated == |UserActions(actions, visits, u)| <= |actions|
      && r.value.actionsCompleted <= r.value.actionsCreated
      && r.value.completionRate == CompletionRate(UserActions(actions, visits, u))
      && r.value.averageScore.count >= 1
  {
    if Ordinal(today) - days < 1 then Err("date value out of range")
    else
      var vs := ReportVisits(visits, u, AddDays(today, -days));
      var mine := UserActions(actions, visits, u);
      Ok(PerformanceReport(
        "Last " + IntToString(days) + " days",
        |vs|,
        if vs == [] then Mean(0, 1) else Mean(Sum(Scores(items, vs)), |vs|),
        |mine|,
        Count(mine, (a: ActionItem) => a.status == "completed"),
        CompletionRate(mine)))
  }

  /**
   * The intended report counts exactly the user's submitted visits dated
   * on or after today minus the days, with a mean score between 0 and 100,
   * and exactly the action items of the user's visits.
   */
  lemma PerformanceReportSpec(items: seq<ChecklistItem>, visits: seq<Visit>, actions: seq<ActionItem>,
                              u: User, today: Date, days: int, v: Visit, a: ActionItem)
    requires Valid(today) && Ordinal(today) - days >= 1
    ensures var rep := PerformanceReportOf(items, visits, actions, u, today, days).value;
      var vs := ReportVisits(visits, u, AddDays(today, -days));
      && rep.totalVisits == |vs|
      && (v in vs <==> v in visits && v.manager == u.id && !v.isDraft && !Before(v.date, AddDays(today, -days)))
      && 0 <= rep.averageScore.total <= 100 * rep.averageScore.count
    ensures a in UserActions(actions, visits, u) <==>
      a in actions && VisitById(visits, a.visit).Some? && VisitById(visits, a.visit).value.manager == u.id
  {
    FilterMembership(actions, (a: ActionItem) => var v := VisitById(visits, a.visit); v.Some? && v.value.manager == u.id, a);
    var start := AddDays(today, -days);
    FilterMembership(visits, (w: Visit) => SubmittedBy(w, u) && !Before(w.date, start), v);
    ScoresSumBounds(items, ReportVisits(visits, u, start));
  }

  /** Wherever the intended report exists, the function as written raises instead. */
  lemma PerformanceReportNeverReturned(items: seq<ChecklistItem>, visits: seq<Visit>, actions: seq<ActionItem>,
                                       u: User, today: Date, days: int)
    requires Valid(today)
    ensures PerformanceReportOf(items, visits, actions, u, today, days).Ok? ==>
      GeneratePerformanceReport(items, visits, actions, u, today, days) == Err(CalculateScoreFieldError)
  {
  }

  /** round(completed / max(count, 1) * 100, 1), in tenths of a percent. */
  function CompletionRate(actions: seq<ActionItem>): (r: int)
    ensures 0 <= r <= 1000
  {
    var completed := Count(actions, (a: ActionItem) => a.status == "completed");
    var whole := if |actions| > 1 then |actions| else 1;
    PercentTenthsBetween(completed, whole);
    RoundTenths(100 * completed, whole)
  }

  /**
   * With no actions the rate is 0; and since 'completed' is not one of the
   * statuses an action item can hold, actions with the model's statuses
   * always give 0.
   */
  lemma CompletionRateSpec(actions: seq<ActionItem>)
    ensures actions == [] ==> CompletionRate(actions) == 0
    ensures (forall k :: 0 <= k < |actions| ==> actions[k].status in ActionStatusChoices) ==> CompletionRate(actions) == 0
  {
    ActionStatusQuirks();
    var completed := (a: ActionItem) => a.status == "completed";
    if forall k :: 0 <= k < |actions| ==> actions[k].status in ActionStatusChoices {
      CountSame(actions, completed, (a: ActionItem) => false);
      NoneCounted(actions);
    }
    PercentTenthsExtremes(if |actions| > 1 then |actions| else 1);
  }

  lemma {:induction false} NoneCounted(actions: seq<ActionItem>)
    ensures Count(actions, (a: ActionItem) => false) == 0
  {
    if actions != [] {
      NoneCounted(actions[1..]);
    }
  }

  // ---------------------------------------------------------------------
  // format_chart_data
  // ---------------------------------------------------------------------

  datatype ChartData = ChartData(dates: seq<string>, scores: seq<int>, stores: seq<string>)

  /**
   * format_chart_data: three series of the same length as the visits, in
   * their order: the '%b %d' label, the score, and the store's name.
   */
  method FormatChartData(visits: seq<Visit>, items: seq<ChecklistItem>, stores: seq<Store>) returns (r: ChartData)
    requires DatesValid(visits)
    ensures |r.dates| == |r.scores| == |r.stores| == |visits|
    ensures forall k :: 0 <= k < |visits| ==>
      && r.dates[k] == DateLabel(visits[k].date)
      && r.scores[k] == VisitScore(items, visits[k])
      && r.stores[k] == StoreName(stores, visits[k].store)
  {
    var dates: seq<string> := [];
    var scores: seq<int> := [];
    var names: seq<string> := [];
    var i := 0;
    while i < |visits|
      invariant 0 <= i <= |visits| && |dates| == i && |scores| == i && |names| == i
      invariant forall k :: 0 <= k < i ==>
        && dates[k] == DateLabel(visits[k].date)
        && scores[k] == VisitScore(items, visits[k])
        && names[k] == StoreName(stores, visits[k].store)
    {
      var v := visits[i];
      var tag, score, name := DateLabel(v.date), VisitScore(items, v), StoreName(stores, v.store);
      dates, scores, names := dates + [tag], scores + [score], names + [name];
      i := i + 1;
    }
    r := ChartData(dates, scores, names);
  }
}

=== FILE: history.dfy ===
/**
 * checklist_history (checklist/views/checklist_views.py): the user's
 * submitted visits, ordered only when the requested sort key is one of six
 * whitelisted ones, paged fifteen at a time, and turned into history rows.
 */
module ChecklistHistory {
  import opened Common
  import opened Models
  import opened Users
  import opened Sorting
  import opened Pagination
  import opened Queries

  const HistoryPerPage: int := 15

  const ValidSorts: seq<string> := ["store__name", "-store__name", "date", "-date", "overall_score", "-overall_score"]

  /** The orderings the whitelist allows. */
  datatype HistoryOrder = StoreNameAsc | StoreNameDesc | DateAsc | DateDesc | ScoreAsc | ScoreDesc

  /** The 'sort' parameter, '-date' when absent, as an ordering; None when it is not whitelisted. */
  function SortOrder(sort: Option<string>): (r: Option<HistoryOrder>)
    ensures var key := if sort.Some? then sort.value else "-date";
      r.Some? <==> key in ValidSorts
    ensures sort.None? ==> r == Some(DateDesc)
  {
    var key := if sort.Some? then sort.value else "-date";
    if key == "store__name" then Some(StoreNameAsc)
    else if key == "-store__name" then Some(StoreNameDesc)
    else if key == "date" then Some(DateAsc)
    else if key == "-date" then Some(DateDesc)
    else if key == "overall_score" then Some(ScoreAsc)
    else if key == "-overall_score" then Some(ScoreDesc)
    else None
  }

  /** The comparison an ordering sorts by; a descending one is its ascending one reversed. */
  function VisitLe(o: HistoryOrder, stores: seq<Store>): (Visit, Visit) -> bool
  {
    match o
    case StoreNameAsc => (a: Visit, b: Visit) => StringLe(StoreName(stores, a.store), StoreName(stores, b.store))
    case StoreNameDesc => (a: Visit, b: Visit) => StringLe(StoreName(stores, b.store), StoreName(stores, a.store))
    case DateAsc => (a: Visit, b: Visit) => DateLe(a.date, b.date)
    case DateDesc => (a: Visit, b: Visit) => DateLe(b.date, a.date)
    case ScoreAsc => (a: Visit, b: Visit) => NullableLe(a.overallScore, b.overallScore)
    case ScoreDesc => (a: Visit, b: Visit) => NullableLe(b.overallScore, a.overallScore)
  }

  lemma VisitLeTotalPreorder(o: HistoryOrder, stores: seq<Store>)
    ensures TotalPreorder(VisitLe(o, stores))
  {
    var le := VisitLe(o, stores);
    forall a: Visit, b: Visit
      ensures le(a, b) || le(b, a)
    {
      StringLeTotal(StoreName(stores, a.store), StoreName(stores, b.store));
    }
    forall a: Visit, b: Visit, c: Visit | le(a, b) && le(b, c)
      ensures le(a, c)
    {
      var na, nb, nc := StoreName(stores, a.store), StoreName(stores, b.store), StoreName(stores, c.store);
      if o == StoreNameAsc {
        StringLeTrans(na, nb, nc);
      } else if o == StoreNameDesc {
        StringLeTrans(nc, nb, na);
      }
    }
  }

  /** The user's submitted visits, ordered when the sort key is whitelisted and in table order otherwise. */
  function HistoryVisits(visits: seq<Visit>, u: User, stores: seq<Store>, sort: Option<string>): seq<Visit>
  {
    var mine := Filter(visits, (v: Visit) => SubmittedBy(v, u));
    var order := SortOrder(sort);
    if order.Some? then SortBy(mine, VisitLe(order.value, stores)) else mine
  }

  /**
   * The history holds exactly the user's submitted visits; with a
   * whitelisted key they are in that key's order, and with any other key
   * the order is left as it was.
   */
  lemma HistoryVisitsSpec(visits: seq<Visit>, u: User, stores: seq<Store>, sort: Option<string>, v: Visit)
    ensures v in HistoryVisits(visits, u, stores, sort) <==> v in visits && SubmittedBy(v, u)
    ensures SortOrder(sort).Some? ==> Sorted(HistoryVisits(visits, u, stores, sort), VisitLe(SortOrder(sort).value, stores))
    ensures SortOrder(sort).None? ==> HistoryVisits(visits, u, stores, sort) == Filter(visits, (v: Visit) => SubmittedBy(v, u))
  {
    var mine := Filter(visits, (v: Visit) => SubmittedBy(v, u));
    FilterMembership(visits, (v: Visit) => SubmittedBy(v, u), v);
    var order := SortOrder(sort);
    if order.Some? {
      SortByMembers(mine, VisitLe(order.value, stores), v);
      VisitLeTotalPreorder(order.value, stores);
      SortBySorted(mine, VisitLe(order.value, stores));
    }
  }

  /** One entry of the history list: who, what, and the store and score it shows. */
  datatype HistoryRow = HistoryRow(user: string, action: string, details: string)

  /** f"{overall_score}": the number, or None when the visit has no score. */
  function ScoreText(score: Option<int>): string
  {
    if score.Some? then IntToString(score.value) else "None"
  }

  function HistoryRowOf(v: Visit, u: User, stores: seq<Store>): (r: HistoryRow)
    ensures r.action == "Visit" && r.user == DisplayName(u)
    ensures IsPrefix("Store: " + StoreName(stores, v.store) + ", Score: ", r.details)
  {
    var details := "Store: " + StoreName(stores, v.store) + ", Score: " + ScoreText(v.overallScore);
    assert details[..|"Store: " + StoreName(stores, v.store) + ", Score: "|] == "Store: " + StoreName(stores, v.store) + ", Score: ";
    HistoryRow(DisplayName(u), "Visit", details)
  }

  /** The loop that builds the history list: one row per visit of the page, in page order. */
  method HistoryRows(page: seq<Visit>, u: User, stores: seq<Store>) returns (rows: seq<HistoryRow>)
    ensures |rows| == |page|
    ensures forall k :: 0 <= k < |page| ==> rows[k] == HistoryRowOf(page[k], u, stores)
  {
    rows := [];
    var i := 0;
    while i < |page|
      invariant 0 <= i <= |page| && |rows| == i
      invariant forall k :: 0 <= k < i ==> rows[k] == HistoryRowOf(page[k], u, stores)
    {
      var row := HistoryRowOf(page[i], u, stores);
      rows := rows + [row];
      i := i + 1;
    }
  }

  /**
   * checklist_history: the rows of the page get_page picks out of the
   * history, with get_page's fallback to page 1 or the last page.
   */
  method ChecklistHistoryPage(visits: seq<Visit>, u: User, stores: seq<Store>, sort: Option<string>, page: Option<string>)
    returns (rows: seq<HistoryRow>, number: int)
    ensures var all := HistoryVisits(visits, u, stores, sort);
      && number == ChosenPage(page, |all|, HistoryPerPage)
      && |rows| == |PageOf(all, number, HistoryPerPage)| <= HistoryPerPage
      && forall k :: 0 <= k < |rows| ==> rows[k] == HistoryRowOf(PageOf(all, number, HistoryPerPage)[k], u, stores)
  {
    var all := HistoryVisits(visits, u, stores, sort);
    number := ChosenPage(page, |all|, HistoryPerPage);
    PageOfContents(all, number, HistoryPerPage);
    rows := HistoryRows(PageOf(all, number, HistoryPerPage), u, stores);
  }
}

=== FILE: maintenance.dfy ===
/**
 * The maintenance ticket list (checklist/views/maintenance_views.py):
 * successive filters on status, priority, store and a named date range,
 * statistics over every ticket, and the page of the filtered list to show.
 * The ticket sequences given here are already in the views' order,
 * newest created first.
 */
module MaintenanceViews {
  import opened Common
  import opened Dates
  import opened Models
  import opened Pagination

  const TicketsPerPage: int := 10

  /** The query parameters, each '' when absent. */
  datatype TicketFilters = TicketFilters(status: string, priority: string, store: string, dateRange: string)

  /** The creation dates a date_range value lets through. */
  datatype DateWindow = AnyDate | OnDay(day: Date) | FromDay(first: Date) | InMonth(year: int, month: int)

  predicate InWindow(d: Date, w: DateWindow)
  {
    match w
    case AnyDate => true
    case OnDay(day) => d == day
    case FromDay(first) => !Before(d, first)
    case InMonth(year, month) => d.year == year && d.month == month
  }

  /** today - timedelta(days=today.weekday()). */
  function WeekStart(today: Date): (m: Date)
    requires Valid(today)
    ensures Valid(m) && Ordinal(m) == Ordinal(today) - Weekday(today)
  {
    WeekStartExists(today);
    AddDays(today, -Weekday(today))
  }

  /**
   * The window of a date_range value: today, from this week's Monday on,
   * this calendar month, or the month of the day before the first of this
   * month; any other value, '' included, filters nothing. Stepping back
   * from 1 January of year 1 overflows.
   */
  function DateWindowOf(range: string, today: Date): (r: Result<DateWindow, string>)
    requires Valid(today)
    ensures range !in {"today", "this_week", "this_month", "last_month"} ==> r == Ok(AnyDate)
    ensures r.Err? ==> range == "last_month"
  {
    if range == "today" then Ok(OnDay(today))
    else if range == "this_week" then Ok(FromDay(WeekStart(today)))
    else if range == "this_month" then Ok(InMonth(today.year, today.month))
    else if range == "last_month" then
      if Ordinal(FirstOfMonth(today)) == 1 then Err("date value out of range")
      else
        var last := PrevDay(FirstOfMonth(today));
        Ok(InMonth(last.year, last.month))
    else Ok(AnyDate)
  }

  /** 'this_week' starts on a Monday no later than today, and lets through every later day. */
  lemma ThisWeekFromMonday(today: Date)
    requires Valid(today)
    ensures DateWindowOf("this_week", today).Ok?
    ensures var w := DateWindowOf("this_week", today).value;
      w.FromDay? && Valid(w.first) && Weekday(w.first) == 0 && !Before(today, w.first)
      && InWindow(today, w)
  {
    var m := WeekStart(today);
    StartOfWeekIsMonday(today, m);
    NotBeforeEarlier(today, m);
  }

  /** 'last_month' is the previous calendar month, December of last year in January. */
  lemma LastMonthWindow(today: Date)
    requires Valid(today) && today.year >= 2
    ensures DateWindowOf("last_month", today).Ok?
    ensures var w := DateWindowOf("last_month", today).value;
      w.InMonth? &&
      if today.month == 1 then w.year == today.year - 1 && w.month == 12
      else w.year == today.year && w.month == today.month - 1
  {
    LastMonthOfFirst(today);
  }

  /** The store of a ticket: the store of its visit. */
  function TicketStore(t: Ticket, visits: seq<Visit>): Option<int>
  {
    if visits == [] then None
    else if visits[0].id == t.visit then Some(visits[0].store)
    else TicketStore(t, visits[1..])
  }

  /** Whether a ticket passes every filter that is set. */
  predicate TicketMatches(t: Ticket, visits: seq<Visit>, f: TicketFilters, store: Option<int>, w: DateWindow)
  {
    && (f.status == "" || t.status == f.status)
    && (f.priority == "" || t.priority == f.priority)
    && (store.None? || TicketStore(t, visits) == store)
    && InWindow(t.created, w)
  }

  /** The statistics block, over every ticket. */
  datatype TicketStats = TicketStats(total: nat, pending: nat, inProgress: nat, completed: nat, overdue: nat, highPriority: nat)

  predicate OpenTicketOverdue(t: Ticket, today: Date)
  {
    t.dueDate.Some? && Before(t.dueDate.value, today) && (t.status == "pending" || t.status == "in_progress")
  }

  function StatsOf(tickets: seq<Ticket>, today: Date): TicketStats
  {
    TicketStats(|tickets|,
                Count(tickets, (t: Ticket) => t.status == "pending"),
                Count(tickets, (t: Ticket) => t.status == "in_progress"),
                Count(tickets, (t: Ticket) => t.status == "completed"),
                Count(tickets, (t: Ticket) => OpenTicketOverdue(t, today)),
                Count(tickets, (t: Ticket) => t.priority == "high"))
  }

  /**
   * The status counts never exceed the total and add up to it when every
   * ticket holds one of the three statuses; overdue tickets are among the
   * pending and in-progress ones and all report is_overdue.
   */
  lemma {:induction false} StatsBounds(tickets: seq<Ticket>, today: Date)
    ensures var st := StatsOf(tickets, today);
      st.pending + st.inProgress + st.completed <= st.total
      && st.overdue <= st.pending + st.inProgress
    ensures (forall k :: 0 <= k < |tickets| ==> tickets[k].status in TicketStatusChoices) ==>
      var st := StatsOf(tickets, today);
      st.pending + st.inProgress + st.completed == st.total
    ensures forall k :: 0 <= k < |tickets| && OpenTicketOverdue(tickets[k], today) ==> TicketIsOverdue(tickets[k], today)
  {
    if tickets != [] {
      StatsBounds(tickets[1..], today);
      assert forall k :: 1 <= k < |tickets| ==> tickets[k] == tickets[1..][k - 1];
    }
  }

  /** The page shown, its number, the number of pages, and the statistics. */
  datatype TicketListing = TicketListing(page: seq<Ticket>, number: int, numPages: int, stats: TicketStats)

  /**
   * maintenance_list. A store filter that is not an integer makes the query
   * raise, as does 'last_month' on 1 January of year 1; otherwise the
   * filtered tickets are paged ten at a time with the fallback rule, and the
   * statistics cover every ticket whatever the filters.
   */
  function MaintenanceList(tickets: seq<Ticket>, visits: seq<Visit>, f: TicketFilters, page: Option<string>, today: Date)
    : (r: Result<TicketListing, string>)
    requires Valid(today)
    ensures r.Err? <==> (f.store != "" && ParsePyInt(f.store).None?) || DateWindowOf(f.dateRange, today).Err?
    ensures r.Ok? ==> r.value.stats == StatsOf(tickets, today)
    ensures r.Ok? ==> |r.value.page| <= TicketsPerPage && 1 <= r.value.number <= r.value.numPages
  {
    var store := if f.store == "" then Some(None) else
      var id := ParsePyInt(f.store);
      if id.None? then None else Some(Some(id.value));
    if store.None? then Err("Field 'id' expected a number but got '" + f.store + "'.")
    else
      var w := DateWindowOf(f.dateRange, today);
      if w.Err? then Err(w.error)
      else
        var shown := Filter(tickets, (t: Ticket) => TicketMatches(t, visits, f, store.value, w.value));
        var n := ChosenPage(page, |shown|, TicketsPerPage);
        PageOfContents(shown, n, TicketsPerPage);
        Ok(TicketListing(PageOf(shown, n, TicketsPerPage), n, NumPages(|shown|, TicketsPerPage), StatsOf(tickets, today)))
  }

  /** The tickets that pass the filters: exactly those that meet every filter that is set. */
  function FilteredTickets(tickets: seq<Ticket>, visits: seq<Visit>, f: TicketFilters, store: Option<int>, w: DateWindow)
    : seq<Ticket>
  {
    Filter(tickets, (t: Ticket) => TicketMatches(t, visits, f, store, w))
  }

  /**
   * A ticket is listed iff it is a ticket that meets each filter that is
   * set, so with no filter set every ticket is listed; and the page shown
   * is the chosen page of that list.
   */
  lemma MaintenanceListContents(tickets: seq<Ticket>, visits: seq<Visit>, f: TicketFilters, page: Option<string>,
                                today: Date, t: Ticket)
    requires Valid(today)
    requires MaintenanceList(tickets, visits, f, page, today).Ok?
    ensures var store := if f.store == "" then None else ParsePyInt(f.store);
      var w := DateWindowOf(f.dateRange, today).value;
      var shown := FilteredTickets(tickets, visits, f, store, w);
      var r := MaintenanceList(tickets, visits, f, page, today).value;
      && r.number == ChosenPage(page, |shown|, TicketsPerPage)
      && r.page == PageOf(shown, r.number, TicketsPerPage)
      && (t in shown <==> t in tickets && TicketMatches(t, visits, f, store, w))
    ensures f == TicketFilters("", "", "", "") ==>
      FilteredTickets(tickets, visits, f, None, AnyDate) == tickets
  {
    var store := if f.store == "" then None else ParsePyInt(f.store);
    var w := DateWindowOf(f.dateRange, today).value;
    FilterMembership(tickets, (t: Ticket) => TicketMatches(t, visits, f, store, w), t);
    if f == TicketFilters("", "", "", "") {
      FilterAll(tickets, (t: Ticket) => TicketMatches(t, visits, f, None, AnyDate));
    }
  }

  /** MaintenanceManager.get_paginated_maintenance: the chosen page of all tickets. */
  function PaginatedMaintenance(tickets: seq<Ticket>, page: Option<string>, perPage: int): (r: seq<Ticket>)
    requires perPage > 0
    ensures |r| <= perPage
    ensures page.None? ==> r == tickets[..if perPage < |tickets| then perPage else |tickets|]
  {
    var n := ChosenPage(page, |tickets|, perPage);
    PageOfContents(tickets, n, perPage);
    PageOf(tickets, n, perPage)
  }
}

=== FILE: models.dfy ===
/**
 * The checklist application's records and the rules that live on them:
 * a visit's percentage score and letter grade, the choice lists and
 * defaults of action items and maintenance tickets, and the ticket's
 * overdue flag.
 */
module Models {
  import opened Common
  import opened Dates
  import Sorting

  /** A time of day as strptime('%H:%M') yields it. */
  datatype Time = Time(hour: int, minute: int)

  datatype Category = Category(id: int, name: string, active: bool)

  datatype Question = Question(id: int, category: int, text: string, number: int, isActive: bool)

  datatype Area = Area(id: int, name: string)

  datatype Store = Store(id: int, name: string, isActive: bool, area: Option<int>)

  datatype Visit = Visit(
    id: int, store: int, manager: int, date: Date, month: string, day: int,
    overallScore: Option<int>, isDraft: bool, timeIn: Option<Time>, timeOut: Option<Time>,
    generalNotes: string, runOutItems: string, maintenanceNeeded: string)

  datatype ChecklistItem = ChecklistItem(
    id: int, visit: int, question: Option<int>, answer: bool, comment: string,
    requiresFollowUp: bool)

  datatype ActionItem = ActionItem(
    id: int, visit: int, what: string, who: string, timeframe: Date,
    status: string, priority: string, remarks: string)

  datatype Ticket = Ticket(
    id: int, visit: int, equipment: string, description: string, priority: string,
    dueDate: Option<Date>, status: string, created: Date)

  /** An uploaded file as the request carries it: name, byte size and MIME type. */
  datatype Upload = Upload(name: string, size: int, contentType: string)

  datatype Attachment = Attachment(id: int, visit: int, item: Option<int>, file: Upload)

  // ---------------------------------------------------------------------
  // Choices and defaults
  // ---------------------------------------------------------------------

  const ActionStatusChoices: seq<string> := ["open", "in_progress", "closed"]
  const PriorityChoices: seq<string> := ["low", "medium", "high"]
  const TicketStatusChoices: seq<string> := ["pending", "in_progress", "completed"]

  const DefaultActionStatus: string := "open"
  const DefaultPriority: string := "medium"
  const DefaultTicketStatus: string := "pending"

  /** An action item created with only the required fields given. */
  function NewActionItem(id: int, visit: int, what: string, who: string, timeframe: Date): (a: ActionItem)
    ensures a.status in ActionStatusChoices && a.status == "open"
    ensures a.priority in PriorityChoices && a.priority == "medium"
    ensures a.id == id && a.visit == visit && a.what == what && a.who == who
    ensures a.timeframe == timeframe && a.remarks == ""
  {
    ActionItem(id, visit, what, who, timeframe, DefaultActionStatus, DefaultPriority, "")
  }

  /** The statuses that the status filters and statistics look for but no action item can hold. */
  lemma ActionStatusQuirks()
    ensures "completed" !in ActionStatusChoices
    ensures "C" !in TicketStatusChoices
    ensures |ActionStatusChoices| == 3 && |TicketStatusChoices| == 3
  {
    assert ActionStatusChoices[2] != "completed";
  }

  /**
   * ActionPlanItem's Meta ordering ['-priority', 'timeframe']: priority
   * descending as text, then the earliest timeframe first.
   */
  predicate ActionMetaLe(a: ActionItem, b: ActionItem)
  {
    Sorting.StringLt(b.priority, a.priority) || (a.priority == b.priority && Sorting.DateLe(a.timeframe, b.timeframe))
  }

  lemma ActionMetaOrder()
    ensures Sorting.TotalPreorder(ActionMetaLe)
  {
    forall a: ActionItem, b: ActionItem
      ensures ActionMetaLe(a, b) || ActionMetaLe(b, a)
    {
      if a.priority != b.priority {
        Sorting.StringLtTotal(a.priority, b.priority);
      }
    }
    forall a: ActionItem, b: ActionItem, c: ActionItem | ActionMetaLe(a, b) && ActionMetaLe(b, c)
      ensures ActionMetaLe(a, c)
    {
      if Sorting.StringLt(b.priority, a.priority) && Sorting.StringLt(c.priority, b.priority) {
        Sorting.StringLtTrans(c.priority, b.priority, a.priority);
      }
    }
  }

  /**
   * Descending text order is not the order of importance: 'medium' comes
   * before 'low', which comes before 'high'.
   */
  lemma MetaPriorityOrder(a: ActionItem, b: ActionItem, c: ActionItem)
    requires a.priority == "medium" && b.priority == "low" && c.priority == "high"
    ensures ActionMetaLe(a, b) && !ActionMetaLe(b, a)
    ensures ActionMetaLe(b, c) && !ActionMetaLe(c, b)
  {
    assert Sorting.StringLe("low", "medium");
    assert !Sorting.StringLe("medium", "low");
    assert Sorting.StringLe("high", "low");
    assert !Sorting.StringLe("low", "high");
  }

  // ---------------------------------------------------------------------
  // Visit score and letter grade
  // ---------------------------------------------------------------------

  function Yes(it: ChecklistItem): bool { it.answer }

  /**
   * AreaManagerVisit.calculate_score over the visit's items: the rounded
   * percentage of yes answers, 0 when there are no items.
   */
  function CalculateScore(items: seq<ChecklistItem>): (r: int)
    ensures 0 <= r <= 100
    ensures items == [] ==> r == 0
    ensures items != [] ==>
      (2 * (100 * Count(items, Yes) - r * |items|) <= |items| &&
       2 * (r * |items| - 100 * Count(items, Yes)) <= |items|)
  {
    if |items| == 0 then 0
    else
      RoundHalfEvenBetween(100 * Count(items, Yes), |items|, 0, 100);
      RoundHalfEven(100 * Count(items, Yes), |items|)
  }

  /** All answers yes scores 100; all answers no scores 0. */
  lemma {:induction false} ScoreExtremes(items: seq<ChecklistItem>)
    requires items != []
    ensures Count(items, Yes) == |items| ==> CalculateScore(items) == 100
    ensures Count(items, Yes) == 0 ==> CalculateScore(items) == 0
  {
    var n, c := |items|, Count(items, Yes);
    if c == n {
      RoundHalfEvenBetween(100 * c, n, 100, 100);
    }
    if c == 0 {
      RoundHalfEvenBetween(100 * c, n, 0, 0);
    }
  }

  /** With the number of items fixed, more yes answers never lower the score. */
  lemma ScoreMonotone(a: seq<ChecklistItem>, b: seq<ChecklistItem>)
    requires |a| == |b| && Count(a, Yes) <= Count(b, Yes)
    ensures CalculateScore(a) <= CalculateScore(b)
  {
    if |a| > 0 {
      RoundHalfEvenMonotone(100 * Count(a, Yes), 100 * Count(b, Yes), |a|);
    }
  }

  /** score_letter_grade. */
  function LetterGrade(score: int): (g: char)
    ensures g == 'A' <==> score >= 95
    ensures g == 'B' <==> 85 <= score < 95
    ensures g == 'C' <==> 75 <= score < 85
    ensures g == 'D' <==> 65 <= score < 75
    ensures g == 'F' <==> score < 65
  {
    if score >= 95 then 'A' else if score >= 85 then 'B' else if score >= 75 then 'C'
    else if score >= 65 then 'D' else 'F'
  }

  function VisitGrade(items: seq<ChecklistItem>): char
  {
    LetterGrade(CalculateScore(items))
  }

  function GradeRank(g: char): int
  {
    if g == 'A' then 4 else if g == 'B' then 3 else if g == 'C' then 2 else if g == 'D' then 1 else 0
  }

  /** A higher score never earns a worse grade; an empty visit is graded F. */
  lemma GradeMonotone(s1: int, s2: int)
    requires s1 <= s2
    ensures GradeRank(LetterGrade(s1)) <= GradeRank(LetterGrade(s2))
    ensures VisitGrade([]) == 'F'
  {
  }

  // ---------------------------------------------------------------------
  // Maintenance tickets
  // ---------------------------------------------------------------------

  /**
   * MaintenanceTicket.is_overdue: a due date in the past, unless the status
   * is 'C' -- a code that is not one of the ticket's statuses.
   */
  function TicketIsOverdue(t: Ticket, today: Date): (r: bool)
    ensures t.dueDate.None? ==> !r
    ensures r <==> t.dueDate.Some? && t.status != "C" && Before(t.dueDate.value, today)
  {
    if t.dueDate.Some? && t.status != "C" then Before(t.dueDate.value, today) else false
  }

  /** Since no ticket status is 'C', every ticket with a past due date reports overdue, completed ones too. */
  lemma CompletedTicketStillOverdue(t: Ticket, today: Date)
    requires t.status in TicketStatusChoices
    requires t.dueDate.Some? && Before(t.dueDate.value, today)
    ensures TicketIsOverdue(t, today)
  {
  }
}

=== FILE: pagination.dfy ===
/**
 * The page-choice rule the list views share: Django's Paginator with
 * allow_empty_first_page and no orphans, asked for the requested page and
 * falling back to page 1 when the request is not an integer and to the last
 * page when the number is out of range. Paginator.get_page follows the
 * same rule.
 */
module Pagination {
  import opened Common

  /** Paginator.num_pages: at least one page, even for an empty list. */
  function NumPages(count: nat, perPage: int): (n: int)
    requires perPage > 0
    ensures n >= 1
    ensures (n - 1) * perPage < (if count == 0 then 1 else count) <= n * perPage
  {
    var hits := if count == 0 then 1 else count;
    var q := (hits + perPage - 1) / perPage;
    assert (hits + perPage - 1) == q * perPage + (hits + perPage - 1) % perPage;
    q
  }

  /**
   * The page shown for the request's page parameter: int() of it, with
   * page 1 when that fails (a missing parameter included) and the last page
   * when the number is below 1 or past the end.
   */
  function ChosenPage(page: Option<string>, count: nat, perPage: int): (n: int)
    requires perPage > 0
    ensures 1 <= n <= NumPages(count, perPage)
  {
    var number := if page.Some? then ParsePyInt(page.value) else None;
    if number.None? then 1
    else if number.value < 1 || number.value > NumPages(count, perPage) then NumPages(count, perPage)
    else number.value
  }

  /** The fallback rule case by case. */
  lemma ChosenPageCases(page: Option<string>, count: nat, perPage: int)
    requires perPage > 0
    ensures page.None? || ParsePyInt(page.value).None? ==> ChosenPage(page, count, perPage) == 1
    ensures page.Some? && ParsePyInt(page.value).Some? ==>
      var k := ParsePyInt(page.value).value;
      (1 <= k <= NumPages(count, perPage) ==> ChosenPage(page, count, perPage) == k)
      && (k < 1 || k > NumPages(count, perPage) ==> ChosenPage(page, count, perPage) == NumPages(count, perPage))
  {
  }

  /** Asking for page str(k) of a list that has page k gives page k. */
  lemma ChosenPageOfNumber(k: int, count: nat, perPage: int)
    requires perPage > 0 && 1 <= k <= NumPages(count, perPage)
    ensures ChosenPage(Some(IntToString(k)), count, perPage) == k
  {
    IntStringRoundTrip(k);
  }

  /** Paginator.page(n).object_list: the slice of the list that page n covers. */
  function PageOf<T>(s: seq<T>, n: int, perPage: int): (r: seq<T>)
    requires perPage > 0 && 1 <= n <= NumPages(|s|, perPage)
  {
    var bottom := (n - 1) * perPage;
    var top := if n * perPage < |s| then n * perPage else |s|;
    s[bottom..top]
  }

  /**
   * Page n holds at most perPage entries, each one the entry at the same
   * offset from the page's start; every page but the last is full, and
   * every entry of the list is on the page numbered by its index.
   */
  lemma PageOfContents<T>(s: seq<T>, n: int, perPage: int)
    requires perPage > 0 && 1 <= n <= NumPages(|s|, perPage)
    ensures |PageOf(s, n, perPage)| <= perPage
    ensures n < NumPages(|s|, perPage) ==> |PageOf(s, n, perPage)| == perPage
    ensures forall k :: 0 <= k < |PageOf(s, n, perPage)| ==> PageOf(s, n, perPage)[k] == s[(n - 1) * perPage + k]
    ensures forall i :: (n - 1) * perPage <= i < n * perPage && i < |s| ==>
      s[i] == PageOf(s, n, perPage)[i - (n - 1) * perPage]
  {
    var m := NumPages(|s|, perPage);
    if n < m {
      assert n * perPage <= (m - 1) * perPage;
    }
  }

  /** An entry's page: its index divided by the page size, plus one. */
  lemma EntryOnItsPage<T>(s: seq<T>, i: int, perPage: int)
    requires perPage > 0 && 0 <= i < |s|
    ensures 1 <= i / perPage + 1 <= NumPages(|s|, perPage)
    ensures (i / perPage) * perPage <= i < (i / perPage + 1) * perPage
  {
    var m := NumPages(|s|, perPage);
    var q := i / perPage;
    assert i == q * perPage + i % perPage;
    if q + 1 > m {
      MulMonotone(m, q, perPage);
      assert false;
    }
  }
}

=== FILE: queries.dfy ===
/**
 * The lookups the views make through foreign keys and related managers:
 * a row by primary key, a store's name, a visit's checklist items and the
 * score calculate_score gives it.
 */
module Queries {
  import opened Common
  import opened Dates
  import opened Models
  import opened Users

  function VisitById(visits: seq<Visit>, id: int): (r: Option<Visit>)
    ensures r.Some? ==> r.value in visits && r.value.id == id
    ensures r.None? ==> forall k :: 0 <= k < |visits| ==> visits[k].id != id
  {
    if visits == [] then None
    else if visits[0].id == id then Some(visits[0])
    else VisitById(visits[1..], id)
  }

  /** Store.objects.get(id=...): the store whose primary key is id. */
  function StoreById(stores: seq<Store>, id: int): (r: Option<Store>)
    ensures r.Some? ==> r.value in stores && r.value.id == id
    ensures r.None? ==> forall k :: 0 <= k < |stores| ==> stores[k].id != id
  {
    if stores == [] then None
    else if stores[0].id == id then Some(stores[0])
    else StoreById(stores[1..], id)
  }

  function QuestionById(qs: seq<Question>, id: int): (r: Option<Question>)
    ensures r.Some? ==> r.value in qs && r.value.id == id
  {
    if qs == [] then None
    else if qs[0].id == id then Some(qs[0])
    else QuestionById(qs[1..], id)
  }

  /** The name of the store with the given id ('' when there is none). */
  function StoreName(stores: seq<Store>, id: int): string
  {
    if stores == [] then "" else if stores[0].id == id then stores[0].name else StoreName(stores[1..], id)
  }

  /** The name of the category with the given id ('' when there is none). */
  function CategoryName(cats: seq<Category>, id: int): string
  {
    if cats == [] then "" else if cats[0].id == id then cats[0].name else CategoryName(cats[1..], id)
  }

  /** The action items of the user's visits, drafts included (visit__manager=user). */
  function UserActions(actions: seq<ActionItem>, visits: seq<Visit>, u: User): seq<ActionItem>
  {
    Filter(actions, (a: ActionItem) => var v := VisitById(visits, a.visit); v.Some? && v.value.manager == u.id)
  }

  /** filter(manager=user, is_draft=False). */
  predicate SubmittedBy(v: Visit, u: User)
  {
    v.manager == u.id && !v.isDraft
  }

  /** Whether the item's visit is one the user submitted (visit__manager=user, visit__is_draft=False). */
  predicate ItemSubmittedBy(it: ChecklistItem, visits: seq<Visit>, u: User)
  {
    var v := VisitById(visits, it.visit);
    v.Some? && SubmittedBy(v.value, u)
  }

  /** visit.checklist_items. */
  function ItemsOf(items: seq<ChecklistItem>, visit: int): seq<ChecklistItem>
  {
    Filter(items, (it: ChecklistItem) => it.visit == visit)
  }

  /** visit.calculate_score(). */
  function VisitScore(items: seq<ChecklistItem>, v: Visit): (r: int)
    ensures 0 <= r <= 100
  {
    CalculateScore(ItemsOf(items, v.id))
  }

  /** The scores of a list of visits, in order. */
  function Scores(items: seq<ChecklistItem>, vs: seq<Visit>): (r: seq<int>)
    ensures |r| == |vs|
    ensures forall k :: 0 <= k < |vs| ==> r[k] == VisitScore(items, vs[k])
  {
    seq(|vs|, k requires 0 <= k < |vs| => VisitScore(items, vs[k]))
  }

  /** A sum of scores lies between 0 and 100 per score. */
  lemma {:induction false} ScoresSumBounds(items: seq<ChecklistItem>, vs: seq<Visit>)
    ensures 0 <= Sum(Scores(items, vs)) <= 100 * |vs|
  {
    if vs != [] {
      ScoresSumBounds(items, vs[1..]);
      assert Scores(items, vs)[1..] == Scores(items, vs[1..]);
    }
  }

  /** Every visit holds a calendar date, as a DateField guarantees. */
  predicate DatesValid(vs: seq<Visit>)
  {
    forall k :: 0 <= k < |vs| ==> Valid(vs[k].date)
  }
}

=== FILE: question_import.dfy ===
/**
 * ChecklistQuestionAdmin.import_questions (checklist/admin.py): a CSV file
 * of questions read row by row inside one transaction. Each row names its
 * category, which is looked up by its stripped name or created, and the
 * question is created under it; any failing row undoes the whole import.
 */
module QuestionImport {
  import opened Common
  import opened Models
  import Db

  const NumberColumn: string := "Question Number"
  const CategoryColumn: string := "Category"
  const TextColumn: string := "Question Text"
  const ActiveColumn: string := "Is Active"

  /**
   * A csv.DictReader row: a key for every header column, with None for a
   * field that a short line does not reach.
   */
  type CsvRow = map<string, Option<string>>

  /** all(key in row for key in [...]): the header has the four columns. */
  predicate HasColumns(row: CsvRow)
  {
    NumberColumn in row && CategoryColumn in row && TextColumn in row && ActiveColumn in row
  }

  /** row['Is Active'].lower() in ('true', 'yes', '1', 'y'). */
  function ParseIsActive(value: string): bool
  {
    AsciiLower(value) in ["true", "yes", "1", "y"]
  }

  lemma AsciiLowerIdempotent(s: string)
    ensures AsciiLower(AsciiLower(s)) == AsciiLower(s)
  {
  }

  /** The flag ignores letter case. */
  lemma ParseIsActiveIgnoresCase(s: string)
    ensures ParseIsActive(AsciiLower(s)) == ParseIsActive(s)
  {
    AsciiLowerIdempotent(s);
  }

  /** The two tables and two id counters that the import writes. */
  datatype ImportState = ImportState(categories: seq<Category>, questions: seq<Question>,
                                     nextCategoryId: int, nextQuestionId: int)

  /** Why the transaction was rolled back, with the 1-based row number. */
  datatype ImportError = MissingColumns(row: nat) | RowFailed(row: nat)

  function NameIs(name: string): Category -> bool
  {
    (c: Category) => c.name == name
  }

  /**
   * One row: a missing column is a ValueError; a NULL category or flag has
   * no strip()/lower(); two categories of the name make get_or_create
   * fail; a NULL text or number, or a number int() refuses, makes the
   * create fail. Otherwise the category is reused or created (active), and
   * the question takes the next id.
   */
  function ImportRow(st: ImportState, row: CsvRow, rowNum: nat, isActive: string -> bool): Result<ImportState, ImportError>
  {
    if !HasColumns(row) then Err(MissingColumns(rowNum))
    else if row[CategoryColumn].None? then Err(RowFailed(rowNum))
    else
      var name := PyStrip(row[CategoryColumn].value);
      var named := Filter(st.categories, NameIs(name));
      if |named| > 1 || row[ActiveColumn].None? || row[TextColumn].None? || row[NumberColumn].None? then
        Err(RowFailed(rowNum))
      else
        var number := ParsePyInt(row[NumberColumn].value);
        if number.None? then Err(RowFailed(rowNum))
        else
          var created := |named| == 0;
          var category := if created then st.nextCategoryId else named[0].id;
          var q := Question(st.nextQuestionId, category, row[TextColumn].value, number.value,
                            isActive(row[ActiveColumn].value));
          Ok(ImportState(if created then st.categories + [Category(st.nextCategoryId, name, true)] else st.categories,
                         st.questions + [q],
                         if created then st.nextCategoryId + 1 else st.nextCategoryId,
                         st.nextQuestionId + 1))
  }

  /** The rows in order, stopping at the first that fails. */
  function ImportAll(st: ImportState, rows: seq<CsvRow>, isActive: string -> bool): Result<ImportState, ImportError>
    decreases |rows|
  {
    if rows == [] then Ok(st)
    else
      match ImportAll(st, rows[..|rows| - 1], isActive)
      case Err(e) => Err(e)
      case Ok(s) => ImportRow(s, rows[|rows| - 1], |rows|, isActive)
  }

  /**
   * The loop of import_questions on the tables as they stood: the rows in
   * order, counting them, leaving at the first that fails.
   */
  method RunImport(start: ImportState, rows: seq<CsvRow>, isActive: string -> bool)
    returns (outcome: Result<ImportState, ImportError>, importedCount: nat)
    ensures outcome == ImportAll(start, rows, isActive)
    ensures outcome.Ok? ==> importedCount == |rows|
  {
    var st := start;
    importedCount := 0;
    var i := 0;
    while i < |rows|
      invariant 0 <= i <= |rows| && importedCount == i
      invariant ImportAll(start, rows[..i], isActive) == Ok(st)
    {
      assert rows[..i + 1][..i] == rows[..i];
      var step := ImportRow(st, rows[i], i + 1, isActive);
      if step.Err? {
        ImportErrorSticks(start, rows, i + 1, isActive);
        return Err(step.error), importedCount;
      }
      st := step.value;
      importedCount := importedCount + 1;
      i := i + 1;
    }
    assert rows[..i] == rows;
    outcome := Ok(st);
  }

  /**
   * import_questions: one transaction around the loop; only an import that
   * reaches the end is committed, and it reports the count. The flag parser
   * is a parameter because the two admin variants differ in it.
   */
  method ImportQuestions(db: Db.Database, rows: seq<CsvRow>, isActive: string -> bool) returns (r: Result<nat, ImportError>)
    modifies db`categories, db`questions, db`nextCategoryId, db`nextQuestionId
    ensures var outcome := ImportAll(ImportState(old(db.categories), old(db.questions), old(db.nextCategoryId),
                                                 old(db.nextQuestionId)), rows, isActive);
      && (outcome.Err? ==>
            && r == Err(outcome.error)
            && db.categories == old(db.categories) && db.questions == old(db.questions)
            && db.nextCategoryId == old(db.nextCategoryId) && db.nextQuestionId == old(db.nextQuestionId))
      && (outcome.Ok? ==>
            && r == Ok(|rows|)
            && ImportState(db.categories, db.questions, db.nextCategoryId, db.nextQuestionId) == outcome.value)
  {
    var start := ImportState(db.categories, db.questions, db.nextCategoryId, db.nextQuestionId);
    var outcome, importedCount := RunImport(start, rows, isActive);
    if outcome.Err? {
      return Err(outcome.error);
    }
    db.categories, db.questions := outcome.value.categories, outcome.value.questions;
    db.nextCategoryId, db.nextQuestionId := outcome.value.nextCategoryId, outcome.value.nextQuestionId;
    r := Ok(importedCount);
  }

  /** Once a prefix of the rows fails, the import fails with that error. */
  lemma {:induction false} ImportErrorSticks(st: ImportState, rows: seq<CsvRow>, j: int, isActive: string -> bool)
    requires 0 <= j <= |rows| && ImportAll(st, rows[..j], isActive).Err?
    ensures ImportAll(st, rows, isActive) == ImportAll(st, rows[..j], isActive)
    decreases |rows|
  {
    if j < |rows| {
      var front := rows[..|rows| - 1];
      assert front[..j] == rows[..j];
      ImportErrorSticks(st, front, j, isActive);
    } else {
      assert rows[..j] == rows;
    }
  }

  /** A row anywhere without the four columns rolls the whole import back. */
  lemma ImportMissingColumnAborts(st: ImportState, rows: seq<CsvRow>, isActive: string -> bool, k: int)
    requires 0 <= k < |rows| && !HasColumns(rows[k])
    ensures ImportAll(st, rows, isActive).Err?
  {
    assert rows[..k + 1][..k] == rows[..k];
    assert rows[..k + 1][k] == rows[k];
    ImportErrorSticks(st, rows, k + 1, isActive);
  }

  /**
   * What an imported row became: its text and number, the flag parsed from
   * its 'Is Active' field, and a category carrying its stripped name.
   */
  predicate Imported(cats: seq<Category>, row: CsvRow, q: Question, isActive: string -> bool)
  {
    && HasColumns(row)
    && row[CategoryColumn].Some? && row[TextColumn].Some? && row[NumberColumn].Some? && row[ActiveColumn].Some?
    && q.text == row[TextColumn].value
    && ParsePyInt(row[NumberColumn].value) == Some(q.number)
    && q.isActive == isActive(row[ActiveColumn].value)
    && exists j :: 0 <= j < |cats| && cats[j].id == q.category && cats[j].name == PyStrip(row[CategoryColumn].value)
  }

  /** Adding categories at the end keeps what a row became. */
  lemma ImportedGrows(a: seq<Category>, b: seq<Category>, row: CsvRow, q: Question, isActive: string -> bool)
    requires |a| <= |b| && b[..|a|] == a && Imported(a, row, q, isActive)
    ensures Imported(b, row, q, isActive)
  {
    var j :| 0 <= j < |a| && a[j].id == q.category && a[j].name == PyStrip(row[CategoryColumn].value);
    assert b[j] == a[j];
  }

  /** One successful row appends one question with the next id and at most one category. */
  lemma ImportRowSpec(st: ImportState, row: CsvRow, rowNum: nat, isActive: string -> bool)
    requires ImportRow(st, row, rowNum, isActive).Ok?
    ensures var out := ImportRow(st, row, rowNum, isActive).value;
      && |out.questions| == |st.questions| + 1 && out.questions[..|st.questions|] == st.questions
      && |st.categories| <= |out.categories| <= |st.categories| + 1 && out.categories[..|st.categories|] == st.categories
      && out.nextQuestionId == st.nextQuestionId + 1
      && out.questions[|st.questions|].id == st.nextQuestionId
      && Imported(out.categories, row, out.questions[|st.questions|], isActive)
  {
    var out := ImportRow(st, row, rowNum, isActive).value;
    var name := PyStrip(row[CategoryColumn].value);
    var named := Filter(st.categories, NameIs(name));
    var q := out.questions[|st.questions|];
    assert out.questions[..|st.questions|] == st.questions;
    assert out.categories[..|st.categories|] == st.categories;
    if |named| == 0 {
      assert out.categories[|st.categories|].id == q.category;
    } else {
      FilterKeepsOnly(st.categories, NameIs(name));
      FilterMembership(st.categories, NameIs(name), named[0]);
      var j :| 0 <= j < |st.categories| && st.categories[j] == named[0];
      assert out.categories[j] == named[0];
    }
  }

  /** A committed import keeps every existing row, appends one question per row and moves the question counter past them. */
  lemma {:induction false} ImportAllShape(st: ImportState, rows: seq<CsvRow>, isActive: string -> bool)
    requires ImportAll(st, rows, isActive).Ok?
    ensures var out := ImportAll(st, rows, isActive).value;
      && |out.questions| == |st.questions| + |rows| && out.questions[..|st.questions|] == st.questions
      && |out.categories| >= |st.categories| && out.categories[..|st.categories|] == st.categories
      && out.nextQuestionId == st.nextQuestionId + |rows|
    decreases |rows|
  {
    if rows != [] {
      var front := rows[..|rows| - 1];
      ImportAllShape(st, front, isActive);
      var mid := ImportAll(st, front, isActive).value;
      var out := ImportAll(st, rows, isActive).value;
      assert out == ImportRow(mid, rows[|rows| - 1], |rows|, isActive).value;
      ImportRowSpec(mid, rows[|rows| - 1], |rows|, isActive);
      assert out.questions[..|st.questions|] == st.questions by {
        assert out.questions[..|mid.questions|] == mid.questions;
      }
      assert out.categories[..|st.categories|] == st.categories by {
        assert out.categories[..|mid.categories|] == mid.categories;
      }
    }
  }

  /** Row k of the file became the k-th question after those st held, with the k-th new id. */
  predicate RowImported(st: ImportState, out: ImportState, rows: seq<CsvRow>, isActive: string -> bool, k: int)
    requires 0 <= k < |rows|
  {
    && |st.questions| + k < |out.questions|
    && out.questions[|st.questions| + k].id == st.nextQuestionId + k
    && Imported(out.categories, rows[k], out.questions[|st.questions| + k], isActive)
  }

  /** The question a committed import made from row k has the k-th new id and is what the row says. */
  lemma {:induction false} ImportAllRow(st: ImportState, rows: seq<CsvRow>, isActive: string -> bool, k: int)
    requires ImportAll(st, rows, isActive).Ok? && 0 <= k < |rows|
    ensures RowImported(st, ImportAll(st, rows, isActive).value, rows, isActive, k)
    decreases |rows|
  {
    var front := rows[..|rows| - 1];
    var mid := ImportAll(st, front, isActive).value;
    var out := ImportAll(st, rows, isActive).value;
    assert out == ImportRow(mid, rows[|rows| - 1], |rows|, isActive).value;
    ImportAllShape(st, front, isActive);
    ImportRowSpec(mid, rows[|rows| - 1], |rows|, isActive);
    if k < |rows| - 1 {
      ImportAllRow(st, front, isActive, k);
      assert front[k] == rows[k];
      assert out.questions[..|mid.questions|] == mid.questions;
      assert out.questions[|st.questions| + k] == mid.questions[|st.questions| + k];
      ImportedGrows(mid.categories, out.categories, rows[k], out.questions[|st.questions| + k], isActive);
    }
  }

  /**
   * A committed import appends one question per row, in order and with
   * consecutive ids, keeps every existing row, and each new question is
   * what its row says.
   */
  lemma ImportAllSpec(st: ImportState, rows: seq<CsvRow>, isActive: string -> bool)
    requires ImportAll(st, rows, isActive).Ok?
    ensures var out := ImportAll(st, rows, isActive).value;
      && |out.questions| == |st.questions| + |rows| && out.questions[..|st.questions|] == st.questions
      && |out.categories| >= |st.categories| && out.categories[..|st.categories|] == st.categories
      && out.nextQuestionId == st.nextQuestionId + |rows|
      && forall k :: 0 <= k < |rows| ==> RowImported(st, out, rows, isActive, k)
  {
    ImportAllShape(st, rows, isActive);
    forall k | 0 <= k < |rows|
      ensures RowImported(st, ImportAll(st, rows, isActive).value, rows, isActive, k)
    {
      ImportAllRow(st, rows, isActive, k);
    }
  }
}

=== FILE: sorting.dfy ===
/**
 * Stable sorting by a comparison, as Python's list.sort (with reverse=True
 * read as sorting by the reversed comparison, which keeps equal elements in
 * their original order) and as the ordered querysets the views request.
 */
module Sorting {
  import opened Common
  import opened Dates

  /** le is total and transitive: a comparison a sort can follow. */
  ghost predicate TotalPreorder<T(!new)>(le: (T, T) -> bool)
  {
    && (forall a, b :: le(a, b) || le(b, a))
    && (forall a, b, c :: le(a, b) && le(b, c) ==> le(a, c))
  }

  ghost predicate Sorted<T>(s: seq<T>, le: (T, T) -> bool)
  {
    forall i, j :: 0 <= i < j < |s| ==> le(s[i], s[j])
  }

  /** x placed before the first element it does not come after. */
  function Insert<T>(x: T, s: seq<T>, le: (T, T) -> bool): (r: seq<T>)
    ensures multiset(r) == multiset(s) + multiset{x}
    ensures |r| == |s| + 1
  {
    if s == [] || le(x, s[0]) then [x] + s
    else
      assert s == [s[0]] + s[1..];
      [s[0]] + Insert(x, s[1..], le)
  }

  lemma {:induction false} InsertSorted<T(!new)>(x: T, s: seq<T>, le: (T, T) -> bool)
    requires TotalPreorder(le) && Sorted(s, le)
    ensures Sorted(Insert(x, s, le), le)
  {
    if s != [] && !le(x, s[0]) {
      InsertSorted(x, s[1..], le);
      var rest := Insert(x, s[1..], le);
      assert multiset(rest) == multiset(s[1..]) + multiset{x};
      forall k | 0 <= k < |rest|
        ensures le(s[0], rest[k])
      {
        assert rest[k] in multiset(rest);
        if rest[k] == x {
        } else {
          assert rest[k] in multiset(s[1..]);
          var j :| 0 <= j < |s[1..]| && s[1..][j] == rest[k];
          assert s[j + 1] == rest[k];
        }
      }
    }
  }

  /** The list in the comparison's order; elements that compare equal keep their order. */
  function SortBy<T>(s: seq<T>, le: (T, T) -> bool): (r: seq<T>)
    ensures multiset(r) == multiset(s) && |r| == |s|
  {
    if s == [] then []
    else
      assert s == [s[0]] + s[1..];
      Insert(s[0], SortBy(s[1..], le), le)
  }

  /** The sorted list is in order. */
  lemma {:induction false} SortBySorted<T(!new)>(s: seq<T>, le: (T, T) -> bool)
    requires TotalPreorder(le)
    ensures Sorted(SortBy(s, le), le)
  {
    if s != [] {
      SortBySorted(s[1..], le);
      InsertSorted(s[0], SortBy(s[1..], le), le);
    }
  }

  /** Sorting keeps exactly the elements there were. */
  lemma SortByMembers<T>(s: seq<T>, le: (T, T) -> bool, x: T)
    ensures x in SortBy(s, le) <==> x in s
  {
    assert x in SortBy(s, le) <==> x in multiset(SortBy(s, le));
    assert x in s <==> x in multiset(s);
  }

  /**
   * order_by(...)[:k]: the first k of the sorted list are min(k, |s|)
   * elements of s, in order, and no element left out comes strictly before
   * one taken.
   */
  lemma TopK<T(!new)>(s: seq<T>, le: (T, T) -> bool, k: nat)
    requires TotalPreorder(le)
    ensures var top := Take(SortBy(s, le), k);
      && |top| == (if |s| <= k then |s| else k)
      && Sorted(top, le)
      && (forall y :: y in top ==> y in s)
      && (forall x, y :: x in s && x !in top && y in top ==> le(y, x))
  {
    var t := SortBy(s, le);
    var top := Take(t, k);
    SortBySorted(s, le);
    forall y | y in top
      ensures y in s
    {
      SortByMembers(s, le, y);
    }
    forall x, y | x in s && x !in top && y in top
      ensures le(y, x)
    {
      SortByMembers(s, le, x);
      var j :| 0 <= j < |t| && t[j] == x;
      var i :| 0 <= i < |top| && top[i] == y;
      assert top[i] == t[i];
    }
  }

  // ---------------------------------------------------------------------
  // Comparisons
  // ---------------------------------------------------------------------

  /** String comparison by character codes. */
  predicate StringLe(a: string, b: string)
  {
    a == [] || (b != [] && (a[0] < b[0] || (a[0] == b[0] && StringLe(a[1..], b[1..]))))
  }

  lemma {:induction false} StringLeTotal(a: string, b: string)
    ensures StringLe(a, b) || StringLe(b, a)
  {
    if a != [] && b != [] && a[0] == b[0] {
      StringLeTotal(a[1..], b[1..]);
    }
  }

  lemma {:induction false} StringLeTrans(a: string, b: string, c: string)
    requires StringLe(a, b) && StringLe(b, c)
    ensures StringLe(a, c)
  {
    if a != [] && b != [] && c != [] && a[0] == b[0] && b[0] == c[0] {
      StringLeTrans(a[1..], b[1..], c[1..]);
    }
  }

  lemma {:induction false} StringLeAntisymmetric(a: string, b: string)
    requires StringLe(a, b) && StringLe(b, a)
    ensures a == b
  {
    if a != [] && b != [] {
      StringLeAntisymmetric(a[1..], b[1..]);
      assert a == [a[0]] + a[1..] && b == [b[0]] + b[1..];
    }
  }

  /** a comes strictly before b by character codes. */
  predicate StringLt(a: string, b: string)
  {
    StringLe(a, b) && a != b
  }

  /** Of two different strings, one comes strictly before the other. */
  lemma StringLtTotal(a: string, b: string)
    requires a != b
    ensures StringLt(a, b) || StringLt(b, a)
  {
    StringLeTotal(a, b);
  }

  lemma StringLtTrans(a: string, b: string, c: string)
    requires StringLt(a, b) && StringLt(b, c)
    ensures StringLt(a, c)
  {
    StringLeTrans(a, b, c);
    if a == c {
      StringLeAntisymmetric(a, b);
    }
  }

  /** Dates by the calendar: a is not after b. */
  predicate DateLe(a: Date, b: Date)
  {
    !Before(b, a)
  }

  lemma DateLeTotalPreorder(a: Date, b: Date, c: Date)
    ensures DateLe(a, b) || DateLe(b, a)
    ensures DateLe(a, b) && DateLe(b, c) ==> DateLe(a, c)
  {
  }

  /** A nullable integer column, NULL sorting first in ascending order. */
  predicate NullableLe(a: Option<int>, b: Option<int>)
  {
    a.None? || (b.Some? && a.value <= b.value)
  }
}

=== FILE: stores.dfy ===
/**
 * The store pages (checklist/views/store_views.py): the list of visible
 * stores with each one's average score, a store's detail page, the
 * analytics block of store management, and the superuser's activation
 * toggle, which changes the stored store in place.
 */
module StoreViews {
  import opened Common
  import opened Dates
  import opened Models
  import opened Users
  import opened Sorting
  import opened Queries
  import Db

  /** Profile roles other than admin and area management see only the stores assigned to them. */
  predicate AssignedOnly(u: User)
  {
    u.profile.Some? && u.profile.value.role != Admin && u.profile.value.role != AreaManagement
  }

  /** The active stores the store list and the dashboard show the user. */
  function VisibleStores(stores: seq<Store>, u: User): seq<Store>
  {
    Filter(stores, (s: Store) => s.isActive && (AssignedOnly(u) ==> s.id in u.profile.value.stores))
  }

  /**
   * The visible stores are the active ones, narrowed to the assigned ones
   * for every profile role but admin and area management; a user without
   * a profile sees every active store. Unlike get_user_stores, this gives
   * a store selector only the stores assigned to them.
   */
  lemma VisibleStoresSpec(stores: seq<Store>, u: User, s: Store)
    ensures s in VisibleStores(stores, u) <==>
      s in stores && s.isActive && (AssignedOnly(u) ==> s.id in u.profile.value.stores)
    ensures u.profile.None? || u.profile.value.role in {Admin, AreaManagement} ==>
      (s in VisibleStores(stores, u) <==> s in stores && s.isActive)
  {
    FilterMembership(stores, (s: Store) => s.isActive && (AssignedOnly(u) ==> s.id in u.profile.value.stores), s);
  }

  /** The user's submitted visits to one store. */
  function StoreVisits(visits: seq<Visit>, u: User, store: int): seq<Visit>
  {
    Filter(visits, (v: Visit) => v.store == store && SubmittedBy(v, u))
  }

  /** order_by('-date').first().date: the latest date among the visits. */
  function LatestDate(vs: seq<Visit>): (d: Date)
    requires vs != []
    ensures exists k :: 0 <= k < |vs| && vs[k].date == d
    ensures forall k :: 0 <= k < |vs| ==> DateLe(vs[k].date, d)
  {
    if |vs| == 1 then vs[0].date
    else
      var rest := LatestDate(vs[1..]);
      assert forall k :: 1 <= k < |vs| ==> vs[k] == vs[1..][k - 1];
      if DateLe(rest, vs[0].date) then vs[0].date else rest
  }

  /** round(total / count, 1) of a list of scores, in tenths; 0 for no scores. */
  function AverageTenths(scores: seq<int>): int
  {
    if scores == [] then 0 else RoundTenths(Sum(scores), |scores|)
  }

  /** An average of visit scores lies between 0 and 100.0. */
  lemma AverageTenthsBounds(items: seq<ChecklistItem>, vs: seq<Visit>)
    ensures 0 <= AverageTenths(Scores(items, vs)) <= 1000
  {
    if vs != [] {
      ScoresSumBounds(items, vs);
      RoundHalfEvenBetween(10 * Sum(Scores(items, vs)), |vs|, 0, 1000);
    }
  }

  /** The loop summing visit.calculate_score() over a list of visits. */
  method SumScores(items: seq<ChecklistItem>, vs: seq<Visit>) returns (total: int)
    ensures total == Sum(Scores(items, vs))
    ensures 0 <= total <= 100 * |vs|
  {
    ghost var all := Scores(items, vs);
    total := 0;
    var i := 0;
    while i < |vs|
      invariant 0 <= i <= |vs|
      invariant total == Sum(all[..i])
    {
      assert all[..i + 1] == all[..i] + [all[i]];
      SumAppend(all[..i], [all[i]]);
      total := total + VisitScore(items, vs[i]);
      i := i + 1;
    }
    assert all[..i] == all;
    ScoresSumBounds(items, vs);
  }


  /** a is not older than b. */
  predicate NewerOrSame(a: Visit, b: Visit)
  {
    DateLe(b.date, a.date)
  }

  /** order_by('-date'): newest first, visits on the same day in table order. */
  function NewestFirst(vs: seq<Visit>): seq<Visit>
  {
    SortBy(vs, NewerOrSame)
  }

  /**
   * order_by('-date')[:n]: the n newest visits, or all of them when there
   * are fewer, newest first; no visit left out is newer than one taken.
   */
  lemma NewestTake(vs: seq<Visit>, n: nat, v: Visit)
    ensures var shown := Take(NewestFirst(vs), n);
      && |shown| == (if |vs| <= n then |vs| else n)
      && Sorted(shown, NewerOrSame)
      && (forall w :: w in shown ==> w in vs)
      && (|vs| <= n ==> (v in shown <==> v in vs))
      && (forall x, y :: x in vs && x !in shown && y in shown ==> NewerOrSame(y, x))
  {
    TopK(vs, NewerOrSame, n);
    SortByMembers(vs, NewerOrSame, v);
  }

  // ---------------------------------------------------------------------
  // store_list
  // ---------------------------------------------------------------------

  datatype StoreListRow = StoreListRow(store: Store, avg: int, visits: nat, last: Option<Date>)

  /** A store's entry: its average score (0 without visits), how many visits, and the latest one's date. */
  function StoreListRowOf(s: Store, items: seq<ChecklistItem>, visits: seq<Visit>, u: User): (r: StoreListRow)
    ensures r.store == s && r.visits == |StoreVisits(visits, u, s.id)|
    ensures r.visits == 0 <==> r.last.None?
    ensures r.visits == 0 ==> r.avg == 0
    ensures 0 <= r.avg <= 1000
  {
    var sv := StoreVisits(visits, u, s.id);
    AverageTenthsBounds(items, sv);
    StoreListRow(s, AverageTenths(Scores(items, sv)), |sv|, if sv == [] then None else Some(LatestDate(sv)))
  }

  /** One entry per store, in their order. */
  function RowsFor(vis: seq<Store>, items: seq<ChecklistItem>, visits: seq<Visit>, u: User): (r: seq<StoreListRow>)
    ensures |r| == |vis|
  {
    if vis == [] then []
    else RowsFor(vis[..|vis| - 1], items, visits, u) + [StoreListRowOf(vis[|vis| - 1], items, visits, u)]
  }

  /** The k-th entry is the k-th store's. */
  lemma {:induction false} RowsForAt(vis: seq<Store>, items: seq<ChecklistItem>, visits: seq<Visit>, u: User, k: nat)
    requires k < |vis|
    ensures RowsFor(vis, items, visits, u)[k] == StoreListRowOf(vis[k], items, visits, u)
  {
    if k < |vis| - 1 {
      var init := vis[..|vis| - 1];
      RowsForAt(init, items, visits, u, k);
      assert init[k] == vis[k];
    }
  }

  /** Every entry is its store's. */
  lemma RowsForSpec(vis: seq<Store>, items: seq<ChecklistItem>, visits: seq<Visit>, u: User)
    ensures forall k :: 0 <= k < |vis| ==> RowsFor(vis, items, visits, u)[k] == StoreListRowOf(vis[k], items, visits, u)
  {
    forall k | 0 <= k < |vis|
      ensures RowsFor(vis, items, visits, u)[k] == StoreListRowOf(vis[k], items, visits, u)
    {
      RowsForAt(vis, items, visits, u, k);
    }
  }

  /** The entries of the visible stores, in store order. */
  function StoreListRows(stores: seq<Store>, items: seq<ChecklistItem>, visits: seq<Visit>, u: User): (r: seq<StoreListRow>)
    ensures |r| == |VisibleStores(stores, u)|
    ensures forall k :: 0 <= k < |r| ==> r[k] == StoreListRowOf(VisibleStores(stores, u)[k], items, visits, u)
  {
    RowsForSpec(VisibleStores(stores, u), items, visits, u);
    RowsFor(VisibleStores(stores, u), items, visits, u)
  }

  /**
   * Every visible store has an entry, visited or not, and no other store
   * has one.
   */
  lemma StoreListSpec(stores: seq<Store>, items: seq<ChecklistItem>, visits: seq<Visit>, u: User, s: Store)
    ensures (exists k :: 0 <= k < |StoreListRows(stores, items, visits, u)| && StoreListRows(stores, items, visits, u)[k].store == s)
      <==> s in stores && s.isActive && (AssignedOnly(u) ==> s.id in u.profile.value.stores)
  {
    VisibleStoresSpec(stores, u, s);
    var vis := VisibleStores(stores, u);
    if s in vis {
      var k :| 0 <= k < |vis| && vis[k] == s;
      assert StoreListRows(stores, items, visits, u)[k].store == s;
    }
  }

  /** store_list: the loop over the visible stores, summing each one's visit scores. */
  method StoreList(stores: seq<Store>, items: seq<ChecklistItem>, visits: seq<Visit>, u: User) returns (data: seq<StoreListRow>)
    ensures data == StoreListRows(stores, items, visits, u)
  {
    data := StoreListLoop(VisibleStores(stores, u), items, visits, u);
  }

  /** The loop of store_list over the given stores: one entry per store, in their order. */
  method StoreListLoop(vis: seq<Store>, items: seq<ChecklistItem>, visits: seq<Visit>, u: User) returns (data: seq<StoreListRow>)
    ensures data == RowsFor(vis, items, visits, u)
  {
    data := [];
    var i := 0;
    while i < |vis|
      invariant 0 <= i <= |vis| && data == RowsFor(vis[..i], items, visits, u)
    {
      var row := StoreListEntry(vis[i], items, visits, u);
      assert vis[..i + 1][..i] == vis[..i];
      data := data + [row];
      i := i + 1;
    }
    assert vis[..i] == vis;
  }

  /** One pass of store_list's loop: the store's visits, their summed scores, average and latest date. */
  method StoreListEntry(s: Store, items: seq<ChecklistItem>, visits: seq<Visit>, u: User) returns (row: StoreListRow)
    ensures row == StoreListRowOf(s, items, visits, u)
  {
    var sv := StoreVisits(visits, u, s.id);
    var avg := 0;
    var last: Option<Date> := None;
    if sv != [] {
      var total := SumScores(items, sv);
      avg := RoundTenths(total, |sv|);
      last := Some(LatestDate(sv));
    }
    row := StoreListRow(s, avg, |sv|, last);
  }

  // ---------------------------------------------------------------------
  // store_detail
  // ---------------------------------------------------------------------

  const DetailVisits: nat := 20

  datatype DetailOutcome = StoreNotFound | AccessRefused | StoreDetail(store: Store, visits: seq<Visit>, avg: int)

  /**
   * store_detail: any store by primary key, active or not; refused only for
   * a profile whose role is not admin or area management and whose store
   * list lacks it. The page shows the user's twenty newest submitted
   * visits there and their average.
   */
  function StoreDetailOf(stores: seq<Store>, items: seq<ChecklistItem>, visits: seq<Visit>, u: User, id: int)
    : (r: DetailOutcome)
    ensures r.StoreNotFound? <==> StoreById(stores, id).None?
    ensures r.AccessRefused? <==> StoreById(stores, id).Some? && AssignedOnly(u) && id !in u.profile.value.stores
    ensures r.StoreDetail? ==> r.store == StoreById(stores, id).value && |r.visits| <= DetailVisits && 0 <= r.avg <= 1000
  {
    var s := StoreById(stores, id);
    if s.None? then StoreNotFound
    else if AssignedOnly(u) && s.value.id !in u.profile.value.stores then AccessRefused
    else
      var shown := Take(NewestFirst(StoreVisits(visits, u, id)), DetailVisits);
      AverageTenthsBounds(items, shown);
      StoreDetail(s.value, shown, AverageTenths(Scores(items, shown)))
  }

  /**
   * The visits shown are the twenty newest of the user's submitted visits
   * to the store (all of them when there are at most twenty), newest first:
   * no such visit left out is newer than one shown. A user without a
   * profile is never refused.
   */
  lemma StoreDetailSpec(stores: seq<Store>, items: seq<ChecklistItem>, visits: seq<Visit>, u: User, id: int, v: Visit)
    requires StoreDetailOf(stores, items, visits, u, id).StoreDetail?
    ensures v in StoreVisits(visits, u, id) <==> v in visits && v.store == id && SubmittedBy(v, u)
    ensures var shown := StoreDetailOf(stores, items, visits, u, id).visits;
      var mine := StoreVisits(visits, u, id);
      && |shown| == (if |mine| <= DetailVisits then |mine| else DetailVisits)
      && Sorted(shown, NewerOrSame)
      && (v in shown ==> v in mine)
      && (|mine| <= DetailVisits ==> (v in shown <==> v in mine))
      && (forall x, y :: x in mine && x !in shown && y in shown ==> NewerOrSame(y, x))
    ensures u.profile.None? ==> !StoreDetailOf(stores, items, visits, u, id).AccessRefused?
  {
    NewestTake(StoreVisits(visits, u, id), DetailVisits, v);
    FilterMembership(visits, (v: Visit) => v.store == id && SubmittedBy(v, u), v);
  }

  /**
   * store_detail's rule is not has_store_access's: a store manager who
   * reaches a store only through one of their areas has access by the
   * profile's rule, yet the detail page refuses them.
   */
  lemma StoreDetailIgnoresAreas(stores: seq<Store>, items: seq<ChecklistItem>, visits: seq<Visit>, u: User, id: int)
    requires u.profile.Some? && u.profile.value.role == StoreManager
    requires StoreById(stores, id).Some? && id !in u.profile.value.stores
    requires StoreById(stores, id).value.area.Some? && StoreById(stores, id).value.area.value in u.profile.value.areas
    ensures HasStoreAccess(u.profile.value, StoreById(stores, id).value)
    ensures StoreDetailOf(stores, items, visits, u, id).AccessRefused?
  {
  }

  // ---------------------------------------------------------------------
  // StoreManager.get_store_analytics
  // ---------------------------------------------------------------------

  /** The store's submitted visits, by any manager. */
  function SubmittedVisitCount(visits: seq<Visit>, store: int): nat
  {
    Count(visits, (v: Visit) => v.store == store && !v.isDraft)
  }

  /** order_by('-is_active', 'name'): active stores first, each group by name. */
  predicate StoreOrderLe(a: Store, b: Store)
  {
    (a.isActive && !b.isActive) || (a.isActive == b.isActive && StringLe(a.name, b.name))
  }

  lemma StoreOrderTotalPreorder()
    ensures TotalPreorder(StoreOrderLe)
  {
    forall a: Store, b: Store
      ensures StoreOrderLe(a, b) || StoreOrderLe(b, a)
    {
      StringLeTotal(a.name, b.name);
    }
    forall a: Store, b: Store, c: Store | StoreOrderLe(a, b) && StoreOrderLe(b, c)
      ensures StoreOrderLe(a, c)
    {
      if a.isActive == b.isActive == c.isActive {
        StringLeTrans(a.name, b.name, c.name);
      }
    }
  }

  datatype StoreStats = StoreStats(total: nat, active: nat, inactive: nat, withVisits: nat, withoutVisits: int)

  datatype StoreAnalytics = StoreAnalytics(stores: seq<Store>, stats: StoreStats)

  /** get_store_analytics: every store, active ones first and by name, and the counts. */
  function StoreAnalyticsOf(stores: seq<Store>, visits: seq<Visit>): (r: StoreAnalytics)
  {
    var withVisits := Count(stores, (s: Store) => SubmittedVisitCount(visits, s.id) > 0);
    StoreAnalytics(SortBy(stores, StoreOrderLe),
                   StoreStats(|stores|,
                              Count(stores, (s: Store) => s.isActive),
                              Count(stores, (s: Store) => !s.isActive),
                              withVisits,
                              |stores| - withVisits))
  }

  lemma {:induction false} CountSplit<T>(s: seq<T>, p: T -> bool, q: T -> bool)
    requires forall k :: 0 <= k < |s| ==> q(s[k]) == !p(s[k])
    ensures Count(s, p) + Count(s, q) == |s|
  {
    if s != [] {
      CountSplit(s[1..], p, q);
    }
  }

  /**
   * Active and inactive stores add up to all stores, and 'without visits'
   * counts exactly the stores no submitted visit names; the listing holds
   * every store, active ones first.
   */
  lemma StoreAnalyticsSpec(stores: seq<Store>, visits: seq<Visit>)
    ensures var st := StoreAnalyticsOf(stores, visits).stats;
      && st.active + st.inactive == st.total
      && st.withoutVisits == Count(stores, (s: Store) => SubmittedVisitCount(visits, s.id) == 0) >= 0
    ensures var listed := StoreAnalyticsOf(stores, visits).stores;
      && multiset(listed) == multiset(stores)
      && forall i, j :: 0 <= i < j < |listed| && !listed[i].isActive ==> !listed[j].isActive
  {
    CountSplit(stores, (s: Store) => s.isActive, (s: Store) => !s.isActive);
    CountSplit(stores, (s: Store) => SubmittedVisitCount(visits, s.id) > 0, (s: Store) => SubmittedVisitCount(visits, s.id) == 0);
    StoreOrderTotalPreorder();
    SortBySorted(stores, StoreOrderLe);
  }

  const AreaManagerVisitFieldError: string := "Cannot resolve keyword 'areamanagervisit' into field."

  /**
   * StoreManager.get_store_analytics as written. The annotation counts
   * through 'areamanagervisit', but AreaManagerVisit's foreign key to Store
   * is declared with related_name='visits', so Store has no relation of
   * that name and annotate() raises FieldError before any store is read.
   * (The choices listed in the message are not modelled.)
   */
  function GetStoreAnalytics(stores: seq<Store>, visits: seq<Visit>): (r: Result<StoreAnalytics, string>)
    ensures r == Err(AreaManagerVisitFieldError)
  {
    Err(AreaManagerVisitFieldError)
  }

  /** What store_management renders or redirects to. */
  datatype ManagementOutcome =
    | ManagementRefused                         // not a superuser: user_passes_test asks them to log in
    | ManagementError                           // an exception: back to the dashboard with an error
    | StoreCreation                             // a POST goes on to handle_store_creation
    | ManagementPage(analytics: StoreAnalytics) // the page with the stores and their counts

  /**
   * store_management: a non-superuser is sent back; the analytics are
   * computed first, and any exception ends in the error redirect; then a
   * POST goes on to store creation and anything else gets the page.
   */
  function StoreManagement(u: User, stores: seq<Store>, visits: seq<Visit>, isPost: bool): (r: ManagementOutcome)
    ensures r.ManagementRefused? <==> !u.isSuperuser
    ensures r.ManagementError? <==> u.isSuperuser && GetStoreAnalytics(stores, visits).Err?
    ensures r.StoreCreation? ==> isPost
    ensures r.ManagementPage? ==> !isPost && Ok(r.analytics) == GetStoreAnalytics(stores, visits)
  {
    if !u.isSuperuser then ManagementRefused
    else
      match GetStoreAnalytics(stores, visits)
      case Err(_) => ManagementError
      case Ok(analytics) => if isPost then StoreCreation else ManagementPage(analytics)
  }

  /**
   * Because the analytics always raise, a superuser always lands on the
   * error redirect: the page is never shown and the creation form is never
   * reached, whereas the intended analytics exist for every table.
   */
  lemma StoreManagementAlwaysFails(u: User, stores: seq<Store>, visits: seq<Visit>, isPost: bool)
    requires u.isSuperuser
    ensures StoreManagement(u, stores, visits, isPost) == ManagementError
    ensures StoreAnalyticsOf(stores, visits).stats.total == |stores|
  {
  }

  // ---------------------------------------------------------------------
  // toggle_store_status
  // ---------------------------------------------------------------------

  /** The stores with the activation of every store keyed id flipped. */
  function FlipStore(stores: seq<Store>, id: int): (r: seq<Store>)
    ensures |r| == |stores|
    ensures forall k :: 0 <= k < |stores| ==>
      r[k] == if stores[k].id == id then stores[k].(isActive := !stores[k].isActive) else stores[k]
  {
    seq(|stores|, k requires 0 <= k < |stores| =>
      if stores[k].id == id then stores[k].(isActive := !stores[k].isActive) else stores[k])
  }

  /** Toggling twice restores the stores, and a toggle touches only the activation of the one store. */
  lemma FlipStoreTwice(stores: seq<Store>, id: int)
    ensures FlipStore(FlipStore(stores, id), id) == stores
    ensures forall k :: 0 <= k < |stores| ==>
      FlipStore(stores, id)[k].(isActive := stores[k].isActive) == stores[k]
  {
  }

  datatype ToggleOutcome = NotSuperuser | ToggleNotFound | Toggled(store: Store)

  /**
   * toggle_store_status: a superuser flips the store's is_active and is
   * told its new state; anyone else, or an unknown id, changes nothing.
   */
  method ToggleStoreStatus(db: Db.Database, u: User, id: int) returns (r: ToggleOutcome)
    modifies db`stores
    ensures !u.isSuperuser ==> r == NotSuperuser && db.stores == old(db.stores)
    ensures u.isSuperuser && StoreById(old(db.stores), id).None? ==> r == ToggleNotFound && db.stores == old(db.stores)
    ensures u.isSuperuser && StoreById(old(db.stores), id).Some? ==>
      && db.stores == FlipStore(old(db.stores), id)
      && r == Toggled(StoreById(old(db.stores), id).value.(isActive := !StoreById(old(db.stores), id).value.isActive))
  {
    if !u.isSuperuser {
      return NotSuperuser;
    }
    var s := StoreById(db.stores, id);
    if s.None? {
      return ToggleNotFound;
    }
    db.stores := FlipStore(db.stores, id);
    r := Toggled(s.value.(isActive := !s.value.isActive));
  }
}

=== FILE: tags.dfy ===
/**
 * The template filters and tags of the checklist pages
 * (checklist/templatetags/checklist_tags.py): date shifting, the badge and
 * icon lookups with their defaults, and dictionary access from a template.
 */
module TemplateTags {
  import opened Common
  import opened Dates

  // ---------------------------------------------------------------------
  // timedelta_days
  // ---------------------------------------------------------------------

  /** date(9999, 12, 31).toordinal(): the last day a Python date can hold. */
  const MaxOrdinal: int := 3652059

  lemma MaxOrdinalIsLastDay()
    ensures Valid(Date(9999, 12, 31)) && Ordinal(Date(9999, 12, 31)) == MaxOrdinal
  {
  }

  /**
   * value + timedelta(days=days): the date that many days later (earlier
   * for a negative count); OverflowError when the result would fall
   * outside years 1 to 9999. The value itself is a date Python can hold.
   */
  function TimedeltaDays(value: Date, days: int): (r: Result<Date, string>)
    requires Valid(value) && Ordinal(value) <= MaxOrdinal
    ensures r.Ok? <==> 1 <= Ordinal(value) + days <= MaxOrdinal
    ensures r.Ok? ==> Valid(r.value) && Ordinal(r.value) == Ordinal(value) + days
  {
    if 1 <= Ordinal(value) + days <= MaxOrdinal then Ok(AddDays(value, days))
    else Err("date value out of range")
  }

  /** Shifting forward and back by the same count returns the date, and a zero shift changes nothing. */
  lemma TimedeltaDaysRoundTrip(value: Date, days: int)
    requires Valid(value) && Ordinal(value) <= MaxOrdinal && TimedeltaDays(value, days).Ok?
    ensures TimedeltaDays(TimedeltaDays(value, days).value, -days) == Ok(value)
    ensures TimedeltaDays(value, 0) == Ok(value)
  {
    OrdinalPositive(value);
    var there := TimedeltaDays(value, days).value;
    var back := TimedeltaDays(there, -days);
    OrdinalInjective(back.value, value);
    OrdinalInjective(TimedeltaDays(value, 0).value, value);
  }

  /** A later shift never gives an earlier date. */
  lemma TimedeltaDaysMonotone(value: Date, d1: int, d2: int)
    requires Valid(value) && Ordinal(value) <= MaxOrdinal && d1 <= d2
    requires TimedeltaDays(value, d1).Ok? && TimedeltaDays(value, d2).Ok?
    ensures !Before(TimedeltaDays(value, d2).value, TimedeltaDays(value, d1).value)
  {
    BeforeIffOrdinalLess(TimedeltaDays(value, d2).value, TimedeltaDays(value, d1).value);
  }

  // ---------------------------------------------------------------------
  // get_action_badge and get_category_icon
  // ---------------------------------------------------------------------

  /** The colour of a history entry by its action type, 'secondary' for any other type. */
  function ActionBadge(actionType: string): (r: string)
    ensures r == "secondary" <==> actionType !in ["create", "update", "delete"]
  {
    if actionType == "create" then "success"
    else if actionType == "update" then "warning"
    else if actionType == "delete" then "danger"
    else "secondary"
  }

  const IconCategories: seq<string> := ["Store Operations", "Customer Experience", "Team & Staff",
    "Sales & Performance", "Health & Safety", "Maintenance & Assets", "Administration"]

  /** The Font Awesome icon of a category name, 'tasks' for a name outside the seven known ones. */
  function CategoryIcon(category: string): (r: string)
    ensures r == "tasks" <==> category !in IconCategories
  {
    if category == "Store Operations" then "store"
    else if category == "Customer Experience" then "users"
    else if category == "Team & Staff" then "user-tie"
    else if category == "Sales & Performance" then "chart-line"
    else if category == "Health & Safety" then "shield-alt"
    else if category == "Maintenance & Assets" then "tools"
    else if category == "Administration" then "file-alt"
    else "tasks"
  }

  /** No two of the known categories share an icon, so the icon tells the category. */
  lemma CategoryIconsDistinct(a: string, b: string)
    requires a in IconCategories && b in IconCategories && a != b
    ensures CategoryIcon(a) != CategoryIcon(b)
  {
  }

  // ---------------------------------------------------------------------
  // get_item
  // ---------------------------------------------------------------------

  /** dictionary.get(key): the value under the key, None when it is absent. */
  function GetItem<K, V>(dictionary: map<K, V>, key: K): (r: Option<V>)
    ensures r.Some? <==> key in dictionary
    ensures r.Some? ==> r.value == dictionary[key]
  {
    if key in dictionary then Some(dictionary[key]) else None
  }

  /** Looking up a key just stored finds its value; other keys are unaffected. */
  lemma GetItemAfterStore<K, V>(dictionary: map<K, V>, key: K, value: V, other: K)
    ensures GetItem(dictionary[key := value], key) == Some(value)
    ensures other != key ==> GetItem(dictionary[key := value], other) == GetItem(dictionary, other)
  {
  }

  // ---------------------------------------------------------------------
  // priority_badge and status_badge
  // ---------------------------------------------------------------------

  /** 'bg-danger' for high, 'bg-warning text-dark' for medium, 'bg-success' for anything else. */
  function PriorityBadge(priority: string): (r: string)
    ensures priority == "high" ==> r == "bg-danger"
    ensures priority == "medium" ==> r == "bg-warning text-dark"
    ensures priority != "high" && priority != "medium" ==> r == "bg-success"
  {
    if priority == "high" then "bg-danger"
    else if priority == "medium" then "bg-warning text-dark"
    else "bg-success"
  }

  /** An unknown or empty priority is shown exactly like a low one. */
  lemma UnknownPriorityLooksLow(priority: string)
    requires priority !in ["low", "medium", "high"]
    ensures PriorityBadge(priority) == PriorityBadge("low")
  {
  }

  /** The ticket status badges, with the older 'N'/'IP' codes; 'bg-secondary' for anything else. */
  function StatusBadge(status: string): (r: string)
    ensures r == "bg-secondary" <==> status !in ["pending", "in_progress", "completed", "N", "IP"]
  {
    if status == "pending" then "bg-warning text-dark"
    else if status == "in_progress" then "bg-info text-dark"
    else if status == "completed" then "bg-success"
    else if status == "N" then "bg-primary"
    else if status == "IP" then "bg-info text-dark"
    else "bg-secondary"
  }
}

=== FILE: users.dfy ===
/**
 * Users and their profiles: the six roles and Profile.has_store_access,
 * which grants blanket access to admins and area managers and otherwise
 * looks at the profile's own stores and areas.
 */
module Users {
  import opened Common
  import opened Models

  /** ROLE_CHOICES. */
  datatype Role = Admin | AreaManager | StoreManager | AreaManagement | StoreSelector | VisitCreator

  /** The stored role code. */
  function RoleCode(r: Role): string
  {
    match r
    case Admin => "admin"
    case AreaManager => "area_manager"
    case StoreManager => "store_manager"
    case AreaManagement => "area_management"
    case StoreSelector => "store_selector"
    case VisitCreator => "visit_creator"
  }

  /** A profile's role and its many-to-many store and area sets, by id. */
  datatype Profile = Profile(role: Role, stores: set<int>, areas: set<int>)

  /** get_full_name() is "first last" with surrounding blanks removed; fullName holds that value. */
  datatype User = User(id: int, username: string, fullName: string, isSuperuser: bool, profile: Option<Profile>)

  /** get_full_name() or username. */
  function DisplayName(u: User): (n: string)
    ensures u.fullName != [] ==> n == u.fullName
    ensures u.fullName == [] ==> n == u.username
  {
    if u.fullName != [] then u.fullName else u.username
  }

  /** Profile.has_store_access. */
  function HasStoreAccess(p: Profile, s: Store): (r: bool)
    ensures p.role == Admin || p.role == AreaManager ==> r
    ensures p.role != Admin && p.role != AreaManager ==>
      (r <==> s.id in p.stores || (s.area.Some? && s.area.value in p.areas))
  {
    p.role in {Admin, AreaManager} || s.id in p.stores || (s.area.Some? && s.area.value in p.areas)
  }

  /** Access by this rule does not depend on whether the store is active. */
  lemma AccessIgnoresActive(p: Profile, s: Store)
    ensures HasStoreAccess(p, s) == HasStoreAccess(p, s.(isActive := !s.isActive))
  {
  }

  /** A store without an area is reachable, outside the blanket roles, only through the profile's store list. */
  lemma NoAreaOnlyExplicit(p: Profile, s: Store)
    requires s.area.None? && p.role != Admin && p.role != AreaManager
    ensures HasStoreAccess(p, s) <==> s.id in p.stores
  {
  }

  /** Area management and store selectors get no blanket access here. */
  lemma NoBlanketForAreaManagement(s: Store)
    ensures !HasStoreAccess(Profile(AreaManagement, {}, {}), s)
    ensures !HasStoreAccess(Profile(StoreSelector, {}, {}), s)
  {
  }
}

=== FILE: validators.dfy ===
/**
 * The guard functions of checklist/utils/validators.py: each either
 * returns or raises a ValidationError with a fixed message, checking its
 * conditions in the order written.
 */
module Validators {
  import opened Common
  import opened Models
  import opened Users

  /** A store id that is active in the store table. */
  function ActiveStoreById(stores: seq<Store>, id: int): (r: Option<Store>)
    ensures r.Some? ==> r.value in stores && r.value.id == id && r.value.isActive
    ensures r.None? ==> forall k :: 0 <= k < |stores| ==> !(stores[k].id == id && stores[k].isActive)
  {
    if stores == [] then None
    else if stores[0].id == id && stores[0].isActive then Some(stores[0])
    else ActiveStoreById(stores[1..], id)
  }

  /**
   * validate_store_access: a profile is needed, then an active store with
   * that id, then either a role with blanket access (admin,
   * area_management, store_selector) or the store among the profile's own.
   */
  function ValidateStoreAccess(u: User, storeId: int, stores: seq<Store>): (r: Result<Store, string>)
    ensures u.profile.None? ==> r == Err("User profile not set up")
    ensures r.Ok? ==> u.profile.Some? && r.value in stores && r.value.id == storeId && r.value.isActive
    ensures r.Ok? ==> u.profile.value.role in {Admin, AreaManagement, StoreSelector} || storeId in u.profile.value.stores
  {
    if u.profile.None? then Err("User profile not set up")
    else
      var store := ActiveStoreById(stores, storeId);
      if store.None? then Err("Store not found or inactive")
      else
        var p := u.profile.value;
        if p.role in {Admin, AreaManagement, StoreSelector} then Ok(store.value)
        else if store.value.id !in p.stores then Err("You don't have access to this store")
        else Ok(store.value)
  }

  /** Every refusal and its reason, in the order the checks run. */
  lemma ValidateStoreAccessCases(u: User, storeId: int, stores: seq<Store>)
    requires u.profile.Some?
    ensures ActiveStoreById(stores, storeId).None? ==>
      ValidateStoreAccess(u, storeId, stores) == Err("Store not found or inactive")
    ensures ActiveStoreById(stores, storeId).Some? ==>
      var p := u.profile.value;
      (ValidateStoreAccess(u, storeId, stores).Ok? <==>
         p.role in {Admin, AreaManagement, StoreSelector} || storeId in p.stores)
  {
  }

  // ---------------------------------------------------------------------
  // validate_checklist_data
  // ---------------------------------------------------------------------

  /** A value of the submitted dictionary: a string, a number, or null. */
  datatype FieldValue = Text(text: string) | Number(number: int) | Null

  /** Python truthiness of such a value. */
  predicate Truthy(v: FieldValue)
  {
    match v
    case Text(t) => t != []
    case Number(n) => n != 0
    case Null => false
  }

  /** How validate_checklist_data ends: returning True, raising ValidationError, or raising TypeError. */
  datatype DataCheck = Accepted | ValidationFailed(message: string) | NotIterable

  const RequiredFields: seq<string> := ["store", "month", "day"]

  /** The field is present and truthy. */
  predicate Filled(data: map<string, FieldValue>, f: string)
  {
    f in data && Truthy(data[f])
  }

  /** The first of the fields that is absent or falsy, or None when every one is present and truthy. */
  function FirstMissing(data: map<string, FieldValue>, fields: seq<string>): (r: Option<string>)
    ensures r.Some? ==>
      exists j :: 0 <= j < |fields| && fields[j] == r.value && !Filled(data, r.value)
                  && forall k :: 0 <= k < j ==> Filled(data, fields[k])
    ensures r.None? ==> forall k :: 0 <= k < |fields| ==> Filled(data, fields[k])
  {
    if fields == [] then None
    else if !Filled(data, fields[0]) then Some(fields[0])
    else
      var r := FirstMissing(data, fields[1..]);
      assert r.Some? ==> exists j :: 0 < j < |fields| && fields[j] == r.value
                                     && forall k :: 0 <= k < j ==> Filled(data, fields[k]) by {
        if r.Some? {
          var j :| 0 <= j < |fields[1..]| && fields[1..][j] == r.value
                   && forall k :: 0 <= k < j ==> Filled(data, fields[1..][k]);
          assert fields[j + 1] == r.value;
          assert forall k :: 0 < k < j + 1 ==> fields[k] == fields[1..][k - 1];
        }
      }
      r
  }

  /**
   * validate_checklist_data: store, month and day must be present and
   * truthy, the first one that is not is named; then month must hold a
   * digit. A month that is not a string cannot be iterated over.
   */
  function ValidateChecklistData(data: map<string, FieldValue>): (r: DataCheck)
    ensures r == Accepted <==>
      (forall k :: 0 <= k < |RequiredFields| ==> RequiredFields[k] in data && Truthy(data[RequiredFields[k]]))
      && data["month"].Text? && exists i :: 0 <= i < |data["month"].text| && IsAsciiDigit(data["month"].text[i])
  {
    var missing := FirstMissing(data, RequiredFields);
    if missing.Some? then ValidationFailed("Missing required field: " + missing.value)
    else
      assert RequiredFields[1] == "month";
      match data["month"]
      case Text(month) =>
        if exists i :: 0 <= i < |month| && IsAsciiDigit(month[i]) then Accepted
        else ValidationFailed("Month must include a year")
      case Number(_) => NotIterable
      case Null => NotIterable
  }

  /** A month without a digit is refused, and a missing store is reported before anything else. */
  lemma ChecklistDataRefusals(data: map<string, FieldValue>)
    ensures ("store" !in data || !Truthy(data["store"])) ==>
      ValidateChecklistData(data) == ValidationFailed("Missing required field: store")
    ensures ("store" in data && Truthy(data["store"]) && "day" in data && Truthy(data["day"])
             && "month" in data && data["month"].Text? && data["month"].text != []
             && forall i :: 0 <= i < |data["month"].text| ==> !IsAsciiDigit(data["month"].text[i])) ==>
      ValidateChecklistData(data) == ValidationFailed("Month must include a year")
  {
  }

  // ---------------------------------------------------------------------
  // validate_file_upload
  // ---------------------------------------------------------------------

  const MaxUploadSize: int := 10 * 1024 * 1024
  const UploadTypes: seq<string> := ["image/jpeg", "image/png", "image/gif", "application/pdf"]

  /** validate_file_upload: size first, then the content type. */
  function ValidateFileUpload(f: Upload): (r: Result<bool, string>)
    ensures r.Ok? <==> f.size <= MaxUploadSize && f.contentType in UploadTypes
    ensures f.size > MaxUploadSize ==> r == Err("File size must be under 10MB")
    ensures r.Ok? ==> r.value
  {
    // the limit in whole MiB, max_size // (1024*1024), is 10
    if f.size > MaxUploadSize then Err("File size must be under 10MB")
    else if f.contentType !in UploadTypes then Err("File type not allowed. Please upload images or PDFs")
    else Ok(true)
  }
}
